=== FILE: README.md ===
# A verified model of a C algorithms collection

This project models the non-geometric core of a collection of C algorithm
exercises in Dafny and proves what the code promises. It covers:

- **four byte-stream codecs**, each a pure function on byte sequences:
  - run-length coding (`compression/rle.c`);
  - LZ77 with a 100-byte window and a 120-byte look-ahead (`compression/lz77.c`, and the earlier `lz77.c`);
  - LZ78 with a dictionary trie (`compression/lz78.c`, and the earlier `lz78.c`);
  - Huffman coding (`compression/huffman.c`, and the earlier bit-packed `huffman.c`).
- **the sibling-list trie** the LZ78 coder uses (`data_structures/trie.c`, `trie.c`), kept in an arena in which a pointer is an index.
- **the containers**:
  - doubly linked and singly linked lists (`data_structures/list.c`, `list.c`, `slist.c`);
  - the list-backed double-ended queue (`data_structures/queue.c`) and the ring-buffer queue (`queue.c`);
  - the array stack (`stack.c`);
  - the sorted-list priority queue, growable array list, chained hash table, binary search tree, and adjacency-list graph with its depth-first search (all under `data_structures/`).
- **the sorts and searches**:
  - the int-array sorts of `sort.c`;
  - the generic sorts of `sort/`, namely bubble, insertion, merge, heap and quick;
  - binary and sequential search (`search/`).

Each C file is one Dafny module named after it. Modelling choices that apply throughout:

- A NULL result is `Option.None`.
- A C comparison callback is an integer key `key: T -> int`, and `compare(a, b)` has the sign of `key(a) - key(b)`. Sortedness and stability are stated over keys, so elements with equal keys are still told apart.
- The file-based codecs read and write byte sequences: a file is its contents as a `seq<Byte>`.
- A C `int` written with `fwrite` is four little-endian two's-complement bytes.
- A `malloc` whose NULL result the code handles is a boolean parameter saying whether it succeeded. `xmalloc` never fails.
- The binary heap behind Huffman coding is not part of this model. Its `heap_min` is "some tree of least frequency", picked by an arbitrary function, so every Huffman property holds for any tie-break.
- `list.c` and `slist.c` are the same code under two names, and read through `next` they behave as `data_structures/list.c`, except for removal after a stale `prev` link (see "## Left out"). Their shared operations are therefore the members of `DList`; only the ones that can fail on `malloc` are in `SList`.
- Where the code does something its authors evidently did not intend, the model does what the code does. "## Findings" lists those places, each with the corrected definition and its proof.

## Model

| member | source | states |
|---|---|---|
| Rle.SignedChar | compression/rle.c:17 | a byte read into a signed char is -1, equal to EOF, exactly for 0xFF, and negative exactly from 0x80 up |
| Rle.RunLength | compression/rle.c:39-47 | the run at the front is the longest prefix of copies of the first byte, cut at 256 |
| Rle.Live | compression/rle.c:34-39 | the encoder sees the input up to its first 0xFF, which reads as EOF |
| Rle.Compress | compression/rle.c:14-64 | whole (count, byte) pairs, at most two bytes per input byte, and nothing exactly when the input starts with 0xFF or is empty |
| Rle.CompressExample | compression/rle.c:2-4 | "AAAABBBC" is written as the pairs 4 'A', 3 'B', 1 'C' |
| Rle.CompressCons | compression/rle.c:39-56 | the encoder writes the first run's count modulo 256 and byte, then encodes the rest |
| Rle.EncoderLossless | compression/rle.c:39-56 | read with unsigned counts and 0 standing for 256, the pairs give back every byte before the first 0xFF |
| Rle.UncompressCons | compression/rle.c:88-102 | a pair with a count below 128 and a byte other than 0xFF decodes to that many copies of the byte |
| Rle.Uncompress | compression/rle.c:88-102 | each pair writes at most 127 bytes, and every byte written is the second byte of some pair |
| Rle.ShortRun | compression/rle.c:44 | without 128 equal bytes in a row, no run the encoder cuts is longer than 127 |
| Rle.RoundTrip | compression/rle.c:14-109 | the codec as written gives back every input that holds no 0xFF and no run of 128 equal bytes |
| Rle.LongRunLost | compression/rle.c:72 | a run of 128 bytes is written with count 128, which the decoder reads as -128 and expands to nothing (see Findings) |
| Rle.EofByteTruncates | compression/rle.c:34-39 | a 0xFF byte ends the encoding: what follows it is never written (see Findings) |
| Rle.FullRunLost | compression/rle.c:44-50 | a run of 256 bytes is written with count 0 and decodes to nothing (see Findings) |
| RleUnsigned.Compress | compression/rle.c:39-56 | corrected: whole pairs whose counts are all between 1 and 255 |
| RleUnsigned.Uncompress | compression/rle.c:88-102 | corrected: each pair writes at most 255 bytes, and every byte written is the second byte of some pair |
| RleUnsigned.RoundTrip | compression/rle.c:14-109 | corrected: with unsigned bytes and runs cut at 255, every input comes back unchanged |
| Lz77.Match | compression/lz77.c:22-38 | the least start below WINDOW_SIZE - len where the window spells the first len bytes of the look-ahead, or -1 when there is none |
| Lz77.NoMatchWithoutFirst | compression/lz77.c:26-35 | a window that does not hold the first look-ahead byte matches no non-empty prefix |
| Lz77.BestMatch | compression/lz77.c:79-83 | the first length, counting down, with a match wins; (0, -1) means no length matched |
| Lz77.Emit | compression/lz77.c:91-101 | each triple is a literal (0, 0, c) or a copy inside the window, and consumes its length plus one bytes of the look-ahead |
| Lz77.EmitGreedy | compression/lz77.c:79-101 | the triple copies the longest prefix of the look-ahead found in the window, short of its last byte |
| Lz77.CompressLoop | compression/lz77.c:73-112 | the main loop writes only whole triples the decoder accepts |
| Lz77.Compress | compression/lz77.c:43-119 | an input shorter than one buffer is refused; otherwise the first window is written as is, followed by whole triples |
| Lz77.DecodeTriple | compression/lz77.c:159-183 | replaying a triple writes the len window bytes that start offset bytes from the window's end, then the literal, and slides the window by that many bytes; a copy that would leave the window is refused |
| Lz77.DecodeLoop | compression/lz77.c:152-184 | whole triples the encoder can write always decode |
| Lz77.Uncompress | compression/lz77.c:124-192 | a file shorter than the window is copied whole; otherwise the first window is copied first |
| Lz77.EmitDecodes | compression/lz77.c:79-183 | replaying an emitted triple against the window gives exactly the bytes it consumed, and the decoder's window moves with the encoder's |
| Lz77.LoopStep | compression/lz77.c:73-112 | one round of the encoder writes a triple that decodes to the bytes it consumed and leaves a buffer and unread input that hold the rest |
| Lz77.LoopRoundTrip | compression/lz77.c:73-112 | decoding the triples the main loop writes gives back everything after the first window |
| Lz77.RoundTrip | compression/lz77.c:43-192 | every input of at least one buffer comes back unchanged |
| Lz77Draft.MatchAny | lz77.c:14-30 | below WINDOW_SIZE the earlier match finds exactly what the finished lz77_match finds, the least window start spelling the first len look-ahead bytes; lengths of WINDOW_SIZE or more find none |
| Lz77Draft.BestMatch | lz77.c:72-76 | the earlier search tries lengths from buf_size down and keeps the first that matches: every longer length fails, and (0, -1) means that no length from 1 to buf_size matches |
| Lz77Draft.Emit | lz77.c:84-94 | the earlier encoder's literal always comes from the window, not the look-ahead |
| Lz77Draft.Refill | lz77.c:96-105 | the live bytes move down by the shift, and the live plus unread bytes shrink, so the loop ends |
| Lz77Draft.CompressLoop | lz77.c:66-105 | the earlier main loop also writes only whole triples the decoder accepts |
| Lz77Draft.Compress | lz77.c:35-112 | the same refusal of short inputs and the same layout of window and triples as the finished encoder |
| Lz77Draft.NoMatchAtAll | lz77.c:72-76 | when the first look-ahead byte is not in the window, no length matches |
| Lz77Draft.LiteralFromWindow | lz77.c:84-88 | on 100 zero bytes followed by 120 bytes of 1, the earlier encoder writes the literal 0 where the input has 1, so its output does not decode back to the input (see Findings) |
| Lz78.Root | compression/lz78.c:43 | both sides start from a dictionary of the root alone, with symbol 0 and id 0 |
| Lz78.PhraseChild | compression/lz78.c:148-149 | a child's phrase is its parent's phrase followed by its own symbol |
| Lz78.PhraseExtends | compression/lz78.c:62 | inserting new nodes leaves every old node's phrase as it was |
| Lz78.Walk | compression/lz78.c:50-74 | the dictionary grows by one node per pair written, every pair names a node of the dictionary, and the last pair carries 0xFF |
| Lz78.WalkDescends | compression/lz78.c:55-59 | a symbol with a child moves the walk to that child without writing anything |
| Lz78.WalkInserts | compression/lz78.c:61-69 | a symbol without a child writes the pair (node, symbol), adds the child with the next id and restarts at the root |
| Lz78.Parse | compression/lz78.c:43-74 | the dictionary ends with one node more than there are pairs, and the last pair carries 0xFF |
| Lz78.Serialize | compression/lz78.c:65-66 | each pair takes five bytes on the wire |
| Lz78.Compress | compression/lz78.c:20-90 | the output is the final id count as a 4-byte int, one more than the number of pairs, then five bytes per pair |
| Lz78.CompressShape | compression/lz78.c:39-78 | the header written after the rewind carries the dictionary size, followed by the pairs |
| Lz78.Step | compression/lz78.c:140-157 | one decoder step keeps its trie and id table well formed, writes at most a full phrase buffer and one byte, and fails only with BadPair or PhraseTooLong |
| Lz78.StepOnPair | compression/lz78.c:140-157 | on a pair the encoder wrote, the decoder inserts the same child with the same id and writes the parent's phrase and the byte, unless it is 0xFF |
| Lz78.DecodePairs | compression/lz78.c:133-158 | the loop stops without error when no whole parent id is left, fails on a parent id without its byte or on a bad pair, and each five-byte pair writes at most 1025 bytes |
| Lz78.Uncompress | compression/lz78.c:116-119 | a file without a whole 4-byte header is an error |
| Lz78.UncompressHeader | compression/lz78.c:116-131 | the header sets the table size and decoding starts from the root at id 0 |
| Lz78.SerializedDecodes | compression/lz78.c:135-137 | reading the written pairs back off the wire gives the same pairs |
| Lz78.WalkDecodes | compression/lz78.c:50-157 | decoding what the encoder writes from a node gives back that node's phrase and the rest of the input |
| Lz78.ParseDecodes | compression/lz78.c:50-157 | the pairs of the whole input decode, from the starting dictionary, to the input |
| Lz78.RoundTrip | compression/lz78.c:20-171 | an input without the byte 0xFF whose phrases fit the 1024-byte buffer comes back unchanged |
| Lz78Draft.Build | lz78.c:35-49 | the dictionary stays well formed with dense ids and gains at most one node per input byte |
| Lz78Draft.Compress | lz78.c:10-62 | the return code is 0 whatever happens; without a root there is no dictionary, otherwise it starts from the root with symbol 0 and id 0 |
| Lz78Draft.BuildKeeps | lz78.c:41-48 | nodes already in the dictionary keep their symbol and id |
| Lz78Draft.BuildStep | lz78.c:41-48 | each input byte either descends to its child or adds exactly one node and restarts at the root |
| Lz78Draft.BuildThenEof | lz78.c:35-49 | on an input without 0xFF, the finished encoder's dictionary is the draft's plus the 0xFF child under the node the draft stopped on |
| Huffman.ZeroTable | compression/huffman.c:178 | the table starts with all 256 entries at zero |
| Huffman.Histogram | compression/huffman.c:186-188 | entry b of the table counts the occurrences of byte b in the input |
| Huffman.ComputeFrequencies | compression/huffman.c:172-190 | after the reset and the read loop, entry b is the number of times b occurs in the input |
| Huffman.HistogramSum | compression/huffman.c:172-190 | the frequencies add up to the input's length |
| Huffman.LeavesFrom | compression/huffman.c:75-87 | the heap starts with one leaf per byte of non-zero frequency, carrying that frequency, and their frequencies add up to the table's sum |
| Huffman.HeapMin | compression/huffman.c:92-93 | the tree taken out of the heap has the least frequency of all, and any such tree may be taken |
| Huffman.MergeStep | compression/huffman.c:90-104 | each turn of the merging loop leaves one tree fewer in the heap |
| Huffman.MergeStepPreserves | compression/huffman.c:90-104 | a merge keeps every leaf and the total frequency, and the one new tree is a parent of two old ones whose frequency is their sum |
| Huffman.CombineKeeps | compression/huffman.c:90-106 | the final tree holds exactly the leaves that went into the heap and their total frequency, and is an internal node when there were two or more |
| Huffman.CombineWeights | compression/huffman.c:96-103 | every internal node's frequency is the sum of its children's, and every leaf keeps its own frequency |
| Huffman.BuildTree | compression/huffman.c:63-107 | no tree exactly when every frequency is zero; otherwise one leaf per byte of non-zero frequency, weighted as in the table |
| Huffman.BuildTreeShape | compression/huffman.c:90-106 | two distinct bytes give an internal root; a single byte gives that byte's leaf |
| Huffman.Prefixed | compression/huffman.c:114-123 | descending one edge puts that edge's bit in front of every code below it |
| Huffman.Codes | compression/huffman.c:112-129 | only the bytes at the leaves get a code, and below an internal root every code has at least one edge |
| Huffman.CodesKeys | compression/huffman.c:112-129 | exactly the bytes at the leaves get a code |
| Huffman.CodesPrefixFree | compression/huffman.c:112-129 | no byte's code is a prefix of another byte's code |
| Huffman.CodesArePaths | compression/huffman.c:112-129 | following a byte's code from the root, '0' left and '1' right, ends at that byte's leaf |
| Huffman.CodeLength | compression/huffman.c:112-129 | no code is longer than the tree is deep, and under an internal root no code is empty |
| Huffman.LeafTable | compression/huffman.c:134-147 | the table holds exactly the bytes at the leaves, each mapped to its own leaf |
| Huffman.LeafTableCarries | compression/huffman.c:134-147 | each table entry carries the frequency the table of counts gives its byte |
| Huffman.CountPresent | compression/huffman.c:199-202 | the count of present entries is at most the number of table slots left |
| Huffman.HeaderEntries | compression/huffman.c:207-213 | five bytes per present entry, a byte and an int frequency |
| Huffman.WriteHeader | compression/huffman.c:195-214 | the header is the count of present symbols as a four-byte int, then five bytes for each of them |
| Huffman.ReadEntries | compression/huffman.c:231-238 | n entries take 5 n bytes: fewer is TruncatedHeader, otherwise a table of 256 frequencies and the bytes after the last entry |
| Huffman.ReadHeader | compression/huffman.c:219-239 | the 4-byte count and then that many 5-byte entries: data too short for them is TruncatedHeader, and a header that reads gives a table of 256 frequencies |
| Huffman.FreqTable | compression/huffman.c:224-238 | the table a header describes: an entry's frequency, zero for every byte without one |
| Huffman.HeaderRoundTrip | compression/huffman.c:195-239 | reading a written header gives back exactly the encoder's frequencies and leaves the payload after it untouched |
| Huffman.Pack | compression/huffman.c:244-268 | one byte per eight code characters, rounded up |
| Huffman.UnpackPack | compression/huffman.c:252-263 | reading the packed bytes bit by bit, most significant first, gives back the code characters followed by zero padding |
| Huffman.Flush | compression/huffman.c:244-309 | the buffered writer outputs one byte per eight code characters, the last byte padded |
| Huffman.FlushIsPack | compression/huffman.c:284-309 | flushing the output buffer every 1024 characters writes the same bytes as packing the whole code string at once |
| Huffman.Encode | compression/huffman.c:364-418 | an empty input has no tree and is an error; a non-empty input fails only when a code does not fit the 32-character code field, so it succeeds exactly when a tree exists and all its codes fit |
| Huffman.EncodeInRange | compression/huffman.c:205-211 | every frequency fits a C int, and every input byte has a code |
| Huffman.WalkCodeString | compression/huffman.c:330-352 | walking the code string of s from an internal root emits s and restarts at the root |
| Huffman.Walk | compression/huffman.c:330-352 | the walk fails only by stepping out of a leaf, which needs a leaf node or a leaf root, so from an internal node of an internal root it never fails; it emits at most one byte per bit |
| Huffman.Decode | compression/huffman.c:423-465 | a header shorter than its count is an error, as are a header without symbols and a walk out of a leaf root; a payload of n bytes decodes to at most 8n symbols |
| Huffman.DecodeWritten | compression/huffman.c:423-465 | the decoder rebuilds the encoder's very tree from the header, whatever the heap's tie-break, and walks it over the payload |
| Huffman.RoundTrip | compression/huffman.c:364-465 | with at least two distinct bytes, decoding gives back the input followed by at most seven extra bytes from the zero padding |
| Huffman.SingleSymbolTree | compression/huffman.c:90-106 | an input of one distinct byte builds that byte's leaf as the root |
| Huffman.SingleSymbol | compression/huffman.c:112-128 | an input of one distinct byte gets the empty code: only the nine header bytes are written, and decoding gives back nothing |
| HuffmanDraft.BitSet | huffman.c:122 | OR-ing a clear bit into a code word changes that bit and no other |
| HuffmanDraft.PackPath | huffman.c:119-122 | a leaf's code words hold its path, the last edge in bit 0 of word 0, and nothing else |
| HuffmanDraft.ReadPath | huffman.c:17 | reading a path of a given length back out of the code words gives that many bits |
| HuffmanDraft.ReadStoredPath | huffman.c:119-122 | the code words determine the path: reading them back gives exactly the stored path |
| HuffmanDraft.DepthBelowLeaves | huffman.c:53-97 | a tree is shallower than it has leaves |
| HuffmanDraft.CodesOfString | huffman.c:176-192 | a non-empty string has a tree with a code and a leaf for exactly its characters, and no code of 256 edges or more, so the code buffer never overflows |
| HuffmanDraft.ShortCodes | huffman.c:169 | with each character at most once in the tree, every code is shorter than the 256-entry path buffer |
| HuffmanDraft.PackAll | huffman.c:102-123 | every leaf in the tree gets code words that store its path |
| HuffmanDraft.Encode | huffman.c:33-97 | a NULL or empty string, or a failed malloc of the heap or of a node, builds nothing; otherwise every character present, and no other, gets its leaf and its path, packed into bytes as huffman.c:166-200 does |
| Bytes.Int32Bytes | compression/lz78.c:65 | an int written as four bytes reads back as the same int |
| SortCommon.Swap | sort/sort_bubble.c:11-16 | the two slots exchange their contents and every other slot keeps its own |
| SortCommon.SwapMultiset | sort.c:30-35 | a swap only permutes the array: the multiset of elements is unchanged |
| SortCommon.SwapAdjacentStable | sort/sort_bubble.c:39-44 | exchanging neighbours whose keys differ leaves the order among every key's elements as it was |
| SortCommon.OneByteElementsSkipped | sort/sort_bubble.c:27-29 | the shared guard `element_size < 2` makes the call a no-op on the unsorted one-byte array [2, 1] (see Findings) |
| SortBubble.Pass | sort/sort_bubble.c:36-44 | one pass is a stable permutation that moves the largest key of the unsorted prefix to its end; it swaps nothing exactly when the array is already ascending, and then leaves it unchanged |
| SortBubble.Passes | sort/sort_bubble.c:35-45 | passing until a pass swaps nothing yields an ascending permutation that keeps equal keys in their original order |
| SortBubble.SortGeneric | sort/sort_bubble.c:21-49 | as written: under the guard the array comes back unchanged; otherwise it comes back as a stable, ascending permutation |
| SortBubble.SortFixed | sort/sort_bubble.c:21-49 | with the guard on the element count, every array comes back as a stable, ascending permutation |
| SortBubble.SortInts | sort.c:42-59 | the int bubble sort returns an ascending permutation of its input |
| SortInsertion.Shift | sort/sort_insertion.c:26-33 | the inner loop moves element i down past exactly the run of greater keys just left of it, stopping behind the first key that is not greater |
| SortInsertion.InsertedMultiset | sort/sort_insertion.c:26-33 | storing the saved element in the gap only permutes the array |
| SortInsertion.InsertedSorted | sort/sort_insertion.c:24-34 | one round extends the ascending prefix by one element, placing it after the equal keys already there |
| SortInsertion.InsertStep | sort/sort_insertion.c:24-34 | one round keeps the outer loop's invariant: sorted and stable prefix, permutation, untouched suffix |
| SortInsertion.Insertion | sort/sort_insertion.c:24-34 | the outer loop yields an ascending permutation that keeps equal keys in their original order |
| SortInsertion.SortGeneric | sort/sort_insertion.c:11-38 | as written: under the guard the array comes back unchanged; otherwise it comes back as a stable, ascending permutation |
| SortInsertion.SortFixed | sort/sort_insertion.c:11-38 | with the guard on the element count, every array comes back as a stable, ascending permutation |
| SortInt.CloneArray | sort.c:10-25 | NULL exactly for a count of zero or less; otherwise a copy of the first nb elements |
| SortInt.MinFrom | sort.c:73-77 | the inner loop finds the first position, from i on, that holds the smallest value there |
| SortInt.PlaceNext | sort.c:72-81 | swapping the smallest remaining value into position i extends the placed prefix by one |
| SortInt.Selection | sort.c:65-82 | sort.c's sort_insertion (a selection sort) returns an ascending permutation; arrays of fewer than 2 elements come back unchanged |
| SortHeap.Largest | sort/sort_heap.c:21-33 | the chosen position is the parent or one of its children inside the heap, its key is no smaller than either child's, and a child is taken only when strictly larger |
| SortHeap.Sift | sort.c:87-103 | sifting down permutes the array and touches nothing before i or from n on |
| SortHeap.SiftLoop | sort/sort_heap.c:38-51 | the loop of sort/sort_heap.c's heapify computes exactly what sort.c's recursive heapify computes |
| SortHeap.SiftHeap | sort.c:87-103 | sifting down from i repairs a heap whose only defect is at i |
| SortHeap.RootMax | sort/sort_heap.c:73-76 | in a max-heap no element is larger than the root, so each round extracts a largest element |
| SortHeap.BuildStart | sort/sort_heap.c:69-70 | `(size - 2) / 2` on a size_t stored in an int is (size - 2) / 2 for size >= 2 and -1 for 0 or 1 elements, so the build loop does not run |
| SortHeap.Build | sort/sort_heap.c:69-70 | the build loop turns the array into a max-heap permutation of itself |
| SortHeap.ExtractRound | sort/sort_heap.c:73-76 | one extraction round shrinks the heap by one, grows the sorted suffix by one and keeps the multiset |
| SortHeap.Extract | sort/sort_heap.c:73-76 | the extraction loop turns a max-heap into an ascending permutation |
| SortHeap.HeapSort | sort/sort_heap.c:69-76 | both loops together yield an ascending permutation |
| SortHeap.SortGeneric | sort/sort_heap.c:56-80 | as written: under the guard the array comes back unchanged; otherwise it comes back ascending |
| SortHeap.SortFixed | sort/sort_heap.c:56-80 | with the guard on the element count, every array comes back as an ascending permutation |
| SortHeap.SortInts | sort.c:108-124 | sort.c's heap sort returns an ascending permutation |
| SortMerge.MergeMultiset | sort/sort_merge.c:25-34 | the merge loop copies every element of both halves into tmp exactly once |
| SortMerge.Merge | sort/sort_merge.c:25-34 | the merge loop writes as many elements as both halves hold; SortMerge.MergeMultiset, SortMerge.MergeTakesLeft and SortMerge.MergeTakesRight state which ones |
| SortMerge.MergeTakesLeft | sort/sort_merge.c:28-31 | the loop takes the left element when the right half is used up or the left key is strictly smaller |
| SortMerge.MergeTakesRight | sort/sort_merge.c:26-27 | the loop takes the right element when the left half is used up or the keys tie or the right key is smaller |
| SortMerge.MergeSorted | sort/sort_merge.c:25-34 | merging two ascending halves gives an ascending range |
| SortMerge.SortAscending | sort/sort_merge.c:11-38 | the range recursion produces an ascending sequence |
| SortMerge.SortPermutes | sort/sort_merge.c:11-38 | the range recursion produces a permutation of its input |
| SortMerge.Sort | sort/sort_merge.c:11-38 | the range recursion keeps the range's length; SortMerge.SortPermutes and SortMerge.SortAscending state that it sorts |
| SortMerge.NotStable | sort/sort_merge.c:30-33 | ties go to the right half, so [10, 11] compared on the tens digit sorts to [11, 10]: the sort is not stable |
| SortMerge.MergeRange | sort/sort_merge.c:25-34 | what the for loop writes into tmp[i..j] is the merge of the ranges i..mid and mid + 1..j |
| SortMerge.Copy | sort/sort_merge.c:26-33 | one iteration moves the element the merge takes next into tmp and advances exactly one pointer |
| SortMerge.Halves | sort/sort_merge.c:20-22 | mid = (i + j) / 2 cuts the range where the sequence-level sort cuts its contents |
| SortMerge.SortRange | sort/sort_merge.c:11-38 | a range of at most one element is a no-op; otherwise the range ends up sorted and nothing outside it changes |
| SortMerge.Reassemble | sort/sort_merge.c:20-37 | after the two recursive calls and the merge, the range holds its contents sorted and the outside is untouched |
| SortMerge.SortGeneric | sort/sort_merge.c:43-59 | as written: under the guard the array comes back unchanged; otherwise it comes back as an ascending permutation |
| SortMerge.SortFixed | sort/sort_merge.c:43-59 | with the guard on the element count, every array comes back as an ascending permutation |
| SortQuick.ScanUp | sort/sort_quick.c:35-36 | the upward scan, when it stops, stops inside the array at or after its start, on a key not below the pivot's |
| SortQuick.ScanUpStops | sort/sort_quick.c:35-36 | the upward scan stops at the first key not below the pivot's, and runs off the array exactly when there is none |
| SortQuick.ScanDown | sort/sort_quick.c:39-40 | the downward scan, when it stops, stops at or before its start, on a key not above the pivot's |
| SortQuick.ScanDownStops | sort/sort_quick.c:39-40 | the downward scan stops at the last key not above the pivot's, and runs off the array exactly when there is none |
| SortQuick.Partition | sort/sort_quick.c:33-47 | when the loop finishes, the array keeps its length and the split index lies between the first scanned slot and the end |
| SortQuick.PartitionMultiset | sort/sort_quick.c:33-47 | the partition only swaps, so a partition that finishes returns a permutation of its input |
| SortQuick.Quick | sort/sort_quick.c:20-52 | the recursion over the two parts, when it finishes, returns a permutation of the array |
| SortQuick.PartitionGo | sort/sort_quick.c:42-46 | scans that did not cross swap the two elements and go on from the next positions |
| SortQuick.PartitionMeet | sort/sort_quick.c:42-43 | scans that met or crossed end the partition where the upward scan stopped |
| SortQuick.PartitionSplits | sort.c:139-154 | with the pivot's value copied, the partition stays inside the array and splits it strictly inside, nothing above the pivot before the split and nothing below it after |
| SortQuick.CopiedSorts | sort.c:129-159 | with the pivot's value copied, quick sort always finishes and returns an ascending permutation |
| SortQuick.QuickSplit | sort/sort_quick.c:50-51 | after a split the result is the sort of the first i elements followed by the sort of the rest |
| SortQuick.AliasedUnsorted | sort/sort_quick.c:30-46 | with the pivot kept as a pointer into the array, [3, 2, 0, 1] comes out as [0, 2, 1, 3], not ascending (see Findings) |
| SortQuick.SortGeneric | sort/sort_quick.c:57-73 | as written: a no-op under the guard; when it finishes the result is a permutation, though not necessarily ascending |
| SortQuick.SortFixed | sort/sort_quick.c:57-73 | with the pivot's value copied and the guard on the element count, the result is always an ascending permutation |
| SortQuick.SortInts | sort.c:129-159 | sort.c's quick sort returns an ascending permutation; fewer than 2 elements come back unchanged |
| Search.Binary | search/search_binary.c:8-32 | a hit means some element in the range [l, r] has the key |
| Search.BinaryComplete | search/search_binary.c:8-32 | on ascending data the search answers yes exactly when the range holds the key |
| Search.LowerHalf | search/search_binary.c:27-28 | on ascending data a key below the middle one can only be in the lower half |
| Search.UpperHalf | search/search_binary.c:30-31 | on ascending data a key above the middle one can only be in the upper half |
| Search.SearchBinary | search/search_binary.c:37-40 | a hit means the key is in the array, and an empty array is always a miss |
| Search.SearchBinaryComplete | search/search_binary.c:35-40 | on ascending data search_binary answers yes exactly when some element has the key |
| Search.BinaryNeedsSorted | search/search_binary.c:35 | on the unsorted [2, 0, 1] the search misses the 2 that is there: the sortedness requirement is real |
| Search.Sequential | search/search_sequential.c:8-17 | the scan answers yes exactly when some element among the first size equals the key, and then it stopped at the first such element |
| DList.Append | data_structures/list.c:38-60 | the data becomes the last element and every earlier element keeps its place |
| DList.Prepend | data_structures/list.c:65-86 | the data becomes the first element, followed by the old list |
| DList.InsertAfter | data_structures/list.c:91-106 | a NULL list or position leaves the list as it was; otherwise the data comes right after the node at the position and every other node keeps its order |
| DList.InsertAfterContents | data_structures/list.c:91-106 | an insert after a node adds exactly the one item, and after the last node it is list_append |
| DList.InsertBefore | data_structures/list.c:111-129 | a NULL list or position leaves the list as it was; before the head the data becomes the new head as with list_prepend; before any other node the list read through next does not change |
| DList.InsertBeforeLost | data_structures/list.c:111-129 | inserting 3 before the second node of [1, 2] leaves [1, 2], without the 3 |
| DList.InsertBeforeFixed | data_structures/list.c:111-129 | with the predecessor's next link set, the data comes right before the node at the position and every other node keeps its order |
| DList.InsertBeforeFixedAgrees | data_structures/list.c:111-129 | the corrected insert before the head is list_prepend, before any other node it is list_insert_after on the node in front, and it adds exactly the one item |
| DList.Concat | data_structures/list.c:135-150 | the result is the first list followed by the second, including when either is empty; list_concat and slist_concat (list.c:66-77) do the same |
| DList.IndexOf | data_structures/list.c:238-248 | NULL exactly when the data is absent; otherwise the position of its first occurrence |
| DList.Find | data_structures/list.c:238-248 | walking from the head stops at the first node holding the data, or reports NULL; so do list_find and slist_find (list.c:163-173) |
| DList.IndexOfFirst | data_structures/list.c:240-242 | an occurrence with none before it is the one the walk reports |
| DList.Last | data_structures/list.c:267-276 | NULL exactly for an empty list; otherwise the last node; list_last and slist_last (list.c:178-187) do the same |
| DList.Length | data_structures/list.c:304-314 | the count of nodes, as list_length and slist_length (list.c:192-202) also compute |
| DList.Middle | data_structures/list.c:281-298 | NULL exactly for an empty list; otherwise node (n - 1) / 2, the last node of the first half |
| DList.Remove | data_structures/list.c:155-181 | only the first node holding the data is unlinked, the others keep their order, and one copy leaves the multiset; absent data changes nothing; so it is for list_remove and slist_remove (list.c:82-103) |
| DList.WithoutContents | data_structures/list.c:186-211 | the list without the data holds no copy of it and every other element as many times as before |
| DList.RemoveAll | data_structures/list.c:186-211 | one walk unlinks every node holding the data and keeps the rest in order, as list_remove_all and slist_remove_all (list.c:108-132) do |
| DList.Merge | data_structures/list.c:319-339 | the merge takes every node of both lists exactly once |
| DList.MergeSorted | data_structures/list.c:319-339 | merging two ascending lists gives an ascending list |
| DList.MergeStable | data_structures/list.c:329-335 | ties take the head of the first list, so among equal keys the first list's elements come first, each list's in its own order |
| DList.SortHalves | data_structures/list.c:348-364 | a list of two or more nodes is cut after node (n - 1) / 2 and the sorted halves are merged |
| DList.Sort | data_structures/list.c:344-365 | list_sort returns a permutation of the list |
| DList.SortSorted | data_structures/list.c:344-365 | list_sort returns an ascending list |
| DList.SortStable | data_structures/list.c:344-365 | list_sort is stable: for every key the elements with that key keep their order |
| SList.Append | slist.c:22-42 | NULL exactly when malloc fails; otherwise the data follows the old list |
| SList.Prepend | list.c:47-61 | NULL exactly when malloc fails; otherwise the data comes before the old list |
| SList.AppendThenLast | list.c:22-42 | after an append the data is the last node, and find reports that node unless the same pointer was already in the list |
| SList.PrependThenRemove | slist.c:47-61 | the data just prepended is found at the head, and removing it gives back the old list |
| Deque.Create | data_structures/queue.c:9-19 | no nodes and a length that agrees with them |
| Deque.IsEmpty | data_structures/queue.c:48-51 | empty exactly when there are no nodes |
| Deque.PushHead | data_structures/queue.c:88-98 | the data goes in front, the length grows by one and still agrees with the list |
| Deque.PushTail | data_structures/queue.c:103-115 | the data goes after the tail, the length grows by one and still agrees with the list |
| Deque.PopHead | data_structures/queue.c:120-141 | NULL and no change on an empty queue; otherwise the first element comes out, the rest stays in order and the length drops by one |
| Deque.PopTail | data_structures/queue.c:146-164 | as written: NULL on an empty queue; otherwise the last element comes out but the length is left as it was |
| Deque.PopTailCounted | data_structures/queue.c:146-164 | corrected: the same element and list as PopTail, with the length kept in agreement with the list |
| Deque.PeekHead | data_structures/queue.c:169-175 | the element pop_head would return, without touching the queue |
| Deque.PeekTail | data_structures/queue.c:180-186 | the element pop_tail would return, without touching the queue |
| Deque.Copy | data_structures/queue.c:56-72 | the copy holds the same elements in the same order, with a length that agrees |
| Deque.PushPopHead | data_structures/queue.c:88-141 | pop_head after push_head returns the data and the queue as it was |
| Deque.Fifo | data_structures/queue.c:103-141 | pushing at the tail and popping at the head returns the data in the order pushed |
| Deque.PopTailKeepsLength | data_structures/queue.c:157-163 | after one push_tail and one pop_tail the queue is empty but its length says 1 (see Findings) |
| RingQueue.Create | queue.c:8-31 | NULL exactly when a malloc fails; otherwise every slot NULL and nothing queued |
| RingQueue.Enqueue | queue.c:49-56 | a full queue is left unchanged; otherwise the data joins the back and everything queued stays in order |
| RingQueue.Dequeue | queue.c:61-72 | an empty queue gives NULL and is left unchanged; otherwise the oldest element comes out and the rest stays in order |
| RingQueue.EnqueueAllContents | queue.c:49-56 | enqueuing data that fit appends them in order, across the wrap-around of back |
| RingQueue.DequeueNContents | queue.c:61-72 | n dequeues return the n oldest elements in order, across the wrap-around of front |
| RingQueue.Fifo | queue.c:49-72 | data enqueued into an empty queue with room for them come back out in the same order |
| Stack.Dec | stack.c:50 | size_t decrement wraps: the result plus one is the argument, modulo 2^64 |
| Stack.Inc | stack.c:72 | size_t increment wraps and is undone by the decrement |
| Stack.Create | stack.c:8-29 | NULL exactly when a malloc fails; otherwise every slot NULL and nothing stacked |
| Stack.FullEmpty | stack.h:12-13 | top == -1 means nothing is stacked and top == capacity - 1 means every slot is used, both computed in size_t |
| Stack.Push | stack.c:69-73 | a full stack is left unchanged; otherwise the data goes on top of everything stacked |
| Stack.Pop | stack.c:47-53 | an empty stack gives NULL and is left unchanged; otherwise the topmost element comes off and the rest stays |
| Stack.Peek | stack.c:58-64 | the element pop would return, the topmost one when the stack is not empty |
| Stack.PushPop | stack.c:47-73 | pop after push returns the data and the stack as it was |
| Stack.PushAllContents | stack.c:69-73 | pushing data that fit puts them on top in order |
| Stack.PopNContents | stack.c:47-53 | n pops return the n topmost elements, topmost first |
| Stack.Lifo | stack.c:47-73 | data pushed onto an empty stack with room for them come off in reverse order |
| PriorityQueue.Create | data_structures/priority_queue.c:10-20 | no items and length 0 |
| PriorityQueue.IsEmpty | data_structures/priority_queue.c:49-52 | false for a NULL queue; otherwise empty exactly when there are no items |
| PriorityQueue.Position | data_structures/priority_queue.c:65-70 | the push loop stops at the first item comparing at least the data, every item before it comparing less |
| PriorityQueue.InsertAtContents | data_structures/priority_queue.c:73-76 | insert_after or prepend adds exactly the one item and leaves the others in order |
| PriorityQueue.PushThroughList | data_structures/priority_queue.c:72-76 | the push is list_insert_after on the last smaller item, or list_prepend when no item is smaller |
| PriorityQueue.Push | data_structures/priority_queue.c:57-77 | a NULL queue stays NULL; otherwise exactly the data is added and the length field is not updated |
| PriorityQueue.PushSorted | data_structures/priority_queue.c:57-77 | push keeps the list ascending and puts the data after every smaller item and before every item comparing equal or larger |
| PriorityQueue.Peek | data_structures/priority_queue.c:82-88 | NULL exactly for a NULL or empty queue; otherwise an item of the queue |
| PriorityQueue.Pop | data_structures/priority_queue.c:93-109 | returns what peek returns and unlinks that head item, leaving the length field alone |
| PriorityQueue.PeekMinimum | data_structures/priority_queue.c:82-88 | on a list kept ascending the head is a minimum |
| PriorityQueue.LengthNeverUpdated | data_structures/priority_queue.c:57-109 | after one push the queue is not empty yet its length field is still 0 |
| PriorityQueue.PushAllSorted | data_structures/priority_queue.c:57-77 | repeated pushes keep the list ascending and hold exactly the data pushed |
| PriorityQueue.PopsAscending | data_structures/priority_queue.c:57-109 | pushing any data and popping them all returns them in ascending order, a permutation of what went in |
| ArrayList.Create | data_structures/array_list.c:23-33 | no elements and capacity 0 |
| ArrayList.Grow | data_structures/array_list.c:11-18 | 100 more slots exactly when the array is full, contents kept, room for one more afterwards |
| ArrayList.Clear | data_structures/array_list.c:69-78 | no elements and capacity 0 |
| ArrayList.Add | data_structures/array_list.c:83-93 | the element is appended after the existing ones |
| ArrayList.AddIdx | data_structures/array_list.c:98-115 | an index past size changes nothing; otherwise the element lands at idx and the elements from idx on move one place right |
| ArrayList.Set | data_structures/array_list.c:120-130 | an index at or past size gives NULL and changes nothing; otherwise the old element comes back and only slot idx changes |
| ArrayList.Remove | data_structures/array_list.c:135-152 | an index at or past size gives NULL and changes nothing; otherwise the element comes back and the elements after it move one place left |
| ArrayList.AddIdxLoop | data_structures/array_list.c:98-115 | the code's grow-shift-store sequence computes AddIdx |
| ArrayList.ShiftTail | data_structures/array_list.c:109-110 | the for loop moves every slot from idx to size - 1 one place right and leaves the rest alone |
| ArrayList.RemoveLoop | data_structures/array_list.c:135-152 | the code's shift-left loop computes Remove |
| ArrayList.AddIdxRemove | data_structures/array_list.c:98-152 | removing at the index just inserted returns the element and restores the contents |
| ArrayList.AddIsAddIdx | data_structures/array_list.c:83-115 | appending is inserting at index size |
| ArrayList.SetSetBack | data_structures/array_list.c:120-130 | setting back the element that set returned restores the contents |
| ArrayList.CapacityStep | data_structures/array_list.c:16 | capacity stays a multiple of 100 and never falls below size |
| HashTable.Create | data_structures/hash_table.c:10-26 | capacity empty buckets, size 0, and no key has data |
| HashTable.Find | data_structures/hash_table.c:104-106 | the bucket walk misses exactly when no element has the key; a hit is the data of an element with the key |
| HashTable.Get | data_structures/hash_table.c:92-109 | NULL exactly when the key's bucket has no element with the key, otherwise the data of such an element; in a valid table a hit happens exactly when the key is anywhere in the table, and the data is that element's |
| HashTable.Replace | data_structures/hash_table.c:70-76 | replacing in place keeps every key, gives the key the new data and leaves every other key's data |
| HashTable.UnlinkFind | data_structures/hash_table.c:127-143 | unlinking removes the key from a bucket of unique keys, which stays unique, and leaves every other key's data |
| HashTable.Put | data_structures/hash_table.c:57-87 | returns the key's old data or NULL; the size grows exactly when the key was new; afterwards the key maps to the new data and every other key keeps its own |
| HashTable.PutValid | data_structures/hash_table.c:67-84 | the bucket after put still holds only keys that hash to it, each once, and every other key's data |
| HashTable.Remove | data_structures/hash_table.c:114-146 | returns the key's data or NULL; the size drops exactly when the key was present; afterwards the key is absent and every other key keeps its data |
| HashTable.PutRemove | data_structures/hash_table.c:57-146 | removing a key just put into a table that lacked it returns the data and restores the size and every lookup |
| Bst.Create | data_structures/tree.c:10-20 | an empty, ordered tree |
| Bst.Insert | data_structures/tree.c:53-72 | the key set gains the data's key, order is kept, and a key already present leaves the tree unchanged |
| Bst.Find | data_structures/tree.c:88-103 | a hit has the searched key and is in the tree; on an ordered tree the search hits exactly when the key is present |
| Bst.Min | data_structures/tree.c:119-128 | NULL exactly for an empty tree; otherwise a node whose key is the smallest of an ordered tree |
| Bst.Max | data_structures/tree.c:133-142 | NULL exactly for an empty tree; otherwise a node whose key is the largest of an ordered tree |
| Bst.Delete | data_structures/tree.c:147-177 | no key is added; on an ordered tree exactly the data's key goes and order is kept |
| Bst.DeleteSuccessor | data_structures/tree.c:160-163 | a node with two children that takes its in-order successor's data keeps the tree ordered and loses exactly its own key |
| Bst.InsertThenFind | data_structures/tree.c:53-103 | after insert, find succeeds for the inserted key: on the inserted data when the key was new, on the data already there otherwise |
| Bst.DeleteThenFind | data_structures/tree.c:88-177 | on an ordered tree, after delete find fails for the deleted key and returns the same data as before for every other key, the successor moved up by the two-children case included |
| Bst.InsertThenDelete | data_structures/tree.c:53-177 | deleting a key just inserted into a tree that lacked it gives back the key set |
| Graph.Create | data_structures/graph.c:10-19 | no vertices |
| Graph.AddVertex | data_structures/graph.c:67-85 | a new vertex with the next id and no edges; the other vertices are untouched |
| Graph.AddEdge | data_structures/graph.c:90-104 | an end out of range changes nothing; otherwise dst goes at the head of src's edges and the other vertices are untouched |
| Graph.Visit | data_structures/graph.c:109-121 | the visit starts at the vertex, lists distinct vertices not marked before, marks exactly those, and reaches each one after the first along an edge from an earlier one |
| Graph.VisitEdges | data_structures/graph.c:118-120 | after the edge loop every destination of the vertex's edges is marked |
| Graph.Roots | data_structures/graph.c:140-142 | the root loop marks every vertex, each once, and each new search starts at the least id not yet visited |
| Graph.Dfs | data_structures/graph.c:126-146 | the search over all vertices visits every vertex exactly once, and each vertex is reached along an edge from an earlier one or is the least id not yet visited |
| Trie.FindPos | data_structures/trie.c:84-86 | the walk along a child list stops at the first child with the symbol, or reports none |
| Trie.Find | data_structures/trie.c:77-89 | NULL for a NULL root; a hit is a child of the root with the symbol |
| Trie.FindMisses | data_structures/trie.c:77-89 | trie_find misses exactly when no child of the root carries the symbol |
| Trie.FindUnique | data_structures/trie.c:84-86 | with distinct siblings the child found is the only one with the symbol |
| Trie.Insert | data_structures/trie.c:10-54 | a NULL root becomes a fresh node (trie_alloc: the symbol, id and parent, no children); an existing child with the symbol changes nothing; otherwise a new child goes at the end of the root's child list |
| Trie.InsertExtends | data_structures/trie.c:28-54 | insert never changes an existing node's symbol, id or parent |
| Trie.FindAfterInsert | data_structures/trie.c:28-89 | after inserting a symbol under a node, find for it returns the existing child or the new one |
| Trie.InsertKeepsDistinct | data_structures/trie.c:37-50 | insert keeps siblings' symbols distinct |
| Trie.InsertIdempotent | data_structures/trie.c:37-44 | inserting the same symbol under the same node a second time changes nothing |
| TrieDraft.Find | trie.c:79-91 | NULL exactly for a NULL root or when no child carries the symbol; a hit is such a child |
| TrieDraft.Insert | trie.c:30-56 | like the later insert, except that a failed allocation leaves the trie as it was and a NULL root stays NULL |
| TrieDraft.InsertKeepsDistinct | trie.c:30-56 | insert keeps siblings' symbols distinct whatever the allocation does |
| TrieDraft.FindForget | trie.c:79-91 | the earlier find answers as the later one does |
| TrieDraft.InsertForget | trie.c:30-56 | with a successful allocation the earlier insert builds the later one's trie, parent links aside |

## Left out

- File handling in every codec is not modelled: fopen failures and their errno returns, rewind, buffered fread/fwrite, and the handles leaked on the error path at compression/huffman.c:390-394. A file is its contents.
- `data_structures/heap.c` is not part of this model. `heap_min` is any least-frequency tree, and the heap of an empty input is not modelled beyond "no tree".
- Freeing and ownership are not modelled: `free`, `free_func` callbacks, `huffman_tree_free`, `graph_free`, `array_list_free_full`, and the successor data freed in tree delete.
- `xmalloc` never fails here. The exit on a failed `malloc` in `clone_array` is not modelled either.
- `list_copy` and `slist_copy` are left out: they never set the last copied node's `next`, so the copy is not a well-formed list.
- The `prev` links of `data_structures/list.c` are left out: lists are the sequence read through `next`. So is `list_first`, which walks those links back to the node whose `prev` is NULL. DList.InsertBefore takes the head to be the one node whose `prev` link is NULL.
- DList.Remove: assumes that every node's `prev` link names the node before it. `list_remove` (data_structures/list.c:155-180) unlinks through `tmp->prev`, and two operations leave that link stale:
  - `list_insert_after` (list.c:101-103) never updates the old `pos->next->prev`. On [a, b], inserting x after a and then removing b sets `a->next` to NULL and loses x, where the model gives [a, x];
  - `list_sort` and `__list_sort_merge` (list.c:319-365) relink `next` only. After sorting [2, 1], removing 1 makes node 2 point to itself and returns the freed node, where the model gives [2].
- DList.RemoveAll: makes the same assumption about `prev` as DList.Remove, for the same reason (data_structures/list.c:185-211).
- `queue_find` is left out, as are `trie_print`, `trie_print_level` and the call to `trie_print` in `lz78.c`. They only read and print.
- `graph_dfs` returns its visit order as a sequence and does not print it. The `strdup` of vertex labels is not modelled; a label is a value.
- A NULL container pointer is not modelled except where the code gives it a meaning of its own, as in `priority_queue_is_empty`.
- `array_list_sort` is left out: it only calls the C library's `qsort`.
- The following are not part of this model: `geometry/`, `stats/`, `plot/`, `utils/math.c`, `algo.c`, and the `sort`/`main` benchmark driver of `sort.c`. They do floating point, terminal and timing work.
- The `queue.h` that comes with the ring-buffer `queue.c` declares a list-based queue and neither `queue_is_full` nor `queue_is_empty`. Those two are read here as `size == capacity` and `size == 0`.
- Array slots that `realloc` leaves uninitialised are `None`.
- The temporary `tmp` and `key` buffers of the generic sorts are not modelled; an element is moved as a whole.
- Overflow of `int` indices is not modelled: `mid` in merge sort, and `l` and `r` in binary search, are unbounded integers. Wrap-around of `size_t` is modelled only where it matters: the stack's top of -1, and the first index of the heap sort's build loop.
- SortHeap.SortGeneric: requires at most 2^31 - 1 elements, as do SortHeap.SortFixed, SortHeap.SortInts, SortHeap.HeapSort and SortHeap.Build, because the build loop's first index is stored in an `int`.
- Lz78.Compress: requires an input shorter than 2^31 - 2 bytes, so that every id fits the C `int` written for it.
- Lz78.RoundTrip: requires that no byte is 0xFF and that every phrase fits the decoder's 1024-byte buffer. The first is what `(unsigned char)EOF` costs; the second is the size of `buffer[]`.
- Lz77.Uncompress: a triple whose copy would leave the window gives `BadTriple`: len > 0 with offset < len, offset > 100 or len >= 100. The code at compression/lz77.c:165-180 reads `window[]` and writes `buf_out[]` and `window[]` out of bounds there. That is undefined behaviour, so the model reports an error instead; Lz77.DecodeTriple returns `None` for the same triples.
- Lz78.Uncompress departs from the code on five kinds of bad input, all of them raised by Lz78.Step. The code's behaviour there is undefined or uses stale data, so the model reports an error instead:
  - a pair cut short gives `TruncatedPair`, where the code reuses the previous byte;
  - a parent id or new id outside the table gives `BadPair`, where the code indexes out of bounds;
  - a dictionary size below 1 gives `BadHeader`;
  - a parent id inside the table whose entry is still NULL gives `BadPair`. The code at compression/lz78.c:140-143 inserts under NULL, finds nothing there, and reads `node->id` through the NULL result;
  - a phrase longer than the 1024-byte `buffer` gives `PhraseTooLong`. The loop at compression/lz78.c:148-149 writes past the end of `buffer`.
- Lz78Draft.Compress: only the root allocation may fail. The allocation of every child is taken to succeed.
- HashTable.Create: a table of capacity 0 is not modelled beyond its creation. hash_table_create (data_structures/hash_table.c:10-26) accepts it, and every later `% capacity` on it (lines 67, 101 and 124) divides by zero; HashTable.Valid demands capacity > 0, and Slot requires it.
- Huffman.Encode: requires an input shorter than 2^31 bytes, so that every frequency fits its C `int`.
- Huffman.Encode: fails with `CodeTooLong` when a code has 32 or more characters. There the code's `strncpy` at compression/huffman.c:128 overruns the 32-byte `huff_code` field (line 30) or leaves it without the NUL that line 296 stops at. That is undefined behaviour, so the model reports an error instead.
- Huffman.ReadEntries: data cut short inside an entry gives `TruncatedHeader`. The code at compression/huffman.c:231-235 ignores what `fread` returns and stores the previous entry's stale `c` and `f`, or uninitialised ones for the first entry.
- Huffman.ReadHeader: data shorter than the 4-byte count gives `TruncatedHeader`. The code at compression/huffman.c:228 goes on with an uninitialised `nb_nodes`.
- Huffman.Walk: a payload bit read while standing on a leaf gives `NullChild`, and Huffman.Decode passes that error on. This happens only when the root itself is a leaf, that is, when the input had one distinct byte. Then compression/huffman.c:336-342 steps to a NULL child, and `huffman_leaf` (line 22) reads its fields through NULL. That is undefined behaviour, so the model reports an error instead.
- Huffman.Decode: compares and adds the header's frequencies as exact integers. The code does both on C `int`: `huff_node_compare` subtracts two frequencies (compression/huffman.c:40), and the parent takes `left->freq + right->freq` (line 99). A crafted header whose frequencies lie more than 2^31 - 1 apart, or whose sum passes 2^31 - 1, overflows there, which is undefined behaviour; the model goes on with the exact values. Output of Huffman.Encode never reaches this, because its frequencies sum to less than 2^31.
- Huffman.HeapMin: "least frequency" is the exact order of the frequencies, not the order an overflowing subtraction at compression/huffman.c:40 would give on a crafted header (see the Huffman.Decode line above).
- Huffman.MergeStepPreserves: the parent's frequency is the exact sum of its children's, where compression/huffman.c:99 overflows a C `int` on a crafted header whose two frequencies sum past 2^31 - 1 (see the Huffman.Decode line above).
- Huffman.CombineWeights: each internal node weighs the exact sum of its children, with the same gap at compression/huffman.c:99 on a crafted header (see the Huffman.Decode line above).
- Huffman.RoundTrip: states that decoding begins with the input and adds at most seven symbols, not that it gives the input back. The zero padding of the last byte can decode to extra symbols, and the code writes no length that would stop them.
- Huffman.SingleSymbol: with one distinct byte the code as written loses the whole input. There is no corrected codec for this case, because the evident fix would change the file format.
- HuffmanDraft.Encode: requires every character to be in 1..127. A `char` above 127 is negative and indexes `freq` out of bounds.
- SortQuick.SortGeneric: returns `None` where the code as written goes wrong, and proves only a permutation when it finishes. Its pivot aliases the array, so a scan can run off either end, or the recursion can repeat on an array of the same size forever.

## Findings

| source | as written | input that shows it | evidently intended | confidence | as-written member | corrected member |
|---|---|---|---|---|---|---|
| compression/rle.c:72-101 | the decoder reads the count into a signed `char`, so a count from 128 to 255 is negative and the write loop never runs | a run of 128 bytes 'A' is written as the pair (128, 'A') and decodes to nothing | counts read as unsigned bytes | not executed | Rle.LongRunLost | RleUnsigned.RoundTrip |
| compression/rle.c:17-41 | the encoder reads each byte into a `char` and compares it with `EOF`, so the byte 0xFF ends the input | the input [0xFF, 'A'] is written as nothing at all | compare the `int` that `fgetc` returns with `EOF` | not executed | Rle.EofByteTruncates | RleUnsigned.RoundTrip |
| compression/rle.c:44-51 | runs are cut at 256 bytes, but the count is written as one byte, so 256 is written as 0 | a run of 256 bytes 'A' is written as (0, 'A') and decodes to nothing | runs cut at 255 | not executed | Rle.FullRunLost | RleUnsigned.RoundTrip |
| data_structures/queue.c:146-164 | `queue_pop_tail` unlinks the last node but never decrements `length` | `queue_push_tail` of one element, then `queue_pop_tail`: the queue is empty and its length is 1 | `queue->length--` as in `queue_pop_head` | not executed | Deque.PopTailKeepsLength | Deque.PopTailCounted |
| sort/sort_bubble.c:28 | the guard `element_size < 2` turns the sort into a no-op for one-byte elements; sort/sort_insertion.c:17, sort/sort_merge.c:48, sort/sort_heap.c:62 and sort/sort_quick.c:62 share it | the one-byte array [2, 1] comes back unsorted | `size < 2`, the count of elements | not executed | SortCommon.OneByteElementsSkipped | SortBubble.SortFixed |
| sort/sort_quick.c:30-46 | the pivot is a pointer to the middle slot, so after a swap moves another element there the partition compares against that element | [3, 2, 0, 1] comes out as [0, 2, 1, 3] | the pivot's value copied before partitioning, as sort.c does | not executed | SortQuick.AliasedUnsorted | SortQuick.SortFixed |
| lz77.c:84-94 | the earlier encoder writes `buf[0]` or `buf[i]` as the literal, a byte of the window, instead of the look-ahead byte after the match | 100 zero bytes followed by 120 bytes of 1: the first literal is 0 where the input has 1 | `look_ahead[0]` and `look_ahead[i]`, as compression/lz77.c writes | not executed | Lz77Draft.LiteralFromWindow | Lz77.RoundTrip |
| data_structures/list.c:111-129 | `list_insert_before` links the new node back to `pos->prev` and forward to `pos`, but never sets `pos->prev->next`, so before any node but the head the new node is not on the list | the list [1, 2] with `pos` the node of 2 and data 3: read through `next` the list is still [1, 2] | set the predecessor's `next` to the new node when it has a predecessor | not executed | DList.InsertBeforeLost | DList.InsertBeforeFixedAgrees |

=== FILE: array_list.dfy ===
/**
 * The growable array list of data_structures/array_list.c: an element array
 * of `capacity` slots of which the first `size` are in use. Slots past
 * `size` are never read; the slots that realloc adds are uninitialised and
 * modelled as None. xrealloc aborts the process instead of failing, so
 * growth always succeeds here. `idx < 0` is always false for a size_t and
 * drops out.
 */
module ArrayList {
  import opened Wrappers

  const GrowSize: nat := 100

  datatype AList<T> = AList(slots: seq<Option<T>>, size: nat, capacity: nat)

  predicate Valid<T>(l: AList<T>)
  {
    |l.slots| == l.capacity && l.size <= l.capacity
    && forall i | 0 <= i < l.size :: l.slots[i].Some?
  }

  /** The elements in use, in index order. */
  function Contents<T>(l: AList<T>): (r: seq<T>)
    requires Valid(l)
    ensures |r| == l.size && forall i | 0 <= i < l.size :: Some(r[i]) == l.slots[i]
  {
    seq(l.size, (i: int) requires 0 <= i < l.size => l.slots[i].value)
  }

  /** array_list_create: no array, size 0, capacity 0. */
  function Create<T>(): (l: AList<T>)
    ensures Valid(l) && Contents(l) == [] && l.capacity == 0
  {
    AList([], 0, 0)
  }

  /** __array_list_grow: 100 more slots exactly when the array is full. */
  function Grow<T>(l: AList<T>): (r: AList<T>)
    requires Valid(l)
    ensures Valid(r) && Contents(r) == Contents(l) && r.size < r.capacity
    ensures r.capacity == if l.size < l.capacity then l.capacity else l.capacity + GrowSize
  {
    if l.size < l.capacity then l
    else AList(l.slots + seq(GrowSize, _ => None), l.size, l.capacity + GrowSize)
  }

  /** array_list_clear: the array freed, size and capacity 0. */
  function Clear<T>(l: AList<T>): (r: AList<T>)
    ensures Valid(r) && Contents(r) == [] && r.capacity == 0
  {
    Create()
  }

  /** array_list_add: grow if full, then store at index size and bump size. */
  function Add<T>(l: AList<T>, x: T): (r: AList<T>)
    requires Valid(l)
    ensures Valid(r) && Contents(r) == Contents(l) + [x]
  {
    var g := Grow(l);
    var r := AList(g.slots[g.size := Some(x)], g.size + 1, g.capacity);
    assert Contents(r) == Contents(l) + [x];
    r
  }

  /** array_list_add_idx: no-op past size; otherwise x lands at idx and the tail moves right by one. */
  function AddIdx<T>(l: AList<T>, idx: nat, x: T): (r: AList<T>)
    requires Valid(l)
    ensures Valid(r)
    ensures idx > l.size ==> r == l
    ensures idx <= l.size ==> Contents(r) == Contents(l)[..idx] + [x] + Contents(l)[idx..]
  {
    if idx > l.size then l
    else
      var g := Grow(l);
      var s := g.slots[..idx] + [Some(x)] + g.slots[idx..g.size] + g.slots[g.size + 1..];
      var r := AList(s, g.size + 1, g.capacity);
      assert Contents(r) == Contents(l)[..idx] + [x] + Contents(l)[idx..];
      r
  }

  /** array_list_set: NULL and no change past size; otherwise the old element, and only slot idx replaced. */
  function Set<T>(l: AList<T>, idx: nat, x: T): (r: (Option<T>, AList<T>))
    requires Valid(l)
    ensures Valid(r.1)
    ensures idx >= l.size ==> r == (None, l)
    ensures idx < l.size ==> r.0 == Some(Contents(l)[idx]) && Contents(r.1) == Contents(l)[idx := x]
  {
    if idx >= l.size then (None, l)
    else
      var r := AList(l.slots[idx := Some(x)], l.size, l.capacity);
      assert Contents(r) == Contents(l)[idx := x];
      (l.slots[idx], r)
  }

  /** array_list_remove: NULL past size; otherwise the element, with the tail moved left and size - 1. */
  function Remove<T>(l: AList<T>, idx: nat): (r: (Option<T>, AList<T>))
    requires Valid(l)
    ensures Valid(r.1) && r.1.capacity == l.capacity
    ensures idx >= l.size ==> r == (None, l)
    ensures idx < l.size ==> r.0 == Some(Contents(l)[idx]) && Contents(r.1) == Contents(l)[..idx] + Contents(l)[idx + 1..]
  {
    if idx >= l.size then (None, l)
    else
      var s := l.slots[..idx] + l.slots[idx + 1..l.size] + l.slots[l.size - 1..];
      var r := AList(s, l.size - 1, l.capacity);
      assert Contents(r) == Contents(l)[..idx] + Contents(l)[idx + 1..];
      (l.slots[idx], r)
  }

  /** The shifting loop of array_list_add_idx, element by element from the end down to idx. */
  method AddIdxLoop<T>(l: AList<T>, idx: nat, x: T) returns (r: AList<T>)
    requires Valid(l)
    ensures r == AddIdx(l, idx, x)
  {
    if idx > l.size {
      return l;
    }
    var g := Grow(l);
    var a := ShiftTail(g.slots, idx, g.size);
    a := a[idx := Some(x)];
    ShiftedRight(g.slots, a, idx, g.size, x);
    r := AList(a, g.size + 1, g.capacity);
  }

  /** The for loop itself: each slot from size down to idx + 1 takes its left neighbour's element. */
  method ShiftTail<T>(s: seq<Option<T>>, idx: nat, size: nat) returns (a: seq<Option<T>>)
    requires idx <= size < |s|
    ensures |a| == |s|
    ensures forall k | 0 <= k < idx :: a[k] == s[k]
    ensures forall k | idx < k <= size :: a[k] == s[k - 1]
    ensures forall k | size < k < |a| :: a[k] == s[k]
  {
    a := s;
    var i := size;
    while i > idx
      invariant idx <= i <= size && |a| == |s|
      invariant forall k | 0 <= k <= i :: a[k] == s[k]
      invariant forall k | i < k <= size :: a[k] == s[k - 1]
      invariant forall k | size < k < |a| :: a[k] == s[k]
    {
      a := a[i := a[i - 1]];
      i := i - 1;
    }
  }

  /** What the right shift leaves in the array, as the slice expression of AddIdx. */
  lemma ShiftedRight<T>(s: seq<Option<T>>, a: seq<Option<T>>, idx: nat, size: nat, x: T)
    requires idx <= size < |s| == |a| && a[idx] == Some(x)
    requires forall k | 0 <= k < idx :: a[k] == s[k]
    requires forall k | idx < k <= size :: a[k] == s[k - 1]
    requires forall k | size < k < |a| :: a[k] == s[k]
    ensures a == s[..idx] + [Some(x)] + s[idx..size] + s[size + 1..]
  {
    var t := s[..idx] + [Some(x)] + s[idx..size] + s[size + 1..];
    forall k | 0 <= k < |a|
      ensures a[k] == t[k]
    {
      if k < idx {
      } else if k == idx {
      } else if k <= size {
        assert t[k] == s[idx..size][k - idx - 1];
      } else {
        assert t[k] == s[size + 1..][k - size - 1];
      }
    }
  }

  /** The shifting loop of array_list_remove, element by element from idx up to size - 2. */
  method RemoveLoop<T>(l: AList<T>, idx: nat) returns (ret: Option<T>, r: AList<T>)
    requires Valid(l)
    ensures (ret, r) == Remove(l, idx)
  {
    if idx >= l.size {
      return None, l;
    }
    ret := l.slots[idx];
    var a := l.slots;
    var i := idx;
    while i < l.size - 1
      invariant idx <= i <= l.size - 1 && |a| == |l.slots|
      invariant forall k | 0 <= k < idx :: a[k] == l.slots[k]
      invariant forall k | idx <= k < i :: a[k] == l.slots[k + 1]
      invariant forall k | i <= k < |a| :: a[k] == l.slots[k]
    {
      a := a[i := a[i + 1]];
      i := i + 1;
    }
    assert a == l.slots[..idx] + l.slots[idx + 1..l.size] + l.slots[l.size - 1..];
    r := AList(a, l.size - 1, l.capacity);
  }

  /** Removing at the index just inserted gives back the element and the contents. */
  lemma AddIdxRemove<T>(l: AList<T>, idx: nat, x: T)
    requires Valid(l) && idx <= l.size
    ensures Remove(AddIdx(l, idx, x), idx).0 == Some(x)
    ensures Contents(Remove(AddIdx(l, idx, x), idx).1) == Contents(l)
  {
    var c := Contents(l);
    var c' := Contents(AddIdx(l, idx, x));
    assert c'[..idx] + c'[idx + 1..] == c;
  }

  /** Adding at the end is adding at index size. */
  lemma AddIsAddIdx<T>(l: AList<T>, x: T)
    requires Valid(l)
    ensures Contents(Add(l, x)) == Contents(AddIdx(l, l.size, x))
  {
  }

  /** Setting back the value that set returned restores the contents. */
  lemma SetSetBack<T>(l: AList<T>, idx: nat, x: T)
    requires Valid(l) && idx < l.size
    ensures var (old_, l') := Set(l, idx, x);
      Contents(Set(l', idx, old_.value).1) == Contents(l)
  {
  }

  /** Size never passes capacity, and capacity only grows in steps of 100 from 0. */
  lemma CapacityStep<T>(l: AList<T>, x: T)
    requires Valid(l) && l.capacity % GrowSize == 0
    ensures Add(l, x).capacity % GrowSize == 0 && Add(l, x).size <= Add(l, x).capacity
  {
  }
}

=== FILE: bst.dfy ===
/**
 * The binary search tree of data_structures/tree.c. node_cmp is modelled as
 * an integer key on the data (node_cmp(a, b) < 0 is key(a) < key(b)), and a
 * NULL subtree as Nil. Nodes are rebuilt instead of relinked, so every
 * operation returns the new subtree root as __tree_node_insert and
 * __tree_node_delete do.
 */
module Bst {
  import opened Wrappers

  datatype Tree<T> = Nil | Node(left: Tree<T>, data: T, right: Tree<T>)

  /** The keys stored in a tree. */
  function Keys<T>(t: Tree<T>, key: T -> int): (r: set<int>)
    ensures t.Nil? <==> r == {}
  {
    match t
    case Nil => {}
    case Node(l, d, r) => Keys(l, key) + {key(d)} + Keys(r, key)
  }

  /** The search-tree order: smaller keys to the left, larger to the right, at every node. */
  predicate Ordered<T>(t: Tree<T>, key: T -> int)
  {
    match t
    case Nil => true
    case Node(l, d, r) =>
      Ordered(l, key) && Ordered(r, key)
      && (forall k | k in Keys(l, key) :: k < key(d))
      && (forall k | k in Keys(r, key) :: k > key(d))
  }

  /** tree_create: an empty tree. */
  function Create<T>(key: T -> int): (t: Tree<T>)
    ensures Keys(t, key) == {} && Ordered(t, key)
    ensures t.Nil?
  {
    Nil
  }

  /**
   * __tree_node_insert: a new leaf where the search falls off the tree; a
   * key that compares equal on the way leaves the tree as it is.
   */
  function Insert<T>(t: Tree<T>, x: T, key: T -> int): (r: Tree<T>)
    ensures Keys(r, key) == Keys(t, key) + {key(x)}
    ensures Ordered(t, key) ==> Ordered(r, key)
    ensures Find(t, x, key).Some? ==> r == t
  {
    match t
    case Nil => Node(Nil, x, Nil)
    case Node(l, d, rt) =>
      if key(x) < key(d) then Node(Insert(l, x, key), d, rt)
      else if key(x) > key(d) then Node(l, d, Insert(rt, x, key))
      else t
  }

  /** __tree_node_find: the node whose data compares equal, or NULL. */
  function Find<T>(t: Tree<T>, x: T, key: T -> int): (r: Option<T>)
    ensures r.Some? ==> key(r.value) == key(x) && key(x) in Keys(t, key)
    ensures Ordered(t, key) ==> (r.Some? <==> key(x) in Keys(t, key))
  {
    match t
    case Nil => None
    case Node(l, d, rt) =>
      if key(x) < key(d) then Find(l, x, key)
      else if key(x) > key(d) then Find(rt, x, key)
      else Some(d)
  }

  /** __tree_node_min: the leftmost node, whose key is the smallest in an ordered tree; NULL for an empty tree. */
  function Min<T>(t: Tree<T>, key: T -> int): (r: Option<T>)
    ensures r.None? <==> t.Nil?
    ensures r.Some? ==> key(r.value) in Keys(t, key)
    ensures r.Some? && Ordered(t, key) ==> forall k | k in Keys(t, key) :: key(r.value) <= k
  {
    match t
    case Nil => None
    case Node(l, d, _) => if l.Nil? then Some(d) else Min(l, key)
  }

  /** __tree_node_max: the rightmost node, whose key is the largest in an ordered tree; NULL for an empty tree. */
  function Max<T>(t: Tree<T>, key: T -> int): (r: Option<T>)
    ensures r.None? <==> t.Nil?
    ensures r.Some? ==> key(r.value) in Keys(t, key)
    ensures r.Some? && Ordered(t, key) ==> forall k | k in Keys(t, key) :: key(r.value) >= k
  {
    match t
    case Nil => None
    case Node(_, d, r) => if r.Nil? then Some(d) else Max(r, key)
  }

  /**
   * __tree_node_delete: a matching node with two children takes the data of
   * its in-order successor, which is then deleted from the right subtree; a
   * matching node with at most one child is replaced by that child. On an
   * ordered tree exactly the key of x goes.
   */
  function Delete<T>(t: Tree<T>, x: T, key: T -> int): (r: Tree<T>)
    ensures Keys(r, key) <= Keys(t, key)
    ensures Ordered(t, key) ==> Ordered(r, key) && Keys(r, key) == Keys(t, key) - {key(x)}
  {
    match t
    case Nil => Nil
    case Node(l, d, rt) =>
      if key(x) < key(d) then Node(Delete(l, x, key), d, rt)
      else if key(x) > key(d) then Node(l, d, Delete(rt, x, key))
      else if l.Node? && rt.Node? then
        var m := Min(rt, key).value;
        var r := Node(l, m, Delete(rt, m, key));
        DeleteSuccessor(t, m, Delete(rt, m, key), key);
        r
      else if l.Nil? then rt
      else l
  }

  /** The two-children case: the successor m moves up, and rt is the right subtree with m deleted. */
  lemma DeleteSuccessor<T>(t: Tree<T>, m: T, rt: Tree<T>, key: T -> int)
    requires t.Node? && t.left.Node? && t.right.Node? && Min(t.right, key) == Some(m)
    requires Keys(rt, key) <= Keys(t.right, key)
    requires Ordered(t.right, key) ==>
      (Ordered(rt, key) && Keys(rt, key) == Keys(t.right, key) - {key(m)})
    ensures Keys(Node(t.left, m, rt), key) <= Keys(t, key)
    ensures Ordered(t, key) ==>
      Ordered(Node(t.left, m, rt), key) && Keys(Node(t.left, m, rt), key) == Keys(t, key) - {key(t.data)}
  {
    if Ordered(t, key) {
      SuccessorOrdered(t, m, rt, key);
    }
  }

  /** On an ordered tree the successor sits between the left keys and the remaining right keys. */
  lemma SuccessorOrdered<T>(t: Tree<T>, m: T, rt: Tree<T>, key: T -> int)
    requires t.Node? && t.right.Node? && Min(t.right, key) == Some(m) && Ordered(t, key)
    requires Ordered(rt, key) && Keys(rt, key) == Keys(t.right, key) - {key(m)}
    ensures Ordered(Node(t.left, m, rt), key)
    ensures Keys(Node(t.left, m, rt), key) == Keys(t, key) - {key(t.data)}
  {
    assert key(m) in Keys(t.right, key);
    assert forall k | k in Keys(t.left, key) :: k < key(m);
    assert forall k | k in Keys(rt, key) :: k > key(m);
    KeysMoved(Keys(t.left, key), key(t.data), Keys(t.right, key), key(m));
  }

  /** The set algebra of moving the successor's key up in place of the root's. */
  lemma KeysMoved(l: set<int>, d: int, r: set<int>, m: int)
    requires m in r && (forall k | k in l :: k < d) && (forall k | k in r :: k > d)
    ensures l + {m} + (r - {m}) == l + {d} + r - {d}
  {
  }

  /**
   * After insert, find succeeds for the inserted key: it finds the inserted
   * data when the key was new, and the data already there otherwise.
   */
  lemma {:induction false} InsertThenFind<T>(t: Tree<T>, x: T, key: T -> int)
    requires Ordered(t, key)
    ensures Find(Insert(t, x, key), x, key).Some?
    ensures key(x) !in Keys(t, key) ==> Find(Insert(t, x, key), x, key) == Some(x)
    ensures key(x) in Keys(t, key) ==> Find(Insert(t, x, key), x, key) == Find(t, x, key)
  {
    match t
    case Nil =>
    case Node(l, d, rt) =>
      if key(x) < key(d) {
        InsertThenFind(l, x, key);
      } else if key(x) > key(d) {
        InsertThenFind(rt, x, key);
      }
  }

  /**
   * After delete, find fails for the deleted key, and every other key finds
   * the same data as before, including the successor's data that the
   * two-children case moves up.
   */
  lemma {:induction false} DeleteThenFind<T>(t: Tree<T>, x: T, y: T, key: T -> int)
    requires Ordered(t, key) && key(y) != key(x)
    ensures Find(Delete(t, x, key), x, key).None?
    ensures Find(Delete(t, x, key), y, key) == Find(t, y, key)
  {
    match t
    case Nil =>
    case Node(l, d, rt) =>
      if key(x) < key(d) {
        DeleteThenFind(l, x, y, key);
      } else if key(x) > key(d) {
        DeleteThenFind(rt, x, y, key);
      } else if l.Node? && rt.Node? {
        var m := Min(rt, key).value;
        if key(y) == key(m) {
          MinFound(rt, key);
          assert key(m) > key(d);
          FindByKey(rt, y, m, key);
        } else if key(y) > key(m) {
          DeleteThenFind(rt, m, y, key);
        }
      }
  }

  /** Find looks only at the key. */
  lemma {:induction false} FindByKey<T>(t: Tree<T>, y: T, z: T, key: T -> int)
    requires key(y) == key(z)
    ensures Find(t, y, key) == Find(t, z, key)
  {
    match t
    case Nil =>
    case Node(l, d, rt) =>
      FindByKey(l, y, z, key);
      FindByKey(rt, y, z, key);
  }

  /** In an ordered tree, find on the leftmost data finds that data. */
  lemma {:induction false} MinFound<T>(t: Tree<T>, key: T -> int)
    requires Ordered(t, key) && t.Node?
    ensures Find(t, Min(t, key).value, key) == Min(t, key)
  {
    if t.left.Node? {
      MinFound(t.left, key);
    }
  }

  /** Deleting a key just inserted into an ordered tree that lacked it gives back the same set of keys. */
  lemma InsertThenDelete<T>(t: Tree<T>, x: T, key: T -> int)
    requires Ordered(t, key) && key(x) !in Keys(t, key)
    ensures Keys(Delete(Insert(t, x, key), x, key), key) == Keys(t, key)
  {
  }
}

=== FILE: bytes.dfy ===
/**
 * Bytes, fixed-width little-endian integers and most-significant-bit-first
 * bit strings, as the codecs write them.
 */
module Bytes {

  type Byte = b: int | 0 <= b < 256

  const Two31: int := 0x8000_0000
  const Two32: int := 0x1_0000_0000

  /** The n low bytes of v, least significant first; they read back as v when v fits in them. */
  function LEBytes(v: nat, n: nat): (r: seq<Byte>)
    ensures |r| == n
    ensures v < Pow2(8 * n) ==> FromLEBytes(r) == v
  {
    if n == 0 then []
    else
      var r := [v % 256] + LEBytes(v / 256, n - 1);
      Pow2Add(8, 8 * (n - 1));
      assert Pow2(8) == 256;
      assert r[1..] == LEBytes(v / 256, n - 1);
      r
  }

  /** Bytes read back least significant first. */
  function FromLEBytes(b: seq<Byte>): (v: nat)
  {
    if b == [] then 0 else b[0] as int + 256 * FromLEBytes(b[1..])
  }

  lemma {:induction false} FromLEBytesBound(b: seq<Byte>)
    ensures FromLEBytes(b) < Pow2(8 * |b|)
  {
    if b != [] {
      FromLEBytesBound(b[1..]);
      Pow2Add(8, 8 * |b[1..]|);
      assert Pow2(8) == 256;
    }
  }

  lemma {:induction false} Pow2Add(a: nat, b: nat)
    ensures Pow2(a + b) == Pow2(a) * Pow2(b)
  {
    if a > 0 {
      Pow2Add(a - 1, b);
    }
  }

  lemma Pow2Of32()
    ensures Pow2(32) == Two32
  {
    assert Pow2(8) == 256;
    Pow2Add(8, 8);
    Pow2Add(16, 8);
    Pow2Add(24, 8);
  }

  lemma {:induction false} LEBytesFromLEBytes(b: seq<Byte>)
    ensures LEBytes(FromLEBytes(b), |b|) == b
  {
    if b != [] {
      LEBytesFromLEBytes(b[1..]);
      DigitSplit(b[0], FromLEBytes(b[1..]));
      assert b == [b[0]] + b[1..];
    }
  }

  /** The low byte and the rest of x + 256 * y, for a byte x. */
  lemma DigitSplit(x: Byte, y: nat)
    ensures (x + 256 * y) % 256 == x && (x + 256 * y) / 256 == y
  {
  }

  /** A 32-bit unsigned value as four little-endian bytes. */
  function LE32(v: int): (r: seq<Byte>)
    requires 0 <= v < Two32
    ensures |r| == 4
    ensures FromLE32(r) == v
  {
    Pow2Of32();
    LEBytes(v, 4)
  }

  /** Four little-endian bytes read back as an unsigned 32-bit value. */
  function FromLE32(b: seq<Byte>): (v: int)
    requires |b| == 4
    ensures 0 <= v < Two32
  {
    FromLEBytesBound(b);
    Pow2Of32();
    FromLEBytes(b)
  }

  lemma LE32OfFromLE32(b: seq<Byte>)
    requires |b| == 4
    ensures LE32(FromLE32(b)) == b
  {
    LEBytesFromLEBytes(b);
  }

  /** A C `int` as its four little-endian two's-complement bytes. */
  function Int32Bytes(v: int): (r: seq<Byte>)
    requires -Two31 <= v < Two31
    ensures |r| == 4
    ensures Int32Of(r) == v
  {
    LE32(if v < 0 then v + Two32 else v)
  }

  lemma Int32OfLE32(v: int)
    requires 0 <= v < Two31
    ensures Int32Of(LE32(v)) == v
  {
  }

  /** Four little-endian bytes read into a C `int`. */
  function Int32Of(b: seq<Byte>): (v: int)
    requires |b| == 4
    ensures -Two31 <= v < Two31
  {
    var u := FromLE32(b);
    if u >= Two31 then u - Two32 else u
  }

  function Pow2(k: nat): (p: nat)
    ensures p >= 1
  {
    if k == 0 then 1 else 2 * Pow2(k - 1)
  }

  function Zeros(n: nat): (r: seq<bool>)
    ensures |r| == n
    ensures forall i :: 0 <= i < n ==> !r[i]
  {
    seq(n, _ => false)
  }

  /** The value of a bit string read most significant bit first. */
  function FromBits(bs: seq<bool>): (v: nat)
    ensures v < Pow2(|bs|)
  {
    if bs == [] then 0
    else 2 * FromBits(bs[..|bs| - 1]) + (if bs[|bs| - 1] then 1 else 0)
  }

  /** The k low bits of v, most significant first. */
  function ToBits(v: nat, k: nat): (bs: seq<bool>)
    ensures |bs| == k
  {
    if k == 0 then [] else ToBits(v / 2, k - 1) + [v % 2 == 1]
  }

  lemma {:induction false} ToBitsFromBits(bs: seq<bool>)
    ensures ToBits(FromBits(bs), |bs|) == bs
  {
    if bs != [] {
      var init := bs[..|bs| - 1];
      var v := FromBits(bs);
      ToBitsFromBits(init);
      assert v / 2 == FromBits(init);
      assert (v % 2 == 1) == bs[|bs| - 1];
      assert ToBits(v, |bs|) == ToBits(FromBits(init), |init|) + [bs[|bs| - 1]];
      assert init + [bs[|bs| - 1]] == bs;
    }
  }

  lemma {:induction false} FromBitsToBits(v: nat, k: nat)
    requires v < Pow2(k)
    ensures FromBits(ToBits(v, k)) == v
  {
    if k > 0 {
      FromBitsToBits(v / 2, k - 1);
      var bs := ToBits(v, k);
      assert bs[..|bs| - 1] == ToBits(v / 2, k - 1);
    }
  }

  /** The bits of a byte, most significant first: bit j of the result is bit 7 - j of b. */
  function BitsOfByte(b: Byte): (bs: seq<bool>)
    ensures |bs| == 8
  {
    ToBits(b, 8)
  }

  /** Eight bits, the first being the most significant, as a byte. */
  function ByteOfBits(bs: seq<bool>): (b: Byte)
    requires |bs| == 8
    ensures BitsOfByte(b) == bs
  {
    ToBitsFromBits(bs);
    FromBits(bs)
  }

  /** The bit stream a decoder reads from a byte sequence, each byte most significant bit first. */
  function Unpack(data: seq<Byte>): (bits: seq<bool>)
    ensures |bits| == 8 * |data|
  {
    if data == [] then [] else BitsOfByte(data[0]) + Unpack(data[1..])
  }

  lemma UnpackSingle(b: Byte)
    ensures Unpack([b]) == BitsOfByte(b)
  {
    assert [b][1..] == [];
    assert Unpack([b]) == BitsOfByte(b) + Unpack([]);
  }

  lemma {:induction false} UnpackAppend(a: seq<Byte>, b: seq<Byte>)
    ensures Unpack(a + b) == Unpack(a) + Unpack(b)
  {
    if a != [] {
      UnpackAppend(a[1..], b);
      assert (a + b)[0] == a[0];
      assert (a + b)[1..] == a[1..] + b;
      calc {
        Unpack(a + b);
        BitsOfByte(a[0]) + Unpack(a[1..] + b);
        BitsOfByte(a[0]) + (Unpack(a[1..]) + Unpack(b));
        (BitsOfByte(a[0]) + Unpack(a[1..])) + Unpack(b);
      }
    } else {
      assert a + b == b;
    }
  }
}

=== FILE: deque.dfy ===
/**
 * The list-backed queue of data_structures/queue.c: head and tail of a
 * doubly linked list and a length counter. The list is modelled as the
 * sequence of its data from head to tail (head is NULL exactly when the
 * sequence is empty, tail names its last element), beside the counter as
 * the code keeps it. An empty queue's pop and peek return NULL, modelled as
 * None.
 */
module Deque {
  import opened Wrappers
  import DList

  datatype Queue<T> = Queue(items: seq<T>, length: int)

  /** The counter agrees with the list. */
  predicate Counted<T>(q: Queue<T>)
  {
    q.length == |q.items|
  }

  /** queue_create: no nodes and length 0. */
  function Create<T>(): (q: Queue<T>)
    ensures q.items == [] && Counted(q)
  {
    Queue([], 0)
  }

  /** queue_is_empty: head is NULL. */
  function IsEmpty<T>(q: Queue<T>): (b: bool)
    ensures b <==> |q.items| == 0
  {
    q.items == []
  }

  /** queue_push_head: the data goes in front; the tail is set when the queue was empty; length + 1. */
  function PushHead<T>(q: Queue<T>, x: T): (r: Queue<T>)
    ensures r.items == DList.Prepend(q.items, x) && r.length == q.length + 1
    ensures Counted(q) ==> Counted(r)
  {
    Queue([x] + q.items, q.length + 1)
  }

  /** queue_push_tail: the data goes after the tail; the head is set when the queue was empty; length + 1. */
  function PushTail<T>(q: Queue<T>, x: T): (r: Queue<T>)
    ensures r.items == DList.Append(q.items, x) && r.length == q.length + 1
    ensures Counted(q) ==> Counted(r)
  {
    Queue(q.items + [x], q.length + 1)
  }

  /** queue_pop_head: NULL when empty; otherwise the first element, unlinked, and length - 1. */
  function PopHead<T>(q: Queue<T>): (r: (Option<T>, Queue<T>))
    ensures q.items == [] ==> r == (None, q)
    ensures q.items != [] ==> r.0 == Some(q.items[0]) && [q.items[0]] + r.1.items == q.items
    ensures q.items != [] ==> r.1.length == q.length - 1
    ensures Counted(q) ==> Counted(r.1)
  {
    if q.items == [] then (None, q)
    else (Some(q.items[0]), Queue(q.items[1..], q.length - 1))
  }

  /**
   * queue_pop_tail as written: NULL when empty; otherwise the last element,
   * unlinked, but the length is left as it was.
   */
  function PopTail<T>(q: Queue<T>): (r: (Option<T>, Queue<T>))
    ensures q.items == [] ==> r == (None, q)
    ensures q.items != [] ==> r.0 == Some(q.items[|q.items| - 1]) && r.1.items + [q.items[|q.items| - 1]] == q.items
    ensures r.1.length == q.length
  {
    if q.items == [] then (None, q)
    else (Some(q.items[|q.items| - 1]), Queue(q.items[..|q.items| - 1], q.length))
  }

  /** queue_pop_tail with the length decremented as queue_pop_head does it. */
  function PopTailCounted<T>(q: Queue<T>): (r: (Option<T>, Queue<T>))
    ensures r.0 == PopTail(q).0 && r.1.items == PopTail(q).1.items
    ensures Counted(q) ==> Counted(r.1)
  {
    if q.items == [] then (None, q)
    else (Some(q.items[|q.items| - 1]), Queue(q.items[..|q.items| - 1], q.length - 1))
  }

  /** queue_peek_head: the first element, or NULL; the queue is not touched. */
  function PeekHead<T>(q: Queue<T>): (r: Option<T>)
    ensures r == PopHead(q).0
  {
    if q.items == [] then None else Some(q.items[0])
  }

  /** queue_peek_tail: the last element, or NULL; the queue is not touched. */
  function PeekTail<T>(q: Queue<T>): (r: Option<T>)
    ensures r == PopTail(q).0
  {
    if q.items == [] then None else Some(q.items[|q.items| - 1])
  }

  /** queue_copy: a fresh queue filled by push_tail along the source list. */
  method Copy<T>(q: Queue<T>) returns (r: Queue<T>)
    ensures r.items == q.items && Counted(r)
  {
    r := Create();
    var i := 0;
    while i < |q.items|
      invariant 0 <= i <= |q.items|
      invariant r.items == q.items[..i] && Counted(r)
    {
      assert q.items[..i + 1] == q.items[..i] + [q.items[i]];
      r := PushTail(r, q.items[i]);
      i := i + 1;
    }
    assert q.items[..i] == q.items;
  }

  /** What push_head puts in, pop_head takes out, and the queue is as before. */
  lemma PushPopHead<T>(q: Queue<T>, x: T)
    ensures PopHead(PushHead(q, x)) == (Some(x), q)
  {
    assert ([x] + q.items)[1..] == q.items;
  }

  /** Pushing at the tail and popping at the head is first in, first out. */
  lemma Fifo<T>(q: Queue<T>, xs: seq<T>)
    requires q.items == []
    ensures Drain(PushAll(q, xs)) == xs
  {
    PushAllItems(q, xs);
    DrainAll(PushAll(q, xs));
    assert q.items + xs == xs;
  }

  /** push_tail each of xs in turn. */
  function PushAll<T>(q: Queue<T>, xs: seq<T>): (r: Queue<T>)
    decreases |xs|
  {
    if xs == [] then q else PushAll(PushTail(q, xs[0]), xs[1..])
  }

  /** pop_head until the queue is empty, collecting what comes out. */
  function Drain<T>(q: Queue<T>): (r: seq<T>)
    decreases |q.items|
  {
    match PopHead(q)
    case (None, _) => []
    case (Some(x), q') => [x] + Drain(q')
  }

  lemma {:induction false} PushAllItems<T>(q: Queue<T>, xs: seq<T>)
    ensures PushAll(q, xs).items == q.items + xs
    decreases |xs|
  {
    if xs != [] {
      PushAllItems(PushTail(q, xs[0]), xs[1..]);
      assert (q.items + [xs[0]]) + xs[1..] == q.items + xs;
    } else {
      assert q.items + xs == q.items;
    }
  }

  lemma {:induction false} DrainAll<T>(q: Queue<T>)
    ensures Drain(q) == q.items
    decreases |q.items|
  {
    if q.items != [] {
      DrainAll(PopHead(q).1);
    }
  }

  /**
   * The length counter drifts: after pushing one element and popping it
   * from the tail the queue is empty but its length is 1.
   */
  lemma PopTailKeepsLength<T>(x: T)
    ensures var q := PopTail(PushTail(Create<T>(), x)).1;
      IsEmpty(q) && q.length == 1 && !Counted(q)
  {
  }
}

=== FILE: dlist.dfy ===
/**
 * The doubly linked list of data_structures/list.c seen through its next
 * links: a list is the sequence of its data pointers, the head pointer is
 * NULL exactly for the empty sequence, and a node is named by its position.
 * Data pointers are compared with ==, so elements only need equality.
 * compare_func is an integer key: compare(a, b) <= 0 iff key(a) <= key(b).
 */
module DList {
  import opened Wrappers

  /** list_append: the data becomes the last element, the others stay in place. */
  function Append<T>(s: seq<T>, x: T): (r: seq<T>)
    ensures |r| == |s| + 1 && r[..|s|] == s && r[|s|] == x
  {
    s + [x]
  }

  /** list_prepend: the data becomes the first element, followed by the old list. */
  function Prepend<T>(s: seq<T>, x: T): (r: seq<T>)
    ensures |r| == |s| + 1 && r[0] == x && r[1..] == s
  {
    [x] + s
  }

  /**
   * list_concat: a NULL second list gives back the first, a NULL first list
   * gives back the second, otherwise the second hangs after the last node of
   * the first.
   */
  function Concat<T>(a: seq<T>, b: seq<T>): (r: seq<T>)
    ensures |r| == |a| + |b|
    ensures forall i | 0 <= i < |a| :: r[i] == a[i]
    ensures forall j | 0 <= j < |b| :: r[|a| + j] == b[j]
  {
    if b == [] then a
    else if a != [] then a + b
    else b
  }

  /**
   * list_insert_after: on a NULL list or position nothing changes; otherwise
   * the data follows the node at pos, and the nodes that followed pos follow
   * the new one. A position outside an empty list belongs to another list,
   * which this list does not see.
   */
  function InsertAfter<T>(s: seq<T>, pos: Option<nat>, x: T): (r: seq<T>)
    requires s != [] && pos.Some? ==> pos.value < |s|
    ensures s == [] || pos.None? ==> r == s
    ensures s != [] && pos.Some? ==>
      |r| == |s| + 1 && r[pos.value + 1] == x &&
      r[..pos.value + 1] == s[..pos.value + 1] && r[pos.value + 2..] == s[pos.value + 1..]
  {
    if s == [] || pos.None? then s
    else s[..pos.value + 1] + [x] + s[pos.value + 1..]
  }

  /** Inserting after the last node is list_append, and an insert adds exactly the one item. */
  lemma InsertAfterContents<T>(s: seq<T>, p: nat, x: T)
    requires p < |s|
    ensures multiset(InsertAfter(s, Some(p), x)) == multiset(s) + multiset{x}
    ensures p == |s| - 1 ==> InsertAfter(s, Some(p), x) == Append(s, x)
  {
    assert s == s[..p + 1] + s[p + 1..];
    if p == |s| - 1 {
      assert s[p + 1..] == [];
      assert s[..p + 1] == s;
    }
  }

  /**
   * list_insert_before as written: the new node points forward to pos and
   * back to pos's predecessor, and pos points back to it, but the
   * predecessor's next link still names pos. The list read through next
   * therefore gains the data only when pos is the head, the one node whose
   * prev link is NULL; otherwise the new node hangs off pos's prev link only.
   */
  function InsertBefore<T>(s: seq<T>, pos: Option<nat>, x: T): (r: seq<T>)
    requires s != [] && pos.Some? ==> pos.value < |s|
    ensures s == [] || pos.None? ==> r == s
    ensures s != [] && pos == Some(0) ==> r == Prepend(s, x)
    ensures s != [] && pos.Some? && pos.value > 0 ==> r == s
  {
    if s == [] || pos.None? then s
    else if pos.value == 0 then [x] + s
    else s
  }

  /** Inserting 3 before the second node of [1, 2] leaves the list [1, 2]: the 3 is lost. */
  lemma InsertBeforeLost()
    ensures InsertBefore([1, 2], Some(1), 3) == [1, 2]
    ensures 3 !in InsertBefore([1, 2], Some(1), 3)
  {
  }

  /**
   * list_insert_before with the predecessor's next link set to the new node:
   * the data comes right before the node at pos.
   */
  function InsertBeforeFixed<T>(s: seq<T>, pos: Option<nat>, x: T): (r: seq<T>)
    requires s != [] && pos.Some? ==> pos.value < |s|
    ensures s == [] || pos.None? ==> r == s
    ensures s != [] && pos.Some? ==>
      |r| == |s| + 1 && r[pos.value] == x &&
      r[..pos.value] == s[..pos.value] && r[pos.value + 1..] == s[pos.value..]
  {
    if s == [] || pos.None? then s
    else s[..pos.value] + [x] + s[pos.value..]
  }

  /**
   * The corrected insert before the head is list_prepend, and before any
   * other node it is list_insert_after on the node in front; either way it
   * adds exactly the one item.
   */
  lemma InsertBeforeFixedAgrees<T>(s: seq<T>, p: nat, x: T)
    requires p < |s|
    ensures p == 0 ==> InsertBeforeFixed(s, Some(p), x) == Prepend(s, x)
    ensures p > 0 ==> InsertBeforeFixed(s, Some(p), x) == InsertAfter(s, Some(p - 1), x)
    ensures multiset(InsertBeforeFixed(s, Some(p), x)) == multiset(s) + multiset{x}
  {
    assert s == s[..p] + s[p..];
    if p == 0 {
      assert s[..0] == [] && s[0..] == s;
    }
  }

  /** The position of the first occurrence of x. */
  function IndexOf<T(==)>(s: seq<T>, x: T): (r: Option<nat>)
    ensures r.None? <==> x !in s
    ensures r.Some? ==> r.value < |s| && s[r.value] == x && x !in s[..r.value]
  {
    if s == [] then None
    else if s[0] == x then Some(0)
    else
      var r := IndexOf(s[1..], x);
      if r.None? then None
      else
        assert s[..r.value + 1] == [s[0]] + s[1..][..r.value];
        Some(r.value + 1)
  }

  /** list_find: walk from the head, stop at the first node holding x; NULL when there is none. */
  method Find<T(==)>(s: seq<T>, x: T) returns (r: Option<nat>)
    ensures r == IndexOf(s, x)
  {
    var i := 0;
    while i < |s|
      invariant 0 <= i <= |s| && x !in s[..i]
    {
      if s[i] == x {
        IndexOfFirst(s, x, i);
        return Some(i);
      }
      assert s[..i + 1] == s[..i] + [s[i]];
      i := i + 1;
    }
    assert s[..i] == s;
    return None;
  }

  /** An occurrence at i with none before it is the one IndexOf reports. */
  lemma IndexOfFirst<T>(s: seq<T>, x: T, i: nat)
    requires i < |s| && s[i] == x && x !in s[..i]
    ensures IndexOf(s, x) == Some(i)
  {
  }

  /** list_last: follow next links to the end; NULL for an empty list. */
  method Last<T>(s: seq<T>) returns (r: Option<nat>)
    ensures r.None? <==> s == []
    ensures r.Some? ==> r.value == |s| - 1
  {
    if s == [] {
      return None;
    }
    var i := 0;
    while i + 1 < |s|
      invariant 0 <= i < |s|
    {
      i := i + 1;
    }
    return Some(i);
  }

  /** list_length: count the nodes. */
  method Length<T>(s: seq<T>) returns (n: nat)
    ensures n == |s|
  {
    n := 0;
    while n < |s|
      invariant n <= |s|
    {
      n := n + 1;
    }
  }

  /**
   * list_middle: l2 runs two links for every link of l1, so l1 stops at
   * position (n - 1) / 2 of an n-node list; NULL for an empty list.
   */
  method Middle<T>(s: seq<T>) returns (r: Option<nat>)
    ensures r.None? <==> s == []
    ensures r.Some? ==> r.value == (|s| - 1) / 2 && r.value < |s|
  {
    if s == [] {
      return None;
    }
    var l1, l2 := 0, 1;
    while l2 < |s|
      invariant l2 <= |s|
      invariant l2 == 2 * l1 + 1 || (l2 == 2 * l1 + 2 && l2 == |s|)
      decreases |s| - l2
    {
      l2 := l2 + 1;
      if l2 < |s| {
        l1, l2 := l1 + 1, l2 + 1;
      }
    }
    return Some(l1);
  }

  // ---------------------------------------------------------------------
  // Removal
  // ---------------------------------------------------------------------

  /**
   * list_remove: unlink the first node holding x, if any; every other
   * element keeps its place.
   */
  method Remove<T(==)>(s: seq<T>, x: T) returns (r: seq<T>)
    ensures IndexOf(s, x).None? ==> r == s
    ensures IndexOf(s, x).Some? ==> var i := IndexOf(s, x).value; r == s[..i] + s[i + 1..]
    ensures multiset(r) == if x in s then multiset(s) - multiset{x} else multiset(s)
  {
    var i := Find(s, x);
    if i.None? {
      return s;
    }
    var k := i.value;
    assert s == s[..k] + [s[k]] + s[k + 1..];
    r := s[..k] + s[k + 1..];
  }

  /** The list without any element equal to x, the rest in order. */
  function Without<T(==)>(s: seq<T>, x: T): (r: seq<T>)
    ensures |r| <= |s|
  {
    if s == [] then [] else (if s[0] == x then [] else [s[0]]) + Without(s[1..], x)
  }

  lemma {:induction false} WithoutAppend<T>(a: seq<T>, b: seq<T>, x: T)
    ensures Without(a + b, x) == Without(a, x) + Without(b, x)
    decreases |a|
  {
    if a != [] {
      assert (a + b)[1..] == a[1..] + b;
      WithoutAppend(a[1..], b, x);
    } else {
      assert a + b == b;
    }
  }

  /** Without drops every copy of x and keeps every other element, as many times as before. */
  lemma {:induction false} WithoutContents<T>(s: seq<T>, x: T)
    ensures x !in Without(s, x)
    ensures multiset(Without(s, x)) == multiset(s)[x := 0]
    decreases |s|
  {
    if s != [] {
      WithoutContents(s[1..], x);
      assert s == [s[0]] + s[1..];
      assert multiset(s) == multiset{s[0]} + multiset(s[1..]);
    }
  }

  /**
   * list_remove_all: walk the list once, unlinking every node holding x; the
   * kept nodes stay in order.
   */
  method RemoveAll<T(==)>(s: seq<T>, x: T) returns (r: seq<T>)
    ensures r == Without(s, x)
  {
    r := [];
    var i := 0;
    while i < |s|
      invariant 0 <= i <= |s| && r == Without(s[..i], x)
    {
      WithoutAppend(s[..i], [s[i]], x);
      assert s[..i + 1] == s[..i] + [s[i]];
      if s[i] != x {
        r := r + [s[i]];
      }
      i := i + 1;
    }
    assert s[..i] == s;
  }

  // ---------------------------------------------------------------------
  // Merge sort
  // ---------------------------------------------------------------------

  /** The key of an int list: the value itself. */
  function Id(x: int): int { x }

  /** Ascending under key. */
  predicate Sorted<T>(s: seq<T>, key: T -> int)
  {
    forall i, j | 0 <= i < j < |s| :: key(s[i]) <= key(s[j])
  }

  /** Every element's key is at least lo. */
  predicate AtLeast<T>(s: seq<T>, lo: int, key: T -> int)
  {
    forall i | 0 <= i < |s| :: lo <= key(s[i])
  }

  /**
   * __list_sort_merge: take the head of l1 while it compares <= the head of
   * l2. The merge takes every node of both lists, each once.
   */
  function Merge<T>(a: seq<T>, b: seq<T>, key: T -> int): (r: seq<T>)
    ensures |r| == |a| + |b|
    ensures multiset(r) == multiset(a) + multiset(b)
    decreases |a| + |b|
  {
    if a == [] then b
    else if b == [] then a
    else if key(a[0]) <= key(b[0]) then
      assert a == [a[0]] + a[1..];
      [a[0]] + Merge(a[1..], b, key)
    else
      assert b == [b[0]] + b[1..];
      [b[0]] + Merge(a, b[1..], key)
  }

  /** A lower bound on both inputs' keys bounds the merge's. */
  lemma {:induction false} MergeAtLeast<T>(a: seq<T>, b: seq<T>, lo: int, key: T -> int)
    requires AtLeast(a, lo, key) && AtLeast(b, lo, key)
    ensures AtLeast(Merge(a, b, key), lo, key)
    decreases |a| + |b|
  {
    if a != [] && b != [] {
      if key(a[0]) <= key(b[0]) {
        MergeAtLeast(a[1..], b, lo, key);
      } else {
        MergeAtLeast(a, b[1..], lo, key);
      }
    }
  }

  /** Merging two ascending lists gives an ascending list. */
  lemma {:induction false} MergeSorted<T>(a: seq<T>, b: seq<T>, key: T -> int)
    requires Sorted(a, key) && Sorted(b, key)
    ensures Sorted(Merge(a, b, key), key)
    decreases |a| + |b|
  {
    if a != [] && b != [] {
      if key(a[0]) <= key(b[0]) {
        MergeSorted(a[1..], b, key);
        assert AtLeast(a[1..], key(a[0]), key) && AtLeast(b, key(a[0]), key);
        MergeAtLeast(a[1..], b, key(a[0]), key);
      } else {
        MergeSorted(a, b[1..], key);
        assert AtLeast(a, key(b[0]), key) && AtLeast(b[1..], key(b[0]), key);
        MergeAtLeast(a, b[1..], key(b[0]), key);
      }
    }
  }

  /**
   * list_sort: a list of 0 or 1 nodes is already sorted; otherwise it is
   * cut after its middle node (position (n - 1) / 2, see Middle), both
   * halves are sorted and merged. The result is a permutation of the list.
   */
  function Sort<T>(s: seq<T>, key: T -> int): (r: seq<T>)
    ensures |r| == |s|
    ensures multiset(r) == multiset(s)
    decreases |s|
  {
    if |s| <= 1 then s
    else
      var m := (|s| - 1) / 2 + 1;
      assert s == s[..m] + s[m..];
      Merge(Sort(s[..m], key), Sort(s[m..], key), key)
  }

  lemma {:induction false} SortSorted<T>(s: seq<T>, key: T -> int)
    ensures Sorted(Sort(s, key), key)
    decreases |s|
  {
    if |s| > 1 {
      var m := (|s| - 1) / 2 + 1;
      SortSorted(s[..m], key);
      SortSorted(s[m..], key);
      MergeSorted(Sort(s[..m], key), Sort(s[m..], key), key);
    }
  }

  /** The elements whose key is k, in list order. */
  function WithKey<T>(s: seq<T>, k: int, key: T -> int): (r: seq<T>)
    ensures |r| <= |s|
  {
    if s == [] then [] else (if key(s[0]) == k then [s[0]] else []) + WithKey(s[1..], k, key)
  }

  lemma {:induction false} WithKeyAppend<T>(a: seq<T>, b: seq<T>, k: int, key: T -> int)
    ensures WithKey(a + b, k, key) == WithKey(a, k, key) + WithKey(b, k, key)
    decreases |a|
  {
    if a != [] {
      assert (a + b)[1..] == a[1..] + b;
      WithKeyAppend(a[1..], b, k, key);
    } else {
      assert a + b == b;
    }
  }

  lemma {:induction false} WithKeyAbove<T>(s: seq<T>, k: int, key: T -> int)
    requires AtLeast(s, k + 1, key)
    ensures WithKey(s, k, key) == []
    decreases |s|
  {
    if s != [] {
      WithKeyAbove(s[1..], k, key);
    }
  }

  /**
   * Merging keeps the order among equal keys: all of them from l1 come
   * first, because ties take the head of l1.
   */
  lemma {:induction false} MergeStable<T>(a: seq<T>, b: seq<T>, k: int, key: T -> int)
    requires Sorted(a, key)
    ensures WithKey(Merge(a, b, key), k, key) == WithKey(a, k, key) + WithKey(b, k, key)
    decreases |a| + |b|
  {
    if a == [] {
      assert WithKey(a, k, key) == [];
    } else if b == [] {
      assert WithKey(b, k, key) == [];
    } else if key(a[0]) <= key(b[0]) {
      assert Sorted(a[1..], key);
      MergeStable(a[1..], b, k, key);
      assert Merge(a, b, key) == [a[0]] + Merge(a[1..], b, key);
      MergeStableLeft(a, b, Merge(a[1..], b, key), k, key);
    } else {
      MergeStable(a, b[1..], k, key);
      assert Merge(a, b, key) == [b[0]] + Merge(a, b[1..], key);
      MergeStableRight(a, b, Merge(a, b[1..], key), k, key);
    }
  }

  /** MergeStable's step when the head of l1 is taken. */
  lemma MergeStableLeft<T>(a: seq<T>, b: seq<T>, m: seq<T>, k: int, key: T -> int)
    requires a != [] && WithKey(m, k, key) == WithKey(a[1..], k, key) + WithKey(b, k, key)
    ensures WithKey([a[0]] + m, k, key) == WithKey(a, k, key) + WithKey(b, k, key)
  {
    WithKeyCons(a[0], m, k, key);
    assert [a[0]] + a[1..] == a;
    WithKeyCons(a[0], a[1..], k, key);
    Assoc(if key(a[0]) == k then [a[0]] else [], WithKey(a[1..], k, key), WithKey(b, k, key));
  }

  /** MergeStable's step when the head of l2 is taken: no element of l1 has its key. */
  lemma MergeStableRight<T>(a: seq<T>, b: seq<T>, m: seq<T>, k: int, key: T -> int)
    requires Sorted(a, key) && a != [] && b != [] && key(a[0]) > key(b[0])
    requires WithKey(m, k, key) == WithKey(a, k, key) + WithKey(b[1..], k, key)
    ensures WithKey([b[0]] + m, k, key) == WithKey(a, k, key) + WithKey(b, k, key)
  {
    WithKeyCons(b[0], m, k, key);
    assert [b[0]] + b[1..] == b;
    WithKeyCons(b[0], b[1..], k, key);
    var rest := WithKey(b[1..], k, key);
    if key(b[0]) == k {
      BelowFirst(a, k, key);
      assert WithKey(m, k, key) == rest;
      assert WithKey(b, k, key) == [b[0]] + rest;
    } else {
      assert WithKey([b[0]] + m, k, key) == WithKey(m, k, key);
      assert WithKey(b, k, key) == rest;
    }
  }

  lemma Assoc<T>(x: seq<T>, y: seq<T>, z: seq<T>)
    ensures x + (y + z) == (x + y) + z
  {
  }

  /** Nothing in an ascending list has a key below its head's. */
  lemma BelowFirst<T>(a: seq<T>, k: int, key: T -> int)
    requires Sorted(a, key) && a != [] && k < key(a[0])
    ensures WithKey(a, k, key) == []
  {
    assert AtLeast(a, k + 1, key) by {
      forall i | 0 <= i < |a| ensures k + 1 <= key(a[i]) {
        if i > 0 {
          assert key(a[0]) <= key(a[i]);
        }
      }
    }
    WithKeyAbove(a, k, key);
  }

  lemma WithKeyCons<T>(x: T, rest: seq<T>, k: int, key: T -> int)
    ensures WithKey([x] + rest, k, key) == (if key(x) == k then [x] else []) + WithKey(rest, k, key)
  {
    assert ([x] + rest)[1..] == rest;
  }

  /** The sort is stable: for each key, the elements with that key keep their relative order. */
  lemma {:induction false} SortStable<T>(s: seq<T>, k: int, key: T -> int)
    ensures WithKey(Sort(s, key), k, key) == WithKey(s, k, key)
    decreases |s|
  {
    if |s| > 1 {
      var m := (|s| - 1) / 2 + 1;
      var a, b := s[..m], s[m..];
      SortHalves(s, m, key);
      assert s == a + b;
      SortStable(a, k, key);
      SortStable(b, k, key);
      SortSorted(a, key);
      MergeStable(Sort(a, key), Sort(b, key), k, key);
      WithKeyAppend(a, b, k, key);
    }
  }

  /** The sort of two or more elements merges the sorts of its halves. */
  lemma SortHalves<T>(s: seq<T>, m: nat, key: T -> int)
    requires |s| > 1 && m == (|s| - 1) / 2 + 1
    ensures Sort(s, key) == Merge(Sort(s[..m], key), Sort(s[m..], key), key)
  {
  }
}

=== FILE: graph.dfy ===
/**
 * The adjacency-list graph of data_structures/graph.c. A vertex keeps its
 * id, its label as `name` (NULL is None) and its edge list from head to tail as the
 * ids of the destination vertices. graph_dfs prints labels in visit order;
 * the model returns that order as a sequence of ids instead.
 */
module Graph {
  import opened Wrappers

  datatype Vertex = Vertex(id: nat, name: Option<string>, edges: seq<nat>)
  datatype Graph = Graph(vertices: seq<Vertex>)

  /** Vertex i has id i and every edge points at a vertex of the graph. */
  predicate Valid(g: Graph)
  {
    forall i | 0 <= i < |g.vertices| ::
      g.vertices[i].id == i && forall e | e in g.vertices[i].edges :: e < |g.vertices|
  }

  /** graph_create: no vertices, size 0. */
  function Create(): (g: Graph)
    ensures Valid(g) && |g.vertices| == 0
  {
    Graph([])
  }

  /** graph_add_vertex: a new vertex with id = old size and no edges; the others are untouched. */
  function AddVertex(g: Graph, name: Option<string>): (r: Graph)
    requires Valid(g)
    ensures Valid(r) && |r.vertices| == |g.vertices| + 1 && r.vertices[..|g.vertices|] == g.vertices
    ensures r.vertices[|g.vertices|] == Vertex(|g.vertices|, name, [])
  {
    Graph(g.vertices + [Vertex(|g.vertices|, name, [])])
  }

  /** graph_add_edge: no-op when an end is out of range; otherwise dst is pushed at the head of src's edges. */
  function AddEdge(g: Graph, src: nat, dst: nat): (r: Graph)
    requires Valid(g)
    ensures Valid(r) && |r.vertices| == |g.vertices|
    ensures src >= |g.vertices| || dst >= |g.vertices| ==> r == g
    ensures src < |g.vertices| && dst < |g.vertices| ==>
      r.vertices[src].edges == [dst] + g.vertices[src].edges
      && forall i | 0 <= i < |g.vertices| && i != src :: r.vertices[i] == g.vertices[i]
  {
    if src >= |g.vertices| || dst >= |g.vertices| then g
    else
      var v := g.vertices[src];
      Graph(g.vertices[src := Vertex(v.id, v.name, [dst] + v.edges)])
  }

  /** The ids 0 .. n-1. */
  function Ids(n: nat): (r: set<nat>)
    ensures forall i: nat :: i in r <==> i < n
  {
    if n == 0 then {}
    else
      var r := Ids(n - 1) + {n - 1};
      r
  }

  /** The ids in a visit order. */
  function Elems(s: seq<nat>): (r: set<nat>)
    ensures forall x :: x in r <==> x in s
  {
    if s == [] then {} else {s[0]} + Elems(s[1..])
  }

  predicate Distinct(s: seq<nat>)
  {
    forall i, j | 0 <= i < j < |s| :: s[i] != s[j]
  }

  /** The edge list of vertex u, empty for an id outside the graph. */
  function Edges(g: Graph, u: nat): seq<nat>
  {
    if u < |g.vertices| then g.vertices[u].edges else []
  }

  /** Position k of the order is the destination of an edge from an earlier position. */
  predicate Before(g: Graph, s: seq<nat>, k: nat)
    requires k < |s|
  {
    exists j | 0 <= j < k :: s[k] in Edges(g, s[j])
  }

  /** Every vertex after the first is the destination of an edge from a vertex visited before it. */
  predicate Reached(g: Graph, s: seq<nat>)
  {
    forall k | 0 < k < |s| :: Before(g, s, k)
  }

  lemma BeforePrefix(g: Graph, a: seq<nat>, b: seq<nat>, k: nat)
    requires 0 < k < |a| && Reached(g, a)
    ensures Before(g, a + b, k)
  {
    assert Before(g, a, k);
    var j :| 0 <= j < k && a[k] in Edges(g, a[j]);
    assert (a + b)[j] == a[j] && (a + b)[k] == a[k];
  }

  lemma BeforeSuffix(g: Graph, a: seq<nat>, b: seq<nat>, k: nat)
    requires k < |b| && Before(g, b, k)
    ensures Before(g, a + b, |a| + k)
  {
    var j :| 0 <= j < k && b[k] in Edges(g, b[j]);
    assert (a + b)[|a| + j] == b[j] && (a + b)[|a| + k] == b[k];
  }

  /**
   * __graph_dfs from v: mark v, then for each edge in list order recurse
   * into a destination not yet marked. The result is the visit order and the
   * marked set.
   */
  function Visit(g: Graph, v: nat, vis: set<nat>): (r: (seq<nat>, set<nat>))
    requires Valid(g) && v < |g.vertices| && v !in vis && vis <= Ids(|g.vertices|)
    ensures |r.0| > 0 && r.0[0] == v && Distinct(r.0)
    ensures forall i | 0 <= i < |r.0| :: r.0[i] < |g.vertices| && r.0[i] !in vis
    ensures r.1 == vis + Elems(r.0)
    ensures r.1 <= Ids(|g.vertices|)
    ensures Reached(g, r.0)
    decreases Ids(|g.vertices|) - vis, 0, 0
  {
    var e := VisitEdges(g, v, g.vertices[v].edges, vis + {v});
    var order := [v] + e.0;
    ReachedCons(g, v, e.0);
    (order, e.1)
  }

  /** The edge loop of __graph_dfs over the remaining edges es of vertex v. */
  function VisitEdges(g: Graph, v: nat, es: seq<nat>, vis: set<nat>): (r: (seq<nat>, set<nat>))
    requires Valid(g) && v < |g.vertices| && vis <= Ids(|g.vertices|)
    requires forall e | e in es :: e in Edges(g, v)
    ensures Distinct(r.0)
    ensures forall i | 0 <= i < |r.0| :: r.0[i] < |g.vertices| && r.0[i] !in vis
    ensures r.1 == vis + Elems(r.0)
    ensures r.1 <= Ids(|g.vertices|)
    ensures forall e | e in es :: e in r.1
    ensures Grows(g, v, r.0)
    decreases Ids(|g.vertices|) - vis, 1, |es|
  {
    if es == [] then ([], vis)
    else if es[0] in vis then VisitEdges(g, v, es[1..], vis)
    else
      assert es[0] in Edges(g, v) && Edges(g, v) == g.vertices[v].edges;
      var a := Visit(g, es[0], vis);
      var b := VisitEdges(g, v, es[1..], a.1);
      Joined(g, v, a.0, b.0, vis, a.1);
      (a.0 + b.0, b.1)
  }

  /** A run of the edge loop: each sub-search starts at an edge of v, or is reached from earlier in the run. */
  predicate Grows(g: Graph, v: nat, s: seq<nat>)
  {
    forall k | 0 <= k < |s| :: s[k] in Edges(g, v) || Before(g, s, k)
  }

  lemma Joined(g: Graph, v: nat, a: seq<nat>, b: seq<nat>, vis: set<nat>, mid: set<nat>)
    requires |a| > 0 && a[0] in Edges(g, v)
    requires forall i | 0 <= i < |a| :: a[i] !in vis
    requires forall i | 0 <= i < |b| :: b[i] !in mid
    requires mid == vis + Elems(a)
    requires Distinct(a) && Distinct(b) && Reached(g, a) && Grows(g, v, b)
    ensures Distinct(a + b) && Grows(g, v, a + b)
  {
    assert forall i | 0 <= i < |a| :: a[i] in mid;
    DistinctJoin(a, b, mid);
    GrowsJoin(g, v, a, b);
  }

  /** A sub-search from an edge of v followed by the rest of the edge loop is still a run of the loop. */
  lemma GrowsJoin(g: Graph, v: nat, a: seq<nat>, b: seq<nat>)
    requires |a| > 0 && a[0] in Edges(g, v) && Reached(g, a) && Grows(g, v, b)
    ensures Grows(g, v, a + b)
  {
    forall k | 0 <= k < |a + b|
      ensures (a + b)[k] in Edges(g, v) || Before(g, a + b, k)
    {
      GrowsAt(g, v, a, b, k);
    }
  }

  lemma GrowsAt(g: Graph, v: nat, a: seq<nat>, b: seq<nat>, k: nat)
    requires |a| > 0 && a[0] in Edges(g, v) && Reached(g, a) && Grows(g, v, b)
    requires k < |a + b|
    ensures (a + b)[k] in Edges(g, v) || Before(g, a + b, k)
  {
    if k < |a| {
      if k > 0 {
        BeforePrefix(g, a, b, k);
      } else {
        assert (a + b)[0] == a[0];
      }
    } else {
      assert (a + b)[k] == b[k - |a|];
      if b[k - |a|] !in Edges(g, v) {
        BeforeSuffix(g, a, b, k - |a|);
      }
    }
  }

  lemma ReachedCons(g: Graph, v: nat, s: seq<nat>)
    requires forall i | 0 <= i < |s| :: s[i] != v
    requires Distinct(s) && Grows(g, v, s)
    ensures Distinct([v] + s) && Reached(g, [v] + s)
  {
    var t := [v] + s;
    DistinctJoin([v], s, {v});
    forall k | 0 < k < |t|
      ensures Before(g, t, k)
    {
      assert t[k] == s[k - 1];
      if t[k] in Edges(g, v) {
        assert t[0] == v;
      } else {
        BeforeSuffix(g, [v], s, k - 1);
      }
    }
  }

  /** The root loop of graph_dfs from id i on: each vertex not yet marked starts a new search. */
  function Roots(g: Graph, i: nat, vis: set<nat>): (r: (seq<nat>, set<nat>))
    requires Valid(g) && i <= |g.vertices| && vis <= Ids(|g.vertices|)
    requires forall k | 0 <= k < i :: k in vis
    ensures Distinct(r.0) && r.1 == Ids(|g.vertices|)
    ensures forall k | 0 <= k < |r.0| :: r.0[k] < |g.vertices| && r.0[k] !in vis
    ensures r.1 == vis + Elems(r.0)
    ensures forall k | 0 <= k < |r.0| :: Before(g, r.0, k) || LeastFresh(r.0, k, vis)
    decreases |g.vertices| - i
  {
    if i == |g.vertices| then ([], vis)
    else if i in vis then Roots(g, i + 1, vis)
    else
      var a := Visit(g, i, vis);
      var b := Roots(g, i + 1, a.1);
      DistinctJoin(a.0, b.0, a.1);
      JoinRoots(g, a.0, b.0, vis, a.1);
      (a.0 + b.0, b.1)
  }

  /** Position k holds the least id that is neither marked beforehand nor earlier in the order: a new root. */
  predicate LeastFresh(s: seq<nat>, k: nat, vis: set<nat>)
    requires k < |s|
  {
    forall m: nat | m < s[k] :: m in vis || m in s[..k]
  }

  lemma JoinRoots(g: Graph, a: seq<nat>, b: seq<nat>, vis: set<nat>, mid: set<nat>)
    requires |a| > 0 && forall m: nat | m < a[0] :: m in vis
    requires Reached(g, a) && mid == vis + Elems(a)
    requires forall k | 0 <= k < |b| :: Before(g, b, k) || LeastFresh(b, k, mid)
    ensures forall k | 0 <= k < |a + b| :: Before(g, a + b, k) || LeastFresh(a + b, k, vis)
  {
    forall k | 0 <= k < |a + b|
      ensures Before(g, a + b, k) || LeastFresh(a + b, k, vis)
    {
      if k >= |a| {
        assert Before(g, b, k - |a|) || LeastFresh(b, k - |a|, mid);
      }
      JoinRootsAt(g, a, b, vis, mid, k);
    }
  }

  lemma JoinRootsAt(g: Graph, a: seq<nat>, b: seq<nat>, vis: set<nat>, mid: set<nat>, k: nat)
    requires |a| > 0 && forall m: nat | m < a[0] :: m in vis
    requires Reached(g, a) && mid == vis + Elems(a)
    requires k < |a + b|
    requires k >= |a| ==> Before(g, b, k - |a|) || LeastFresh(b, k - |a|, mid)
    ensures Before(g, a + b, k) || LeastFresh(a + b, k, vis)
  {
    if k == 0 {
      FreshFirst(a, b, vis);
    } else if k < |a| {
      BeforePrefix(g, a, b, k);
    } else if Before(g, b, k - |a|) {
      BeforeSuffix(g, a, b, k - |a|);
    } else {
      FreshSuffix(a, b, vis, mid, k - |a|);
    }
  }

  /** The first root is least fresh when every smaller id was marked beforehand. */
  lemma FreshFirst(a: seq<nat>, b: seq<nat>, vis: set<nat>)
    requires |a| > 0 && forall m: nat | m < a[0] :: m in vis
    ensures LeastFresh(a + b, 0, vis)
  {
    assert (a + b)[0] == a[0];
  }

  /** A least fresh root of the later searches is a least fresh root of the whole run. */
  lemma FreshSuffix(a: seq<nat>, b: seq<nat>, vis: set<nat>, mid: set<nat>, k: nat)
    requires mid == vis + Elems(a) && k < |b| && LeastFresh(b, k, mid)
    ensures LeastFresh(a + b, |a| + k, vis)
  {
    var s := a + b;
    assert s[|a| + k] == b[k];
    forall m: nat | m < s[|a| + k]
      ensures m in vis || m in s[..|a| + k]
    {
      if m in Elems(a) {
        var j :| 0 <= j < |a| && a[j] == m;
        assert s[..|a| + k][j] == m;
      } else if m !in vis {
        assert m in b[..k];
        var j :| 0 <= j < k && b[j] == m;
        assert s[..|a| + k][|a| + j] == m;
      }
    }
  }

  lemma DistinctJoin(a: seq<nat>, b: seq<nat>, mid: set<nat>)
    requires Distinct(a) && Distinct(b)
    requires forall i | 0 <= i < |a| :: a[i] in mid
    requires forall i | 0 <= i < |b| :: b[i] !in mid
    ensures Distinct(a + b)
  {
    var s := a + b;
    forall i, j | 0 <= i < j < |s|
      ensures s[i] != s[j]
    {
      if i < |a| && j >= |a| {
        assert s[i] in mid && s[j] == b[j - |a|];
      }
    }
  }

  /**
   * graph_dfs: the visit order over all vertices, roots taken in ascending id
   * order. Every vertex is visited exactly once, and each vertex in the order
   * is either reached along an edge from a vertex visited before it or is the
   * least id not yet visited, where a new search starts.
   */
  function Dfs(g: Graph): (order: seq<nat>)
    requires Valid(g)
    ensures forall k | 0 <= k < |order| :: Before(g, order, k) || LeastFresh(order, k, {})
    ensures Distinct(order) && |order| == |g.vertices|
    ensures forall v: nat | v < |g.vertices| :: v in order
    ensures forall k | 0 <= k < |order| :: order[k] < |g.vertices|
  {
    var order := Roots(g, 0, {}).0;
    RootsCover(g, order);
    DistinctCard(order, |g.vertices|);
    order
  }

  /** The searches started from every id reach every vertex. */
  lemma RootsCover(g: Graph, order: seq<nat>)
    requires Valid(g) && order == Roots(g, 0, {}).0
    ensures forall v: nat | v < |g.vertices| :: v in order
  {
    forall v: nat | v < |g.vertices|
      ensures v in order
    {
      assert v in Ids(|g.vertices|);
    }
  }

  /** A sequence of distinct ids that covers 0 .. n-1 and nothing else has length n. */
  lemma DistinctCard(s: seq<nat>, n: nat)
    requires Distinct(s)
    requires forall k | 0 <= k < |s| :: s[k] < n
    requires forall v: nat | v < n :: v in s
    ensures |s| == n
  {
    assert Elems(s) == Ids(n);
    DistinctElems(s);
    IdsCard(n);
  }

  lemma {:induction false} DistinctElems(s: seq<nat>)
    requires Distinct(s)
    ensures |Elems(s)| == |s|
  {
    if s != [] {
      assert Distinct(s[1..]) by {
        forall i, j | 0 <= i < j < |s[1..]|
          ensures s[1..][i] != s[1..][j]
        {
          assert s[1..][i] == s[i + 1] && s[1..][j] == s[j + 1];
        }
      }
      DistinctElems(s[1..]);
      assert s[0] !in Elems(s[1..]);
    }
  }

  lemma {:induction false} IdsCard(n: nat)
    ensures |Ids(n)| == n
  {
    if n > 0 {
      var r := Ids(n - 1);
      IdsCard(n - 1);
      assert n - 1 !in r;
      CardAddFresh(r, n - 1);
      assert Ids(n) == r + {n - 1};
    }
  }

  lemma CardAddFresh(a: set<nat>, x: nat)
    requires x !in a
    ensures |a + {x}| == |a| + 1
  {
  }
}

=== FILE: hash_table.dfy ===
/**
 * The chained hash table of data_structures/hash_table.c: `capacity`
 * buckets, each a linked list of (key, data) elements, new elements pushed
 * at the head, and a size counter. hash_func is a function to naturals and
 * equal_func is key equality. A bucket is modelled as the sequence of its
 * elements from head to tail; NULL data returned for a missing key is None.
 * Every operation reduces the hash modulo capacity, so the code needs
 * capacity > 0 from its callers.
 */
module HashTable {
  import opened Wrappers

  datatype Table<K, D> = Table(buckets: seq<seq<(K, D)>>, size: int, capacity: nat)

  /** The number of elements across a run of buckets. */
  function Count<K, D>(bs: seq<seq<(K, D)>>): (n: nat)
  {
    if bs == [] then 0 else |bs[0]| + Count(bs[1..])
  }

  /** No key appears twice in a bucket. */
  predicate Unique<K(==), D>(b: seq<(K, D)>)
  {
    forall i, j | 0 <= i < j < |b| :: b[i].0 != b[j].0
  }

  /** Where a key lives. */
  function Slot<K>(k: K, hash: K -> nat, capacity: nat): (j: nat)
    requires capacity > 0
    ensures j < capacity
  {
    hash(k) % capacity
  }

  /** Every element sits in its key's bucket, keys are unique, and size counts the elements. */
  predicate Valid<K(==), D>(t: Table<K, D>, hash: K -> nat)
  {
    t.capacity > 0 && |t.buckets| == t.capacity && t.size == Count(t.buckets)
    && (forall j, i | 0 <= j < |t.buckets| && 0 <= i < |t.buckets[j]| :: Slot(t.buckets[j][i].0, hash, t.capacity) == j)
    && (forall j | 0 <= j < |t.buckets| :: Unique(t.buckets[j]))
  }

  /** hash_table_create: capacity empty buckets and size 0. */
  function Create<K(==,!new), D>(capacity: nat, hash: K -> nat): (t: Table<K, D>)
    ensures t.capacity == capacity && t.size == 0
    ensures forall j | 0 <= j < |t.buckets| :: t.buckets[j] == []
    ensures capacity > 0 ==> Valid(t, hash) && forall k :: Get(t, k, hash) == None
  {
    var t := Table(seq(capacity, _ => []), 0, capacity);
    CountEmpty(t.buckets);
    t
  }

  lemma {:induction false} CountEmpty<K, D>(bs: seq<seq<(K, D)>>)
    requires forall j | 0 <= j < |bs| :: bs[j] == []
    ensures Count(bs) == 0
  {
    if bs != [] {
      CountEmpty(bs[1..]);
    }
  }

  /** The data of the first element with key k in a bucket. */
  function Find<K(==,!new), D>(b: seq<(K, D)>, k: K): (r: Option<D>)
    ensures r.None? <==> forall i | 0 <= i < |b| :: b[i].0 != k
    ensures r.Some? ==> exists i | 0 <= i < |b| :: b[i] == (k, r.value)
  {
    if b == [] then None
    else if b[0].0 == k then Some(b[0].1)
    else Find(b[1..], k)
  }

  /**
   * hash_table_get: the data of the first element keyed k in bucket
   * hash(k) % capacity, or NULL when that bucket has none. In a valid table
   * that is a hit exactly when k is anywhere in the table, and the data is
   * that element's.
   */
  function Get<K(==,!new), D>(t: Table<K, D>, k: K, hash: K -> nat): (r: Option<D>)
    requires t.capacity > 0 && |t.buckets| == t.capacity
    ensures var b := t.buckets[Slot(k, hash, t.capacity)];
      (r.None? <==> forall i | 0 <= i < |b| :: b[i].0 != k)
      && (r.Some? ==> exists i | 0 <= i < |b| :: b[i] == (k, r.value))
    ensures Valid(t, hash) ==>
      (r.Some? <==> exists j, i | 0 <= j < |t.buckets| && 0 <= i < |t.buckets[j]| :: t.buckets[j][i].0 == k)
    ensures Valid(t, hash) && r.Some? ==>
      forall j, i | 0 <= j < |t.buckets| && 0 <= i < |t.buckets[j]| && t.buckets[j][i].0 == k :: t.buckets[j][i].1 == r.value
  {
    var r := Find(t.buckets[Slot(k, hash, t.capacity)], k);
    if Valid(t, hash) then
      FindInTable(t, k, hash);
      r
    else r
  }

  /** In a valid table only k's own bucket can hold k, and holds it at most once. */
  lemma FindInTable<K(!new), D>(t: Table<K, D>, k: K, hash: K -> nat)
    requires Valid(t, hash)
    ensures var r := Find(t.buckets[Slot(k, hash, t.capacity)], k);
      (r.Some? <==> exists j, i | 0 <= j < |t.buckets| && 0 <= i < |t.buckets[j]| :: t.buckets[j][i].0 == k)
      && (r.Some? ==> forall j, i | 0 <= j < |t.buckets| && 0 <= i < |t.buckets[j]| && t.buckets[j][i].0 == k :: t.buckets[j][i].1 == r.value)
  {
    var s := Slot(k, hash, t.capacity);
    var b := t.buckets[s];
    var r := Find(b, k);
    forall j, i | 0 <= j < |t.buckets| && 0 <= i < |t.buckets[j]| && t.buckets[j][i].0 == k
      ensures j == s && r.Some? && t.buckets[j][i].1 == r.value
    {
      assert Slot(t.buckets[j][i].0, hash, t.capacity) == j;
      var i' :| 0 <= i' < |b| && b[i'] == (k, r.value);
      assert Unique(b);
    }
    if r.Some? {
      var i' :| 0 <= i' < |b| && b[i'] == (k, r.value);
      assert t.buckets[s][i'].0 == k;
    }
  }

  /** The bucket with the data of the first element keyed k replaced. */
  function Replace<K(==,!new), D>(b: seq<(K, D)>, k: K, d: D): (r: seq<(K, D)>)
    ensures |r| == |b|
    ensures forall i | 0 <= i < |b| :: r[i].0 == b[i].0
    ensures Find(r, k) == if Find(b, k).None? then None else Some(d)
    ensures forall k' | k' != k :: Find(r, k') == Find(b, k')
  {
    if b == [] then []
    else if b[0].0 == k then [(k, d)] + b[1..]
    else [b[0]] + Replace(b[1..], k, d)
  }

  /** The bucket without the first element keyed k. */
  function Unlink<K(==,!new), D>(b: seq<(K, D)>, k: K): (r: seq<(K, D)>)
    ensures |r| == if Find(b, k).None? then |b| else |b| - 1
    ensures forall i | 0 <= i < |r| :: exists i' | 0 <= i' < |b| :: r[i].0 == b[i'].0
  {
    if b == [] then []
    else if b[0].0 == k then b[1..]
    else [b[0]] + Unlink(b[1..], k)
  }

  /** Unlinking leaves a bucket of unique keys without k and with every other key's data. */
  lemma UnlinkFind<K(!new), D>(b: seq<(K, D)>, k: K)
    requires Unique(b)
    ensures Find(Unlink(b, k), k) == None && Unique(Unlink(b, k))
    ensures forall k' | k' != k :: Find(Unlink(b, k), k') == Find(b, k')
  {
    UnlinkUnique(b, k);
    UnlinkGone(b, k);
    forall k' | k' != k
      ensures Find(Unlink(b, k), k') == Find(b, k')
    {
      UnlinkKeeps(b, k, k');
    }
  }

  lemma {:induction false} UnlinkUnique<K(!new), D>(b: seq<(K, D)>, k: K)
    requires Unique(b)
    ensures Unique(Unlink(b, k))
  {
    if b != [] && b[0].0 != k {
      UnlinkUnique(b[1..], k);
      var r := Unlink(b, k);
      assert r == [b[0]] + Unlink(b[1..], k);
      forall i | 0 < i < |r|
        ensures r[i].0 != b[0].0
      {
        var i' :| 0 <= i' < |b[1..]| && r[i].0 == b[1..][i'].0;
      }
    }
  }

  lemma {:induction false} UnlinkGone<K(!new), D>(b: seq<(K, D)>, k: K)
    requires Unique(b)
    ensures Find(Unlink(b, k), k) == None
  {
    if b != [] && b[0].0 != k {
      UnlinkGone(b[1..], k);
      assert Unlink(b, k) == [b[0]] + Unlink(b[1..], k);
    }
  }

  lemma {:induction false} UnlinkKeeps<K(!new), D>(b: seq<(K, D)>, k: K, k': K)
    requires k' != k
    ensures Find(Unlink(b, k), k') == Find(b, k')
  {
    if b != [] && b[0].0 != k {
      UnlinkKeeps(b[1..], k, k');
      assert Unlink(b, k) == [b[0]] + Unlink(b[1..], k);
    }
  }

  lemma {:induction false} CountUpdate<K, D>(bs: seq<seq<(K, D)>>, j: nat, b: seq<(K, D)>)
    requires j < |bs|
    ensures Count(bs[j := b]) == Count(bs) - |bs[j]| + |b|
  {
    if j > 0 {
      CountUpdate(bs[1..], j - 1, b);
      assert bs[j := b][1..] == bs[1..][j - 1 := b];
    }
  }

  /**
   * hash_table_put: when k is present, its data is replaced, the old data is
   * returned and size is unchanged; otherwise (k, d) is pushed at the head of
   * its bucket, size grows by one and NULL is returned. Either way k now maps
   * to d and every other key keeps its data.
   */
  function Put<K(==,!new), D>(t: Table<K, D>, k: K, d: D, hash: K -> nat): (r: (Option<D>, Table<K, D>))
    requires Valid(t, hash)
    ensures Valid(r.1, hash) && r.1.capacity == t.capacity
    ensures r.0 == Get(t, k, hash)
    ensures r.1.size == if r.0.None? then t.size + 1 else t.size
    ensures Get(r.1, k, hash) == Some(d)
    ensures forall k' | k' != k :: Get(r.1, k', hash) == Get(t, k', hash)
  {
    var j := Slot(k, hash, t.capacity);
    var b := t.buckets[j];
    var old_ := Find(b, k);
    var b' := if old_.Some? then Replace(b, k, d) else [(k, d)] + b;
    var r := Table(t.buckets[j := b'], if old_.Some? then t.size else t.size + 1, t.capacity);
    CountUpdate(t.buckets, j, b');
    PutValid(t, k, d, hash, b');
    (old_, r)
  }

  lemma PutValid<K(!new), D>(t: Table<K, D>, k: K, d: D, hash: K -> nat, b': seq<(K, D)>)
    requires Valid(t, hash)
    requires var b := t.buckets[Slot(k, hash, t.capacity)];
      b' == if Find(b, k).Some? then Replace(b, k, d) else [(k, d)] + b
    ensures var j := Slot(k, hash, t.capacity);
      (forall i | 0 <= i < |b'| :: Slot(b'[i].0, hash, t.capacity) == j) && Unique(b')
    ensures forall k' | k' != k :: Find(b', k') == Find(t.buckets[Slot(k, hash, t.capacity)], k')
  {
    var j := Slot(k, hash, t.capacity);
    var b := t.buckets[j];
    if Find(b, k).Some? {
      forall i | 0 <= i < |b'|
        ensures Slot(b'[i].0, hash, t.capacity) == j
      {
        assert b'[i].0 == b[i].0;
      }
    }
  }

  /**
   * hash_table_remove: when k is present, its element is unlinked, its data
   * returned and size shrinks by one; otherwise NULL and nothing changes.
   * Afterwards k is absent and every other key keeps its data.
   */
  function Remove<K(==,!new), D>(t: Table<K, D>, k: K, hash: K -> nat): (r: (Option<D>, Table<K, D>))
    requires Valid(t, hash)
    ensures Valid(r.1, hash) && r.1.capacity == t.capacity
    ensures r.0 == Get(t, k, hash)
    ensures r.0.None? ==> r.1 == t
    ensures r.1.size == if r.0.None? then t.size else t.size - 1
    ensures Get(r.1, k, hash) == None
    ensures forall k' | k' != k :: Get(r.1, k', hash) == Get(t, k', hash)
  {
    var j := Slot(k, hash, t.capacity);
    var b := t.buckets[j];
    var old_ := Find(b, k);
    if old_.None? then (None, t)
    else
      var b' := Unlink(b, k);
      UnlinkFind(b, k);
      CountUpdate(t.buckets, j, b');
      (old_, Table(t.buckets[j := b'], t.size - 1, t.capacity))
  }

  /** get after put finds what was put; remove after put of a new key gives back the table's lookups. */
  lemma PutRemove<K(!new), D>(t: Table<K, D>, k: K, d: D, hash: K -> nat)
    requires Valid(t, hash) && Get(t, k, hash).None?
    ensures var t' := Put(t, k, d, hash).1;
      Remove(t', k, hash).0 == Some(d)
      && Remove(t', k, hash).1.size == t.size
      && forall k' :: Get(Remove(t', k, hash).1, k', hash) == Get(t, k', hash)
  {
  }
}

=== FILE: huffman.dfy ===
/**
 * Huffman coding of a byte stream, as compression/huffman.c does it:
 * count byte frequencies, build the code tree by repeatedly merging the two
 * least frequent trees, give every leaf its root-to-leaf path as code, write
 * a header of (symbol, frequency) entries, then the codes packed most
 * significant bit first. The decoder rebuilds the same tree from the header
 * and walks it bit by bit.
 *
 * The binary heap the source uses is not part of this model: extracting the
 * minimum is "some tree of least frequency", picked by an arbitrary `choose`
 * function, so every property below holds whatever the heap's tie-break is.
 */
module Huffman {
  import opened Wrappers
  import opened Bytes

  const NbCharacters: int := 256
  /** Size of the encoder's output buffer of code characters. */
  const BufSize: int := 1024
  /** Capacity of a node's code field, huff_code[NB_CHARACTERS / 8]. */
  const CodeField: int := 32

  datatype Error =
    | EmptyTree       // no symbol has a non-zero frequency: the heap is empty
    | CodeTooLong     // a code does not fit the 32-character code field
    | TruncatedHeader // the header ends before its last entry
    | NullChild       // the walk steps from a leaf root to a missing child

  /** A Huffman node: leaves carry a symbol, internal nodes always have two children. */
  datatype Tree = Leaf(item: Byte, freq: int) | Node(freq: int, left: Tree, right: Tree)

  /** The picker that stands for the heap: given the trees in the heap, an index. */
  type Chooser = seq<Tree> -> nat

  // ---------------------------------------------------------------------
  // Frequencies
  // ---------------------------------------------------------------------

  /** A frequency table with every entry zero. */
  function ZeroTable(): (freq: seq<int>)
    ensures |freq| == NbCharacters && forall b :: 0 <= b < NbCharacters ==> freq[b] == 0
  {
    seq(NbCharacters, _ => 0)
  }

  /** The frequency table of s: entry b counts the occurrences of byte b. */
  function Histogram(s: seq<Byte>): (freq: seq<int>)
    ensures |freq| == NbCharacters
    ensures forall b: Byte :: freq[b] == multiset(s)[b]
  {
    if s == [] then ZeroTable()
    else
      var h := Histogram(s[..|s| - 1]);
      var last := s[|s| - 1];
      assert s == s[..|s| - 1] + [last];
      h[last := h[last] + 1]
  }

  /** huffman_compute_frequencies: reset the table, then count every byte read. */
  method ComputeFrequencies(s: seq<Byte>) returns (freq: seq<int>)
    ensures |freq| == NbCharacters
    ensures forall b: Byte :: freq[b] == multiset(s)[b]
  {
    freq := ZeroTable();
    var i := 0;
    while i < |s|
      invariant 0 <= i <= |s|
      invariant |freq| == NbCharacters
      invariant forall b: Byte :: freq[b] == multiset(s[..i])[b]
    {
      assert s[..i + 1] == s[..i] + [s[i]];
      freq := freq[s[i] := freq[s[i]] + 1];
      i := i + 1;
    }
    assert s[..|s|] == s;
  }

  /** The sum of the table entries from index i on. */
  function SumFrom(freq: seq<int>, i: nat): int
    requires i <= |freq|
    decreases |freq| - i
  {
    if i == |freq| then 0 else freq[i] + SumFrom(freq, i + 1)
  }

  lemma {:induction false} HistogramSum(s: seq<Byte>)
    ensures SumFrom(Histogram(s), 0) == |s|
  {
    if s != [] {
      var init := s[..|s| - 1];
      var last := s[|s| - 1];
      HistogramSum(init);
      assert s[..|s| - 1] == init;
      assert Histogram(s) == Histogram(init)[last := Histogram(init)[last] + 1];
      SumFromUpdate(Histogram(init), 0, last, 1);
    } else {
      SumFromZeros(Histogram(s), 0);
    }
  }

  lemma {:induction false} SumFromZeros(freq: seq<int>, i: nat)
    requires i <= |freq|
    requires forall j :: i <= j < |freq| ==> freq[j] == 0
    ensures SumFrom(freq, i) == 0
    decreases |freq| - i
  {
    if i < |freq| {
      SumFromZeros(freq, i + 1);
    }
  }

  lemma {:induction false} SumFromUpdate(freq: seq<int>, i: nat, k: nat, d: int)
    requires i <= k < |freq|
    ensures SumFrom(freq[k := freq[k] + d], i) == SumFrom(freq, i) + d
    decreases |freq| - i
  {
    if i < k {
      SumFromUpdate(freq, i + 1, k, d);
    } else {
      SumFromSame(freq, freq[k := freq[k] + d], i + 1);
    }
  }

  lemma {:induction false} SumFromSame(a: seq<int>, b: seq<int>, i: nat)
    requires |a| == |b| && i <= |a|
    requires forall j :: i <= j < |a| ==> a[j] == b[j]
    ensures SumFrom(a, i) == SumFrom(b, i)
    decreases |a| - i
  {
    if i < |a| {
      SumFromSame(a, b, i + 1);
    }
  }

  // ---------------------------------------------------------------------
  // Trees and the pool of trees the heap holds
  // ---------------------------------------------------------------------

  /** How many leaves of t carry symbol x. */
  function Count(t: Tree, x: Byte): nat
  {
    match t
    case Leaf(b, _) => if b == x then 1 else 0
    case Node(_, l, r) => Count(l, x) + Count(r, x)
  }

  function PoolCount(pool: seq<Tree>, x: Byte): nat
  {
    if pool == [] then 0 else Count(pool[0], x) + PoolCount(pool[1..], x)
  }

  function PoolFreq(pool: seq<Tree>): int
  {
    if pool == [] then 0 else pool[0].freq + PoolFreq(pool[1..])
  }

  /** Every internal node's frequency is the sum of its children's. */
  predicate WellWeighted(t: Tree)
  {
    match t
    case Leaf(_, _) => true
    case Node(f, l, r) => f == l.freq + r.freq && WellWeighted(l) && WellWeighted(r)
  }

  /** Every leaf carries the frequency the table gives its symbol. */
  predicate LeavesCarry(t: Tree, freq: seq<int>)
    requires |freq| == NbCharacters
  {
    match t
    case Leaf(b, f) => f == freq[b]
    case Node(_, l, r) => LeavesCarry(l, freq) && LeavesCarry(r, freq)
  }

  lemma PoolAppend(a: seq<Tree>, b: seq<Tree>)
    ensures forall x: Byte :: PoolCount(a + b, x) == PoolCount(a, x) + PoolCount(b, x)
    ensures PoolFreq(a + b) == PoolFreq(a) + PoolFreq(b)
  {
    forall x: Byte
      ensures PoolCount(a + b, x) == PoolCount(a, x) + PoolCount(b, x)
    {
      PoolCountAppend(a, b, x);
    }
    PoolFreqAppend(a, b);
  }

  lemma {:induction false} PoolCountAppend(a: seq<Tree>, b: seq<Tree>, x: Byte)
    ensures PoolCount(a + b, x) == PoolCount(a, x) + PoolCount(b, x)
  {
    if a == [] {
      assert a + b == b;
    } else {
      PoolCountAppend(a[1..], b, x);
      assert (a + b)[1..] == a[1..] + b;
    }
  }

  lemma {:induction false} PoolFreqAppend(a: seq<Tree>, b: seq<Tree>)
    ensures PoolFreq(a + b) == PoolFreq(a) + PoolFreq(b)
  {
    if a == [] {
      assert a + b == b;
    } else {
      PoolFreqAppend(a[1..], b);
      assert (a + b)[1..] == a[1..] + b;
    }
  }

  lemma PoolSingle(t: Tree)
    ensures forall x: Byte :: PoolCount([t], x) == Count(t, x)
    ensures PoolFreq([t]) == t.freq
  {
    assert [t][1..] == [];
  }

  /** The leaves huffman_tree inserts into its heap: one per symbol from i on with a non-zero frequency, in ascending order. */
  function LeavesFrom(freq: seq<int>, i: nat): (pool: seq<Tree>)
    requires |freq| == NbCharacters && i <= NbCharacters
    ensures forall t | t in pool :: t.Leaf? && t.freq == freq[t.item] && freq[t.item] != 0
    ensures forall b: Byte :: PoolCount(pool, b) == if i <= b && freq[b] != 0 then 1 else 0
    ensures PoolFreq(pool) == SumFrom(freq, i)
    decreases NbCharacters - i
  {
    if i == NbCharacters then []
    else
      var rest := LeavesFrom(freq, i + 1);
      if freq[i] != 0 then
        PoolAppend([Leaf(i, freq[i])], rest);
        PoolSingle(Leaf(i, freq[i]));
        [Leaf(i, freq[i])] + rest
      else rest
  }

  predicate IsMinAt(pool: seq<Tree>, i: nat)
    requires i < |pool|
  {
    forall j :: 0 <= j < |pool| ==> pool[i].freq <= pool[j].freq
  }

  /** The first tree of least frequency. */
  function FirstMin(pool: seq<Tree>): (i: nat)
    requires |pool| > 0
    ensures i < |pool| && IsMinAt(pool, i)
  {
    if |pool| == 1 then 0
    else
      var k := FirstMin(pool[1..]) + 1;
      if pool[0].freq <= pool[k].freq then 0 else k
  }

  /**
   * heap_min: the index of a tree of least frequency. Whatever index the
   * picker names is taken when it is such a tree, so every tie-break is a
   * possible behaviour of this function.
   */
  function HeapMin(pool: seq<Tree>, choose: Chooser): (i: nat)
    requires |pool| > 0
    ensures i < |pool| && IsMinAt(pool, i)
    ensures choose(pool) < |pool| && IsMinAt(pool, choose(pool)) ==> i == choose(pool)
  {
    var c := choose(pool);
    if c < |pool| && IsMinAt(pool, c) then c else FirstMin(pool)
  }

  function RemoveAt(pool: seq<Tree>, i: nat): (r: seq<Tree>)
    requires i < |pool|
    ensures |r| == |pool| - 1
    ensures forall t | t in r :: t in pool
  {
    pool[..i] + pool[i + 1..]
  }

  lemma RemoveAtPool(pool: seq<Tree>, i: nat)
    requires i < |pool|
    ensures forall x: Byte :: PoolCount(pool, x) == Count(pool[i], x) + PoolCount(RemoveAt(pool, i), x)
    ensures PoolFreq(pool) == pool[i].freq + PoolFreq(RemoveAt(pool, i))
  {
    var front, back := pool[..i], pool[i + 1..];
    assert pool == front + ([pool[i]] + back);
    forall x: Byte
      ensures PoolCount(pool, x) == Count(pool[i], x) + PoolCount(RemoveAt(pool, i), x)
    {
      PoolCountAppend(front, [pool[i]] + back, x);
      PoolCountAppend([pool[i]], back, x);
      PoolCountAppend(front, back, x);
      assert PoolCount([pool[i]], x) == Count(pool[i], x) by { PoolSingle(pool[i]); }
    }
    PoolFreqAppend(front, [pool[i]] + back);
    PoolFreqAppend([pool[i]], back);
    PoolFreqAppend(front, back);
    PoolSingle(pool[i]);
  }

  /** One turn of huffman_tree's loop: take two least frequent trees out of the heap and put back their parent. */
  function MergeStep(pool: seq<Tree>, choose: Chooser): (next: seq<Tree>)
    requires |pool| >= 2
    ensures |next| == |pool| - 1
  {
    var i := HeapMin(pool, choose);
    var pool1 := RemoveAt(pool, i);
    var j := HeapMin(pool1, choose);
    var pool2 := RemoveAt(pool1, j);
    pool2 + [Node(pool[i].freq + pool1[j].freq, pool[i], pool1[j])]
  }

  /** A merge keeps every leaf and the total frequency; the one new tree is a parent of two old ones. */
  lemma MergeStepPreserves(pool: seq<Tree>, choose: Chooser)
    requires |pool| >= 2
    ensures forall x: Byte :: PoolCount(MergeStep(pool, choose), x) == PoolCount(pool, x)
    ensures PoolFreq(MergeStep(pool, choose)) == PoolFreq(pool)
    ensures forall t | t in MergeStep(pool, choose) ::
      t in pool || (t.Node? && t.freq == t.left.freq + t.right.freq && t.left in pool && t.right in pool)
  {
    var rest, top := MergeStepShape(pool, choose);
    PoolAppend(rest, [top]);
    PoolSingle(top);
  }

  /**
   * One merge step as the pool it leaves behind: the pool without the two
   * trees taken, then the new node over them.
   */
  lemma MergeStepShape(pool: seq<Tree>, choose: Chooser) returns (rest: seq<Tree>, top: Tree)
    requires |pool| >= 2
    ensures MergeStep(pool, choose) == rest + [top]
    ensures top.Node? && top.freq == top.left.freq + top.right.freq && top.left in pool && top.right in pool
    ensures forall t | t in rest :: t in pool
    ensures forall x: Byte :: PoolCount(pool, x) == Count(top, x) + PoolCount(rest, x)
    ensures PoolFreq(pool) == top.freq + PoolFreq(rest)
  {
    var i := HeapMin(pool, choose);
    var pool1 := RemoveAt(pool, i);
    var j := HeapMin(pool1, choose);
    rest := RemoveAt(pool1, j);
    top := Node(pool[i].freq + pool1[j].freq, pool[i], pool1[j]);
    RemoveAtPool(pool, i);
    RemoveAtPool(pool1, j);
    assert pool1[j] in pool1;
  }

  /** The merging loop of huffman_tree: while more than one tree is left, merge. */
  function Combine(pool: seq<Tree>, choose: Chooser): (root: Tree)
    requires |pool| >= 1
    decreases |pool|
  {
    if |pool| == 1 then pool[0] else Combine(MergeStep(pool, choose), choose)
  }

  /** The final tree holds exactly the pool's leaves and its total frequency; it is a node unless the pool had one tree. */
  lemma {:induction false} CombineKeeps(pool: seq<Tree>, choose: Chooser)
    requires |pool| >= 1
    ensures forall x: Byte :: Count(Combine(pool, choose), x) == PoolCount(pool, x)
    ensures Combine(pool, choose).freq == PoolFreq(pool)
    ensures |pool| >= 2 ==> Combine(pool, choose).Node?
    decreases |pool|
  {
    if |pool| == 1 {
      PoolSingle(pool[0]);
      assert pool == [pool[0]];
    } else {
      MergeStepPreserves(pool, choose);
      CombineKeeps(MergeStep(pool, choose), choose);
      if |pool| == 2 {
        var next := MergeStep(pool, choose);
        assert next[0] in next;
      }
    }
  }

  /** Merging builds only nodes whose frequency is their children's sum, and keeps the leaves' frequencies. */
  lemma {:induction false} CombineWeights(pool: seq<Tree>, choose: Chooser, freq: seq<int>)
    requires |pool| >= 1 && |freq| == NbCharacters
    requires forall t | t in pool :: WellWeighted(t) && LeavesCarry(t, freq)
    ensures WellWeighted(Combine(pool, choose)) && LeavesCarry(Combine(pool, choose), freq)
    decreases |pool|
  {
    if |pool| == 1 {
      assert pool[0] in pool;
    } else {
      MergeStepPreserves(pool, choose);
      CombineWeights(MergeStep(pool, choose), choose, freq);
    }
  }

  /**
   * huffman_tree: one leaf per symbol of non-zero frequency, merged into a
   * single tree; no tree at all when every frequency is zero.
   */
  function BuildTree(freq: seq<int>, choose: Chooser): (root: Option<Tree>)
    requires |freq| == NbCharacters
    ensures root.None? <==> forall b: Byte :: freq[b] == 0
    ensures root.Some? ==> forall b: Byte :: Count(root.value, b) == if freq[b] != 0 then 1 else 0
    ensures root.Some? ==> LeavesCarry(root.value, freq) && WellWeighted(root.value)
    ensures root.Some? ==> root.value.freq == SumFrom(freq, 0)
  {
    var pool := LeavesFrom(freq, 0);
    if pool == [] then
      assert forall b: Byte :: freq[b] == 0 by {
        forall b: Byte
          ensures freq[b] == 0
        {
          assert PoolCount(pool, b) == 0;
        }
      }
      None
    else
      CombineKeeps(pool, choose);
      CombineWeights(pool, choose, freq);
      assert pool[0] in pool;
      Some(Combine(pool, choose))
  }

  /** With two or more distinct symbols the root is an internal node; with one it is that symbol's leaf. */
  lemma BuildTreeShape(freq: seq<int>, choose: Chooser, a: Byte, b: Byte)
    requires |freq| == NbCharacters
    requires freq[a] != 0 && freq[b] != 0
    ensures BuildTree(freq, choose).Some?
    ensures a != b ==> BuildTree(freq, choose).value.Node?
    ensures (forall c: Byte :: c != a ==> freq[c] == 0) ==> BuildTree(freq, choose).value == Leaf(a, freq[a])
  {
    var pool := LeavesFrom(freq, 0);
    assert PoolCount(pool, a) == 1;
    CombineKeeps(pool, choose);
    if |pool| == 1 {
      assert pool == [pool[0]];
      PoolSingle(pool[0]);
      assert pool[0] in pool;
      assert pool[0] == Leaf(a, freq[a]);
    } else {
      assert pool[0] in pool && pool[1] in pool;
      assert pool[1..][0] == pool[1];
      assert PoolCount(pool, pool[0].item) >= 1 + Count(pool[1], pool[0].item);
      assert PoolCount(pool, pool[1].item) >= Count(pool[0], pool[1].item) + 1;
    }
  }

  // ---------------------------------------------------------------------
  // Codes
  // ---------------------------------------------------------------------

  function Prefixed(bit: bool, m: map<Byte, seq<bool>>): (r: map<Byte, seq<bool>>)
    ensures r.Keys == m.Keys
    ensures forall b | b in r :: r[b] == [bit] + m[b]
  {
    map b | b in m :: [bit] + m[b]
  }

  /**
   * huffman_tree_build_codes: every leaf symbol gets its root-to-leaf path,
   * false (the character '0') for a left edge and true ('1') for a right
   * edge. A root that is a leaf gets the empty code, so only leaf symbols
   * have codes, and below an internal root every code has an edge.
   */
  function Codes(t: Tree): (codes: map<Byte, seq<bool>>)
    ensures forall b | b in codes :: Count(t, b) > 0
    ensures t.Node? ==> forall b | b in codes :: |codes[b]| >= 1
  {
    match t
    case Leaf(b, _) => map[b := []]
    case Node(_, l, r) => Prefixed(false, Codes(l)) + Prefixed(true, Codes(r))
  }

  /** Exactly the symbols at the leaves get a code. */
  lemma {:induction false} CodesKeys(t: Tree)
    ensures forall b: Byte :: b in Codes(t) <==> Count(t, b) > 0
  {
    match t
    case Leaf(_, _) =>
    case Node(_, l, r) =>
      CodesKeys(l);
      CodesKeys(r);
  }

  predicate IsPrefix(p: seq<bool>, q: seq<bool>)
  {
    |p| <= |q| && q[..|p|] == p
  }

  lemma PrefixHead(x: bool, p: seq<bool>, y: bool, q: seq<bool>)
    requires IsPrefix([x] + p, [y] + q)
    ensures x == y && IsPrefix(p, q)
  {
    assert ([y] + q)[0] == ([x] + p)[0];
    assert q[..|p|] == ([y] + q)[1..|p| + 1];
  }

  /** No code is a prefix of another symbol's code. */
  lemma {:induction false} CodesPrefixFree(t: Tree)
    ensures forall a, b | a in Codes(t) && b in Codes(t) && a != b :: !IsPrefix(Codes(t)[a], Codes(t)[b])
  {
    match t
    case Leaf(_, _) =>
    case Node(_, l, r) =>
      CodesPrefixFree(l);
      CodesPrefixFree(r);
      var cl, cr, m := Codes(l), Codes(r), Codes(t);
      forall a, b | a in m && b in m && a != b
        ensures !IsPrefix(m[a], m[b])
      {
        var xa := a in cr;
        var pa := if xa then cr[a] else cl[a];
        var xb := b in cr;
        var pb := if xb then cr[b] else cl[b];
        assert m[a] == [xa] + pa;
        assert m[b] == [xb] + pb;
        if IsPrefix(m[a], m[b]) {
          PrefixHead(xa, pa, xb, pb);
        }
      }
  }

  /** Following a path of edges from t: false goes left, true goes right; None once a leaf is left behind. */
  function Follow(t: Tree, path: seq<bool>): Option<Tree>
    decreases |path|
  {
    if path == [] then Some(t)
    else match t
      case Leaf(_, _) => None
      case Node(_, l, r) => Follow(if path[0] then r else l, path[1..])
  }

  /** Each code is the path from the root to its symbol's leaf. */
  lemma {:induction false} CodesArePaths(t: Tree, b: Byte)
    requires b in Codes(t)
    ensures Follow(t, Codes(t)[b]).Some?
    ensures Follow(t, Codes(t)[b]).value.Leaf? && Follow(t, Codes(t)[b]).value.item == b
  {
    match t
    case Leaf(_, _) =>
    case Node(_, l, r) =>
      var c := Codes(t)[b];
      if b in Codes(r) {
        CodesArePaths(r, b);
        assert c == [true] + Codes(r)[b];
        assert c[1..] == Codes(r)[b];
      } else {
        CodesArePaths(l, b);
        assert c == [false] + Codes(l)[b];
        assert c[1..] == Codes(l)[b];
      }
  }

  /** A code is never longer than the tree is deep. */
  function Depth(t: Tree): nat
  {
    match t
    case Leaf(_, _) => 0
    case Node(_, l, r) => 1 + (if Depth(l) < Depth(r) then Depth(r) else Depth(l))
  }

  lemma {:induction false} CodeLength(t: Tree, b: Byte)
    requires b in Codes(t)
    ensures |Codes(t)[b]| <= Depth(t)
    ensures t.Node? ==> |Codes(t)[b]| >= 1
  {
    match t
    case Leaf(_, _) =>
    case Node(_, l, r) =>
      if b in Codes(r) {
        CodeLength(r, b);
      } else {
        CodeLength(l, b);
      }
  }

  /** huffman_tree_extract_nodes: the table from each leaf symbol to its leaf. */
  function LeafTable(t: Tree): (nodes: map<Byte, Tree>)
    ensures forall b: Byte :: b in nodes <==> Count(t, b) > 0
    ensures forall b | b in nodes :: nodes[b].Leaf? && nodes[b].item == b
  {
    match t
    case Leaf(b, _) => map[b := t]
    case Node(_, l, r) => LeafTable(l) + LeafTable(r)
  }

  lemma {:induction false} LeafTableCarries(t: Tree, freq: seq<int>)
    requires |freq| == NbCharacters
    requires LeavesCarry(t, freq)
    ensures forall b | b in LeafTable(t) :: LeafTable(t)[b].freq == freq[b]
  {
    match t
    case Leaf(_, _) =>
    case Node(_, l, r) =>
      LeafTableCarries(l, freq);
      LeafTableCarries(r, freq);
  }

  // ---------------------------------------------------------------------
  // Header
  // ---------------------------------------------------------------------

  predicate FitsInt(nodes: map<Byte, Tree>)
  {
    forall b | b in nodes :: -Two31 <= nodes[b].freq < Two31
  }

  /** How many table entries from index i on are present. */
  function CountPresent(nodes: map<Byte, Tree>, i: nat): (n: nat)
    requires i <= NbCharacters
    ensures n <= NbCharacters - i
    decreases NbCharacters - i
  {
    if i == NbCharacters then 0 else (if i in nodes then 1 else 0) + CountPresent(nodes, i + 1)
  }

  /** The (symbol, 4-byte frequency) entries from index i on, in ascending symbol order. */
  function HeaderEntries(nodes: map<Byte, Tree>, i: nat): (h: seq<Byte>)
    requires i <= NbCharacters && FitsInt(nodes)
    ensures |h| == 5 * CountPresent(nodes, i)
    decreases NbCharacters - i
  {
    if i == NbCharacters then []
    else (if i in nodes then [i as Byte] + Int32Bytes(nodes[i].freq) else []) + HeaderEntries(nodes, i + 1)
  }

  /** huffman_write_header: the number of present symbols, then their entries. */
  function WriteHeader(nodes: map<Byte, Tree>): (h: seq<Byte>)
    requires FitsInt(nodes)
    ensures |h| == 4 + 5 * CountPresent(nodes, 0)
    ensures Int32Of(h[..4]) == CountPresent(nodes, 0)
  {
    LE32(CountPresent(nodes, 0)) + HeaderEntries(nodes, 0)
  }

  /** Reading n entries into the table; a later entry for the same symbol overwrites an earlier one. */
  function ReadEntries(data: seq<Byte>, n: int, freq: seq<int>): (r: Result<(seq<int>, seq<Byte>), Error>)
    requires |freq| == NbCharacters
    ensures r.Success? ==> |r.value.0| == NbCharacters
    ensures r.Failure? <==> 0 < n && |data| < 5 * n
    ensures r.Failure? ==> r.error == TruncatedHeader
    ensures r.Success? ==> r.value.1 == data[if n > 0 then 5 * n else 0..]
    decreases if n > 0 then n else 0
  {
    if n <= 0 then Success((freq, data))
    else if |data| < 5 then Failure(TruncatedHeader)
    else ReadEntries(data[5..], n - 1, freq[data[0] := Int32Of(data[1..5])])
  }

  /** huffman_read_header: a table of zeros, then the entries the header announces. */
  function ReadHeader(data: seq<Byte>): (r: Result<(seq<int>, seq<Byte>), Error>)
    ensures r.Success? ==> |r.value.0| == NbCharacters
    ensures r.Failure? <==> |data| < 4 || (Int32Of(data[..4]) > 0 && |data| < 4 + 5 * Int32Of(data[..4]))
    ensures r.Failure? ==> r.error == TruncatedHeader
    ensures r.Success? ==> |r.value.1| <= |data| - 4
  {
    if |data| < 4 then Failure(TruncatedHeader)
    else ReadEntries(data[4..], Int32Of(data[..4]), ZeroTable())
  }

  /** The frequency table a header describes: an entry's frequency, zero for absent symbols. */
  function FreqTable(nodes: map<Byte, Tree>): (freq: seq<int>)
    ensures |freq| == NbCharacters
    ensures forall b: Byte :: freq[b] == if b in nodes then nodes[b].freq else 0
  {
    seq(NbCharacters, (b: int) requires 0 <= b < NbCharacters => if b as Byte in nodes then nodes[b as Byte].freq else 0)
  }

  /** The table after reading the entries below index i. */
  function PartialTable(nodes: map<Byte, Tree>, i: nat): (freq: seq<int>)
    ensures |freq| == NbCharacters
  {
    seq(NbCharacters, (b: int) requires 0 <= b < NbCharacters => if b < i && b as Byte in nodes then nodes[b as Byte].freq else 0)
  }

  lemma PartialTableStep(nodes: map<Byte, Tree>, i: nat)
    requires i < NbCharacters
    ensures i in nodes ==> PartialTable(nodes, i)[i := nodes[i].freq] == PartialTable(nodes, i + 1)
    ensures i !in nodes ==> PartialTable(nodes, i) == PartialTable(nodes, i + 1)
  {
  }

  lemma PartialTableEnds(nodes: map<Byte, Tree>)
    ensures PartialTable(nodes, 0) == ZeroTable()
    ensures PartialTable(nodes, NbCharacters) == FreqTable(nodes)
  {
  }

  lemma HeaderEntriesStep(nodes: map<Byte, Tree>, i: nat, rest: seq<Byte>)
    requires i < NbCharacters && FitsInt(nodes)
    ensures var data := HeaderEntries(nodes, i) + rest;
      var tail := HeaderEntries(nodes, i + 1) + rest;
      if i in nodes then
        |data| >= 5 && data[0] == i && Int32Of(data[1..5]) == nodes[i].freq && data[5..] == tail
      else data == tail
  {
    var data := HeaderEntries(nodes, i) + rest;
    var tail := HeaderEntries(nodes, i + 1) + rest;
    if i in nodes {
      var e := [i as Byte] + Int32Bytes(nodes[i].freq);
      assert data == e + tail;
      assert data[1..5] == Int32Bytes(nodes[i].freq);
    } else {
      assert HeaderEntries(nodes, i) == HeaderEntries(nodes, i + 1);
    }
  }

  lemma {:induction false} ReadEntriesOfHeader(nodes: map<Byte, Tree>, i: nat, rest: seq<Byte>)
    requires i <= NbCharacters && FitsInt(nodes)
    ensures ReadEntries(HeaderEntries(nodes, i) + rest, CountPresent(nodes, i), PartialTable(nodes, i))
         == Success((FreqTable(nodes), rest))
    decreases NbCharacters - i
  {
    if i == NbCharacters {
      assert HeaderEntries(nodes, i) + rest == rest;
      PartialTableEnds(nodes);
    } else {
      var data := HeaderEntries(nodes, i) + rest;
      var tail := HeaderEntries(nodes, i + 1) + rest;
      var n := CountPresent(nodes, i);
      ReadEntriesOfHeader(nodes, i + 1, rest);
      HeaderEntriesStep(nodes, i, rest);
      PartialTableStep(nodes, i);
      if i in nodes {
        assert n == CountPresent(nodes, i + 1) + 1;
        assert ReadEntries(data, n, PartialTable(nodes, i))
            == ReadEntries(data[5..], n - 1, PartialTable(nodes, i)[data[0] := Int32Of(data[1..5])]);
      } else {
        assert n == CountPresent(nodes, i + 1);
      }
    }
  }

  lemma SplitAfter(h: seq<Byte>, e: seq<Byte>, rest: seq<Byte>)
    ensures (h + e + rest)[..|h|] == h
    ensures (h + e + rest)[|h|..] == e + rest
  {
  }

  /** Reading a written header gives back exactly the encoder's frequency table and leaves the payload untouched. */
  lemma HeaderRoundTrip(nodes: map<Byte, Tree>, rest: seq<Byte>)
    requires FitsInt(nodes)
    ensures ReadHeader(WriteHeader(nodes) + rest) == Success((FreqTable(nodes), rest))
  {
    var n := CountPresent(nodes, 0);
    var data := WriteHeader(nodes) + rest;
    SplitAfter(LE32(n), HeaderEntries(nodes, 0), rest);
    Int32OfLE32(n);
    ReadEntriesOfHeader(nodes, 0, rest);
    PartialTableEnds(nodes);
    assert ReadHeader(data) == ReadEntries(data[4..], n, ZeroTable());
  }

  // ---------------------------------------------------------------------
  // Bit packing
  // ---------------------------------------------------------------------

  /** The zero bits that fill the last byte of an n-bit stream. */
  function PadLength(n: nat): nat
  {
    (8 - n % 8) % 8
  }

  lemma PadSmall(n: nat)
    requires 0 < n <= 8
    ensures PadLength(n) == 8 - n
  {
  }

  lemma PadShift(n: nat)
    requires n >= 8
    ensures PadLength(n - 8) == PadLength(n)
  {
    assert (n - 8) % 8 == n % 8;
  }

  /**
   * huffman_write_buffer: code characters packed eight to a byte, the j-th
   * character of a group giving bit 7 - j, the last byte zero-padded.
   */
  function Pack(bits: seq<bool>): (r: seq<Byte>)
    ensures |r| == (|bits| + 7) / 8
    decreases |bits|
  {
    if bits == [] then []
    else if |bits| <= 8 then [ByteOfBits(bits + Zeros(8 - |bits|))]
    else [ByteOfBits(bits[..8])] + Pack(bits[8..])
  }

  /** Reading the packed bytes back bit by bit gives the code string and then the zero padding. */
  lemma {:induction false} UnpackPack(bits: seq<bool>)
    ensures Unpack(Pack(bits)) == bits + Zeros(PadLength(|bits|))
    decreases |bits|
  {
    if bits == [] {
      assert bits + Zeros(0) == bits;
    } else if |bits| <= 8 {
      var b := ByteOfBits(bits + Zeros(8 - |bits|));
      UnpackSingle(b);
      PadSmall(|bits|);
    } else {
      var b := ByteOfBits(bits[..8]);
      var rest := Pack(bits[8..]);
      assert Pack(bits) == [b] + rest;
      UnpackPack(bits[8..]);
      UnpackAppend([b], rest);
      UnpackSingle(b);
      PadShift(|bits|);
      assert bits == bits[..8] + bits[8..];
    }
  }

  lemma {:induction false} PackAppend(a: seq<bool>, b: seq<bool>)
    requires |a| % 8 == 0
    ensures Pack(a + b) == Pack(a) + Pack(b)
    decreases |a|
  {
    if a == [] {
      assert a + b == b;
    } else {
      assert |a| >= 8;
      var ab := a + b;
      assert ab[..8] == a[..8];
      assert ab[8..] == a[8..] + b;
      PackAppend(a[8..], b);
      if |ab| <= 8 {
        assert b == [] && |a| == 8;
        assert ab + Zeros(0) == a;
      } else if |a| == 8 {
        assert a[8..] == [];
        assert a + Zeros(0) == a[..8];
      }
    }
  }

  /**
   * huffman_write_content's output buffer: code characters accumulate in buf
   * and are packed each time BufSize of them are waiting; what is left is
   * packed at the end.
   */
  function Flush(bits: seq<bool>, buf: seq<bool>): (r: seq<Byte>)
    requires |buf| < BufSize
    ensures |r| == (|buf| + |bits| + 7) / 8
    decreases |bits|
  {
    if bits == [] then Pack(buf)
    else
      var buf' := buf + [bits[0]];
      if |buf'| >= BufSize then Pack(buf') + Flush(bits[1..], [])
      else Flush(bits[1..], buf')
  }

  /** Flushing every BufSize characters (a multiple of 8) writes the same bytes as packing the whole code string at once. */
  lemma {:induction false} FlushIsPack(bits: seq<bool>, buf: seq<bool>)
    requires |buf| < BufSize
    ensures Flush(bits, buf) == Pack(buf + bits)
    decreases |bits|
  {
    if bits == [] {
      assert buf + bits == buf;
    } else {
      var buf' := buf + [bits[0]];
      assert buf + bits == buf' + bits[1..];
      if |buf'| >= BufSize {
        FlushIsPack(bits[1..], []);
        assert [] + bits[1..] == bits[1..];
        PackAppend(buf', bits[1..]);
      } else {
        FlushIsPack(bits[1..], buf');
      }
    }
  }

  /** The code characters of s, one symbol after the other. */
  function CodeString(codes: map<Byte, seq<bool>>, s: seq<Byte>): seq<bool>
    requires forall i | 0 <= i < |s| :: s[i] in codes
  {
    if s == [] then [] else codes[s[0]] + CodeString(codes, s[1..])
  }

  // ---------------------------------------------------------------------
  // Encoder and decoder
  // ---------------------------------------------------------------------

  /** Whether every code fits the code field with its terminating NUL. */
  predicate CodesFit(codes: map<Byte, seq<bool>>)
  {
    forall b | b in codes :: |codes[b]| < CodeField
  }

  /** The input has a tree, and every code of that tree fits the code field. */
  predicate Encodable(s: seq<Byte>, choose: Chooser)
  {
    match BuildTree(Histogram(s), choose)
    case None => false
    case Some(root) => CodesFit(Codes(root))
  }

  /**
   * huffman_encode on the bytes of the input file: frequencies, tree, codes,
   * header, then the packed code string.
   */
  function Encode(s: seq<Byte>, choose: Chooser): (r: Result<seq<Byte>, Error>)
    requires |s| < Two31
    ensures s == [] ==> r == Failure(EmptyTree)
    ensures s != [] && r.Failure? ==> r.error == CodeTooLong
    ensures r.Success? <==> Encodable(s, choose)
  {
    var freq := Histogram(s);
    assert s != [] ==> freq[s[0]] != 0;
    match BuildTree(freq, choose)
    case None =>
      Failure(EmptyTree)
    case Some(root) =>
      var codes := Codes(root);
      if !CodesFit(codes) then
        Failure(CodeTooLong)
      else
        EncodeInRange(s, freq, root);
        Success(WriteHeader(LeafTable(root)) + Flush(CodeString(codes, s), []))
  }

  lemma EncodeInRange(s: seq<Byte>, freq: seq<int>, root: Tree)
    requires |s| < Two31
    requires |freq| == NbCharacters && forall b: Byte :: freq[b] == multiset(s)[b]
    requires forall b: Byte :: Count(root, b) == if freq[b] != 0 then 1 else 0
    requires LeavesCarry(root, freq)
    ensures FitsInt(LeafTable(root))
    ensures forall i | 0 <= i < |s| :: s[i] in Codes(root)
  {
    LeafTableCarries(root, freq);
    CodesKeys(root);
    forall b: Byte
      ensures freq[b] <= |s|
    {
      assert multiset(s)[b] <= |multiset(s)|;
    }
    forall i | 0 <= i < |s|
      ensures s[i] in Codes(root)
    {
      assert s[i] in multiset(s);
    }
  }

  function PrependAll(p: seq<Byte>, r: Result<seq<Byte>, Error>): Result<seq<Byte>, Error>
  {
    match r
    case Success(out) => Success(p + out)
    case Failure(e) => Failure(e)
  }

  /**
   * huffman_read_content's walk: a true bit moves right, a false bit left;
   * reaching a leaf emits its symbol and restarts at the root. Stepping out
   * of a leaf (only possible when the root itself is a leaf) dereferences a
   * missing child. From an internal node of an internal root the walk never
   * fails, and it emits at most one symbol per bit.
   */
  function Walk(root: Tree, node: Tree, bits: seq<bool>): (r: Result<seq<Byte>, Error>)
    ensures r.Failure? ==> r.error == NullChild && (node.Leaf? || root.Leaf?)
    ensures r.Success? ==> |r.value| <= |bits|
    decreases |bits|
  {
    if bits == [] then Success([])
    else match node
      case Leaf(_, _) => Failure(NullChild)
      case Node(_, l, r) =>
        var next := if bits[0] then r else l;
        if next.Leaf? then PrependAll([next.item], Walk(root, root, bits[1..]))
        else Walk(root, next, bits[1..])
  }

  /**
   * huffman_decode on the bytes of a compressed file: a header cut short, a
   * header without symbols, or a walk out of a leaf root is an error, and
   * every payload byte decodes to at most eight symbols.
   */
  function Decode(data: seq<Byte>, choose: Chooser): (r: Result<seq<Byte>, Error>)
    ensures |data| < 4 ==> r == Failure(TruncatedHeader)
    ensures r.Failure? ==> r.error in {TruncatedHeader, EmptyTree, NullChild}
    ensures r.Success? ==> |r.value| <= 8 * (|data| - 4)
  {
    match ReadHeader(data)
    case Failure(e) => Failure(e)
    case Success((freq, payload)) =>
      match BuildTree(freq, choose)
      case None => Failure(EmptyTree)
      case Some(root) => Walk(root, root, Unpack(payload))
  }

  /** A code from an internal node is the edge to the child holding the symbol, then the child's code. */
  lemma CodeOfNode(t: Tree, b: Byte, rest: seq<bool>)
    requires t.Node? && b in Codes(t)
    ensures var x := b in Codes(t.right);
      var next := if x then t.right else t.left;
      b in Codes(next) && Codes(t)[b] + rest == [x] + (Codes(next)[b] + rest)
  {
    var l, r := Codes(t.left), Codes(t.right);
    assert Codes(t) == Prefixed(false, l) + Prefixed(true, r);
    PrefixedUnion(l, r, b);
    if b in r {
      BitFirst(true, r[b], rest);
    } else {
      BitFirst(false, l[b], rest);
    }
  }

  lemma BitFirst(x: bool, c: seq<bool>, rest: seq<bool>)
    ensures ([x] + c) + rest == [x] + (c + rest)
  {
  }

  /** In the union of the two prefixed tables, a symbol's code is its child's code behind that child's edge. */
  lemma PrefixedUnion(l: map<Byte, seq<bool>>, r: map<Byte, seq<bool>>, b: Byte)
    requires b in Prefixed(false, l) + Prefixed(true, r)
    ensures b in r ==> (Prefixed(false, l) + Prefixed(true, r))[b] == [true] + r[b]
    ensures b !in r ==> b in l && (Prefixed(false, l) + Prefixed(true, r))[b] == [false] + l[b]
  {
  }

  lemma WalkStep(root: Tree, node: Tree, x: bool, bits: seq<bool>)
    requires node.Node?
    ensures Walk(root, node, [x] + bits) ==
      var next := if x then node.right else node.left;
      if next.Leaf? then PrependAll([next.item], Walk(root, root, bits)) else Walk(root, next, bits)
  {
    assert ([x] + bits)[0] == x;
    assert ([x] + bits)[1..] == bits;
  }

  /** Walking a symbol's code from an internal node reaches that symbol and restarts at the root. */
  lemma {:induction false} WalkCode(root: Tree, n: Tree, b: Byte, rest: seq<bool>)
    requires n.Node? && b in Codes(n)
    ensures Walk(root, n, Codes(n)[b] + rest) == PrependAll([b], Walk(root, root, rest))
  {
    var x := b in Codes(n.right);
    var next := if x then n.right else n.left;
    CodeOfNode(n, b, rest);
    var sub := Codes(next)[b];
    WalkStep(root, n, x, sub + rest);
    if next.Leaf? {
      assert sub == [] && next.item == b;
      assert sub + rest == rest;
    } else {
      WalkCode(root, next, b, rest);
    }
  }

  lemma PrependAllNest(p: seq<Byte>, q: seq<Byte>, r: Result<seq<Byte>, Error>)
    ensures PrependAll(p, PrependAll(q, r)) == PrependAll(p + q, r)
    ensures PrependAll([], r) == r
  {
    match r
    case Success(out) =>
      assert p + (q + out) == (p + q) + out;
      assert [] + out == out;
    case Failure(_) =>
  }

  lemma CodeStringCons(codes: map<Byte, seq<bool>>, s: seq<Byte>, rest: seq<bool>)
    requires s != [] && forall i | 0 <= i < |s| :: s[i] in codes
    ensures CodeString(codes, s) + rest == codes[s[0]] + (CodeString(codes, s[1..]) + rest)
  {
  }

  /** Walking the code string of s from the root emits s, then whatever the remaining bits give. */
  lemma {:induction false} WalkCodeString(root: Tree, s: seq<Byte>, rest: seq<bool>)
    requires root.Node?
    requires forall i | 0 <= i < |s| :: s[i] in Codes(root)
    ensures Walk(root, root, CodeString(Codes(root), s) + rest) == PrependAll(s, Walk(root, root, rest))
  {
    var codes := Codes(root);
    if s == [] {
      assert CodeString(codes, s) + rest == rest;
      PrependAllNest([], [], Walk(root, root, rest));
    } else {
      var tail := CodeString(codes, s[1..]) + rest;
      CodeStringCons(codes, s, rest);
      WalkCode(root, root, s[0], tail);
      WalkCodeString(root, s[1..], rest);
      PrependAllNest([s[0]], s[1..], Walk(root, root, rest));
      assert [s[0]] + s[1..] == s;
    }
  }


  /** The header of a tree built from freq describes freq itself. */
  lemma LeafTableFreq(freq: seq<int>, root: Tree)
    requires |freq| == NbCharacters
    requires forall b: Byte :: Count(root, b) == if freq[b] != 0 then 1 else 0
    requires LeavesCarry(root, freq)
    ensures FreqTable(LeafTable(root)) == freq
  {
    LeafTableCarries(root, freq);
    var t := FreqTable(LeafTable(root));
    forall b: Byte
      ensures t[b] == freq[b]
    {
      assert b in LeafTable(root) <==> Count(root, b) > 0;
    }
  }

  /** The decoder rebuilds the encoder's tree from the header and walks it over the payload. */
  lemma DecodeWritten(freq: seq<int>, choose: Chooser, root: Tree, payload: seq<Byte>)
    requires |freq| == NbCharacters
    requires BuildTree(freq, choose) == Some(root)
    requires FitsInt(LeafTable(root))
    ensures Decode(WriteHeader(LeafTable(root)) + payload, choose) == Walk(root, root, Unpack(payload))
  {
    var data := WriteHeader(LeafTable(root)) + payload;
    HeaderRoundTrip(LeafTable(root), payload);
    LeafTableFreq(freq, root);
    assert ReadHeader(data) == Success((freq, payload));
  }

  /** What Encode writes for s and what Decode makes of it: the walk of the encoder's tree over the unpacked code string. */
  lemma EncodedParts(s: seq<Byte>, choose: Chooser) returns (root: Tree)
    requires |s| < Two31 && Encodable(s, choose)
    ensures BuildTree(Histogram(s), choose) == Some(root)
    ensures forall i | 0 <= i < |s| :: s[i] in Codes(root)
    ensures FitsInt(LeafTable(root))
    ensures Encode(s, choose).value == WriteHeader(LeafTable(root)) + Pack(CodeString(Codes(root), s))
    ensures Decode(Encode(s, choose).value, choose) == Walk(root, root, Unpack(Pack(CodeString(Codes(root), s))))
  {
    var freq := Histogram(s);
    root := BuildTree(freq, choose).value;
    EncodeInRange(s, freq, root);
    var bits := CodeString(Codes(root), s);
    FlushIsPack(bits, []);
    assert [] + bits == bits;
    DecodeWritten(freq, choose, root, Pack(bits));
  }

  /**
   * Round trip: with at least two distinct bytes, decoding the encoder's
   * output yields the input followed by at most seven extra symbols decoded
   * from the zero padding of the last byte.
   */
  lemma RoundTrip(s: seq<Byte>, choose: Chooser, i: nat, j: nat)
    requires |s| < Two31
    requires Encodable(s, choose)
    requires i < |s| && j < |s| && s[i] != s[j]
    ensures Decode(Encode(s, choose).value, choose).Success?
    ensures var out := Decode(Encode(s, choose).value, choose).value;
      |s| <= |out| <= |s| + 7 && out[..|s|] == s
  {
    var root := EncodedParts(s, choose);
    assert s[i] in multiset(s) && s[j] in multiset(s);
    BuildTreeShape(Histogram(s), choose, s[i], s[j]);
    var bits := CodeString(Codes(root), s);
    UnpackPack(bits);
    var pad := Zeros(PadLength(|bits|));
    WalkCodeString(root, s, pad);
    var extra := Walk(root, root, pad).value;
    assert (s + extra)[..|s|] == s;
  }

  /** With one distinct symbol the tree is that symbol's leaf. */
  lemma SingleSymbolTree(s: seq<Byte>, choose: Chooser)
    requires 0 < |s|
    requires forall i | 0 <= i < |s| :: s[i] == s[0]
    ensures BuildTree(Histogram(s), choose) == Some(Leaf(s[0], Histogram(s)[s[0]]))
  {
    var freq := Histogram(s);
    var a := s[0];
    assert a in multiset(s);
    forall c: Byte | c != a
      ensures freq[c] == 0
    {
      assert c !in s;
    }
    BuildTreeShape(freq, choose, a, a);
  }

  /**
   * One distinct symbol: the root is that symbol's leaf with the empty code,
   * so only the nine header bytes are written and decoding emits nothing.
   */
  lemma SingleSymbol(s: seq<Byte>, choose: Chooser)
    requires 0 < |s| < Two31
    requires forall i | 0 <= i < |s| :: s[i] == s[0]
    ensures Encode(s, choose).Success?
    ensures |Encode(s, choose).value| == 9
    ensures Decode(Encode(s, choose).value, choose) == Success([])
  {
    var root := SingleParts(s, choose);
    SingleOutput(root, s[0]);
  }

  /** What Encode writes and Decode reads back for one distinct symbol, in terms of its leaf. */
  lemma SingleParts(s: seq<Byte>, choose: Chooser) returns (root: Tree)
    requires 0 < |s| < Two31
    requires forall i | 0 <= i < |s| :: s[i] == s[0]
    ensures root == Leaf(s[0], Histogram(s)[s[0]]) && FitsInt(map[s[0] := root])
    ensures Encode(s, choose).Success?
    ensures Encode(s, choose).value == WriteHeader(map[s[0] := root]) + Pack([])
    ensures Decode(Encode(s, choose).value, choose) == Walk(root, root, Unpack(Pack([])))
  {
    var a := s[0];
    SingleSymbolTree(s, choose);
    var leaf := Leaf(a, Histogram(s)[a]);
    assert Codes(leaf) == map[a := []];
    assert CodesFit(Codes(leaf));
    root := EncodedParts(s, choose);
    EmptyCodes(Codes(root), s, a);
    assert LeafTable(root) == map[a := root];
  }

  /** A one-leaf header is nine bytes, and the leaf's empty payload decodes to nothing. */
  lemma SingleOutput(root: Tree, a: Byte)
    requires root.Leaf? && FitsInt(map[a := root])
    ensures |WriteHeader(map[a := root]) + Pack([])| == 9
    ensures Walk(root, root, Unpack(Pack([]))) == Success([])
  {
    CountSingle(map[a := root], a, 0);
  }

  lemma {:induction false} EmptyCodes(codes: map<Byte, seq<bool>>, s: seq<Byte>, a: Byte)
    requires codes == map[a := []]
    requires forall i | 0 <= i < |s| :: s[i] == a
    ensures CodeString(codes, s) == []
  {
    if s != [] {
      EmptyCodes(codes, s[1..], a);
    }
  }

  lemma {:induction false} CountSingle(nodes: map<Byte, Tree>, a: Byte, i: nat)
    requires nodes.Keys == {a} && i <= NbCharacters
    ensures CountPresent(nodes, i) == if i <= a then 1 else 0
    decreases NbCharacters - i
  {
    if i < NbCharacters {
      CountSingle(nodes, a, i + 1);
    }
  }
}

=== FILE: huffman_draft.dfy ===
/**
 * The earlier Huffman draft (huffman.c): it codes a NUL-terminated C string
 * held in memory, builds the same tree as compression/huffman.c, and stores
 * each code as bits packed into 32 int words rather than as characters.
 * Writing the header and the codes is left undone in that draft, so the
 * model stops at the table of leaves and their packed codes.
 *
 * The characters are those before the terminating NUL. Counting indexes the
 * table with the plain `char`, so only characters 1..127 keep the index in
 * range; the model takes that as the caller's obligation.
 */
module HuffmanDraft {
  import opened Wrappers
  import opened Bytes
  import Huffman

  /** Length of the path buffer, int code[NB_CHARACTERS]. */
  const CodeBits: int := 256
  /** Number of words in a node's code field, int huff_code[NB_CHARACTERS / 8]. */
  const CodeWords: int := 32

  /** Bit k of v, counting from the least significant. */
  function Bit(v: nat, k: nat): bool
  {
    if k == 0 then v % 2 == 1 else Bit(v / 2, k - 1)
  }

  lemma {:induction false} BitZero(k: nat)
    ensures !Bit(0, k)
  {
    if k > 0 {
      BitZero(k - 1);
    }
  }

  /** Setting a clear bit k by adding 2^k changes bit k and no other. */
  lemma {:induction false} BitSet(v: nat, k: nat, j: nat)
    requires !Bit(v, k)
    ensures Bit(v + Pow2(k), j) == (j == k || Bit(v, j))
  {
    if k == 0 {
      assert v % 2 == 0;
      if j > 0 {
        assert (v + 1) / 2 == v / 2;
      }
    } else {
      assert Pow2(k) == 2 * Pow2(k - 1);
      assert (v + Pow2(k)) % 2 == v % 2;
      assert (v + Pow2(k)) / 2 == v / 2 + Pow2(k - 1);
      if j > 0 {
        BitSet(v / 2, k - 1, j - 1);
      }
    }
  }

  /**
   * The layout huffman_tree_build_codes gives a leaf's code field: path bit
   * i of a depth-top leaf is bit (top - i - 1) % 8 of word (top - i - 1) / 8,
   * so the last edge is bit 0 of word 0; every other bit is clear.
   */
  ghost predicate StoresPath(words: seq<nat>, path: seq<bool>)
    requires |words| == CodeWords
  {
    forall w, k | 0 <= w < CodeWords && 0 <= k ::
      Bit(words[w], k) == (k < 8 && 8 * w + k < |path| && path[|path| - 1 - (8 * w + k)])
  }

  /** The leaf branch of huffman_tree_build_codes: OR each 1 of the path into its word. */
  method PackPath(path: seq<bool>) returns (words: seq<nat>)
    requires |path| <= CodeBits
    ensures |words| == CodeWords && StoresPath(words, path)
  {
    words := seq(CodeWords, _ => 0);
    var top := |path|;
    forall w, k | 0 <= w < CodeWords && 0 <= k
      ensures !Bit(words[w], k)
    {
      BitZero(k);
    }
    var i := 0;
    while i < top
      invariant 0 <= i <= top
      invariant |words| == CodeWords
      invariant forall w, k | 0 <= w < CodeWords && 0 <= k ::
        Bit(words[w], k) == (k < 8 && 8 * w + k < top && top - 1 - (8 * w + k) < i && path[top - 1 - (8 * w + k)])
    {
      ghost var prev := words;
      var p := top - i - 1;
      var w, k := p / 8, p % 8;
      assert p == 8 * w + k;
      if path[i] {
        words := words[w := words[w] + Pow2(k)];
      }
      forall w', j | 0 <= w' < CodeWords && 0 <= j
        ensures Bit(words[w'], j) == (j < 8 && 8 * w' + j < top && top - 1 - (8 * w' + j) < i + 1 && path[top - 1 - (8 * w' + j)])
      {
        if w' == w && path[i] {
          BitSet(prev[w], k, j);
        }
      }
      i := i + 1;
    }
  }

  /** Reading a path of length top back out of a code field. */
  function ReadPath(words: seq<nat>, top: nat): (path: seq<bool>)
    requires |words| == CodeWords && top <= CodeBits
    ensures |path| == top
  {
    seq(top, (i: int) requires 0 <= i < top => Bit(words[(top - i - 1) / 8], (top - i - 1) % 8))
  }

  /** The code field determines the path: reading it back gives exactly the stored path. */
  lemma ReadStoredPath(words: seq<nat>, path: seq<bool>)
    requires |words| == CodeWords && |path| <= CodeBits
    requires StoresPath(words, path)
    ensures ReadPath(words, |path|) == path
  {
    var top := |path|;
    forall i | 0 <= i < top
      ensures ReadPath(words, top)[i] == path[i]
    {
      var p := top - i - 1;
      assert p == 8 * (p / 8) + p % 8;
    }
  }

  /** The number of leaves of a tree. */
  function LeafCount(t: Huffman.Tree): nat
  {
    match t
    case Leaf(_, _) => 1
    case Node(_, l, r) => LeafCount(l) + LeafCount(r)
  }

  /** A tree is shallower than it has leaves. */
  lemma {:induction false} DepthBelowLeaves(t: Huffman.Tree)
    ensures Huffman.Depth(t) < LeafCount(t)
  {
    match t
    case Leaf(_, _) =>
    case Node(_, l, r) =>
      DepthBelowLeaves(l);
      DepthBelowLeaves(r);
  }

  /** How many leaves carry a symbol from b on. */
  function CountFrom(t: Huffman.Tree, b: nat): nat
    requires b <= 256
    decreases 256 - b
  {
    if b == 256 then 0 else Huffman.Count(t, b) + CountFrom(t, b + 1)
  }

  lemma {:induction false} CountFromNode(l: Huffman.Tree, r: Huffman.Tree, f: int, b: nat)
    requires b <= 256
    ensures CountFrom(Huffman.Node(f, l, r), b) == CountFrom(l, b) + CountFrom(r, b)
    decreases 256 - b
  {
    if b < 256 {
      CountFromNode(l, r, f, b + 1);
    }
  }

  lemma {:induction false} CountFromLeaf(x: Byte, f: int, b: nat)
    requires b <= 256
    ensures CountFrom(Huffman.Leaf(x, f), b) == if b <= x then 1 else 0
    decreases 256 - b
  {
    if b < 256 {
      CountFromLeaf(x, f, b + 1);
    }
  }

  lemma {:induction false} LeafCountIsCount(t: Huffman.Tree)
    ensures LeafCount(t) == CountFrom(t, 0)
  {
    match t
    case Leaf(x, f) => CountFromLeaf(x, f, 0);
    case Node(f, l, r) =>
      LeafCountIsCount(l);
      LeafCountIsCount(r);
      CountFromNode(l, r, f, 0);
  }

  lemma {:induction false} CountFromBound(t: Huffman.Tree, b: nat)
    requires b <= 256
    requires forall x: Byte :: Huffman.Count(t, x) <= 1
    ensures CountFrom(t, b) <= 256 - b
    decreases 256 - b
  {
    if b < 256 {
      CountFromBound(t, b + 1);
    }
  }

  /** The tree of a non-empty string: a code and a leaf for exactly its characters, no code longer than 255 edges. */
  lemma CodesOfString(s: seq<Byte>, choose: Huffman.Chooser)
    requires s != []
    ensures Huffman.BuildTree(Huffman.Histogram(s), choose).Some?
    ensures var root := Huffman.BuildTree(Huffman.Histogram(s), choose).value;
      (forall c: Byte :: c in Huffman.Codes(root) <==> c in s)
      && (forall c: Byte :: c in Huffman.LeafTable(root) <==> c in s)
      && (forall c | c in Huffman.Codes(root) :: |Huffman.Codes(root)[c]| < CodeBits)
  {
    var freq := Huffman.Histogram(s);
    assert freq[s[0]] != 0;
    var root := Huffman.BuildTree(freq, choose).value;
    LeavesOfString(s, freq, root);
    Huffman.CodesKeys(root);
    ShortCodes(root);
  }

  /** The tree built from a string's histogram has a leaf for exactly the string's characters. */
  lemma LeavesOfString(s: seq<Byte>, freq: seq<int>, root: Huffman.Tree)
    requires |freq| == Huffman.NbCharacters && forall b: Byte :: freq[b] == multiset(s)[b]
    requires forall b: Byte :: Huffman.Count(root, b) == if freq[b] != 0 then 1 else 0
    ensures forall c: Byte :: Huffman.Count(root, c) > 0 <==> c in s
  {
    forall c: Byte
      ensures Huffman.Count(root, c) > 0 <==> c in s
    {
      assert c in s <==> c in multiset(s);
    }
  }

  /** A tree with each character at most once gives every code fewer than 256 bits. */
  lemma ShortCodes(root: Huffman.Tree)
    requires forall x: Byte :: Huffman.Count(root, x) <= 1
    ensures forall c | c in Huffman.Codes(root) :: |Huffman.Codes(root)[c]| < CodeBits
  {
    DepthBelowLeaves(root);
    LeafCountIsCount(root);
    CountFromBound(root, 0);
    forall c | c in Huffman.Codes(root)
      ensures |Huffman.Codes(root)[c]| < CodeBits
    {
      Huffman.CodeLength(root, c);
    }
  }

  /** What the draft huffman_encode holds once its codes are built: the tree, the leaf table and each present character's code field. */
  datatype Coded = Coded(root: Huffman.Tree, nodes: map<Byte, Huffman.Tree>, words: map<Byte, seq<nat>>)

  /** A C string's characters before the NUL, each in 1..127. */
  predicate PlainChars(s: seq<Byte>)
  {
    forall i | 0 <= i < |s| :: 0 < s[i] < 128
  }

  /** huffman_tree_build_codes over the whole tree: the code field of every leaf. */
  method PackAll(codes: map<Byte, seq<bool>>) returns (words: map<Byte, seq<nat>>)
    requires forall c | c in codes :: |codes[c]| < CodeBits
    ensures words.Keys == codes.Keys
    ensures forall c | c in words :: |words[c]| == CodeWords && StoresPath(words[c], codes[c])
  {
    words := map[];
    var b: int := 0;
    while b < 256
      invariant 0 <= b <= 256
      invariant forall c: Byte :: c in words <==> c < b && c in codes
      invariant forall c | c in words :: |words[c]| == CodeWords && StoresPath(words[c], codes[c])
    {
      if b in codes {
        var w := PackPath(codes[b]);
        ghost var prev := words;
        words := words[b := w];
        assert forall c | c in words :: c == b || (c in prev && words[c] == prev[c]);
      }
      b := b + 1;
    }
  }

  /**
   * huffman_encode in the draft: a NULL string or one without characters
   * builds nothing, and so does a failed malloc of the heap or of any node
   * in huffman_tree (`allocOk` says whether every one succeeds); otherwise
   * every character present gets the leaf of the tree built from the counts
   * and its packed path, and no other character has an entry.
   */
  method Encode(s: Option<seq<Byte>>, choose: Huffman.Chooser, allocOk: bool) returns (r: Option<Coded>)
    requires s.Some? ==> PlainChars(s.value)
    ensures r.None? <==> s.None? || s.value == [] || !allocOk
    ensures r.Some? ==> r.value.root == Huffman.BuildTree(Huffman.Histogram(s.value), choose).value
    ensures r.Some? ==> r.value.nodes == Huffman.LeafTable(r.value.root)
    ensures r.Some? ==> forall c: Byte :: c in r.value.nodes <==> c in s.value
    ensures r.Some? ==> forall c: Byte :: c in r.value.words <==> c in s.value
    ensures r.Some? ==> forall c | c in r.value.words ::
      c in Huffman.Codes(r.value.root) && |r.value.words[c]| == CodeWords
      && StoresPath(r.value.words[c], Huffman.Codes(r.value.root)[c])
  {
    if s.None? {
      return None;
    }
    var str := s.value;
    if str == [] {
      assert Huffman.Histogram(str) == Huffman.ZeroTable();
      return None;
    }
    if !allocOk {
      return None;
    }
    var root := Huffman.BuildTree(Huffman.Histogram(str), choose).value;
    CodesOfString(str, choose);
    var words := PackAll(Huffman.Codes(root));
    r := Some(Coded(root, Huffman.LeafTable(root), words));
  }
}

=== FILE: lz77.dfy ===
/**
 * LZ77 with a 100-byte sliding window and a 120-byte look-ahead, as
 * compression/lz77.c does it. The first window of input is written as is;
 * then each step searches the window for the longest prefix of the
 * look-ahead and writes a triple (offset, length, next byte), offset being
 * counted back from the end of the window. The decoder replays the triples
 * against its own copy of the window.
 *
 * The encoder's 220-byte buffer is modelled by its live part buf[0..buf_size):
 * bytes behind buf_size are stale and the encoder never reads them.
 */
module Lz77 {
  import opened Wrappers
  import opened Bytes

  const WindowSize: int := 100
  const LookAheadSize: int := 120
  const BufferSize: int := 220

  datatype Error =
    | TooShort  // the input does not fill the first buffer
    | BadTriple // a triple's copy would read or write outside the window

  function Min(a: int, b: int): int
  {
    if a <= b then a else b
  }

  // ---------------------------------------------------------------------
  // Matching
  // ---------------------------------------------------------------------

  /** Whether window[i..i+len) spells s[0..len). */
  predicate MatchesAt(window: seq<Byte>, s: seq<Byte>, i: int, len: int)
    requires 0 <= i && 0 <= len && i + len <= |window| && len <= |s|
  {
    window[i..i + len] == s[..len]
  }

  /** The scan of lz77_match from start position i on. */
  function MatchFrom(window: seq<Byte>, s: seq<Byte>, len: int, i: nat): (r: int)
    requires |window| == WindowSize && 0 <= len <= |s|
    ensures r == -1 || (i <= r < WindowSize - len && MatchesAt(window, s, r, len))
    ensures forall j | i <= j < (if r == -1 then WindowSize - len else r) :: !MatchesAt(window, s, j, len)
    decreases WindowSize - i
  {
    if i >= WindowSize - len then -1
    else if window[i..i + len] == s[..len] then i
    else MatchFrom(window, s, len, i + 1)
  }

  /**
   * lz77_match: the least start i < WINDOW_SIZE - len where the window
   * spells the first len bytes of s, or -1. A match never runs past the end
   * of the window.
   */
  function Match(window: seq<Byte>, s: seq<Byte>, len: int): (r: int)
    requires |window| == WindowSize && 0 <= len <= |s|
    ensures r == -1 || (0 <= r < WindowSize - len && MatchesAt(window, s, r, len))
    ensures forall j | 0 <= j < (if r == -1 then WindowSize - len else r) :: !MatchesAt(window, s, j, len)
  {
    MatchFrom(window, s, len, 0)
  }

  /** A window that does not hold s[0] matches no non-empty prefix of s. */
  lemma NoMatchWithoutFirst(window: seq<Byte>, s: seq<Byte>, len: int)
    requires |window| == WindowSize && 1 <= len <= |s|
    ensures s[0] !in window ==> Match(window, s, len) == -1
  {
    var r := Match(window, s, len);
    if r != -1 {
      assert window[r] == window[r..r + len][0] == s[..len][0] == s[0];
    }
  }

  /**
   * The search loop of lz77_compress: candidate lengths from len down to 1,
   * the first one with a match wins; (0, -1) when none matches.
   */
  function BestMatch(window: seq<Byte>, la: seq<Byte>, len: int): (r: (int, int))
    requires |window| == WindowSize && len < |la|
    ensures r.1 == -1 ==> r.0 == 0 && forall l | 1 <= l <= len :: Match(window, la, l) == -1
    ensures r.1 != -1 ==> 1 <= r.0 <= len && r.1 == Match(window, la, r.0)
    ensures r.1 != -1 ==> forall l | r.0 < l <= len :: Match(window, la, l) == -1
    decreases len
  {
    if len <= 0 then (0, -1)
    else
      var m := Match(window, la, len);
      if m != -1 then (len, m) else BestMatch(window, la, len - 1)
  }

  // ---------------------------------------------------------------------
  // Encoder
  // ---------------------------------------------------------------------

  /** A triple as the decoder can replay it: (0, 0, c), or a copy inside the window. */
  predicate TripleOk(t: seq<Byte>)
    requires |t| == 3
  {
    (t[1] == 0 && t[0] == 0) || (0 < t[1] < t[0] <= WindowSize && t[1] < WindowSize)
  }

  /**
   * One step of lz77_compress on the live buffer: the triple it writes and
   * how many bytes it consumes. The longest match wins; with none the triple
   * is (0, 0, first look-ahead byte).
   */
  function Emit(buf: seq<Byte>): (r: (seq<Byte>, int))
    requires WindowSize < |buf| <= BufferSize
    ensures |r.0| == 3 && TripleOk(r.0)
    ensures r.1 == r.0[1] + 1 && 1 <= r.1 <= |buf| - WindowSize
  {
    var window, la := buf[..WindowSize], buf[WindowSize..];
    var best := BestMatch(window, la, |buf| - WindowSize - 1);
    var len, m := best.0, best.1;
    if m == -1 then ([0, 0, la[0]], 1)
    else ([(WindowSize - m) as Byte, len as Byte, la[len]], len + 1)
  }

  /** Emit takes the longest length with a match in the window. */
  lemma EmitGreedy(buf: seq<Byte>)
    requires WindowSize < |buf| <= BufferSize
    ensures var t := Emit(buf).0; var window, la := buf[..WindowSize], buf[WindowSize..];
      (t[1] > 0 ==> Match(window, la, t[1] as int) == WindowSize - t[0])
      && forall l | t[1] < l <= |buf| - WindowSize - 1 :: Match(window, la, l) == -1
  {
  }

  /** The encoder's buffer between steps: a full window, and nothing unread once the buffer was not refilled completely. */
  predicate BufferShape(buf: seq<Byte>, rest: seq<Byte>)
  {
    WindowSize <= |buf| <= BufferSize && (|buf| < BufferSize ==> rest == [])
  }

  /** Every byte sequence made of whole triples the decoder accepts. */
  predicate Triples(data: seq<Byte>)
    decreases |data|
  {
    |data| % 3 == 0 && (data == [] || (TripleOk(data[..3]) && Triples(data[3..])))
  }

  /**
   * The main loop of lz77_compress: emit a triple, shift the buffer by what
   * it consumed and, while the buffer was full, refill it from the unread
   * input; stop when only the window is left.
   */
  function CompressLoop(buf: seq<Byte>, rest: seq<Byte>): (out: seq<Byte>)
    requires BufferShape(buf, rest)
    ensures Triples(out)
    decreases |buf| + |rest|
  {
    if |buf| <= WindowSize then []
    else
      var e := Emit(buf);
      var k := if |buf| == BufferSize then Min(e.1, |rest|) else 0;
      var tail := CompressLoop(buf[e.1..] + rest[..k], rest[k..]);
      TriplesCons(e.0, tail);
      e.0 + tail
  }

  /** One accepted triple in front of whole triples is whole triples. */
  lemma TriplesCons(e: seq<Byte>, t: seq<Byte>)
    requires |e| == 3 && TripleOk(e) && Triples(t)
    ensures Triples(e + t)
  {
    assert (e + t)[..3] == e && (e + t)[3..] == t;
  }

  /** lz77_compress: inputs shorter than one buffer are refused; otherwise the first window verbatim, then the triples. */
  function Compress(s: seq<Byte>): (r: Result<seq<Byte>, Error>)
    ensures r.Failure? <==> |s| < BufferSize
    ensures r.Success? ==> |r.value| >= WindowSize && r.value[..WindowSize] == s[..WindowSize]
    ensures r.Success? ==> Triples(r.value[WindowSize..])
  {
    if |s| < BufferSize then Failure(TooShort)
    else
      var out := s[..WindowSize] + CompressLoop(s[..BufferSize], s[BufferSize..]);
      assert out[WindowSize..] == CompressLoop(s[..BufferSize], s[BufferSize..]);
      Success(out)
  }

  // ---------------------------------------------------------------------
  // Decoder
  // ---------------------------------------------------------------------

  /**
   * One triple of lz77_uncompress: the bytes it writes and the window after
   * the slide, which is the old window followed by those bytes, cut to the
   * last WINDOW_SIZE. None when the copy would leave the window.
   */
  function DecodeTriple(window: seq<Byte>, t: seq<Byte>): (r: Option<(seq<Byte>, seq<Byte>)>)
    requires |window| == WindowSize && |t| == 3
    ensures TripleOk(t) ==> r.Some?
    ensures r.Some? ==> |r.value.0| == t[1] as int + 1 && |r.value.1| == WindowSize
    ensures r.Some? ==> r.value.1 == (window + r.value.0)[|r.value.0|..]
    ensures r.Some? ==> r.value.0[t[1]] == t[2]
    ensures r.None? <==> 0 < t[1] && !(t[1] <= t[0] as int <= WindowSize && t[1] < WindowSize)
    ensures r.Some? && t[1] > 0 ==>
      r.value.0[..t[1]] == window[WindowSize - t[0] as int..WindowSize - t[0] as int + t[1] as int]
  {
    var offset, len, lit := t[0] as int, t[1] as int, t[2];
    if len == 0 then
      var out := [lit];
      assert (window + out)[1..] == window[1..] + out;
      Some((out, window[1..] + out))
    else if len <= offset <= WindowSize && len < WindowSize then
      var out := window[WindowSize - offset..WindowSize - offset + len] + [lit];
      assert (window + out)[len + 1..] == window[len + 1..] + out;
      Some((out, window[len + 1..] + out))
    else None
  }

  /** The loop of lz77_uncompress: replay whole triples; a trailing partial triple ends decoding silently. */
  function DecodeLoop(window: seq<Byte>, data: seq<Byte>): (r: Result<seq<Byte>, Error>)
    requires |window| == WindowSize
    ensures Triples(data) ==> r.Success?
    decreases |data|
  {
    if |data| < 3 then Success([])
    else
      match DecodeTriple(window, data[..3])
      case None => Failure(BadTriple)
      case Some(step) =>
        match DecodeLoop(step.1, data[3..])
        case Success(more) => Success(step.0 + more)
        case Failure(e) => Failure(e)
  }

  /** lz77_uncompress: the first window is copied as is; a shorter file is copied whole and ends there. */
  function Uncompress(data: seq<Byte>): (r: Result<seq<Byte>, Error>)
    ensures |data| < WindowSize ==> r == Success(data)
    ensures |data| >= WindowSize && r.Success? ==> |r.value| >= WindowSize && r.value[..WindowSize] == data[..WindowSize]
  {
    if |data| < WindowSize then Success(data)
    else
      match DecodeLoop(data[..WindowSize], data[WindowSize..])
      case Success(more) =>
        assert (data[..WindowSize] + more)[..WindowSize] == data[..WindowSize];
        Success(data[..WindowSize] + more)
      case Failure(e) => Failure(e)
  }

  // ---------------------------------------------------------------------
  // Round trip
  // ---------------------------------------------------------------------

  lemma DecodeLiteral(window: seq<Byte>, lit: Byte)
    requires |window| == WindowSize
    ensures DecodeTriple(window, [0, 0, lit]) == Some(([lit], window[1..] + [lit]))
  {
  }

  lemma DecodeCopy(window: seq<Byte>, offset: Byte, len: Byte, lit: Byte)
    requires |window| == WindowSize && 0 < len < offset <= WindowSize
    ensures DecodeTriple(window, [offset, len, lit])
      == Some((window[WindowSize - offset..WindowSize - offset + len] + [lit],
               window[len + 1..] + (window[WindowSize - offset..WindowSize - offset + len] + [lit])))
  {
  }

  /** Replaying an emitted triple against the window yields exactly the bytes it consumed, and the window moves with the buffer. */
  lemma EmitDecodes(buf: seq<Byte>)
    requires WindowSize < |buf| <= BufferSize
    ensures var e := Emit(buf);
      DecodeTriple(buf[..WindowSize], e.0) == Some((buf[WindowSize..WindowSize + e.1], buf[e.1..e.1 + WindowSize]))
  {
    var window, la := buf[..WindowSize], buf[WindowSize..];
    var best := BestMatch(window, la, |buf| - WindowSize - 1);
    var len, m := best.0, best.1;
    if m == -1 {
      assert Emit(buf) == ([0, 0, la[0]], 1);
      LiteralDecodes(buf);
    } else {
      assert Emit(buf) == ([(WindowSize - m) as Byte, len as Byte, la[len]], len + 1);
      CopyDecodes(buf, len, m);
    }
  }

  /** A literal triple for the first look-ahead byte replays that byte. */
  lemma LiteralDecodes(buf: seq<Byte>)
    requires WindowSize < |buf|
    ensures DecodeTriple(buf[..WindowSize], [0, 0, buf[WindowSize]])
      == Some((buf[WindowSize..WindowSize + 1], buf[1..1 + WindowSize]))
  {
    DecodeLiteral(buf[..WindowSize], buf[WindowSize]);
    assert buf[WindowSize..WindowSize + 1] == [buf[WindowSize]];
    Slide(buf, WindowSize, 1);
  }

  /** A copy triple for a match of len bytes at m replays those bytes and the byte after them. */
  lemma CopyDecodes(buf: seq<Byte>, len: int, m: int)
    requires 1 <= len && WindowSize + len < |buf| && 0 <= m < WindowSize - len
    requires MatchesAt(buf[..WindowSize], buf[WindowSize..], m, len)
    ensures DecodeTriple(buf[..WindowSize], [(WindowSize - m) as Byte, len as Byte, buf[WindowSize + len]])
      == Some((buf[WindowSize..WindowSize + len + 1], buf[len + 1..len + 1 + WindowSize]))
  {
    var window, la := buf[..WindowSize], buf[WindowSize..];
    DecodeCopy(window, (WindowSize - m) as Byte, len as Byte, la[len]);
    var copy := window[m..m + len];
    assert copy == la[..len];
    assert buf[WindowSize..WindowSize + len + 1] == copy + [la[len]];
    Slide(buf, WindowSize, len + 1);
  }

  /** A window of w bytes slid forward by n bytes of what follows it. */
  lemma Slide<T>(buf: seq<T>, w: nat, n: nat)
    requires n <= w && w + n <= |buf|
    ensures buf[..w][n..] + buf[w..w + n] == buf[n..n + w]
  {
    assert buf[..w][n..] == buf[n..w];
  }

  /** Decoding a triple followed by more data: the triple's bytes, then what the rest decodes to against the moved window. */
  lemma DecodeLoopCons(window: seq<Byte>, t: seq<Byte>, out: seq<Byte>, window': seq<Byte>, tail: seq<Byte>, more: seq<Byte>)
    requires |window| == WindowSize && |t| == 3
    requires DecodeTriple(window, t) == Some((out, window'))
    requires DecodeLoop(window', tail) == Success(more)
    ensures DecodeLoop(window, t + tail) == Success(out + more)
  {
    assert (t + tail)[..3] == t && (t + tail)[3..] == tail;
  }

  lemma ShiftSplit(buf: seq<Byte>, rest: seq<Byte>, n: int, k: int)
    requires 0 <= n && n + WindowSize <= |buf| && 0 <= k <= |rest|
    ensures buf[WindowSize..WindowSize + n] + ((buf[n..] + rest[..k])[WindowSize..] + rest[k..]) == buf[WindowSize..] + rest
  {
    assert (buf[n..] + rest[..k])[WindowSize..] == buf[n + WindowSize..] + rest[..k];
    assert rest[..k] + rest[k..] == rest;
    assert buf[WindowSize..WindowSize + n] + buf[n + WindowSize..] == buf[WindowSize..];
  }

  lemma {:induction false} LoopRoundTrip(buf: seq<Byte>, rest: seq<Byte>)
    requires BufferShape(buf, rest)
    ensures DecodeLoop(buf[..WindowSize], CompressLoop(buf, rest)) == Success(buf[WindowSize..] + rest)
    decreases |buf| + |rest|
  {
    if |buf| <= WindowSize {
      assert buf[WindowSize..] + rest == [];
    } else {
      var t, n, buf', rest' := LoopStep(buf, rest);
      LoopRoundTrip(buf', rest');
      DecodeLoopCons(buf[..WindowSize], t, buf[WindowSize..WindowSize + n], buf'[..WindowSize],
        CompressLoop(buf', rest'), buf'[WindowSize..] + rest');
    }
  }

  /**
   * One step of the encoder's loop: the triple t it writes, which decodes
   * to the n bytes it consumed, and the buffer and unread input it moves on
   * with, which hold the rest of the input.
   */
  lemma LoopStep(buf: seq<Byte>, rest: seq<Byte>) returns (t: seq<Byte>, n: nat, buf': seq<Byte>, rest': seq<Byte>)
    requires BufferShape(buf, rest) && |buf| > WindowSize
    ensures BufferShape(buf', rest') && |buf'| + |rest'| < |buf| + |rest|
    ensures |t| == 3 && CompressLoop(buf, rest) == t + CompressLoop(buf', rest')
    ensures WindowSize + n <= |buf| && buf'[..WindowSize] == buf[n..n + WindowSize]
    ensures DecodeTriple(buf[..WindowSize], t) == Some((buf[WindowSize..WindowSize + n], buf'[..WindowSize]))
    ensures buf[WindowSize..WindowSize + n] + (buf'[WindowSize..] + rest') == buf[WindowSize..] + rest
  {
    var e := Emit(buf);
    var k := if |buf| == BufferSize then Min(e.1, |rest|) else 0;
    t, n, buf', rest' := e.0, e.1, buf[e.1..] + rest[..k], rest[k..];
    EmitDecodes(buf);
    assert buf'[..WindowSize] == buf[n..n + WindowSize];
    ShiftSplit(buf, rest, n, k);
  }

  /** Round trip: every input of at least one buffer comes back unchanged. */
  lemma RoundTrip(s: seq<Byte>)
    requires |s| >= BufferSize
    ensures Compress(s).Success?
    ensures Uncompress(Compress(s).value) == Success(s)
  {
    var buf, rest := s[..BufferSize], s[BufferSize..];
    var data := CompressedShape(s);
    LoopRoundTrip(buf, rest);
    Rejoin(s, WindowSize, BufferSize);
    UncompressShape(data, s[..WindowSize], buf[WindowSize..] + rest);
  }

  /** What Compress writes on an input of at least one buffer. */
  lemma CompressedShape(s: seq<Byte>) returns (data: seq<Byte>)
    requires |s| >= BufferSize
    ensures Compress(s) == Success(data)
    ensures |data| >= WindowSize && data[..WindowSize] == s[..WindowSize]
    ensures data[WindowSize..] == CompressLoop(s[..BufferSize], s[BufferSize..])
    ensures s[..BufferSize][..WindowSize] == s[..WindowSize]
  {
    data := s[..WindowSize] + CompressLoop(s[..BufferSize], s[BufferSize..]);
  }

  /** Uncompress of a window followed by triples that decode against it. */
  lemma UncompressShape(data: seq<Byte>, window: seq<Byte>, more: seq<Byte>)
    requires |data| >= WindowSize && data[..WindowSize] == window
    requires DecodeLoop(window, data[WindowSize..]) == Success(more)
    ensures Uncompress(data) == Success(window + more)
  {
  }

  /** Cutting a sequence at w inside its first b elements and joining the parts back. */
  lemma Rejoin<T>(s: seq<T>, w: nat, b: nat)
    requires w <= b <= |s|
    ensures s[..w] + (s[..b][w..] + s[b..]) == s
  {
    assert s[..b][w..] == s[w..b];
    assert s[w..b] + s[b..] == s[w..];
  }
}

=== FILE: lz77_draft.dfy ===
/**
 * The earlier LZ77 draft (lz77.c). Same window, look-ahead and triple
 * format as compression/lz77.c, but two things differ:
 *   - the search tries lengths from buf_size down rather than from the
 *     fresh look-ahead length, so a match may run into stale bytes behind
 *     buf_size (lengths of WINDOW_SIZE or more never match);
 *   - the literal of a triple is taken from the window (buf[0], or buf[i]
 *     for a match of length i) instead of from the look-ahead.
 * Because stale bytes are read, the model keeps the whole 220-byte buffer
 * together with buf_size.
 */
module Lz77Draft {
  import opened Wrappers
  import opened Bytes
  import Lz77

  /** lz77_match for any length: one of WINDOW_SIZE or more finds nothing without reading s. */
  function MatchAny(window: seq<Byte>, la: seq<Byte>, len: int): (r: int)
    requires |window| == Lz77.WindowSize && |la| == Lz77.LookAheadSize && 0 <= len
    ensures len < Lz77.WindowSize ==> r == Lz77.Match(window, la, len)
    ensures len >= Lz77.WindowSize ==> r == -1
    ensures r == -1 || (0 <= r < Lz77.WindowSize - len && Lz77.MatchesAt(window, la, r, len))
    ensures forall j | 0 <= j < (if r == -1 then Lz77.WindowSize - len else r) :: !Lz77.MatchesAt(window, la, j, len)
  {
    if len >= Lz77.WindowSize then -1 else Lz77.Match(window, la, len)
  }

  /** The draft's search: lengths from len down to 1, the first with a match wins. */
  function BestMatch(window: seq<Byte>, la: seq<Byte>, len: int): (r: (int, int))
    requires |window| == Lz77.WindowSize && |la| == Lz77.LookAheadSize && 0 <= len
    ensures r.1 == -1 ==> r.0 == 0 && forall l | 1 <= l <= len :: MatchAny(window, la, l) == -1
    ensures r.1 != -1 ==> 1 <= r.0 <= len && r.0 < Lz77.WindowSize && r.1 == Lz77.Match(window, la, r.0)
    ensures r.1 != -1 ==> forall l | r.0 < l <= len :: MatchAny(window, la, l) == -1
    decreases len
  {
    if len == 0 then (0, -1)
    else
      var m := MatchAny(window, la, len);
      if m != -1 then (len, m) else BestMatch(window, la, len - 1)
  }

  /**
   * One step of the draft lz77_compress on the whole buffer: the triple it
   * writes and how many bytes it consumes. Its literal always comes from
   * the window.
   */
  function Emit(buf: seq<Byte>, size: int): (r: (seq<Byte>, int))
    requires |buf| == Lz77.BufferSize && Lz77.WindowSize < size <= Lz77.BufferSize
    ensures |r.0| == 3 && Lz77.TripleOk(r.0)
    ensures r.1 == r.0[1] + 1 && 1 <= r.1 <= Lz77.WindowSize
    ensures r.0[2] in buf[..Lz77.WindowSize]
  {
    var window := buf[..Lz77.WindowSize];
    var best := BestMatch(window, buf[Lz77.WindowSize..], size);
    if best.1 == -1 then
      assert buf[0] == window[0];
      ([0, 0, buf[0]], 1)
    else
      assert buf[best.0] == window[best.0];
      ([(Lz77.WindowSize - best.1) as Byte, best.0 as Byte, buf[best.0]], best.0 + 1)
  }

  /**
   * The buffer after a step that consumed n bytes: the live bytes move down
   * (the bytes behind buf_size keep their old values) and, while the buffer
   * was full, up to n unread bytes land in its last n places.
   */
  function Refill(buf: seq<Byte>, size: int, n: int, rest: seq<Byte>): (r: (seq<Byte>, int, seq<Byte>))
    requires |buf| == Lz77.BufferSize && 1 <= n <= Lz77.WindowSize < size <= Lz77.BufferSize
    ensures |r.0| == Lz77.BufferSize && 0 <= r.1 <= Lz77.BufferSize
    ensures r.0[..size - n] == buf[n..size]
    ensures r.1 + |r.2| < size + |rest|
  {
    var shifted := buf[n..size] + buf[size - n..];
    assert shifted[..size - n] == buf[n..size];
    if size == Lz77.BufferSize then
      var k := Lz77.Min(n, |rest|);
      (shifted[..Lz77.BufferSize - n] + rest[..k] + shifted[Lz77.BufferSize - n + k..], Lz77.BufferSize - n + k, rest[k..])
    else (shifted, size - n, rest)
  }

  /** The draft's main loop: emit a triple and move the buffer on, until only the window is live. */
  function CompressLoop(buf: seq<Byte>, size: int, rest: seq<Byte>): (out: seq<Byte>)
    requires |buf| == Lz77.BufferSize && 0 <= size <= Lz77.BufferSize
    ensures Lz77.Triples(out)
    decreases size + |rest|
  {
    if size <= Lz77.WindowSize then []
    else
      var e := Emit(buf, size);
      var next := Refill(buf, size, e.1, rest);
      var tail := CompressLoop(next.0, next.1, next.2);
      Lz77.TriplesCons(e.0, tail);
      e.0 + tail
  }

  /** The draft lz77_compress: the same refusal of short inputs and the same layout as the finished encoder. */
  function Compress(s: seq<Byte>): (r: Result<seq<Byte>, Lz77.Error>)
    ensures r.Failure? <==> |s| < Lz77.BufferSize
    ensures r.Success? ==> |r.value| >= Lz77.WindowSize && r.value[..Lz77.WindowSize] == s[..Lz77.WindowSize]
    ensures r.Success? ==> Lz77.Triples(r.value[Lz77.WindowSize..])
  {
    if |s| < Lz77.BufferSize then Failure(Lz77.TooShort)
    else
      var out := s[..Lz77.WindowSize] + CompressLoop(s[..Lz77.BufferSize], Lz77.BufferSize, s[Lz77.BufferSize..]);
      assert out[Lz77.WindowSize..] == CompressLoop(s[..Lz77.BufferSize], Lz77.BufferSize, s[Lz77.BufferSize..]);
      Success(out)
  }

  /** When the first look-ahead byte is not in the window, the search finds nothing at any length. */
  lemma {:induction false} NoMatchAtAll(window: seq<Byte>, la: seq<Byte>, len: int)
    requires |window| == Lz77.WindowSize && |la| == Lz77.LookAheadSize && 0 <= len
    requires la[0] !in window
    ensures BestMatch(window, la, len) == (0, -1)
    decreases len
  {
    if len > 0 {
      if len < Lz77.WindowSize {
        Lz77.NoMatchWithoutFirst(window, la, len);
      }
      NoMatchAtAll(window, la, len - 1);
    }
  }

  /** A literal triple first in the data is the first byte decoded. */
  lemma DecodeLeadingLiteral(window: seq<Byte>, c: Byte, tail: seq<Byte>)
    requires |window| == Lz77.WindowSize
    ensures var r := Lz77.DecodeLoop(window, [0, 0, c] + tail);
      r.Success? ==> |r.value| >= 1 && r.value[0] == c
  {
    assert ([0, 0, c] + tail)[..3] == [0, 0, c];
    Lz77.DecodeLiteral(window, c);
  }

  /**
   * The draft does not round trip: on 100 zero bytes followed by 120 bytes
   * of 1, the first look-ahead byte 1 is not in the window, the triple
   * written is (0, 0, buf[0]) = (0, 0, 0), and the decoder puts 0 where the
   * input has 1.
   */
  lemma LiteralFromWindow()
    ensures var s := seq(Lz77.WindowSize, _ => 0 as Byte) + seq(Lz77.LookAheadSize, _ => 1 as Byte);
      Compress(s).Success? && Lz77.Uncompress(Compress(s).value) != Success(s)
  {
    var s := seq(Lz77.WindowSize, _ => 0 as Byte) + seq(Lz77.LookAheadSize, _ => 1 as Byte);
    var buf := s[..Lz77.BufferSize];
    assert buf == s;
    var window := buf[..Lz77.WindowSize];
    assert forall i | 0 <= i < |window| :: window[i] == 0;
    assert buf[Lz77.WindowSize..][0] == 1;
    NoMatchAtAll(window, buf[Lz77.WindowSize..], Lz77.BufferSize);
    assert Emit(buf, Lz77.BufferSize).0 == [0, 0, 0];
    var tail := CompressLoop(buf, Lz77.BufferSize, s[Lz77.BufferSize..]);
    assert tail[..3] == [0, 0, 0];
    assert tail == [0, 0, 0] + tail[3..];
    var data := Compress(s).value;
    assert data[..Lz77.WindowSize] == window && data[Lz77.WindowSize..] == tail;
    DecodeLeadingLiteral(window, 0, tail[3..]);
    var r := Lz77.Uncompress(data);
    if r.Success? {
      assert r.value[Lz77.WindowSize] == 0;
      assert s[Lz77.WindowSize] == 1;
    }
  }
}

=== FILE: lz78.dfy ===
/**
 * LZ78 as compression/lz78.c does it. The dictionary is the trie of
 * data_structures/trie.c with the root at id 0 and every new node at the
 * next id, so ids are the arena positions. The encoder walks the trie along
 * the input; on the first symbol with no child it writes the pair (id of the
 * node reached, symbol), inserts that child and restarts at the root. End of
 * input reaches the trie as the symbol (unsigned char)EOF = 0xFF, and the
 * pair that carries it is the last one. The output is the final id count as
 * a 4-byte int, then each pair as a 4-byte int and one byte.
 *
 * The decoder rebuilds the same trie from the pairs, giving each new node
 * the id the encoder gave it, and writes each pair's phrase (the symbols
 * from the root to the parent) followed by the pair's byte unless it is 0xFF.
 */
module Lz78 {
  import opened Wrappers
  import opened Bytes
  import Trie

  /** The byte EOF becomes when stored as an unsigned char. */
  const Eof: Byte := 0xFF
  /** The decoder's phrase buffer, unsigned char buffer[1024]. */
  const PhraseBuffer: int := 1024

  datatype Pair = Pair(parent: int, c: Byte)

  datatype Error =
    | MissingHeader  // fewer than 4 bytes: no dictionary size
    | BadHeader      // a dictionary size with no room for the root
    | TruncatedPair  // a parent id without its byte
    | BadPair        // a parent id or new id outside the dictionary
    | PhraseTooLong  // a phrase longer than the decoder's buffer

  /** Every node's id is its position: ids are dense in insertion order. */
  predicate Dense(t: seq<Trie.Node>)
  {
    forall k | 0 <= k < |t| :: t[k].id == k
  }

  /** The dictionary both sides start from: the root, symbol 0 and id 0. */
  function Root(): (t: seq<Trie.Node>)
    ensures Trie.Valid(t) && Dense(t) && |t| == 1 && t[0].parent.None?
  {
    Trie.Insert([], None, 0, 0).0
  }

  /** The symbols on the path from the root down to node k, the root's own symbol excluded. */
  function Phrase(t: seq<Trie.Node>, k: int): (p: seq<Byte>)
    requires Trie.Valid(t) && 0 <= k < |t|
    decreases k
  {
    assert Trie.LinksOk(t, k);
    if t[k].parent.None? then [] else Phrase(t, t[k].parent.value) + [t[k].c]
  }

  /** The first node has no parent, so its phrase is empty. */
  lemma PhraseRoot(t: seq<Trie.Node>)
    requires Trie.Valid(t) && |t| > 0
    ensures Phrase(t, 0) == []
  {
    assert Trie.LinksOk(t, 0);
  }

  /** A child's phrase is its parent's phrase and its own symbol. */
  lemma PhraseChild(t: seq<Trie.Node>, k: nat, c: Byte)
    requires Trie.Valid(t) && k < |t|
    requires Trie.Find(t, Some(k), c).Some?
    ensures Phrase(t, Trie.Find(t, Some(k), c).value) == Phrase(t, k) + [c]
  {
  }

  /** Phrases of old nodes survive inserts. */
  lemma {:induction false} PhraseExtends(t: seq<Trie.Node>, t': seq<Trie.Node>, k: int)
    requires Trie.Valid(t) && Trie.Valid(t') && Trie.Extends(t, t') && 0 <= k < |t|
    ensures Phrase(t', k) == Phrase(t, k)
    decreases k
  {
    assert Trie.LinksOk(t, k);
    if t[k].parent.Some? {
      PhraseExtends(t, t', t[k].parent.value);
    }
  }

  lemma ExtendsTrans(a: seq<Trie.Node>, b: seq<Trie.Node>, c: seq<Trie.Node>)
    requires Trie.Extends(a, b) && Trie.Extends(b, c)
    ensures Trie.Extends(a, c)
  {
  }

  // ---------------------------------------------------------------------
  // Encoder
  // ---------------------------------------------------------------------

  /**
   * The loop of lz78_compress from node `node` with input position i: the
   * pairs it writes and the dictionary it leaves. After the input, fgetc
   * keeps returning EOF, seen by the trie as 0xFF.
   */
  function Walk(t: seq<Trie.Node>, node: nat, s: seq<Byte>, i: nat): (r: (seq<Pair>, seq<Trie.Node>))
    requires Trie.Valid(t) && Dense(t) && node < |t| && i <= |s|
    ensures Trie.Valid(r.1) && Dense(r.1) && Trie.Extends(t, r.1)
    ensures |r.1| == |t| + |r.0| && 1 <= |r.0| <= |s| - i + 1
    ensures forall k | 0 <= k < |r.0| :: 0 <= r.0[k].parent < |r.1|
    ensures r.0[|r.0| - 1].c == Eof
    decreases |s| - i, |t| - node
  {
    var c: Byte := if i < |s| then s[i] else Eof;
    var next := Trie.Find(t, Some(node), c);
    if next.Some? then Walk(t, next.value, s, if i < |s| then i + 1 else i)
    else
      var t' := Trie.Insert(t, Some(node), c, |t|).0;
      assert Dense(t');
      Trie.InsertExtends(t, Some(node), c, |t|);
      var pair := Pair(t[node].id, c);
      if i == |s| then ([pair], t')
      else
        var rest := Walk(t', 0, s, i + 1);
        ExtendsTrans(t, t', rest.1);
        ([pair] + rest.0, rest.1)
  }

  /** The pairs lz78_compress writes for s, and its final dictionary. */
  function Parse(s: seq<Byte>): (r: (seq<Pair>, seq<Trie.Node>))
    ensures Trie.Valid(r.1) && Dense(r.1)
    ensures |r.1| == 1 + |r.0| && 1 <= |r.0| <= |s| + 1
    ensures forall k | 0 <= k < |r.0| :: 0 <= r.0[k].parent < |r.1|
    ensures r.0[|r.0| - 1].c == Eof
  {
    Walk(Root(), 0, s, 0)
  }

  /** Every parent id fits a C int. */
  predicate IntIds(pairs: seq<Pair>)
  {
    forall k | 0 <= k < |pairs| :: -Two31 <= pairs[k].parent < Two31
  }

  /** Pairs as written: a 4-byte int id, then one byte. */
  function Serialize(pairs: seq<Pair>): (r: seq<Byte>)
    requires IntIds(pairs)
    ensures |r| == 5 * |pairs|
  {
    if pairs == [] then [] else Int32Bytes(pairs[0].parent) + [pairs[0].c] + Serialize(pairs[1..])
  }

  /**
   * lz78_compress: the id count, one more than the number of pairs, then
   * the pairs. The ids are C ints, so inputs must stay below 2^31 - 2 bytes.
   */
  function Compress(s: seq<Byte>): (r: seq<Byte>)
    requires |s| < Two31 - 2
    ensures |r| == 4 + 5 * |Parse(s).0|
    ensures Int32Of(r[..4]) == |Parse(s).0| + 1
  {
    var p := Parse(s);
    var out := Int32Bytes(|p.1|) + Serialize(p.0);
    assert out[..4] == Int32Bytes(|p.1|);
    out
  }

  // ---------------------------------------------------------------------
  // Decoder
  // ---------------------------------------------------------------------

  /** The decoder's state: its trie, the id-indexed table dict[] of trie nodes, and the next id. */
  datatype State = State(t: seq<Trie.Node>, dict: seq<Option<nat>>, id: int)

  predicate StateOk(st: State)
  {
    Trie.Valid(st.t) && forall k | 0 <= k < |st.dict| :: st.dict[k].Some? ==> st.dict[k].value < |st.t|
  }

  /**
   * The body of lz78_uncompress's loop for the pair (pid, c): insert the
   * child under dict[pid] with the next id, record the child found there at
   * its id, and give back the parent's phrase followed by the byte unless it
   * is 0xFF.
   */
  function Step(st: State, pid: int, c: Byte): (r: Result<(seq<Byte>, State), Error>)
    requires StateOk(st)
    ensures r.Success? ==> StateOk(r.value.1)
    ensures r.Success? ==> |r.value.0| <= PhraseBuffer + 1
    ensures r.Failure? ==> r.error == BadPair || r.error == PhraseTooLong
  {
    if !(0 <= pid < |st.dict|) || st.dict[pid].None? then Failure(BadPair)
    else
      var parent := st.dict[pid].value;
      var t' := Trie.Insert(st.t, Some(parent), c, st.id).0;
      Trie.FindAfterInsert(st.t, parent, c, st.id);
      var node := Trie.Find(t', Some(parent), c).value;
      var nid := t'[node].id;
      var phrase := Phrase(st.t, parent);
      if !(0 <= nid < |st.dict|) then Failure(BadPair)
      else if |phrase| > PhraseBuffer then Failure(PhraseTooLong)
      else Success((phrase + (if c != Eof then [c] else []), State(t', st.dict[nid := Some(node)], st.id + 1)))
  }

  /**
   * The loop of lz78_uncompress; it stops silently when no whole parent id is
   * left, and a parent id without its byte is an error. Each five-byte pair
   * writes at most a whole phrase buffer and one byte.
   */
  function DecodePairs(st: State, data: seq<Byte>): (r: Result<seq<Byte>, Error>)
    requires StateOk(st)
    ensures |data| < 4 ==> r == Success([])
    ensures r.Failure? ==> r.error in {TruncatedPair, BadPair, PhraseTooLong}
    ensures r.Success? ==> |r.value| <= (PhraseBuffer + 1) * (|data| / 5)
    decreases |data|
  {
    if |data| < 4 then Success([])
    else if |data| < 5 then Failure(TruncatedPair)
    else
      match Step(st, Int32Of(data[..4]), data[4])
      case Failure(e) => Failure(e)
      case Success(step) =>
        match DecodePairs(step.1, data[5..])
        case Success(more) => Success(step.0 + more)
        case Failure(e) => Failure(e)
  }

  /** lz78_uncompress: read the dictionary size, make room for that many ids with the root at 0, decode the pairs. */
  function Uncompress(data: seq<Byte>): (r: Result<seq<Byte>, Error>)
    ensures |data| < 4 ==> r == Failure(MissingHeader)
  {
    if |data| < 4 then Failure(MissingHeader)
    else
      var size := Int32Of(data[..4]);
      if size < 1 then Failure(BadHeader)
      else DecodePairs(State(Root(), Table(1, size), 1), data[4..])
  }

  /** dict[] with the ids below n recorded at their own position. */
  function Table(n: nat, size: nat): (d: seq<Option<nat>>)
    requires n <= size
    ensures |d| == size
    ensures forall k | 0 <= k < size :: d[k] == if k < n then Some(k) else None
  {
    seq(size, (k: int) => if k < n then Some(k) else None)
  }

  // ---------------------------------------------------------------------
  // Round trip
  // ---------------------------------------------------------------------

  /** No trie node carries the symbol 0xFF. */
  predicate NoEof(t: seq<Trie.Node>)
  {
    forall k | 0 <= k < |t| :: t[k].c != Eof
  }

  /** Every phrase the decoder will rebuild fits in its buffer. */
  predicate PhrasesFit(pairs: seq<Pair>, t: seq<Trie.Node>)
    requires Trie.Valid(t)
  {
    forall k | 0 <= k < |pairs| :: 0 <= pairs[k].parent < |t| ==> |Phrase(t, pairs[k].parent)| <= PhraseBuffer
  }

  /**
   * The encoder's walk from `node` at position i, over a trie without 0xFF
   * nodes and an input without 0xFF, leaves a dictionary of at most `size`
   * ids and only phrases that fit the decoder's buffer.
   */
  predicate WalkFits(t: seq<Trie.Node>, node: nat, s: seq<Byte>, i: nat, size: nat)
  {
    Trie.Valid(t) && Dense(t) && NoEof(t) && node < |t| && i <= |s| && Eof !in s
    && var w := Walk(t, node, s, i); |w.1| <= size && PhrasesFit(w.0, w.1)
  }

  /** The decoder, started on trie t with ids below |t| recorded in a table of `size`, turns the pairs into out. */
  predicate DecodesTo(t: seq<Trie.Node>, size: nat, pairs: seq<Pair>, out: seq<Byte>)
  {
    |t| <= size && StateOk(State(t, Table(|t|, size), |t|))
    && DecodeList(State(t, Table(|t|, size), |t|), pairs) == Success(out)
  }

  /** The first pair on the wire: its parent as 4 bytes, its byte, then the other pairs. */
  lemma SerializeCons(pairs: seq<Pair>)
    requires pairs != [] && IntIds(pairs)
    ensures var data := Serialize(pairs);
      |data| >= 5 && Int32Of(data[..4]) == pairs[0].parent && data[4] == pairs[0].c
      && IntIds(pairs[1..]) && data[5..] == Serialize(pairs[1..])
  {
    var data := Serialize(pairs);
    assert IntIds(pairs[1..]) by {
      forall k | 0 <= k < |pairs| - 1
        ensures -Two31 <= pairs[1..][k].parent < Two31
      {
        assert pairs[1..][k] == pairs[k + 1];
      }
    }
    assert data == Int32Bytes(pairs[0].parent) + [pairs[0].c] + Serialize(pairs[1..]);
    assert data[..4] == Int32Bytes(pairs[0].parent);
  }

  /** The decoder's loop over pairs already read off the wire. */
  function DecodeList(st: State, pairs: seq<Pair>): (r: Result<seq<Byte>, Error>)
    requires StateOk(st)
    decreases |pairs|
  {
    if pairs == [] then Success([])
    else
      match Step(st, pairs[0].parent, pairs[0].c)
      case Failure(e) => Failure(e)
      case Success(step) =>
        match DecodeList(step.1, pairs[1..])
        case Success(more) => Success(step.0 + more)
        case Failure(e) => Failure(e)
  }

  /** Reading the written pairs back off the wire loses nothing: decoding the bytes is decoding the pairs. */
  lemma {:induction false} SerializedDecodes(st: State, pairs: seq<Pair>)
    requires StateOk(st) && IntIds(pairs)
    ensures DecodePairs(st, Serialize(pairs)) == DecodeList(st, pairs)
    decreases |pairs|
  {
    if pairs != [] {
      SerializeCons(pairs);
      var step := Step(st, pairs[0].parent, pairs[0].c);
      if step.Success? {
        SerializedDecodes(step.value.1, pairs[1..]);
      }
    }
  }

  /** One pair, then the rest, through the pair-level decoder. */
  lemma DecodeListCons(st: State, p: Pair, rest: seq<Pair>, out: seq<Byte>, st': State, more: seq<Byte>)
    requires StateOk(st) && Step(st, p.parent, p.c) == Success((out, st'))
    requires DecodeList(st', rest) == Success(more)
    ensures DecodeList(st, [p] + rest) == Success(out + more)
  {
    assert ([p] + rest)[0] == p && ([p] + rest)[1..] == rest;
  }

  /** The decoder's step on a pair the encoder wrote from node `node` of the same trie. */
  lemma StepOnPair(t: seq<Trie.Node>, node: nat, c: Byte, size: nat)
    requires Trie.Valid(t) && Dense(t) && node < |t| < size
    requires Trie.Find(t, Some(node), c).None?
    requires |Phrase(t, node)| <= PhraseBuffer
    ensures StateOk(State(t, Table(|t|, size), |t|))
    ensures var t' := Trie.Insert(t, Some(node), c, |t|).0;
      Step(State(t, Table(|t|, size), |t|), node, c)
      == Success((Phrase(t, node) + (if c != Eof then [c] else []), State(t', Table(|t'|, size), |t'|)))
  {
    TableOk(t, size);
    var t' := FreshChild(t, node, c);
    StepFromTable(t, node, c, size, t');
  }

  /** StepGrows on the decoder's table over t, where the new child gets the next id. */
  lemma StepFromTable(t: seq<Trie.Node>, node: nat, c: Byte, size: nat, t': seq<Trie.Node>)
    requires node < |t| < size && StateOk(State(t, Table(|t|, size), |t|))
    requires t' == Trie.Insert(t, Some(node), c, |t|).0
    requires |t'| == |t| + 1 && t'[|t|].id == |t| && Trie.Find(t', Some(node), c) == Some(|t|)
    requires |Phrase(t, node)| <= PhraseBuffer
    ensures Step(State(t, Table(|t|, size), |t|), node, c)
      == Success((Phrase(t, node) + (if c != Eof then [c] else []), State(t', Table(|t'|, size), |t'|)))
  {
    StepGrows(State(t, Table(|t|, size), |t|), node, c, node, t', |t|);
    TableGrow(|t|, size);
  }

  /** The decoder's starting table over a valid trie is a well-formed state. */
  lemma TableOk(t: seq<Trie.Node>, size: nat)
    requires Trie.Valid(t) && |t| <= size
    ensures StateOk(State(t, Table(|t|, size), |t|))
  {
  }

  /** Inserting a symbol a node has no child for adds that child at the end, with the next id. */
  lemma FreshChild(t: seq<Trie.Node>, node: nat, c: Byte) returns (t': seq<Trie.Node>)
    requires Trie.Valid(t) && node < |t|
    requires Trie.Find(t, Some(node), c).None?
    ensures t' == Trie.Insert(t, Some(node), c, |t|).0
    ensures |t'| == |t| + 1 && t'[|t|].id == |t| && Trie.Find(t', Some(node), c) == Some(|t|)
  {
    t' := Trie.Insert(t, Some(node), c, |t|).0;
    Trie.FindAfterInsert(t, node, c, |t|);
  }

  /** Step on a recorded parent whose child is found with an id inside the table and whose phrase fits. */
  lemma StepGrows(st: State, pid: int, c: Byte, parent: nat, t': seq<Trie.Node>, node: nat)
    requires StateOk(st) && 0 <= pid < |st.dict| && st.dict[pid] == Some(parent)
    requires t' == Trie.Insert(st.t, Some(parent), c, st.id).0
    requires Trie.Find(t', Some(parent), c) == Some(node) && node < |t'| && 0 <= t'[node].id < |st.dict|
    requires |Phrase(st.t, parent)| <= PhraseBuffer
    ensures Step(st, pid, c) == Success((Phrase(st.t, parent) + (if c != Eof then [c] else []),
      State(t', st.dict[t'[node].id := Some(node)], st.id + 1)))
  {
  }

  /** Recording the next id in the table. */
  lemma TableGrow(n: nat, size: nat)
    requires n < size
    ensures Table(n, size)[n := Some(n)] == Table(n + 1, size)
  {
  }

  /** Decoding a pair the encoder wrote from node `node`, followed by whatever the rest decodes to from the grown trie. */
  lemma InsertCase(t: seq<Trie.Node>, node: nat, c: Byte, size: nat, rest: seq<Pair>, more: seq<Byte>)
    requires Trie.Valid(t) && Dense(t) && node < |t| < size
    requires Trie.Find(t, Some(node), c).None?
    requires |Phrase(t, node)| <= PhraseBuffer
    requires DecodesTo(Trie.Insert(t, Some(node), c, |t|).0, size, rest, more)
    ensures DecodesTo(t, size, [Pair(node, c)] + rest, Phrase(t, node) + (if c != Eof then [c] else []) + more)
  {
    var t' := Trie.Insert(t, Some(node), c, |t|).0;
    StepOnPair(t, node, c, size);
    var out := Phrase(t, node) + (if c != Eof then [c] else []);
    DecodeListCons(State(t, Table(|t|, size), |t|), Pair(node, c), rest, out, State(t', Table(|t'|, size), |t'|), more);
  }

  /** InsertCase for a symbol read from the input, the walk from the root then decoding the rest of the input. */
  lemma InsertMidInput(t: seq<Trie.Node>, t': seq<Trie.Node>, node: nat, s: seq<Byte>, i: nat, size: nat, rest: seq<Pair>, pairs: seq<Pair>)
    requires Inserted(t, t', node, s, i, size)
    requires DecodesTo(t', size, rest, s[i + 1..])
    requires pairs == [Pair(node, s[i])] + rest
    ensures DecodesTo(t, size, pairs, Phrase(t, node) + s[i..])
  {
    InsertCase(t, node, s[i], size, rest, s[i + 1..]);
    ConsSplit(Phrase(t, node), s, i);
  }

  /** The encoder met symbol s[i] with no child under `node` and inserted it, giving t'. */
  predicate Inserted(t: seq<Trie.Node>, t': seq<Trie.Node>, node: nat, s: seq<Byte>, i: nat, size: nat)
  {
    Trie.Valid(t) && Dense(t) && node < |t| < size && i < |s| && s[i] != Eof
    && Trie.Find(t, Some(node), s[i]).None? && |Phrase(t, node)| <= PhraseBuffer
    && t' == Trie.Insert(t, Some(node), s[i], |t|).0
  }

  lemma ConsSplit(p: seq<Byte>, s: seq<Byte>, i: nat)
    requires i < |s|
    ensures p + [s[i]] + s[i + 1..] == p + s[i..]
  {
    assert s[i..] == [s[i]] + s[i + 1..];
  }

  /** The encoder's step when the symbol has no child: one pair, then the walk from the root of the grown trie. */
  lemma WalkInserts(t: seq<Trie.Node>, node: nat, s: seq<Byte>, i: nat)
    requires Trie.Valid(t) && Dense(t) && node < |t| && i < |s|
    requires Trie.Find(t, Some(node), s[i]).None?
    ensures var t' := Trie.Insert(t, Some(node), s[i], |t|).0;
      Trie.Valid(t') && Dense(t') && Trie.Extends(t, t')
      && Walk(t, node, s, i) == ([Pair(node, s[i])] + Walk(t', 0, s, i + 1).0, Walk(t', 0, s, i + 1).1)
  {
    Trie.InsertExtends(t, Some(node), s[i], |t|);
  }

  /** The encoder's step when the symbol has a child: the walk goes on from that child. */
  lemma WalkDescends(t: seq<Trie.Node>, node: nat, s: seq<Byte>, i: nat)
    requires Trie.Valid(t) && Dense(t) && node < |t| && i < |s|
    requires Trie.Find(t, Some(node), s[i]).Some?
    ensures Walk(t, node, s, i) == Walk(t, Trie.Find(t, Some(node), s[i]).value, s, i + 1)
  {
  }

  /** The encoder's last step: the pair carrying 0xFF. */
  lemma WalkEnds(t: seq<Trie.Node>, node: nat, s: seq<Byte>)
    requires Trie.Valid(t) && Dense(t) && node < |t|
    requires Trie.Find(t, Some(node), Eof).None?
    ensures Walk(t, node, s, |s|) == ([Pair(node, Eof)], Trie.Insert(t, Some(node), Eof, |t|).0)
  {
  }

  /** A trie without 0xFF nodes has no 0xFF child anywhere. */
  lemma NoEofChild(t: seq<Trie.Node>, node: nat)
    requires Trie.Valid(t) && NoEof(t) && node < |t|
    ensures Trie.Find(t, Some(node), Eof).None?
  {
  }

  /**
   * Decoding what the encoder writes from node `node` at input position i
   * gives back that node's phrase and the rest of the input.
   */
  lemma {:induction false} WalkDecodes(t: seq<Trie.Node>, node: nat, s: seq<Byte>, i: nat, size: nat)
    requires WalkFits(t, node, s, i, size)
    ensures DecodesTo(t, size, Walk(t, node, s, i).0, Phrase(t, node) + s[i..])
    decreases |s| - i, |t| - node, 1
  {
    if i == |s| {
      WalkDecodesAtEnd(t, node, s, size);
      assert Phrase(t, node) + s[i..] == Phrase(t, node);
    } else if Trie.Find(t, Some(node), s[i]).Some? {
      var next := Trie.Find(t, Some(node), s[i]).value;
      WalkDescends(t, node, s, i);
      PhraseChild(t, node, s[i]);
      WalkDecodes(t, next, s, i + 1, size);
      ConsSplit(Phrase(t, node), s, i);
    } else {
      WalkDecodesInsert(t, node, s, i, size);
    }
  }

  /** WalkDecodes at the end of the input: the one pair carrying 0xFF decodes to the node's phrase. */
  lemma WalkDecodesAtEnd(t: seq<Trie.Node>, node: nat, s: seq<Byte>, size: nat)
    requires WalkFits(t, node, s, |s|, size)
    ensures DecodesTo(t, size, Walk(t, node, s, |s|).0, Phrase(t, node))
  {
    EndShape(t, node, s, size);
    EofDecodes(t, node, size);
  }

  /** The final pair, for 0xFF, decodes to the phrase of its node and nothing more. */
  lemma EofDecodes(t: seq<Trie.Node>, node: nat, size: nat)
    requires Trie.Valid(t) && Dense(t) && node < |t| < size
    requires Trie.Find(t, Some(node), Eof).None? && |Phrase(t, node)| <= PhraseBuffer
    requires |Trie.Insert(t, Some(node), Eof, |t|).0| <= size
    ensures DecodesTo(t, size, [Pair(node, Eof)] + [], Phrase(t, node))
  {
    DecodesNothing(Trie.Insert(t, Some(node), Eof, |t|).0, size);
    InsertCase(t, node, Eof, size, [], []);
    assert Phrase(t, node) + (if Eof != Eof then [Eof] else []) + [] == Phrase(t, node);
  }

  /** At the end of the input the walk writes one pair, for 0xFF, under a node whose phrase fits. */
  lemma EndShape(t: seq<Trie.Node>, node: nat, s: seq<Byte>, size: nat)
    requires WalkFits(t, node, s, |s|, size)
    ensures Trie.Valid(t) && Dense(t) && node < |t| < size
    ensures Trie.Find(t, Some(node), Eof).None? && |Phrase(t, node)| <= PhraseBuffer
    ensures Walk(t, node, s, |s|).0 == [Pair(node, Eof)] + []
    ensures |Trie.Insert(t, Some(node), Eof, |t|).0| <= size
  {
    var w := Walk(t, node, s, |s|);
    NoEofChild(t, node);
    WalkEnds(t, node, s);
    Trie.InsertExtends(t, Some(node), Eof, |t|);
    PhraseExtends(t, w.1, node);
    assert w.0[0].parent == node;
  }

  /** No pairs decode to nothing, from any well-formed start. */
  lemma DecodesNothing(t: seq<Trie.Node>, size: nat)
    requires Trie.Valid(t) && |t| <= size
    ensures DecodesTo(t, size, [], [])
  {
  }

  /** WalkDecodes when the symbol has no child: the pair written there, then the walk from the root. */
  lemma {:induction false} WalkDecodesInsert(t: seq<Trie.Node>, node: nat, s: seq<Byte>, i: nat, size: nat)
    requires WalkFits(t, node, s, i, size) && i < |s| && Trie.Find(t, Some(node), s[i]).None?
    ensures DecodesTo(t, size, Walk(t, node, s, i).0, Phrase(t, node) + s[i..])
    decreases |s| - i, |t| - node, 0
  {
    var t' := InsertThenWalk(t, node, s, i, size);
    WalkDecodes(t', 0, s, i + 1, size);
    RootPhrase(t', s, i);
    InsertMidInput(t, t', node, s, i, size, Walk(t', 0, s, i + 1).0, Walk(t, node, s, i).0);
  }

  /** The parts of the encoder's walk when the symbol at i has no child: the pair, the grown trie, and the walk from its root. */
  lemma InsertThenWalk(t: seq<Trie.Node>, node: nat, s: seq<Byte>, i: nat, size: nat) returns (t': seq<Trie.Node>)
    requires WalkFits(t, node, s, i, size) && i < |s| && Trie.Find(t, Some(node), s[i]).None?
    ensures Inserted(t, t', node, s, i, size) && WalkFits(t', 0, s, i + 1, size)
    ensures Walk(t, node, s, i).0 == [Pair(node, s[i])] + Walk(t', 0, s, i + 1).0
  {
    t' := Trie.Insert(t, Some(node), s[i], |t|).0;
    WalkInserts(t, node, s, i);
    InsertedHere(t, node, s, i, size);
    RestFits(t, node, s, i, size);
  }

  /** The first pair of the walk is the one written at the insertion, so its phrase fits the buffer. */
  lemma InsertedHere(t: seq<Trie.Node>, node: nat, s: seq<Byte>, i: nat, size: nat)
    requires WalkFits(t, node, s, i, size) && i < |s| && Trie.Find(t, Some(node), s[i]).None?
    ensures Inserted(t, Trie.Insert(t, Some(node), s[i], |t|).0, node, s, i, size)
  {
    var w := Walk(t, node, s, i);
    WalkInserts(t, node, s, i);
    PhraseExtends(t, w.1, node);
    assert w.0[0] == Pair(node, s[i]);
  }

  /** The walk from the root of the grown trie fits as well: its pairs are the rest of the whole walk's. */
  lemma RestFits(t: seq<Trie.Node>, node: nat, s: seq<Byte>, i: nat, size: nat)
    requires WalkFits(t, node, s, i, size) && i < |s| && Trie.Find(t, Some(node), s[i]).None?
    ensures WalkFits(Trie.Insert(t, Some(node), s[i], |t|).0, 0, s, i + 1, size)
  {
    var w := Walk(t, node, s, i);
    var t' := Trie.Insert(t, Some(node), s[i], |t|).0;
    WalkInserts(t, node, s, i);
    NoEofInsert(t, node, s[i]);
    var rest := Walk(t', 0, s, i + 1);
    FitsTail(w.0, rest.0, rest.1);
  }

  /** Inserting a symbol other than 0xFF keeps the trie free of 0xFF nodes. */
  lemma NoEofInsert(t: seq<Trie.Node>, node: nat, c: Byte)
    requires Trie.Valid(t) && NoEof(t) && node < |t| && c != Eof
    ensures NoEof(Trie.Insert(t, Some(node), c, |t|).0)
  {
    Trie.InsertExtends(t, Some(node), c, |t|);
  }

  /** The pairs after the first fit when all of them do. */
  lemma FitsTail(pairs: seq<Pair>, rest: seq<Pair>, t: seq<Trie.Node>)
    requires Trie.Valid(t) && PhrasesFit(pairs, t) && |pairs| > 0 && rest == pairs[1..]
    ensures PhrasesFit(rest, t)
  {
    forall k | 0 <= k < |rest|
      ensures 0 <= rest[k].parent < |t| ==> |Phrase(t, rest[k].parent)| <= PhraseBuffer
    {
      assert rest[k] == pairs[k + 1];
    }
  }

  /** The walk from the root decodes to the rest of the input: the root's phrase is empty. */
  lemma RootPhrase(t: seq<Trie.Node>, s: seq<Byte>, i: nat)
    requires Trie.Valid(t) && 0 < |t| && i < |s|
    ensures Phrase(t, 0) + s[i + 1..] == s[i + 1..]
  {
    PhraseRoot(t);
  }

  /**
   * Round trip: an input without the byte 0xFF whose phrases fit the
   * decoder's buffer comes back unchanged.
   */
  lemma RoundTrip(s: seq<Byte>)
    requires |s| < Two31 - 2 && Eof !in s
    requires PhrasesFit(Parse(s).0, Parse(s).1)
    ensures Uncompress(Compress(s)) == Success(s)
  {
    var p := Parse(s);
    ParseDecodes(s);
    UncompressHeader(|p.1|, Serialize(p.0));
    CompressShape(s);
  }

  /** The pairs of the whole input decode, from the starting dictionary, to the input. */
  lemma ParseDecodes(s: seq<Byte>)
    requires |s| < Two31 - 2 && Eof !in s
    requires PhrasesFit(Parse(s).0, Parse(s).1)
    ensures StateOk(State(Root(), Table(1, |Parse(s).1|), 1))
    ensures DecodePairs(State(Root(), Table(1, |Parse(s).1|), 1), Serialize(Parse(s).0)) == Success(s)
  {
    var t := Root();
    RootStarts(s);
    WalkDecodes(t, 0, s, 0, |Parse(s).1|);
    SerializedDecodes(State(Root(), Table(1, |Parse(s).1|), 1), Parse(s).0);
  }

  /** The root's phrase is empty and the root is not 0xFF, so decoding from it starts afresh. */
  lemma RootStarts(s: seq<Byte>)
    ensures NoEof(Root()) && Phrase(Root(), 0) + s[0..] == s
  {
    PhraseRoot(Root());
    assert s[0..] == s;
  }

  /** lz78_compress's output is the header and the serialized pairs. */
  lemma CompressShape(s: seq<Byte>)
    requires |s| < Two31 - 2
    ensures Compress(s) == Int32Bytes(|Parse(s).1|) + Serialize(Parse(s).0)
  {
  }

  /** The header carries the dictionary size the decoder starts from. */
  lemma UncompressHeader(size: int, body: seq<Byte>)
    requires 1 <= size < Two31
    ensures StateOk(State(Root(), Table(1, size), 1))
    ensures Uncompress(Int32Bytes(size) + body) == DecodePairs(State(Root(), Table(1, size), 1), body)
  {
    var data := Int32Bytes(size) + body;
    assert data[..4] == Int32Bytes(size);
    assert data[4..] == body;
  }
}

=== FILE: lz78_draft.dfy ===
/**
 * The earlier LZ78 draft (lz78.c): it only builds the dictionary. The root
 * gets id 0 and each new node the next id; a known symbol descends, an
 * unknown one is inserted under the current node and the walk restarts at
 * the root. Reading stops at end of input, which is never inserted, so a
 * pending partial match is not recorded. Nothing is written and the
 * function returns 0 whatever happened.
 */
module Lz78Draft {
  import opened Wrappers
  import opened Bytes
  import Trie
  import TrieDraft
  import Lz78

  /** Every node's id is its position in the arena. */
  predicate Dense(t: seq<TrieDraft.Node>)
  {
    forall k | 0 <= k < |t| :: t[k].id == k
  }

  /**
   * The dictionary-building loop from node `node` at input position i: the
   * dictionary at end of input and the node the walk stopped on.
   */
  function Build(t: seq<TrieDraft.Node>, node: nat, s: seq<Byte>, i: nat): (r: (seq<TrieDraft.Node>, nat))
    requires TrieDraft.Valid(t) && Dense(t) && node < |t| && i <= |s|
    ensures TrieDraft.Valid(r.0) && Dense(r.0) && r.1 < |r.0|
    ensures |t| <= |r.0| <= |t| + (|s| - i)
    decreases |s| - i
  {
    if i == |s| then (t, node)
    else
      var next := TrieDraft.Find(t, Some(node), s[i]);
      if next.Some? then Build(t, next.value, s, i + 1)
      else Build(TrieDraft.Insert(t, Some(node), s[i], |t|, true).0, 0, s, i + 1)
  }

  /**
   * lz78_compress of the draft: the return code and the dictionary. When the
   * root cannot be allocated (rootOk false) there is no dictionary; the code
   * is 0 either way.
   */
  function Compress(s: seq<Byte>, rootOk: bool): (r: (int, seq<TrieDraft.Node>))
    ensures r.0 == 0
    ensures !rootOk <==> r.1 == []
    ensures rootOk ==> TrieDraft.Valid(r.1) && Dense(r.1) && r.1[0] == TrieDraft.Node(0, 0, r.1[0].children)
  {
    var root := TrieDraft.Insert([], None, 0, 0, rootOk);
    if root.1.None? then (0, [])
    else
      var b := Build(root.0, 0, s, 0);
      assert b.0[0].c == 0 by { BuildKeeps(root.0, 0, s, 0, 0); }
      (0, b.0)
  }

  /** Nodes already in the dictionary keep their symbol and id while the loop runs. */
  lemma {:induction false} BuildKeeps(t: seq<TrieDraft.Node>, node: nat, s: seq<Byte>, i: nat, k: nat)
    requires TrieDraft.Valid(t) && Dense(t) && node < |t| && i <= |s| && k < |t|
    ensures var r := Build(t, node, s, i).0; r[k].c == t[k].c && r[k].id == t[k].id
    decreases |s| - i
  {
    if i < |s| {
      var next := TrieDraft.Find(t, Some(node), s[i]);
      if next.Some? {
        BuildKeeps(t, next.value, s, i + 1, k);
      } else {
        BuildKeeps(TrieDraft.Insert(t, Some(node), s[i], |t|, true).0, 0, s, i + 1, k);
      }
    }
  }

  /** Each input symbol either descends or adds exactly one node; nothing else changes the dictionary. */
  lemma BuildStep(t: seq<TrieDraft.Node>, node: nat, s: seq<Byte>, i: nat)
    requires TrieDraft.Valid(t) && Dense(t) && node < |t| && i < |s|
    ensures var next := TrieDraft.Find(t, Some(node), s[i]);
      next.Some? ==> Build(t, node, s, i) == Build(t, next.value, s, i + 1)
    ensures var next := TrieDraft.Find(t, Some(node), s[i]);
      var t' := TrieDraft.Insert(t, Some(node), s[i], |t|, true).0;
      next.None? ==> |t'| == |t| + 1 && t'[|t|] == TrieDraft.Node(s[i], |t|, []) && Build(t, node, s, i) == Build(t', 0, s, i + 1)
  {
  }

  /** What the comparison with the finished encoder walks over: a dense trie without 0xFF nodes and an input without 0xFF. */
  predicate Ready(t: seq<Trie.Node>, node: nat, s: seq<Byte>, i: nat)
  {
    Trie.Valid(t) && Lz78.Dense(t) && Lz78.NoEof(t) && node < |t| && i <= |s| && Lz78.Eof !in s
  }

  /** Forgetting parent links keeps ids. */
  lemma ForgetDense(t: seq<Trie.Node>)
    requires Lz78.Dense(t)
    ensures Dense(TrieDraft.Forget(t))
  {
  }

  /**
   * The draft against the finished encoder of compression/lz78.c: on an
   * input without the byte 0xFF, the finished encoder's dictionary is the
   * draft's with one more node, the 0xFF child under the node the draft
   * stopped on.
   */
  lemma {:induction false} BuildThenEof(t: seq<Trie.Node>, node: nat, s: seq<Byte>, i: nat)
    requires Ready(t, node, s, i)
    ensures TrieDraft.Valid(TrieDraft.Forget(t)) && Dense(TrieDraft.Forget(t))
    ensures var b := Build(TrieDraft.Forget(t), node, s, i);
      TrieDraft.Insert(b.0, Some(b.1), Lz78.Eof, |b.0|, true).0 == TrieDraft.Forget(Lz78.Walk(t, node, s, i).1)
    decreases |s| - i
  {
    TrieDraft.ForgetValid(t);
    ForgetDense(t);
    if i == |s| {
      EndBoth(t, node, s);
    } else if Trie.Find(t, Some(node), s[i]).Some? {
      var n := DescendBoth(t, node, s, i);
      BuildThenEof(t, n, s, i + 1);
    } else {
      var t' := InsertBoth(t, node, s, i);
      BuildThenEof(t', 0, s, i + 1);
    }
  }

  /** At end of input: the draft stops on node, and the encoder adds the 0xFF child under it. */
  lemma EndBoth(t: seq<Trie.Node>, node: nat, s: seq<Byte>)
    requires Trie.Valid(t) && Lz78.Dense(t) && Lz78.NoEof(t) && node < |t|
    requires TrieDraft.Valid(TrieDraft.Forget(t)) && Dense(TrieDraft.Forget(t))
    ensures var b := Build(TrieDraft.Forget(t), node, s, |s|);
      TrieDraft.Insert(b.0, Some(b.1), Lz78.Eof, |b.0|, true).0 == TrieDraft.Forget(Lz78.Walk(t, node, s, |s|).1)
  {
    Lz78.NoEofChild(t, node);
    Lz78.WalkEnds(t, node, s);
    TrieDraft.InsertForget(t, Some(node), Lz78.Eof, |t|);
  }

  /** A known symbol: both walks descend to the same child. */
  lemma DescendBoth(t: seq<Trie.Node>, node: nat, s: seq<Byte>, i: nat) returns (n: nat)
    requires Ready(t, node, s, i) && i < |s|
    requires TrieDraft.Valid(TrieDraft.Forget(t)) && Dense(TrieDraft.Forget(t))
    requires Trie.Find(t, Some(node), s[i]).Some?
    ensures Ready(t, n, s, i + 1)
    ensures Build(TrieDraft.Forget(t), node, s, i) == Build(TrieDraft.Forget(t), n, s, i + 1)
    ensures Lz78.Walk(t, node, s, i).1 == Lz78.Walk(t, n, s, i + 1).1
  {
    TrieDraft.FindForget(t, Some(node), s[i]);
    Lz78.WalkDescends(t, node, s, i);
    n := Trie.Find(t, Some(node), s[i]).value;
  }

  /** An unknown symbol: both insert the same child under node and restart at the root. */
  lemma InsertBoth(t: seq<Trie.Node>, node: nat, s: seq<Byte>, i: nat) returns (t': seq<Trie.Node>)
    requires Ready(t, node, s, i) && i < |s|
    requires TrieDraft.Valid(TrieDraft.Forget(t)) && Dense(TrieDraft.Forget(t))
    requires Trie.Find(t, Some(node), s[i]).None?
    ensures Ready(t', 0, s, i + 1) && TrieDraft.Valid(TrieDraft.Forget(t')) && Dense(TrieDraft.Forget(t'))
    ensures Build(TrieDraft.Forget(t), node, s, i) == Build(TrieDraft.Forget(t'), 0, s, i + 1)
    ensures Lz78.Walk(t, node, s, i).1 == Lz78.Walk(t', 0, s, i + 1).1
  {
    t' := Trie.Insert(t, Some(node), s[i], |t|).0;
    TrieDraft.FindForget(t, Some(node), s[i]);
    Lz78.WalkInserts(t, node, s, i);
    TrieDraft.InsertForget(t, Some(node), s[i], |t|);
    assert s[i] != Lz78.Eof;
    assert Lz78.NoEof(t');
    TrieDraft.ForgetValid(t');
    ForgetDense(t');
  }
}

=== FILE: priority_queue.dfy ===
/**
 * The sorted-list priority queue of data_structures/priority_queue.c: a
 * linked list kept in ascending order under compare_func, plus a length
 * field that push and pop never update. The list is modelled as the
 * sequence of its data and compare_func as an integer key
 * (compare(a, b) >= 0 is key(a) >= key(b)). The queue pointer itself may be
 * NULL: every operation takes an Option.
 */
module PriorityQueue {
  import opened Wrappers
  import DList

  datatype PQueue<T> = PQueue(items: seq<T>, length: int)

  /** priority_queue_create: no items, length 0. */
  function Create<T>(): (q: PQueue<T>)
    ensures q.items == [] && q.length == 0
  {
    PQueue([], 0)
  }

  /** priority_queue_is_empty: false for a NULL queue, otherwise head == NULL. */
  function IsEmpty<T>(q: Option<PQueue<T>>): (b: bool)
    ensures b <==> q.Some? && |q.value.items| == 0
  {
    q.Some? && q.value.items == []
  }

  /** Where the push loop stops: the first item comparing >= x, or the end of the list. */
  function Position<T>(s: seq<T>, x: T, key: T -> int): (p: nat)
    ensures p <= |s|
    ensures forall i | 0 <= i < p :: key(s[i]) < key(x)
    ensures p < |s| ==> key(s[p]) >= key(x)
  {
    if s == [] || key(s[0]) >= key(x) then 0 else 1 + Position(s[1..], x, key)
  }

  /** The list with x inserted before the item at p (prepend when p is 0, insert_after otherwise). */
  function InsertAt<T>(s: seq<T>, p: nat, x: T): (r: seq<T>)
    requires p <= |s|
    ensures |r| == |s| + 1 && r[p] == x
    ensures forall i | 0 <= i < p :: r[i] == s[i]
    ensures forall i | p < i <= |s| :: r[i] == s[i - 1]
  {
    s[..p] + [x] + s[p..]
  }

  /** Inserting adds exactly the one item. */
  lemma InsertAtContents<T>(s: seq<T>, p: nat, x: T)
    requires p <= |s|
    ensures multiset(InsertAt(s, p, x)) == multiset(s) + multiset{x}
    ensures InsertAt(s, p, x)[..p] + InsertAt(s, p, x)[p + 1..] == s
  {
    assert s == s[..p] + s[p..];
    var r := InsertAt(s, p, x);
    assert r[..p] == s[..p] && r[p + 1..] == s[p..];
  }

  /** priority_queue_push: x goes before the first item comparing >= it; nothing happens on a NULL queue. */
  function Push<T>(q: Option<PQueue<T>>, x: T, key: T -> int): (r: Option<PQueue<T>>)
    ensures q.None? <==> r.None?
    ensures q.Some? ==> r.value.length == q.value.length
    ensures q.Some? ==> multiset(r.value.items) == multiset(q.value.items) + multiset{x}
  {
    if q.None? then None
    else
      var p := Position(q.value.items, x, key);
      InsertAtContents(q.value.items, p, x);
      Some(PQueue(InsertAt(q.value.items, p, x), q.value.length))
  }

  /**
   * Push keeps the list ascending, and the new item lands after every item
   * with a smaller key and before every item with an equal or larger one.
   */
  lemma PushSorted<T>(q: PQueue<T>, x: T, key: T -> int)
    requires DList.Sorted(q.items, key)
    ensures DList.Sorted(Push(Some(q), x, key).value.items, key)
    ensures var r := Push(Some(q), x, key).value.items;
      var p := Position(q.items, x, key);
      r[p] == x && r[..p] + r[p + 1..] == q.items
      && (forall i | 0 <= i < p :: key(r[i]) < key(x))
      && (forall j | p < j < |r| :: key(r[j]) >= key(x))
  {
    PushIsInsert(q, x, key);
    InsertAtPlace(q.items, Position(q.items, x, key), x, key);
  }

  /** On a non-NULL queue, push is InsertAt at Position. */
  lemma PushIsInsert<T>(q: PQueue<T>, x: T, key: T -> int)
    ensures Push(Some(q), x, key).value.items == InsertAt(q.items, Position(q.items, x, key), x)
  {
  }

  /**
   * The push goes through the list operations as the code does: after the
   * last smaller item with list_insert_after, or with list_prepend when no
   * item is smaller.
   */
  lemma PushThroughList<T>(q: PQueue<T>, x: T, key: T -> int)
    ensures var p := Position(q.items, x, key);
      Push(Some(q), x, key).value.items ==
        if p == 0 then DList.Prepend(q.items, x) else DList.InsertAfter(q.items, Some(p - 1), x)
  {
  }

  /** InsertAt at a point with smaller keys before it and a key at least x's after it. */
  lemma InsertAtPlace<T>(s: seq<T>, p: nat, x: T, key: T -> int)
    requires DList.Sorted(s, key) && p <= |s|
    requires forall i | 0 <= i < p :: key(s[i]) < key(x)
    requires p < |s| ==> key(s[p]) >= key(x)
    ensures var r := InsertAt(s, p, x);
      DList.Sorted(r, key) && r[p] == x && r[..p] + r[p + 1..] == s
      && (forall i | 0 <= i < p :: key(r[i]) < key(x))
      && (forall j | p < j < |r| :: key(r[j]) >= key(x))
  {
    InsertAtContents(s, p, x);
    InsertAtSorted(s, p, x, key);
    InsertAtBelow(s, p, x, key);
  }

  /** The items before the insertion point keep their keys below x's. */
  lemma InsertAtBelow<T>(s: seq<T>, p: nat, x: T, key: T -> int)
    requires p <= |s| && forall i | 0 <= i < p :: key(s[i]) < key(x)
    ensures forall i | 0 <= i < p :: key(InsertAt(s, p, x)[i]) < key(x)
  {
  }

  /** Inserting between a smaller-or-equal and a greater-or-equal neighbour keeps a list ascending. */
  lemma InsertAtSorted<T>(s: seq<T>, p: nat, x: T, key: T -> int)
    requires DList.Sorted(s, key) && p <= |s|
    requires p > 0 ==> key(s[p - 1]) <= key(x)
    requires p < |s| ==> key(x) <= key(s[p])
    ensures DList.Sorted(InsertAt(s, p, x), key)
    ensures forall j | p < j < |s| + 1 :: key(InsertAt(s, p, x)[j]) >= key(x)
  {
    var r := InsertAt(s, p, x);
    forall i, j | 0 <= i < j < |r|
      ensures key(r[i]) <= key(r[j])
    {
      if i == p {
        assert r[j] == s[j - 1];
      } else if j == p {
        assert r[i] == s[i];
      } else if j < p {
        assert r[i] == s[i] && r[j] == s[j];
      } else if i < p {
        assert r[i] == s[i] && r[j] == s[j - 1];
      } else {
        assert r[i] == s[i - 1] && r[j] == s[j - 1];
      }
    }
  }

  /** priority_queue_peek: the head item (the minimum), or NULL when empty or NULL. */
  function Peek<T>(q: Option<PQueue<T>>): (r: Option<T>)
    ensures r.None? <==> q.None? || q.value.items == []
    ensures r.Some? ==> r.value in q.value.items
  {
    if q.None? || IsEmpty(q) then None else Some(q.value.items[0])
  }

  /** priority_queue_pop: the head item and the list without it, length untouched; NULL when empty or NULL. */
  function Pop<T>(q: Option<PQueue<T>>): (r: (Option<T>, Option<PQueue<T>>))
    ensures r.0 == Peek(q) && (r.1.None? <==> q.None?)
    ensures r.0.None? ==> r.1 == q
    ensures r.0.Some? ==> [r.0.value] + r.1.value.items == q.value.items && r.1.value.length == q.value.length
  {
    if q.None? || IsEmpty(q) then (None, q)
    else (Some(q.value.items[0]), Some(PQueue(q.value.items[1..], q.value.length)))
  }

  /** On an ascending list the head is a minimum. */
  lemma PeekMinimum<T>(q: PQueue<T>, key: T -> int)
    requires DList.Sorted(q.items, key) && q.items != []
    ensures forall y | y in q.items :: key(Peek(Some(q)).value) <= key(y)
  {
    forall y | y in q.items
      ensures key(q.items[0]) <= key(y)
    {
      var j :| 0 <= j < |q.items| && q.items[j] == y;
    }
  }

  /** Push and pop never touch length, so a non-empty queue can report length 0. */
  lemma LengthNeverUpdated<T>(x: T, key: T -> int)
    ensures var q := Push(Some(Create<T>()), x, key);
      !IsEmpty(q) && q.value.length == 0
  {
  }

  /** Push each of xs in turn onto a queue. */
  function PushAll<T>(q: PQueue<T>, xs: seq<T>, key: T -> int): (r: PQueue<T>)
    decreases |xs|
  {
    if xs == [] then q else PushAll(Push(Some(q), xs[0], key).value, xs[1..], key)
  }

  /** Pop until empty, collecting what comes out. */
  function Drain<T>(q: PQueue<T>): (r: seq<T>)
    decreases |q.items|
  {
    if q.items == [] then [] else [q.items[0]] + Drain(PQueue(q.items[1..], q.length))
  }

  lemma {:induction false} DrainItems<T>(q: PQueue<T>)
    ensures Drain(q) == q.items
    decreases |q.items|
  {
    if q.items != [] {
      DrainItems(PQueue(q.items[1..], q.length));
    }
  }

  lemma {:induction false} PushAllSorted<T>(q: PQueue<T>, xs: seq<T>, key: T -> int)
    requires DList.Sorted(q.items, key)
    ensures DList.Sorted(PushAll(q, xs, key).items, key)
    ensures multiset(PushAll(q, xs, key).items) == multiset(q.items) + multiset(xs)
    decreases |xs|
  {
    if xs != [] {
      PushSorted(q, xs[0], key);
      PushAllSorted(Push(Some(q), xs[0], key).value, xs[1..], key);
      assert xs == [xs[0]] + xs[1..];
    }
  }

  /** Pushing any data and popping them all gives them back in ascending order: a sort. */
  lemma PopsAscending<T>(xs: seq<T>, key: T -> int)
    ensures var out := Drain(PushAll(Create(), xs, key));
      DList.Sorted(out, key) && multiset(out) == multiset(xs)
  {
    PushAllSorted(Create(), xs, key);
    DrainItems(PushAll(Create(), xs, key));
  }
}

=== FILE: ring_queue.dfy ===
/**
 * The fixed-capacity ring-buffer queue of queue.c: an array of `capacity`
 * slots, the index `front` of the oldest element, the index `back` of the
 * next free slot, and `size`. A slot holds a data pointer or NULL (None).
 * queue_is_full and queue_is_empty are read as size == capacity and
 * size == 0. A NULL queue pointer is not modelled.
 */
module RingQueue {
  import opened Wrappers

  datatype Queue<T> = Queue(slots: seq<Option<T>>, capacity: nat, size: nat, front: nat, back: nat)

  /**
   * Index k slots after f around a ring of c slots, for f < c and k <= c:
   * the one slot index that differs from f + k by a multiple of c.
   */
  function Offset(f: nat, k: nat, c: nat): (r: nat)
    requires f < c && k <= c
    ensures r < c && (r == f + k || r + c == f + k)
  {
    if f + k < c then f + k else f + k - c
  }

  /** The shape every operation keeps: back is size slots after front around the ring. */
  predicate Valid<T>(q: Queue<T>)
  {
    |q.slots| == q.capacity && q.size <= q.capacity
    && (q.capacity == 0 ==> q.front == 0 && q.back == 0)
    && (q.capacity > 0 ==> q.front < q.capacity && q.back == Offset(q.front, q.size, q.capacity))
  }

  /** The queued elements, oldest first. */
  function Contents<T>(q: Queue<T>): (r: seq<Option<T>>)
    requires Valid(q)
    ensures |r| == q.size
  {
    seq(q.size, (i: int) requires 0 <= i < q.size => q.slots[Offset(q.front, i, q.capacity)])
  }

  /**
   * queue_create: NULL when either malloc fails (`ok` says whether both
   * succeed); otherwise every slot NULL, nothing queued, front and back at 0.
   */
  function Create<T>(capacity: nat, ok: bool): (r: Option<Queue<T>>)
    ensures r.None? <==> !ok
    ensures r.Some? ==> Valid(r.value) && Contents(r.value) == [] && r.value.capacity == capacity
    ensures r.Some? ==> forall i | 0 <= i < capacity :: r.value.slots[i].None?
  {
    if ok then Some(Queue(seq(capacity, _ => None), capacity, 0, 0, 0)) else None
  }

  /** queue_is_full, read on the size counter. */
  predicate IsFull<T>(q: Queue<T>)
  {
    q.size == q.capacity
  }

  /** queue_is_empty, read on the size counter. */
  predicate IsEmpty<T>(q: Queue<T>)
  {
    q.size == 0
  }

  /** queue_enqueue: when not full, store at back and advance it; when full, nothing happens. */
  function Enqueue<T>(q: Queue<T>, x: T): (r: Queue<T>)
    requires Valid(q)
    ensures Valid(r)
    ensures IsFull(q) ==> r == q
    ensures !IsFull(q) ==> Contents(r) == Contents(q) + [Some(x)]
  {
    if IsFull(q) then q
    else
      var r := Queue(q.slots[q.back := Some(x)], q.capacity, q.size + 1, q.front, (q.back + 1) % q.capacity);
      EnqueueContents(q, r, x);
      r
  }

  lemma EnqueueContents<T>(q: Queue<T>, r: Queue<T>, x: T)
    requires Valid(q) && !IsFull(q)
    requires r == Queue(q.slots[q.back := Some(x)], q.capacity, q.size + 1, q.front, (q.back + 1) % q.capacity)
    ensures Valid(r) && Contents(r) == Contents(q) + [Some(x)]
  {
    Step(q.back, q.capacity);
    assert r.back == Offset(q.front, q.size + 1, q.capacity);
    assert Valid(r);
    forall i | 0 <= i < q.size + 1
      ensures Contents(r)[i] == (Contents(q) + [Some(x)])[i]
    {
      if i < q.size {
        assert Offset(q.front, i, q.capacity) != q.back;
      }
    }
  }

  /** One step around the ring, as the code's `% capacity` computes it. */
  lemma Step(i: nat, c: nat)
    requires i < c
    ensures (i + 1) % c == if i + 1 == c then 0 else i + 1
  {
  }

  /** queue_dequeue: when not empty, the element at front and front advanced; when empty, NULL and nothing changes. */
  function Dequeue<T>(q: Queue<T>): (r: (Option<T>, Queue<T>))
    requires Valid(q)
    ensures Valid(r.1)
    ensures IsEmpty(q) ==> r == (None, q)
    ensures !IsEmpty(q) ==> [r.0] == Contents(q)[..1] && Contents(r.1) == Contents(q)[1..]
  {
    if IsEmpty(q) then (None, q)
    else
      var r := Queue(q.slots, q.capacity, q.size - 1, (q.front + 1) % q.capacity, q.back);
      DequeueContents(q, r);
      (q.slots[q.front], r)
  }

  lemma DequeueContents<T>(q: Queue<T>, r: Queue<T>)
    requires Valid(q) && !IsEmpty(q)
    requires r == Queue(q.slots, q.capacity, q.size - 1, (q.front + 1) % q.capacity, q.back)
    ensures Valid(r) && Contents(r) == Contents(q)[1..]
  {
    Step(q.front, q.capacity);
    assert r.front == Offset(q.front, 1, q.capacity);
    assert Valid(r);
    forall i | 0 <= i < q.size - 1
      ensures Contents(r)[i] == Contents(q)[i + 1]
    {
      assert Offset(r.front, i, q.capacity) == Offset(q.front, i + 1, q.capacity);
    }
  }

  /** Enqueue a list of data in turn. */
  function EnqueueAll<T>(q: Queue<T>, xs: seq<T>): (r: Queue<T>)
    requires Valid(q)
    ensures Valid(r)
    decreases |xs|
  {
    if xs == [] then q else EnqueueAll(Enqueue(q, xs[0]), xs[1..])
  }

  /** Dequeue n times, collecting what comes out. */
  function DequeueN<T>(q: Queue<T>, n: nat): (r: seq<Option<T>>)
    requires Valid(q)
    decreases n
  {
    if n == 0 then [] else var d := Dequeue(q); [d.0] + DequeueN(d.1, n - 1)
  }

  lemma {:induction false} EnqueueAllContents<T>(q: Queue<T>, xs: seq<T>)
    requires Valid(q) && q.size + |xs| <= q.capacity
    ensures Contents(EnqueueAll(q, xs)) == Contents(q) + seq(|xs|, (i: int) requires 0 <= i < |xs| => Some(xs[i]))
    decreases |xs|
  {
    if xs != [] {
      var q' := Enqueue(q, xs[0]);
      EnqueueAllContents(q', xs[1..]);
    }
  }

  lemma {:induction false} DequeueNContents<T>(q: Queue<T>, n: nat)
    requires Valid(q) && n <= q.size
    ensures DequeueN(q, n) == Contents(q)[..n]
    decreases n
  {
    if n > 0 {
      var d := Dequeue(q);
      DequeueNContents(d.1, n - 1);
      assert Contents(q)[..n] == Contents(q)[..1] + Contents(q)[1..][..n - 1];
    }
  }

  /** First in, first out: data enqueued into an empty queue with room for them come back out in the same order. */
  lemma Fifo<T>(capacity: nat, xs: seq<T>)
    requires |xs| <= capacity
    ensures DequeueN(EnqueueAll(Create<T>(capacity, true).value, xs), |xs|) == seq(|xs|, (i: int) requires 0 <= i < |xs| => Some(xs[i]))
  {
    var q0 := Create<T>(capacity, true).value;
    var ys := seq(|xs|, (i: int) requires 0 <= i < |xs| => Some(xs[i]));
    EnqueueAllContents(q0, xs);
    var q := EnqueueAll(q0, xs);
    assert Contents(q) == ys;
    DequeueNContents(q, |xs|);
    assert Contents(q)[..|xs|] == ys;
  }
}

=== FILE: rle.dfy ===
/**
 * Run-length coding as compression/rle.c does it: the output is one
 * (count, byte) pair per run, a run ending where the byte changes or when
 * its count reaches 256.
 *
 * Both directions read bytes into a signed `char`, so:
 *   - the byte 0xFF reads as -1, which is EOF: the encoder stops at the
 *     first 0xFF and the decoder stops at a count or byte of 0xFF;
 *   - the decoder reads a count of 128 or more as negative and writes
 *     nothing for it;
 *   - a count of 256 is written by fputc as 0.
 * RleUnsigned (rle_unsigned.dfy) is the codec with unsigned counts that round trips.
 */
module Rle {
  import opened Bytes

  /** The byte that a signed char confuses with EOF. */
  const Eof: Byte := 0xFF
  /** The run cap of the encoder, len < (1 << 8). */
  const MaxRun: int := 256

  /** The value of a byte read into a signed char. */
  function SignedChar(b: Byte): (v: int)
    ensures -128 <= v < 128
    ensures v == -1 <==> b == Eof
    ensures v >= 0 <==> b < 128
  {
    if b < 128 then b else b - 256
  }

  /** n copies of b. */
  function Repeat(b: Byte, n: nat): (r: seq<Byte>)
    ensures |r| == n && forall k | 0 <= k < n :: r[k] == b
  {
    seq(n, _ => b)
  }

  function RunFrom(s: seq<Byte>, n: nat, cap: nat): (r: nat)
    requires 1 <= n <= cap && n <= |s|
    requires forall k | 0 <= k < n :: s[k] == s[0]
    ensures n <= r <= cap && r <= |s|
    ensures forall k | 0 <= k < r :: s[k] == s[0]
    ensures r == cap || r == |s| || s[r] != s[0]
    decreases |s| - n
  {
    if n == cap || n == |s| || s[n] != s[0] then n else RunFrom(s, n + 1, cap)
  }

  /** The length of the run at the start of s, cut at cap: the longest prefix of copies of s[0] no longer than cap. */
  function RunLength(s: seq<Byte>, cap: nat): (n: nat)
    requires s != [] && cap >= 1
    ensures 1 <= n <= cap && n <= |s|
    ensures forall k | 0 <= k < n :: s[k] == s[0]
    ensures n == cap || n == |s| || s[n] != s[0]
  {
    RunFrom(s, 1, cap)
  }

  /** The part of the input the encoder sees: everything before the first 0xFF. */
  function Live(s: seq<Byte>): (r: seq<Byte>)
    ensures |r| <= |s| && r == s[..|r|]
    ensures Eof !in r
    ensures |r| < |s| ==> s[|r|] == Eof
  {
    if s == [] || s[0] == Eof then []
    else
      var r := [s[0]] + Live(s[1..]);
      assert r == s[..|r|] by {
        assert s == [s[0]] + s[1..];
      }
      r
  }

  /**
   * rle_compress: one pair per run of at most 256 bytes, the count written
   * as its low byte; it stops at the first 0xFF.
   */
  function Compress(s: seq<Byte>): (r: seq<Byte>)
    ensures |r| % 2 == 0 && |r| <= 2 * |s|
    ensures r == [] <==> Live(s) == []
    decreases |s|
  {
    if s == [] || s[0] == Eof then []
    else
      var n := RunLength(s, MaxRun);
      var rest := Compress(s[n..]);
      PairFront(n % 256, s[0], rest);
      [n % 256, s[0]] + rest
  }

  /** A pair in front of whole pairs is whole pairs. */
  lemma PairFront(a: Byte, b: Byte, rest: seq<Byte>)
    requires |rest| % 2 == 0
    ensures |[a, b] + rest| % 2 == 0 && |[a, b] + rest| == |rest| + 2
  {
  }

  /**
   * rle_uncompress: read a signed count and a byte until EOF; write the byte
   * count times (nothing for a negative count). A trailing count without its
   * byte is dropped. A pair writes at most 127 bytes, all copies of its
   * second byte.
   */
  function Uncompress(data: seq<Byte>): (r: seq<Byte>)
    ensures |r| <= 127 * (|data| / 2)
    ensures forall k | 0 <= k < |r| :: exists j | 0 <= j < |data| / 2 :: r[k] == data[2 * j + 1]
    decreases |data|
  {
    if |data| == 0 || SignedChar(data[0]) == -1 then []
    else if |data| == 1 || SignedChar(data[1]) == -1 then []
    else
      var n := if SignedChar(data[0]) < 0 then 0 else SignedChar(data[0]);
      var rest := Uncompress(data[2..]);
      var r := Repeat(data[1], n) + rest;
      assert |data[2..]| / 2 + 1 == |data| / 2;
      forall k | 0 <= k < |r|
        ensures exists j | 0 <= j < |data| / 2 :: r[k] == data[2 * j + 1]
      {
        if k < n {
          assert r[k] == data[2 * 0 + 1];
        } else {
          var j' :| 0 <= j' < |data[2..]| / 2 && rest[k - n] == data[2..][2 * j' + 1];
          assert 0 <= j' + 1 < |data| / 2 && r[k] == data[2 * (j' + 1) + 1];
        }
      }
      r
  }

  /** The pairs read as the encoder means them: counts unsigned, 0 standing for 256. */
  function Expand(data: seq<Byte>): (r: seq<Byte>)
    decreases |data|
  {
    if |data| < 2 then []
    else Repeat(data[1], if data[0] == 0 then MaxRun else data[0]) + Expand(data[2..])
  }

  /** Empty input gives empty output. */
  lemma CompressEmpty()
    ensures Compress([]) == [] && Uncompress([]) == []
  {
  }

  /** The example of the file's header comment: "AAAABBBC" becomes 4 'A', 3 'B', 1 'C'. */
  lemma CompressExample()
    ensures Compress(['A' as Byte, 'A' as Byte, 'A' as Byte, 'A' as Byte, 'B' as Byte, 'B' as Byte, 'B' as Byte, 'C' as Byte])
      == [4, 'A' as Byte, 3, 'B' as Byte, 1, 'C' as Byte]
  {
    var s: seq<Byte> := [65, 65, 65, 65, 66, 66, 66, 67];
    assert RunLength(s, MaxRun) == 4;
    var s2: seq<Byte> := [66, 66, 66, 67];
    assert s[4..] == s2;
    assert RunLength(s2, MaxRun) == 3;
    assert s2[3..] == [67];
    assert RunLength([67], MaxRun) == 1;
    assert [67 as Byte][1..] == [];
  }

  /** A run's pair, then the rest of the input. */
  lemma CompressCons(s: seq<Byte>)
    requires s != [] && s[0] != Eof
    ensures var n := RunLength(s, MaxRun);
      Compress(s) == [n % 256, s[0]] + Compress(s[n..])
  {
  }

  /** A run of n copies of b taken off the front of s. */
  lemma RunSplit(s: seq<Byte>, n: nat)
    requires s != [] && 1 <= n <= |s| && forall k | 0 <= k < n :: s[k] == s[0]
    ensures s == Repeat(s[0], n) + s[n..]
  {
    assert s[..n] == Repeat(s[0], n);
    assert s == s[..n] + s[n..];
  }

  /**
   * What the encoder writes loses nothing: read with unsigned counts and 0
   * as 256, its pairs give back every byte before the first 0xFF.
   */
  lemma {:induction false} EncoderLossless(s: seq<Byte>)
    ensures Expand(Compress(s)) == Live(s)
    decreases |s|
  {
    if s != [] && s[0] != Eof {
      var n := RunLength(s, MaxRun);
      var rest := Compress(s[n..]);
      EncoderLossless(s[n..]);
      ExpandCons(n, s[0], rest);
      LiveAfterRun(s, n);
    }
  }

  lemma SmallCount(n: int)
    requires 0 <= n < 256
    ensures n % 256 == n
  {
  }

  /** One pair read with unsigned counts, 0 standing for 256. */
  lemma ExpandCons(n: int, b: Byte, rest: seq<Byte>)
    requires 1 <= n <= MaxRun
    ensures Expand([n % 256, b] + rest) == Repeat(b, n) + Expand(rest)
  {
    assert ([n % 256, b] + rest)[2..] == rest;
  }

  /** One pair with a count below 128 and a byte other than 0xFF, read back by the decoder. */
  lemma UncompressCons(n: int, b: Byte, rest: seq<Byte>)
    requires 0 <= n < 128 && b != Eof
    ensures Uncompress([n, b] + rest) == Repeat(b, n) + Uncompress(rest)
  {
    assert ([n, b] + rest)[2..] == rest;
  }

  lemma LiveCons(s: seq<Byte>)
    requires s != [] && s[0] != Eof
    ensures Live(s) == [s[0]] + Live(s[1..])
  {
  }

  /** Taking a run without 0xFF off the front commutes with cutting at the first 0xFF. */
  lemma {:induction false} LiveAfterRun(s: seq<Byte>, n: nat)
    requires s != [] && s[0] != Eof && 1 <= n <= |s| && forall k | 0 <= k < n :: s[k] == s[0]
    ensures Live(s) == Repeat(s[0], n) + Live(s[n..])
    decreases n
  {
    LiveCons(s);
    if n > 1 {
      assert s[1..][0] == s[0];
      assert forall k | 0 <= k < n - 1 :: s[1..][k] == s[k + 1];
      LiveAfterRun(s[1..], n - 1);
      assert s[1..][n - 1..] == s[n..];
      assert Repeat(s[0], n) == [s[0]] + Repeat(s[0], n - 1);
    } else {
      assert Repeat(s[0], 1) == [s[0]];
    }
  }

  /** No byte repeats 128 times in a row. */
  predicate NoLongRun(s: seq<Byte>)
  {
    forall i | 0 <= i && i + 127 < |s| :: RunBreaks(s, i)
  }

  /** Some byte among the 127 after position i differs from s[i]. */
  predicate RunBreaks(s: seq<Byte>, i: nat)
    requires i + 127 < |s|
  {
    exists k | i < k <= i + 127 :: s[k] != s[i]
  }

  lemma NoLongRunSuffix(s: seq<Byte>, n: nat)
    requires NoLongRun(s) && n <= |s|
    ensures NoLongRun(s[n..])
  {
    var t := s[n..];
    forall i | 0 <= i && i + 127 < |t|
      ensures RunBreaks(t, i)
    {
      assert RunBreaks(s, n + i);
      var k :| n + i < k <= n + i + 127 && s[k] != s[n + i];
      assert i < k - n <= i + 127 && t[k - n] != t[i];
    }
  }

  /** Without a run of 128 equal bytes every run the encoder cuts is at most 127 long. */
  lemma ShortRun(s: seq<Byte>)
    requires s != [] && NoLongRun(s)
    ensures RunLength(s, MaxRun) <= 127
  {
    if |s| > 127 {
      assert RunBreaks(s, 0);
    }
  }

  /**
   * The codec round trips exactly on inputs without the byte 0xFF and
   * without a run of 128 or more equal bytes.
   */
  lemma {:induction false} RoundTrip(s: seq<Byte>)
    requires Eof !in s && NoLongRun(s)
    ensures Uncompress(Compress(s)) == s
    decreases |s|
  {
    if s != [] {
      var n := RunLength(s, MaxRun);
      ShortRun(s);
      NoLongRunSuffix(s, n);
      assert Eof !in s[n..] by {
        forall k | 0 <= k < |s| - n ensures s[n..][k] != Eof {
          assert s[n..][k] == s[n + k];
        }
      }
      RoundTrip(s[n..]);
      var rest := Compress(s[n..]);
      assert s[0] in s;
      SmallCount(n);
      CompressCons(s);
      assert Compress(s) == [n, s[0]] + rest;
      UncompressCons(n, s[0], rest);
      assert Uncompress(Compress(s)) == Repeat(s[0], n) + s[n..];
      RunSplit(s, n);
    }
  }

  /** A count of 128 is read back as -128: a run of 128 bytes decodes to nothing. */
  lemma LongRunLost()
    ensures var s := Repeat('A' as Byte, 128);
      Compress(s) == [128, 'A' as Byte] && Uncompress(Compress(s)) == []
  {
    var s := Repeat('A' as Byte, 128);
    assert RunLength(s, MaxRun) == 128;
    assert s[128..] == [];
  }

  /** A 0xFF byte ends the encoder's input: what follows it is never written. */
  lemma EofByteTruncates()
    ensures Compress([Eof, 'A' as Byte]) == [] && Uncompress(Compress([Eof, 'A' as Byte])) != [Eof, 'A' as Byte]
  {
  }

  /** A run of 256 is written with count 0 and decodes to nothing. */
  lemma FullRunLost()
    ensures var s := Repeat('A' as Byte, MaxRun);
      Compress(s) == [0, 'A' as Byte] && Uncompress(Compress(s)) == []
  {
    var s := Repeat('A' as Byte, MaxRun);
    assert RunLength(s, MaxRun) == MaxRun;
    assert s[MaxRun..] == [];
  }
}

=== FILE: rle_unsigned.dfy ===
/**
 * The codec rle.c evidently means, with counts and bytes read unsigned:
 * runs are cut at 255 so that every count fits a byte, and only the end of
 * the data stops either side.
 */
module RleUnsigned {
  import opened Bytes
  import Rle

  const MaxRun: int := 255

  function Compress(s: seq<Byte>): (r: seq<Byte>)
    ensures |r| % 2 == 0 && |r| <= 2 * |s|
    ensures forall k | 0 <= k < |r| / 2 :: 1 <= r[2 * k] <= MaxRun
    decreases |s|
  {
    if s == [] then []
    else
      var n := Rle.RunLength(s, MaxRun);
      var rest := Compress(s[n..]);
      var r := [n as Byte, s[0]] + rest;
      assert forall k | 1 <= k < |r| / 2 :: r[2 * k] == rest[2 * (k - 1)];
      r
  }

  /**
   * The decoder with the count read as an unsigned byte: each pair writes its
   * second byte count times, and a trailing lone byte is dropped.
   */
  function Uncompress(data: seq<Byte>): (r: seq<Byte>)
    ensures |r| <= 255 * (|data| / 2)
    ensures forall k | 0 <= k < |r| :: exists j | 0 <= j < |data| / 2 :: r[k] == data[2 * j + 1]
    decreases |data|
  {
    if |data| < 2 then []
    else
      var n := data[0] as nat;
      var rest := Uncompress(data[2..]);
      var r := Rle.Repeat(data[1], n) + rest;
      assert |data[2..]| / 2 + 1 == |data| / 2;
      forall k | 0 <= k < |r|
        ensures exists j | 0 <= j < |data| / 2 :: r[k] == data[2 * j + 1]
      {
        if k < n {
          assert r[k] == data[2 * 0 + 1];
        } else {
          var j' :| 0 <= j' < |data[2..]| / 2 && rest[k - n] == data[2..][2 * j' + 1];
          assert 0 <= j' + 1 < |data| / 2 && r[k] == data[2 * (j' + 1) + 1];
        }
      }
      r
  }

  /** The unsigned codec round trips on every input. */
  lemma {:induction false} RoundTrip(s: seq<Byte>)
    ensures Uncompress(Compress(s)) == s
    decreases |s|
  {
    if s != [] {
      var n := Rle.RunLength(s, MaxRun);
      RoundTrip(s[n..]);
      var data := Compress(s);
      assert data[2..] == Compress(s[n..]);
      Rle.RunSplit(s, n);
    }
  }
}

=== FILE: search.dfy ===
/**
 * search/search_binary.c and search/search_sequential.c: both answer 1
 * when the key is found and 0 otherwise, modelled as a bool. compare_func
 * is modelled as an integer key, as in the sorts: compare(key, e) is
 * negative, zero or positive as k is below, equal to or above key(e).
 * equal_func is any predicate on the key and an element. The C ints
 * l, r and mid are unbounded here; size * element_size never overflows.
 */
module Search {
  import DList

  /** The range [l, r] holds an element whose key is k. */
  predicate InRange<T>(s: seq<T>, l: int, r: int, k: int, key: T -> int)
  {
    exists i | 0 <= l <= i <= r < |s| :: key(s[i]) == k
  }

  /** The midpoint l + (r - l) / 2 of a non-empty range lies inside it. */
  function Mid(l: int, r: int): (mid: int)
    requires l <= r
    ensures l <= mid <= r
  {
    l + (r - l) / 2
  }

  /**
   * __search_binary: an empty range is a miss; an equal middle element is
   * a hit; otherwise search the half on the key's side of the middle.
   */
  function Binary<T>(s: seq<T>, l: int, r: int, k: int, key: T -> int): (found: bool)
    requires 0 <= l && r < |s|
    ensures found ==> InRange(s, l, r, k, key)
    decreases r - l
  {
    if l > r then false
    else
      var mid := Mid(l, r);
      if k == key(s[mid]) then true
      else if k < key(s[mid]) then Binary(s, l, mid - 1, k, key)
      else Binary(s, mid + 1, r, k, key)
  }

  /** On ascending data the search misses only what is not in the range. */
  lemma {:induction false} BinaryComplete<T>(s: seq<T>, l: int, r: int, k: int, key: T -> int)
    requires 0 <= l && r < |s| && DList.Sorted(s, key)
    ensures Binary(s, l, r, k, key) <==> InRange(s, l, r, k, key)
    decreases r - l
  {
    if l <= r {
      var mid := Mid(l, r);
      if k < key(s[mid]) {
        BinaryComplete(s, l, mid - 1, k, key);
        LowerHalf(s, l, r, k, key);
      } else if k > key(s[mid]) {
        BinaryComplete(s, mid + 1, r, k, key);
        UpperHalf(s, l, r, k, key);
      }
    }
  }

  /** On ascending data a key below the middle one can only be in the lower half. */
  lemma LowerHalf<T>(s: seq<T>, l: int, r: int, k: int, key: T -> int)
    requires 0 <= l <= r < |s| && DList.Sorted(s, key) && k < key(s[Mid(l, r)])
    ensures InRange(s, l, r, k, key) <==> InRange(s, l, Mid(l, r) - 1, k, key)
  {
    if InRange(s, l, r, k, key) {
      var i :| l <= i <= r && key(s[i]) == k;
      assert i < Mid(l, r);
    }
  }

  /** On ascending data a key above the middle one can only be in the upper half. */
  lemma UpperHalf<T>(s: seq<T>, l: int, r: int, k: int, key: T -> int)
    requires 0 <= l <= r < |s| && DList.Sorted(s, key) && k > key(s[Mid(l, r)])
    ensures InRange(s, l, r, k, key) <==> InRange(s, Mid(l, r) + 1, r, k, key)
  {
    if InRange(s, l, r, k, key) {
      var i :| l <= i <= r && key(s[i]) == k;
      assert i > Mid(l, r);
    }
  }

  /** search_binary: the whole array, from 0 to size - 1. */
  function SearchBinary<T>(s: seq<T>, k: int, key: T -> int): (found: bool)
    ensures found ==> exists i | 0 <= i < |s| :: key(s[i]) == k
    ensures |s| == 0 ==> !found
  {
    Binary(s, 0, |s| - 1, k, key)
  }

  /** On ascending data search_binary finds the key exactly when some element has it. */
  lemma SearchBinaryComplete<T>(s: seq<T>, k: int, key: T -> int)
    requires DList.Sorted(s, key)
    ensures SearchBinary(s, k, key) <==> exists i | 0 <= i < |s| :: key(s[i]) == k
  {
    BinaryComplete(s, 0, |s| - 1, k, key);
  }

  /** On unsorted data the search can miss an element that is there. */
  lemma BinaryNeedsSorted(s: seq<int>)
    requires s == [2, 0, 1]
    ensures s[0] == 2 && !SearchBinary(s, 2, DList.Id)
  {
    assert |s| == 3 && s[1] == 0 && s[2] == 1;
    assert !Binary(s, 3, 2, 2, DList.Id);
    assert !Binary(s, 2, 2, 2, DList.Id);
  }

  /**
   * search_sequential: scan from index 0 and stop at the first element the
   * key is equal to; a size of zero or less finds nothing. The scan only
   * reads the data.
   */
  method Sequential<T, K>(s: seq<T>, size: int, k: K, equal: (K, T) -> bool) returns (found: bool, at: int)
    requires size <= |s|
    ensures found <==> exists i | 0 <= i < size :: equal(k, s[i])
    ensures found ==> 0 <= at < size && equal(k, s[at]) && forall i | 0 <= i < at :: !equal(k, s[i])
    ensures !found ==> at == if size < 0 then 0 else size
  {
    at := 0;
    while at < size
      invariant 0 <= at <= if size < 0 then 0 else size
      invariant forall i | 0 <= i < at :: !equal(k, s[i])
    {
      if equal(k, s[at]) {
        return true, at;
      }
      at := at + 1;
    }
    return false, at;
  }
}

=== FILE: slist.dfy ===
/**
 * The singly linked lists of list.c and slist.c (the same code under two
 * names). Seen as sequences they behave as the list of
 * data_structures/list.c, whose members they share, except that a node is
 * allocated with malloc, which may fail: `ok` says whether it succeeded.
 * On failure append and prepend return NULL, and the caller loses its
 * head pointer although the nodes are untouched.
 */
module SList {
  import opened Wrappers
  import DList

  /** list_append / slist_append: the data becomes the last element, or NULL when malloc fails. */
  function Append<T>(s: seq<T>, x: T, ok: bool): (r: Option<seq<T>>)
    ensures r.None? <==> !ok
    ensures r.Some? ==> |r.value| == |s| + 1 && r.value[..|s|] == s && r.value[|s|] == x
  {
    if !ok then None else Some(DList.Append(s, x))
  }

  /** list_prepend / slist_prepend: the data becomes the first element, or NULL when malloc fails. */
  function Prepend<T>(s: seq<T>, x: T, ok: bool): (r: Option<seq<T>>)
    ensures r.None? <==> !ok
    ensures r.Some? ==> |r.value| == |s| + 1 && r.value[0] == x && r.value[1..] == s
  {
    if !ok then None else Some(DList.Prepend(s, x))
  }

  /**
   * list_last after list_append: the appended data is the last node, and
   * it is found unless an equal pointer was already in the list.
   */
  lemma AppendThenLast<T>(s: seq<T>, x: T)
    ensures var r := Append(s, x, true).value;
      r[|r| - 1] == x && DList.IndexOf(r, x) == if x in s then DList.IndexOf(s, x) else Some(|s|)
  {
    var r := Append(s, x, true).value;
    assert r[..|s|] == s;
    if x !in s {
      DList.IndexOfFirst(r, x, |s|);
    } else {
      var i := DList.IndexOf(s, x).value;
      assert r[..i] == s[..i];
      DList.IndexOfFirst(r, x, i);
    }
  }

  /** Removing the data just prepended gives back the list. */
  lemma PrependThenRemove<T>(s: seq<T>, x: T)
    ensures var r := Prepend(s, x, true).value;
      DList.IndexOf(r, x) == Some(0) && r[..0] + r[1..] == s
  {
    var r := Prepend(s, x, true).value;
    DList.IndexOfFirst(r, x, 0);
  }
}

=== FILE: sort_bubble.dfy ===
/**
 * Bubble sort: the generic sort_bubble of sort/sort_bubble.c and the int
 * sort_bubble of sort.c perform the same passes, swapping neighbours whose
 * left element compares greater, until a pass swaps nothing. They differ
 * only in the guard that makes the call a no-op.
 */
module SortBubble {
  import DList
  import opened SortCommon

  /** What holds after the inner loop has compared positions up to i - 1 during a pass over a. */
  ghost predicate PassInv<T>(a: seq<T>, b: seq<T>, m: nat, i: nat, change: bool, key: T -> int)
  {
    1 <= i <= |a| && |b| == |a| && 1 <= m <= |a|
    && multiset(b) == multiset(a) && Stable(b, a, key)
    && (forall x | 0 <= x < i :: key(b[x]) <= key(b[i - 1]))
    && b[i..] == a[i..]
    && (!change ==> b == a && forall x | 0 < x < i :: key(a[x - 1]) <= key(a[x]))
    && (DList.Sorted(a, key) ==> !change)
    && (i >= m ==> b[m..] == a[m..] && multiset(b[..m]) == multiset(a[..m]))
    && (i >= m ==> forall x | 0 <= x < m :: key(b[x]) <= key(b[m - 1]))
  }

  /**
   * One pass of the inner for loop, over a sequence whose last |a| - m
   * elements are already in place: the largest of the first m moves to
   * position m - 1. `change` is set exactly when the input was not sorted.
   */
  method Pass<T>(a: seq<T>, m: nat, key: T -> int) returns (b: seq<T>, change: bool)
    requires 1 <= m <= |a| && SuffixDone(a, m, key)
    ensures |b| == |a| && multiset(b) == multiset(a) && Stable(b, a, key)
    ensures SuffixDone(b, m - 1, key)
    ensures !change ==> b == a
    ensures !change <==> DList.Sorted(a, key)
  {
    b, change := a, false;
    var i := 1;
    PassStart(a, m, key);
    while i < |a|
      invariant PassInv(a, b, m, i, change, key)
    {
      if key(b[i - 1]) > key(b[i]) {
        if i >= m {
          NoSwapInPlace(a, b, m, i, key);
          assert false;
        } else {
          StepSwap(a, b, m, i, change, key);
          b := Swap(b, i - 1, i);
          change := true;
          i := i + 1;
        }
      } else {
        StepKeep(a, b, m, i, change, key);
        i := i + 1;
      }
    }
    PassEnd(a, b, m, change, key);
  }

  lemma PassStart<T>(a: seq<T>, m: nat, key: T -> int)
    requires 1 <= m <= |a|
    ensures PassInv(a, a, m, 1, false, key)
  {
    if m == 1 {
      assert a[..1] + a[1..] == a;
    }
  }

  lemma StepKeep<T>(a: seq<T>, b: seq<T>, m: nat, i: nat, change: bool, key: T -> int)
    requires PassInv(a, b, m, i, change, key) && i < |a| && key(b[i - 1]) <= key(b[i])
    ensures PassInv(a, b, m, i + 1, change, key)
  {
    assert b[i] == a[i];
    assert b[i + 1..] == b[i..][1..] && a[i + 1..] == a[i..][1..];
    if i + 1 == m {
      SplitMultiset(a, b, m);
    }
  }

  /** Equal multisets and equal suffixes give equal multisets of the prefixes. */
  lemma SplitMultiset<T>(a: seq<T>, b: seq<T>, m: nat)
    requires |a| == |b| && m <= |a| && multiset(a) == multiset(b) && a[m..] == b[m..]
    ensures multiset(a[..m]) == multiset(b[..m])
  {
    assert a[..m] + a[m..] == a && b[..m] + b[m..] == b;
    assert multiset(a) == multiset(a[..m]) + multiset(a[m..]);
    assert multiset(b) == multiset(b[..m]) + multiset(b[m..]);
    assert multiset(a[..m]) == multiset(a) - multiset(a[m..]);
    assert multiset(b[..m]) == multiset(b) - multiset(b[m..]);
  }

  /** An exchange of neighbours with different keys keeps Stable. */
  lemma SwapStable<T>(a: seq<T>, b: seq<T>, i: nat, key: T -> int)
    requires 0 < i < |b| && key(b[i - 1]) != key(b[i]) && Stable(b, a, key)
    ensures Stable(Swap(b, i - 1, i), a, key)
  {
    forall k
      ensures DList.WithKey(Swap(b, i - 1, i), k, key) == DList.WithKey(a, k, key)
    {
      SwapAdjacentStable(b, i, k, key);
    }
  }

  lemma StepSwap<T>(a: seq<T>, b: seq<T>, m: nat, i: nat, change: bool, key: T -> int)
    requires PassInv(a, b, m, i, change, key) && i < m && key(b[i - 1]) > key(b[i])
    ensures PassInv(a, Swap(b, i - 1, i), m, i + 1, true, key)
  {
    var b' := Swap(b, i - 1, i);
    assert multiset(b') == multiset(a) by {
      SwapMultiset(b, i - 1, i);
    }
    assert Stable(b', a, key) by {
      SwapStable(a, b, i, key);
    }
    assert b'[i + 1..] == a[i + 1..] by {
      assert b[i + 1..] == b[i..][1..] && a[i + 1..] == a[i..][1..];
    }
    assert forall x | 0 <= x < i + 1 :: key(b'[x]) <= key(b'[i]) by {
      forall x | 0 <= x < i + 1
        ensures key(b'[x]) <= key(b'[i])
      {
        if x < i - 1 {
          assert b'[x] == b[x];
        }
      }
    }
    assert !DList.Sorted(a, key) by {
      if !change {
        assert key(a[i - 1]) > key(a[i]);
      }
    }
    if i + 1 == m {
      SplitMultiset(a, b', m);
    }
  }

  lemma PassEnd<T>(a: seq<T>, b: seq<T>, m: nat, change: bool, key: T -> int)
    requires SuffixDone(a, m, key) && PassInv(a, b, m, |a|, change, key)
    ensures SuffixDone(b, m - 1, key)
    ensures !change ==> b == a
    ensures !change <==> DList.Sorted(a, key)
  {
    if m == |a| {
      assert b[..m] + b[m..] == b && a[..m] + a[m..] == a;
    }
    FinishPass(a, b, m, key);
    if !change {
      forall i, j | 0 <= i < j < |a|
        ensures key(a[i]) <= key(a[j])
      {
        AdjacentSorted(a, i, j, key);
      }
    }
  }

  lemma {:induction false} AdjacentSorted<T>(a: seq<T>, i: nat, j: nat, key: T -> int)
    requires i <= j < |a| && forall x | 0 < x < |a| :: key(a[x - 1]) <= key(a[x])
    ensures key(a[i]) <= key(a[j])
    decreases j - i
  {
    if i < j {
      AdjacentSorted(a, i, j - 1, key);
    }
  }

  /** Inside the finished suffix no neighbours are out of order. */
  lemma NoSwapInPlace<T>(a: seq<T>, b: seq<T>, m: nat, i: nat, key: T -> int)
    requires 1 <= m <= i < |a| == |b| && SuffixDone(a, m, key)
    requires b[m..] == a[m..] && multiset(b[..m]) == multiset(a[..m])
    ensures key(b[i - 1]) <= key(b[i])
  {
    assert b[i] == a[i];
    if i - 1 >= m {
      assert b[i - 1] == a[i - 1];
      assert a[m..][i - 1 - m] == a[i - 1] && a[m..][i - m] == a[i];
    } else {
      assert b[m - 1] in multiset(b[..m]);
      assert b[m - 1] in multiset(a[..m]);
      var x :| 0 <= x < m && a[..m][x] == b[m - 1];
    }
  }

  /** After the loop: the largest of the first m sits at m - 1, in front of the untouched suffix. */
  lemma FinishPass<T>(a: seq<T>, b: seq<T>, m: nat, key: T -> int)
    requires 1 <= m <= |a| == |b| && SuffixDone(a, m, key)
    requires b[m..] == a[m..] && multiset(b[..m]) == multiset(a[..m])
    requires forall x | 0 <= x < m :: key(b[x]) <= key(b[m - 1])
    ensures SuffixDone(b, m - 1, key)
  {
    forall y | m <= y < |b|
      ensures key(b[m - 1]) <= key(b[y]) && forall x | 0 <= x < m :: key(b[x]) <= key(b[y])
    {
      forall x | 0 <= x < m
        ensures key(b[x]) <= key(b[y])
      {
        assert b[x] in multiset(b[..m]) by { assert b[..m][x] == b[x]; }
        assert b[x] in multiset(a[..m]);
        var x' :| 0 <= x' < m && a[..m][x'] == b[x];
        assert b[y] == a[y];
      }
    }
    forall i, j | m - 1 <= i < j < |b|
      ensures key(b[i]) <= key(b[j])
    {
      if i >= m {
        assert b[i] == a[m..][i - m] && b[j] == a[m..][j - m];
      }
    }
    var c := b[m - 1..];
    assert DList.Sorted(c, key) by {
      forall i, j | 0 <= i < j < |c|
        ensures key(c[i]) <= key(c[j])
      {
        assert c[i] == b[m - 1 + i] && c[j] == b[m - 1 + j];
      }
    }
  }

  /** The outer while loop: passes until one swaps nothing. */
  method Passes<T>(a: seq<T>, key: T -> int) returns (r: seq<T>)
    requires |a| > 0
    ensures DList.Sorted(r, key) && multiset(r) == multiset(a) && Stable(r, a, key)
  {
    r := a;
    var change := true;
    var p := 0;
    assert r[|r|..] == [];
    while change
      invariant |r| == |a| && multiset(r) == multiset(a) && Stable(r, a, key)
      invariant p <= |a|
      invariant change ==> p < |a| && SuffixDone(r, |a| - p, key)
      invariant !change ==> DList.Sorted(r, key)
      decreases |a| - p + (if change then 1 else 0)
    {
      var r';
      r', change := Pass(r, |a| - p, key);
      if change && |a| - p == 1 {
        SuffixOneSorted(r, key);
      }
      forall k
        ensures DList.WithKey(r', k, key) == DList.WithKey(a, k, key)
      {
        assert DList.WithKey(r', k, key) == DList.WithKey(r, k, key);
      }
      r, p := r', p + 1;
    }
  }

  lemma SuffixOneSorted<T>(s: seq<T>, key: T -> int)
    requires SuffixDone(s, 1, key)
    ensures DList.Sorted(s, key)
  {
    forall i, j | 0 <= i < j < |s|
      ensures key(s[i]) <= key(s[j])
    {
      if i > 0 {
        assert s[i] == s[1..][i - 1] && s[j] == s[1..][j - 1];
      }
    }
  }

  /** sort/sort_bubble.c sort_bubble as written: no-op under the guard, otherwise the passes. */
  method SortGeneric<T>(data: seq<T>, elementSize: nat, key: T -> int) returns (r: seq<T>)
    ensures multiset(r) == multiset(data)
    ensures Skipped(|data|, elementSize) ==> r == data
    ensures !Skipped(|data|, elementSize) ==> DList.Sorted(r, key) && Stable(r, data, key)
  {
    if Skipped(|data|, elementSize) {
      return data;
    }
    r := Passes(data, key);
  }

  /** sort_bubble with the guard on the element count: every array comes out sorted, whatever its element size. */
  method SortFixed<T>(data: seq<T>, elementSize: nat, key: T -> int) returns (r: seq<T>)
    ensures multiset(r) == multiset(data) && DList.Sorted(r, key) && Stable(r, data, key)
  {
    if |data| < 2 {
      return data;
    }
    r := Passes(data, key);
  }

  /** sort.c sort_bubble: no-op for fewer than 2 elements, otherwise the passes over the ints. */
  method SortInts(data: seq<int>) returns (r: seq<int>)
    ensures multiset(r) == multiset(data) && DList.Sorted(r, x => x)
  {
    if |data| < 2 {
      return data;
    }
    r := Passes(data, x => x);
  }
}

=== FILE: sort_common.dfy ===
/**
 * What the array sorts share: the element swap through a temporary, and
 * the facts about it that every sort needs. compare_func is modelled as an
 * integer key (compare(a, b) > 0 is key(a) > key(b)); an int array is the
 * instance whose key is the identity.
 */
module SortCommon {
  import DList

  /** swap(e1, e2): the two slots exchange their contents. */
  function Swap<T>(s: seq<T>, i: nat, j: nat): (r: seq<T>)
    requires i < |s| && j < |s|
    ensures |r| == |s| && r[i] == s[j] && r[j] == s[i]
    ensures forall k | 0 <= k < |s| && k != i && k != j :: r[k] == s[k]
  {
    s[i := s[j]][j := s[i]]
  }

  /** A swap permutes. */
  lemma SwapMultiset<T>(s: seq<T>, i: nat, j: nat)
    requires i < |s| && j < |s|
    ensures multiset(Swap(s, i, j)) == multiset(s)
  {
  }

  /** The last |s| - m elements are in place: ascending and no smaller than anything before them. */
  predicate SuffixDone<T>(s: seq<T>, m: nat, key: T -> int)
  {
    m <= |s| && DList.Sorted(s[m..], key)
    && forall x, y | 0 <= x < m <= y < |s| :: key(s[x]) <= key(s[y])
  }

  /** Every key's elements in the same order in both sequences. */
  ghost predicate Stable<T>(a: seq<T>, b: seq<T>, key: T -> int)
  {
    forall k :: DList.WithKey(a, k, key) == DList.WithKey(b, k, key)
  }

  /** Exchanging neighbours with different keys keeps every key's elements in order. */
  lemma SwapAdjacentStable<T>(s: seq<T>, i: nat, k: int, key: T -> int)
    requires 0 < i < |s| && key(s[i - 1]) != key(s[i])
    ensures DList.WithKey(Swap(s, i - 1, i), k, key) == DList.WithKey(s, k, key)
  {
    var r := Swap(s, i - 1, i);
    assert s == s[..i - 1] + [s[i - 1], s[i]] + s[i + 1..];
    assert r == s[..i - 1] + [s[i], s[i - 1]] + s[i + 1..];
    DList.WithKeyAppend(s[..i - 1] + [s[i - 1], s[i]], s[i + 1..], k, key);
    DList.WithKeyAppend(s[..i - 1], [s[i - 1], s[i]], k, key);
    DList.WithKeyAppend(s[..i - 1] + [s[i], s[i - 1]], s[i + 1..], k, key);
    DList.WithKeyAppend(s[..i - 1], [s[i], s[i - 1]], k, key);
    DList.WithKeyCons(s[i - 1], [s[i]], k, key);
    DList.WithKeyCons(s[i], [s[i - 1]], k, key);
    DList.WithKeyCons(s[i], [], k, key);
    DList.WithKeyCons(s[i - 1], [], k, key);
  }

  /**
   * The guard of the generic sorts in sort/: `!data || size == 0 ||
   * element_size < 2` makes the call a no-op. A NULL data pointer is not
   * modelled.
   */
  predicate Skipped(size: nat, elementSize: nat)
  {
    size == 0 || elementSize < 2
  }

  /**
   * The guard tests the element size where the element count was meant:
   * an array of one-byte elements, such as [2, 1] of unsigned char, is
   * left as it is, unsorted.
   */
  lemma OneByteElementsSkipped()
    ensures Skipped(2, 1) && !DList.Sorted([2, 1], x => x)
  {
    var s: seq<int> := [2, 1];
    assert s[0] > s[1];
  }
}

=== FILE: sort_heap.dfy ===
/**
 * Heap sort: sort_heap of sort/sort_heap.c and of sort.c. Both build a
 * max-heap bottom-up (the children of position i are 2i + 1 and 2i + 2)
 * and then repeatedly swap the root with the last element of the heap and
 * sift the new root down in the shrunk heap. sort.c sifts down by
 * recursion (Sift), sort/sort_heap.c by a loop (SiftLoop); they are proved
 * to compute the same thing.
 */
module SortHeap {
  import DList
  import opened SortCommon

  /** The parent of position c > 0: its children are 2p + 1 and 2p + 2. */
  function Parent(c: nat): (p: nat)
    requires c > 0
    ensures c == 2 * p + 1 || c == 2 * p + 2
  {
    (c - 1) / 2
  }

  /** Every parent at lo or beyond, among the first n elements, has a key no smaller than its children's. */
  predicate HeapFrom<T>(a: seq<T>, n: nat, lo: nat, key: T -> int)
    requires n <= |a|
  {
    forall c {:trigger Parent(c)} | 0 < c < n && lo <= Parent(c) :: key(a[Parent(c)]) >= key(a[c])
  }

  /**
   * HeapFrom except at parent j, whose children may be larger, but whose
   * own parent (when at lo or beyond) is no smaller than j's children:
   * the state while an element is being sifted down from j.
   */
  predicate HeapExcept<T>(a: seq<T>, n: nat, lo: nat, j: nat, key: T -> int)
    requires n <= |a|
  {
    (forall c {:trigger Parent(c)} | 0 < c < n && lo <= Parent(c) && Parent(c) != j :: key(a[Parent(c)]) >= key(a[c]))
    && (forall c {:trigger Parent(c)} | 0 < c < n && Parent(c) == j && 0 < j && lo <= Parent(j) :: key(a[Parent(j)]) >= key(a[c]))
  }

  /**
   * max(data, size, i, 2i + 1, 2i + 2) of sort/sort_heap.c, and the
   * choice of `largest` in sort.c's heapify: a child replaces the current
   * choice only when it compares strictly greater, and only when it is
   * inside the heap of n elements.
   */
  function Largest<T>(a: seq<T>, n: nat, i: nat, key: T -> int): (m: nat)
    requires n <= |a|
    ensures m == i || (m == 2 * i + 1 && m < n) || (m == 2 * i + 2 && m < n)
    ensures m != i ==> key(a[m]) > key(a[i])
    ensures m == 2 * i + 2 ==> 2 * i + 1 < n && key(a[m]) > key(a[2 * i + 1])
    ensures 2 * i + 1 < n ==> key(a[2 * i + 1]) <= key(a[m])
    ensures 2 * i + 2 < n ==> key(a[2 * i + 2]) <= key(a[m])
  {
    var l := 2 * i + 1;
    var r := 2 * i + 2;
    var m := if l < n && key(a[l]) > key(a[i]) then l else i;
    if r < n && key(a[r]) > key(a[m]) then r else m
  }

  /**
   * sort.c's heapify(array, n, i): when a child is larger, swap it up and
   * continue from the child's position. Elements before i and from n on
   * are not touched.
   */
  function Sift<T>(a: seq<T>, n: nat, i: nat, key: T -> int): (r: seq<T>)
    requires n <= |a|
    ensures |r| == |a| && multiset(r) == multiset(a)
    ensures forall k | 0 <= k < |a| && (k < i || n <= k) :: r[k] == a[k]
    decreases n - i
  {
    var m := Largest(a, n, i, key);
    if m == i then a else Sift(Swap(a, i, m), n, m, key)
  }

  /** The for (;;) loop of sort/sort_heap.c's heapify computes what sort.c's recursion does. */
  method SiftLoop<T>(a: seq<T>, n: nat, i: nat, key: T -> int) returns (r: seq<T>)
    requires n <= |a|
    ensures r == Sift(a, n, i, key)
  {
    r := a;
    var p := i;
    while true
      invariant |r| == |a| && Sift(r, n, p, key) == Sift(a, n, i, key)
      decreases n - p
    {
      var m := Largest(r, n, p, key);
      if p == m {
        return;
      }
      r := Swap(r, p, m);
      p := m;
    }
  }

  /** One sift-down step moves the defect from i to the child swapped up. */
  lemma SwapDown<T>(a: seq<T>, n: nat, lo: nat, i: nat, key: T -> int)
    requires n <= |a| && lo <= i && HeapExcept(a, n, lo, i, key)
    requires Largest(a, n, i, key) != i
    ensures HeapExcept(Swap(a, i, Largest(a, n, i, key)), n, lo, Largest(a, n, i, key), key)
  {
    var m := Largest(a, n, i, key);
    var b := Swap(a, i, m);
    forall c | 0 < c < n && lo <= Parent(c) && Parent(c) != m
      ensures key(b[Parent(c)]) >= key(b[c])
    {
      SwapDownAt(a, n, lo, i, c, key);
    }
    forall c | 0 < c < n && Parent(c) == m && lo <= Parent(m)
      ensures key(b[Parent(m)]) >= key(b[c])
    {
      SwapDownBelow(a, n, lo, i, c, key);
    }
  }

  /** SwapDown at one child position c whose parent is not the child swapped up. */
  lemma SwapDownAt<T>(a: seq<T>, n: nat, lo: nat, i: nat, c: nat, key: T -> int)
    requires n <= |a| && lo <= i && HeapExcept(a, n, lo, i, key)
    requires Largest(a, n, i, key) != i
    requires 0 < c < n && lo <= Parent(c) && Parent(c) != Largest(a, n, i, key)
    ensures var b := Swap(a, i, Largest(a, n, i, key)); key(b[Parent(c)]) >= key(b[c])
  {
    var m := Largest(a, n, i, key);
    var b := Swap(a, i, m);
    var p := Parent(c);
    assert Parent(m) == i;
    if p == i {
      assert b[p] == a[m];
      if c != m {
        assert b[c] == a[c];
      }
    } else if c == i {
      assert b[p] == a[p] && b[c] == a[m];
      assert key(a[Parent(i)]) >= key(a[m]);
    } else {
      assert c != m;
      assert b[p] == a[p] && b[c] == a[c];
    }
  }

  /** SwapDown at a child c of the child swapped up: the new parent there is the old child. */
  lemma SwapDownBelow<T>(a: seq<T>, n: nat, lo: nat, i: nat, c: nat, key: T -> int)
    requires n <= |a| && lo <= i && HeapExcept(a, n, lo, i, key)
    requires Largest(a, n, i, key) != i
    requires 0 < c < n && Parent(c) == Largest(a, n, i, key)
    ensures var m := Largest(a, n, i, key); var b := Swap(a, i, m); key(b[Parent(m)]) >= key(b[c])
  {
    var m := Largest(a, n, i, key);
    var b := Swap(a, i, m);
    assert Parent(m) == i && b[i] == a[m] && b[c] == a[c];
  }

  /** Sifting down from i repairs a heap whose only defect is at i. */
  lemma {:induction false} SiftHeap<T>(a: seq<T>, n: nat, lo: nat, i: nat, key: T -> int)
    requires n <= |a| && lo <= i && HeapExcept(a, n, lo, i, key)
    ensures HeapFrom(Sift(a, n, i, key), n, lo, key)
    decreases n - i
  {
    var m := Largest(a, n, i, key);
    if m != i {
      SwapDown(a, n, lo, i, key);
      SiftHeap(Swap(a, i, m), n, lo, m, key);
    }
  }

  /** In a heap no element is larger than the root. */
  lemma {:induction false} RootMax<T>(a: seq<T>, n: nat, k: nat, key: T -> int)
    requires k < n <= |a| && HeapFrom(a, n, 0, key)
    ensures key(a[k]) <= key(a[0])
    decreases k
  {
    if k > 0 {
      RootMax(a, n, Parent(k), key);
    }
  }

  /** HeapFrom(a, n, i + 1) is HeapExcept at i: the element at i is the one to sift down. */
  lemma ExceptAtLo<T>(a: seq<T>, n: nat, i: nat, key: T -> int)
    requires n <= |a| && HeapFrom(a, n, i + 1, key)
    ensures HeapExcept(a, n, i, i, key)
  {
  }

  /** The largest C int: the loop counters of sort_heap are ints. */
  const IntMax: nat := 0x7FFF_FFFF

  /**
   * The first i of the heapify loop, `(size - 2) / 2` computed on size_t
   * and stored in an int: for size 0 or 1 the subtraction wraps, the
   * quotient 2^63 - 1 is truncated to the int -1, and the loop does not run.
   */
  function BuildStart(size: nat): (i: int)
    requires size <= IntMax
    ensures i == if size >= 2 then (size - 2) / 2 else -1
  {
    var w := (size + 0x1_0000_0000_0000_0000 - 2) % 0x1_0000_0000_0000_0000 / 2;
    var low := w % 0x1_0000_0000;
    if low > IntMax then low - 0x1_0000_0000 else low
  }

  /**
   * The heapify loop: i from BuildStart down to 0, sifting down from each
   * i; the first n elements then form a heap.
   */
  method Build<T>(a: seq<T>, key: T -> int) returns (r: seq<T>)
    requires |a| <= IntMax
    ensures |r| == |a| && multiset(r) == multiset(a) && HeapFrom(r, |r|, 0, key)
  {
    r := a;
    var i := BuildStart(|a|);
    while i >= 0
      invariant -1 <= i < |a| || i == -1
      invariant |r| == |a| && multiset(r) == multiset(a) && HeapFrom(r, |a|, i + 1, key)
    {
      ExceptAtLo(r, |a|, i, key);
      SiftHeap(r, |a|, i, i, key);
      r := SiftLoop(r, |a|, i, key);
      i := i - 1;
    }
  }

  /**
   * One round of the extraction loop before the sift: the root, largest of
   * the heap, moves to the front of the sorted suffix, and the element put
   * at the root is the only defect of the shrunk heap.
   */
  lemma ExtractStep<T>(a: seq<T>, m: nat, key: T -> int)
    requires 1 <= m <= |a| && HeapFrom(a, m, 0, key) && SuffixDone(a, m, key)
    ensures SuffixDone(Swap(a, 0, m - 1), m - 1, key)
    ensures HeapExcept(Swap(a, 0, m - 1), m - 1, 0, 0, key)
  {
    var b := Swap(a, 0, m - 1);
    forall x | 0 <= x < m
      ensures key(a[x]) <= key(a[0])
    {
      RootMax(a, m, x, key);
    }
    forall x, y | 0 <= x < y < |b| && m - 1 <= x
      ensures key(b[x]) <= key(b[y])
    {
      if x == m - 1 {
        assert key(a[0]) <= key(a[y]);
      } else {
        assert a[x] == a[m..][x - m] && a[y] == a[m..][y - m];
      }
    }
    var t := b[m - 1..];
    assert DList.Sorted(t, key) by {
      forall x, y | 0 <= x < y < |t|
        ensures key(t[x]) <= key(t[y])
      {
        assert t[x] == b[m - 1 + x] && t[y] == b[m - 1 + y];
      }
    }
    forall x, y | 0 <= x < m - 1 <= y < |b|
      ensures key(b[x]) <= key(b[y])
    {
      assert key(b[x]) <= key(a[0]);
      if y >= m {
        assert key(a[0]) <= key(a[y]);
      }
    }
    forall c | 0 < c < m - 1 && Parent(c) != 0
      ensures key(b[Parent(c)]) >= key(b[c])
    {
      assert b[Parent(c)] == a[Parent(c)] && b[c] == a[c];
    }
  }

  /** The first m elements permuted among themselves, the rest untouched: the suffix stays done. */
  lemma SuffixKept<T>(b: seq<T>, c: seq<T>, m: nat, key: T -> int)
    requires SuffixDone(b, m, key) && |c| == |b| && multiset(c) == multiset(b)
    requires forall k | m <= k < |b| :: c[k] == b[k]
    ensures SuffixDone(c, m, key)
  {
    PrefixMultiset(b, c, m);
    forall x, y | 0 <= x < m <= y < |c|
      ensures key(c[x]) <= key(c[y])
    {
      var x' := InPrefix(b, c, m, x);
    }
  }

  /** Equal multisets and equal suffixes from m: equal multisets of the first m. */
  lemma PrefixMultiset<T>(b: seq<T>, c: seq<T>, m: nat)
    requires m <= |b| == |c| && multiset(c) == multiset(b)
    requires forall k | m <= k < |b| :: c[k] == b[k]
    ensures c[m..] == b[m..] && multiset(c[..m]) == multiset(b[..m])
  {
    assert c[m..] == b[m..];
    assert c == c[..m] + c[m..] && b == b[..m] + b[m..];
    assert multiset(c[..m]) == multiset(c) - multiset(c[m..]);
    assert multiset(b[..m]) == multiset(b) - multiset(b[m..]);
  }

  /** A position of the first m of c holds what some position of the first m of b held. */
  lemma InPrefix<T>(b: seq<T>, c: seq<T>, m: nat, x: nat) returns (x': nat)
    requires x < m <= |b| && m <= |c| && multiset(c[..m]) == multiset(b[..m])
    ensures x' < m && b[x'] == c[x]
  {
    assert c[x] == c[..m][x];
    assert c[x] in multiset(b[..m]);
    x' :| 0 <= x' < m && b[..m][x'] == c[x];
  }

  /** A whole round of the extraction loop: the heap shrinks by one and the done suffix grows by one. */
  lemma ExtractRound<T>(a: seq<T>, m: nat, key: T -> int)
    requires 1 <= m <= |a| && HeapFrom(a, m, 0, key) && SuffixDone(a, m, key)
    ensures var r := Sift(Swap(a, 0, m - 1), m - 1, 0, key);
      |r| == |a| && multiset(r) == multiset(a) && HeapFrom(r, m - 1, 0, key) && SuffixDone(r, m - 1, key)
  {
    ExtractStep(a, m, key);
    SwapMultiset(a, 0, m - 1);
    SiftRound(Swap(a, 0, m - 1), m - 1, key);
  }

  /** Sifting the new root down repairs the shrunk heap and keeps the done suffix. */
  lemma SiftRound<T>(b: seq<T>, m: nat, key: T -> int)
    requires m < |b| && HeapExcept(b, m, 0, 0, key) && SuffixDone(b, m, key)
    ensures var r := Sift(b, m, 0, key); HeapFrom(r, m, 0, key) && SuffixDone(r, m, key)
  {
    SiftHeap(b, m, 0, 0, key);
    SuffixKept(b, Sift(b, m, 0, key), m, key);
  }

  /**
   * The extraction loop: for i from 0, swap the root with the last element
   * of the heap of size - i elements and sift the new root down in the
   * heap of size - i - 1. The array comes out ascending.
   */
  method Extract<T>(a: seq<T>, key: T -> int) returns (r: seq<T>)
    requires HeapFrom(a, |a|, 0, key)
    ensures multiset(r) == multiset(a) && DList.Sorted(r, key)
  {
    r := a;
    var i := 0;
    assert r[|r|..] == [];
    while i < |a|
      invariant i <= |a| == |r| && multiset(r) == multiset(a)
      invariant HeapFrom(r, |a| - i, 0, key) && SuffixDone(r, |a| - i, key)
    {
      var m := |a| - i;
      ExtractRound(r, m, key);
      r := SiftLoop(Swap(r, 0, m - 1), m - 1, 0, key);
      i := i + 1;
    }
    assert r[0..] == r;
  }

  /** Both loops: an ascending permutation. */
  method HeapSort<T>(a: seq<T>, key: T -> int) returns (r: seq<T>)
    requires |a| <= IntMax
    ensures multiset(r) == multiset(a) && DList.Sorted(r, key)
  {
    r := Build(a, key);
    r := Extract(r, key);
  }

  /** sort/sort_heap.c sort_heap as written: no-op under the guard, otherwise heap sort. */
  method SortGeneric<T>(data: seq<T>, elementSize: nat, key: T -> int) returns (r: seq<T>)
    requires |data| <= IntMax
    ensures multiset(r) == multiset(data)
    ensures Skipped(|data|, elementSize) ==> r == data
    ensures !Skipped(|data|, elementSize) ==> DList.Sorted(r, key)
  {
    if Skipped(|data|, elementSize) {
      return data;
    }
    r := HeapSort(data, key);
  }

  /** sort_heap with the guard on the element count: every array comes out sorted, whatever its element size. */
  method SortFixed<T>(data: seq<T>, elementSize: nat, key: T -> int) returns (r: seq<T>)
    requires |data| <= IntMax
    ensures multiset(r) == multiset(data) && DList.Sorted(r, key)
  {
    if |data| < 2 {
      return data;
    }
    r := HeapSort(data, key);
  }

  /**
   * sort.c sort_heap: no-op for fewer than 2 elements. Its heapify loop
   * starts at nb / 2 - 1, which is BuildStart(nb) for nb >= 2, and its
   * extraction loop counts i down from nb - 1 where sort/sort_heap.c
   * counts up and uses size - i - 1: the same swaps and sifts.
   */
  method SortInts(data: seq<int>) returns (r: seq<int>)
    requires |data| <= IntMax
    ensures multiset(r) == multiset(data) && DList.Sorted(r, x => x)
  {
    if |data| < 2 {
      return data;
    }
    assert |data| / 2 - 1 == BuildStart(|data|);
    r := HeapSort(data, x => x);
  }
}

=== FILE: sort_insertion.dfy ===
/**
 * Insertion sort, sort_insertion of sort/sort_insertion.c: for each i from
 * 1, the element at i is copied out, the run of greater elements just left
 * of it is shifted one slot right, and the element is stored in the gap.
 */
module SortInsertion {
  import DList
  import opened SortCommon

  /** a with a[i] moved down to position p and a[p..i] shifted one slot right. */
  function Inserted<T>(a: seq<T>, i: nat, p: nat): (r: seq<T>)
    requires p <= i < |a|
    ensures |r| == |a|
    ensures forall k | 0 <= k < p :: r[k] == a[k]
    ensures r[p] == a[i]
    ensures forall k | p < k <= i :: r[k] == a[k - 1]
    ensures forall k | i < k < |a| :: r[k] == a[k]
  {
    a[..p] + [a[i]] + a[p..i] + a[i + 1..]
  }

  /**
   * The inner for loop: j walks left from i - 1 while the element at j
   * compares greater than the saved key, shifting each one right; the key
   * is then stored at j + 1, here p.
   */
  method Shift<T>(a: seq<T>, i: nat, key: T -> int) returns (b: seq<T>, p: nat)
    requires i < |a|
    ensures p <= i && b == Inserted(a, i, p)
    ensures forall k | p <= k < i :: key(a[k]) > key(a[i])
    ensures p == 0 || key(a[p - 1]) <= key(a[i])
  {
    var x := a[i];
    b, p := a, i;
    while p > 0 && key(b[p - 1]) > key(x)
      invariant p <= i && |b| == |a|
      invariant forall k | 0 <= k < p :: b[k] == a[k]
      invariant forall k | p < k <= i :: b[k] == a[k - 1]
      invariant forall k | i < k < |a| :: b[k] == a[k]
      invariant forall k | p <= k < i :: key(a[k]) > key(x)
    {
      b := b[p := b[p - 1]];
      p := p - 1;
    }
    b := b[p := x];
    var r := Inserted(a, i, p);
    assert forall k | 0 <= k < |a| :: b[k] == r[k];
  }

  lemma InsertedMultiset<T>(a: seq<T>, i: nat, p: nat)
    requires p <= i < |a|
    ensures multiset(Inserted(a, i, p)) == multiset(a)
  {
    assert a == a[..p] + a[p..i] + [a[i]] + a[i + 1..];
  }

  /**
   * One step of the outer loop: storing a[i] after the last element of the
   * sorted prefix whose key is not greater extends the sorted prefix by one,
   * and among equal keys a[i] lands after the ones already there.
   */
  lemma InsertedSorted<T>(a: seq<T>, i: nat, p: nat, key: T -> int)
    requires p <= i < |a| && DList.Sorted(a[..i], key)
    requires forall k | p <= k < i :: key(a[k]) > key(a[i])
    requires p == 0 || key(a[p - 1]) <= key(a[i])
    ensures DList.Sorted(Inserted(a, i, p)[..i + 1], key)
    ensures Stable(Inserted(a, i, p)[..i + 1], a[..i + 1], key)
  {
    InsertedAscending(a, i, p, key);
    InsertedStable(a, i, p, key);
  }

  lemma InsertedAscending<T>(a: seq<T>, i: nat, p: nat, key: T -> int)
    requires p <= i < |a| && DList.Sorted(a[..i], key)
    requires forall k | p <= k < i :: key(a[k]) > key(a[i])
    requires p == 0 || key(a[p - 1]) <= key(a[i])
    ensures DList.Sorted(Inserted(a, i, p)[..i + 1], key)
  {
    var b := Inserted(a, i, p);
    forall u, v | 0 <= u < v < i + 1
      ensures key(b[u]) <= key(b[v])
    {
      assert forall k | 0 <= k < i :: a[..i][k] == a[k];
      if p > 0 && u < p {
        assert key(a[u]) <= key(a[p - 1]);
      }
    }
  }

  lemma InsertedStable<T>(a: seq<T>, i: nat, p: nat, key: T -> int)
    requires p <= i < |a|
    requires forall k | p <= k < i :: key(a[k]) > key(a[i])
    ensures Stable(Inserted(a, i, p)[..i + 1], a[..i + 1], key)
  {
    var x := a[i];
    var bs, ap := Inserted(a, i, p)[..i + 1], a[..i + 1];
    assert bs == a[..p] + [x] + a[p..i];
    assert ap == a[..p] + a[p..i] + [x];
    forall k
      ensures DList.WithKey(bs, k, key) == DList.WithKey(ap, k, key)
    {
      MovedKeys(a[..p], a[p..i], x, k, key);
    }
  }

  /** Moving x in front of a run of larger keys leaves every key's subsequence as it was. */
  lemma MovedKeys<T>(u: seq<T>, w: seq<T>, x: T, k: int, key: T -> int)
    requires forall j | 0 <= j < |w| :: key(w[j]) > key(x)
    ensures DList.WithKey(u + [x] + w, k, key) == DList.WithKey(u + w + [x], k, key)
  {
    DList.WithKeyAppend(u + [x], w, k, key);
    DList.WithKeyAppend(u, [x], k, key);
    DList.WithKeyAppend(u + w, [x], k, key);
    DList.WithKeyAppend(u, w, k, key);
    DList.WithKeyCons(x, [], k, key);
    if k == key(x) {
      DList.WithKeyAbove(w, k, key);
    }
  }

  /** The stable prefix grows by one when both sequences are extended by the same element. */
  lemma StableExtend<T>(r: seq<T>, a: seq<T>, b: seq<T>, i: nat, key: T -> int)
    requires i < |r| == |a| == |b| && r[i] == a[i]
    requires Stable(r[..i], a[..i], key) && Stable(b[..i + 1], r[..i + 1], key)
    ensures Stable(b[..i + 1], a[..i + 1], key)
  {
    var rs, ap := r[..i + 1], a[..i + 1];
    assert rs == r[..i] + [r[i]] && ap == a[..i] + [a[i]];
    forall k
      ensures DList.WithKey(rs, k, key) == DList.WithKey(ap, k, key)
    {
      DList.WithKeyAppend(r[..i], [r[i]], k, key);
      DList.WithKeyAppend(a[..i], [a[i]], k, key);
    }
  }

  /** One round of the outer loop keeps its invariant, one position further on. */
  lemma InsertStep<T>(r: seq<T>, a: seq<T>, i: nat, p: nat, key: T -> int)
    requires p <= i < |a| == |r|
    requires DList.Sorted(r[..i], key) && Stable(r[..i], a[..i], key)
    requires multiset(r) == multiset(a) && r[i..] == a[i..]
    requires forall k | p <= k < i :: key(r[k]) > key(r[i])
    requires p == 0 || key(r[p - 1]) <= key(r[i])
    ensures var b := Inserted(r, i, p);
      DList.Sorted(b[..i + 1], key) && Stable(b[..i + 1], a[..i + 1], key)
      && multiset(b) == multiset(a) && b[i + 1..] == a[i + 1..]
  {
    var b := Inserted(r, i, p);
    InsertedMultiset(r, i, p);
    InsertedSorted(r, i, p, key);
    assert r[i] == r[i..][0] == a[i];
    StableExtend(r, a, b, i, key);
    assert b[i + 1..] == r[i + 1..] == a[i + 1..];
  }

  /** The outer for loop, from i = 1: the first i elements are always sorted and stable. */
  method Insertion<T>(a: seq<T>, key: T -> int) returns (r: seq<T>)
    requires |a| > 0
    ensures DList.Sorted(r, key) && multiset(r) == multiset(a) && Stable(r, a, key)
  {
    r := a;
    var i := 1;
    while i < |a|
      invariant 1 <= i <= |a| && |r| == |a|
      invariant DList.Sorted(r[..i], key) && Stable(r[..i], a[..i], key)
      invariant multiset(r) == multiset(a) && r[i..] == a[i..]
    {
      var r', p := Shift(r, i, key);
      InsertStep(r, a, i, p, key);
      r, i := r', i + 1;
    }
    assert r[..i] == r && a[..i] == a;
  }

  /** sort_insertion as written: no-op under the guard, otherwise the insertions. */
  method SortGeneric<T>(data: seq<T>, elementSize: nat, key: T -> int) returns (r: seq<T>)
    ensures multiset(r) == multiset(data)
    ensures Skipped(|data|, elementSize) ==> r == data
    ensures !Skipped(|data|, elementSize) ==> DList.Sorted(r, key) && Stable(r, data, key)
  {
    if Skipped(|data|, elementSize) {
      return data;
    }
    r := Insertion(data, key);
  }

  /** sort_insertion with the guard on the element count: every array comes out sorted, whatever its element size. */
  method SortFixed<T>(data: seq<T>, elementSize: nat, key: T -> int) returns (r: seq<T>)
    ensures multiset(r) == multiset(data) && DList.Sorted(r, key) && Stable(r, data, key)
  {
    if |data| < 2 {
      return data;
    }
    r := Insertion(data, key);
  }
}

=== FILE: sort_int.dfy ===
/**
 * The int-array helpers of sort.c that no other sort shares: clone_array,
 * which the benchmark driver uses to give every sort the same input, and
 * sort_insertion, which despite its name is a selection sort: position i
 * receives the smallest value of the positions from i on.
 */
module SortInt {
  import opened Wrappers
  import DList
  import opened SortCommon

  /**
   * clone_array: NULL for a count of zero or less, otherwise a fresh array
   * holding the first nb elements. A failed malloc ends the process and is
   * not modelled.
   */
  method CloneArray(a: seq<int>, nb: int) returns (r: Option<seq<int>>)
    requires nb <= |a|
    ensures nb <= 0 <==> r.None?
    ensures r.Some? ==> |r.value| == nb && forall i | 0 <= i < nb :: r.value[i] == a[i]
  {
    if nb <= 0 {
      return None;
    }
    var copy := [];
    var i := 0;
    while i < nb
      invariant 0 <= i <= nb
      invariant copy == a[..i]
    {
      copy := copy + [a[i]];
      i := i + 1;
    }
    return Some(copy);
  }

  /** The first i positions hold, in ascending order, values no larger than any after them. */
  predicate Placed(s: seq<int>, i: nat)
  {
    i <= |s|
    && (forall x, y | 0 <= x < y < i :: s[x] <= s[y])
    && (forall x, y | 0 <= x < i <= y < |s| :: s[x] <= s[y])
  }

  /** The inner loop: the first index from i on that holds the smallest value there. */
  method MinFrom(s: seq<int>, i: nat) returns (m: nat)
    requires i < |s|
    ensures i <= m < |s|
    ensures forall k | i <= k < |s| :: s[m] <= s[k]
    ensures forall k | i <= k < m :: s[m] < s[k]
  {
    m := i;
    var j := i + 1;
    while j < |s|
      invariant i <= m < j <= |s|
      invariant forall k | i <= k < j :: s[m] <= s[k]
      invariant forall k | i <= k < m :: s[m] < s[k]
    {
      if s[j] < s[m] {
        m := j;
      }
      j := j + 1;
    }
  }

  /** Moving the smallest remaining value to position i places one more element. */
  lemma PlaceNext(s: seq<int>, i: nat, m: nat)
    requires Placed(s, i) && i <= m < |s|
    requires forall k | i <= k < |s| :: s[m] <= s[k]
    ensures Placed(Swap(s, i, m), i + 1)
  {
    var t := Swap(s, i, m);
    forall x, y | 0 <= x < i + 1 <= y < |t|
      ensures t[x] <= t[y]
    {
      if y == m {
        assert t[y] == s[i];
      }
    }
  }

  /**
   * sort_insertion: no-op for fewer than 2 elements; otherwise for each
   * position the smallest value from there on is swapped into it. The
   * result is the input in ascending order.
   */
  method Selection(data: seq<int>) returns (r: seq<int>)
    ensures multiset(r) == multiset(data) && DList.Sorted(r, x => x)
    ensures |data| < 2 ==> r == data
  {
    r := data;
    if |data| < 2 {
      return;
    }
    var i := 0;
    while i < |r|
      invariant |r| == |data| && i <= |r|
      invariant multiset(r) == multiset(data)
      invariant Placed(r, i)
    {
      var m := MinFrom(r, i);
      PlaceNext(r, i, m);
      if m != i {
        SwapMultiset(r, i, m);
        r := Swap(r, i, m);
      } else {
        assert Swap(r, i, m) == r;
      }
      i := i + 1;
    }
  }
}

=== FILE: sort_merge.dfy ===
/**
 * Merge sort, sort_merge of sort/sort_merge.c: __sort_merge sorts the range
 * i..j of the array by sorting i..mid and mid + 1..j, mid = (i + j) / 2,
 * and merging them through the tmp array, which is then copied back. The
 * merge takes the left element only when it compares strictly less, so
 * ties go to the right half and the sort is not stable.
 */
module SortMerge {
  import DList
  import opened SortCommon

  /** The merge as the tmp loop performs it: the left head only when its key is strictly smaller. */
  function Merge<T>(a: seq<T>, b: seq<T>, key: T -> int): (r: seq<T>)
    ensures |r| == |a| + |b|
    decreases |a| + |b|
  {
    if a == [] then b
    else if b == [] then a
    else if key(a[0]) < key(b[0]) then [a[0]] + Merge(a[1..], b, key)
    else [b[0]] + Merge(a, b[1..], key)
  }

  lemma {:induction false} MergeMultiset<T>(a: seq<T>, b: seq<T>, key: T -> int)
    ensures multiset(Merge(a, b, key)) == multiset(a) + multiset(b)
    decreases |a| + |b|
  {
    if a != [] && b != [] {
      if key(a[0]) < key(b[0]) {
        MergeTakesLeft(a, b, key);
        MergeMultiset(a[1..], b, key);
        assert a == [a[0]] + a[1..];
      } else {
        MergeTakesRight(a, b, key);
        MergeMultiset(a, b[1..], key);
        assert b == [b[0]] + b[1..];
      }
    }
  }

  lemma MergeTakesLeft<T>(a: seq<T>, b: seq<T>, key: T -> int)
    requires a != [] && (b == [] || key(a[0]) < key(b[0]))
    ensures Merge(a, b, key) == [a[0]] + Merge(a[1..], b, key)
  {
    if b == [] {
      assert Merge(a[1..], b, key) == a[1..];
      assert a == [a[0]] + a[1..];
    }
  }

  lemma MergeTakesRight<T>(a: seq<T>, b: seq<T>, key: T -> int)
    requires b != [] && (a == [] || key(a[0]) >= key(b[0]))
    ensures Merge(a, b, key) == [b[0]] + Merge(a, b[1..], key)
  {
    if a == [] {
      assert Merge(a, b[1..], key) == b[1..];
      assert b == [b[0]] + b[1..];
    }
  }

  /** The range recursion of __sort_merge on the range's contents: halves of (n - 1) / 2 + 1 and the rest. */
  function Sort<T>(s: seq<T>, key: T -> int): (r: seq<T>)
    ensures |r| == |s|
    decreases |s|
  {
    if |s| <= 1 then s
    else
      var m := (|s| - 1) / 2 + 1;
      Merge(Sort(s[..m], key), Sort(s[m..], key), key)
  }

  lemma {:induction false} MergeAtLeast<T>(a: seq<T>, b: seq<T>, lo: int, key: T -> int)
    requires DList.AtLeast(a, lo, key) && DList.AtLeast(b, lo, key)
    ensures DList.AtLeast(Merge(a, b, key), lo, key)
    decreases |a| + |b|
  {
    if a != [] && b != [] {
      if key(a[0]) < key(b[0]) {
        MergeAtLeast(a[1..], b, lo, key);
      } else {
        MergeAtLeast(a, b[1..], lo, key);
      }
    }
  }

  /** Merging two ascending halves gives an ascending range. */
  lemma {:induction false} MergeSorted<T>(a: seq<T>, b: seq<T>, key: T -> int)
    requires DList.Sorted(a, key) && DList.Sorted(b, key)
    ensures DList.Sorted(Merge(a, b, key), key)
    decreases |a| + |b|
  {
    if a != [] && b != [] {
      if key(a[0]) < key(b[0]) {
        MergeSorted(a[1..], b, key);
        assert DList.AtLeast(a[1..], key(a[0]), key) && DList.AtLeast(b, key(a[0]), key);
        MergeAtLeast(a[1..], b, key(a[0]), key);
      } else {
        MergeSorted(a, b[1..], key);
        assert DList.AtLeast(a, key(b[0]), key) && DList.AtLeast(b[1..], key(b[0]), key);
        MergeAtLeast(a, b[1..], key(b[0]), key);
      }
    }
  }

  /** The sort yields an ascending permutation of its input. */
  lemma SortSorted<T>(s: seq<T>, key: T -> int)
    ensures DList.Sorted(Sort(s, key), key) && multiset(Sort(s, key)) == multiset(s)
  {
    SortAscending(s, key);
    SortPermutes(s, key);
  }

  /** The sort's output is ascending. */
  lemma {:induction false} SortAscending<T>(s: seq<T>, key: T -> int)
    ensures DList.Sorted(Sort(s, key), key)
    decreases |s|
  {
    if |s| > 1 {
      var m := (|s| - 1) / 2 + 1;
      SortAscending(s[..m], key);
      SortAscending(s[m..], key);
      MergeSorted(Sort(s[..m], key), Sort(s[m..], key), key);
    }
  }

  /** The sort's output is a permutation of its input. */
  lemma {:induction false} SortPermutes<T>(s: seq<T>, key: T -> int)
    ensures multiset(Sort(s, key)) == multiset(s)
    decreases |s|
  {
    if |s| > 1 {
      var m := (|s| - 1) / 2 + 1;
      assert multiset(s) == multiset(s[..m]) + multiset(s[m..]) by {
        assert s == s[..m] + s[m..];
      }
      SortPermutes(s[..m], key);
      SortPermutes(s[m..], key);
      MergeMultiset(Sort(s[..m], key), Sort(s[m..], key), key);
    }
  }

  /**
   * Ties go right, so two elements with the same key come out swapped:
   * compared on their tens digit, [10, 11] sorts to [11, 10].
   */
  lemma NotStable()
    ensures Sort([10, 11], Tens) == [11, 10]
    ensures !Stable(Sort([10, 11], Tens), [10, 11], Tens)
  {
    var s: seq<int> := [10, 11];
    assert s[..1] == [10] && s[1..] == [11];
    MergeTakesRight([10], [11], Tens);
    assert [11][1..] == [];
    assert Sort(s, Tens) == Merge([10], [11], Tens) == [11, 10];
    var w1: seq<int> := DList.WithKey([11, 10], 1, Tens);
    var w2: seq<int> := DList.WithKey(s, 1, Tens);
    assert w1 == [11, 10] by {
      assert [11, 10] == [11] + [10] && [10] == [10] + [];
      DList.WithKeyCons(11, [10], 1, Tens);
      DList.WithKeyCons(10, [], 1, Tens);
    }
    assert w2 == [10, 11] by {
      assert s == [10] + [11] && [11] == [11] + [];
      DList.WithKeyCons(10, [11], 1, Tens);
      DList.WithKeyCons(11, [], 1, Tens);
    }
    assert w1[0] != w2[0];
  }

  /** The key of the example above: the tens digit. */
  function Tens(x: int): int
  {
    x / 10
  }

  /**
   * The for loop over k from i to j: ptr_left runs over i..mid and
   * ptr_right over mid + 1..j; what it writes into tmp[i..j] is the merge
   * of the two ranges.
   */
  method MergeRange<T>(d: seq<T>, i: nat, mid: nat, j: nat, key: T -> int) returns (out: seq<T>)
    requires i <= mid < j < |d|
    ensures out == Merge(d[i..mid + 1], d[mid + 1..j + 1], key)
  {
    var whole := Merge(d[i..mid + 1], d[mid + 1..j + 1], key);
    out := [];
    var k, left, right := i, i, mid + 1;
    assert out + whole == whole;
    while k <= j
      invariant i <= left <= mid + 1 <= right <= j + 1 && k == left + right - mid - 1
      invariant out + Merge(d[left..mid + 1], d[right..j + 1], key) == whole
      decreases j + 1 - k
    {
      out, left, right := Copy(d, mid, j, left, right, out, whole, key);
      k := k + 1;
    }
    assert left == mid + 1 && right == j + 1;
    assert Merge(d[left..mid + 1], d[right..j + 1], key) == [];
    assert out + [] == out;
  }

  /** One iteration of the for loop: copy the element the merge takes next into tmp[k]. */
  method Copy<T>(d: seq<T>, mid: nat, j: nat, left: nat, right: nat, out: seq<T>, ghost whole: seq<T>, key: T -> int)
    returns (out': seq<T>, left': nat, right': nat)
    requires left <= mid + 1 <= right <= j + 1 <= |d| && left + right < mid + j + 2
    requires out + Merge(d[left..mid + 1], d[right..j + 1], key) == whole
    ensures left' + right' == left + right + 1 && left <= left' <= mid + 1 <= right <= right' <= j + 1
    ensures out' + Merge(d[left'..mid + 1], d[right'..j + 1], key) == whole
  {
    if left == mid + 1 || (right < j + 1 && key(d[left]) >= key(d[right])) {
      StepRight(d, left, mid, right, j, out, whole, key);
      out', left', right' := out + [d[right]], left, right + 1;
    } else {
      StepLeft(d, left, mid, right, j, out, whole, key);
      out', left', right' := out + [d[left]], left + 1, right;
    }
  }

  /** The loop's step that copies from the right half: the merge still to come loses its first element to tmp. */
  lemma StepRight<T>(d: seq<T>, left: nat, mid: nat, right: nat, j: nat, out: seq<T>, whole: seq<T>, key: T -> int)
    requires left <= mid + 1 <= right < j + 1 <= |d|
    requires left == mid + 1 || key(d[left]) >= key(d[right])
    requires out + Merge(d[left..mid + 1], d[right..j + 1], key) == whole
    ensures (out + [d[right]]) + Merge(d[left..mid + 1], d[right + 1..j + 1], key) == whole
  {
    var a, b := d[left..mid + 1], d[right..j + 1];
    MergeTakesRight(a, b, key);
    assert b[1..] == d[right + 1..j + 1];
    DList.Assoc(out, [b[0]], Merge(a, b[1..], key));
  }

  /** The loop's step that copies from the left half. */
  lemma StepLeft<T>(d: seq<T>, left: nat, mid: nat, right: nat, j: nat, out: seq<T>, whole: seq<T>, key: T -> int)
    requires left < mid + 1 <= right <= j + 1 <= |d|
    requires right == j + 1 || key(d[left]) < key(d[right])
    requires out + Merge(d[left..mid + 1], d[right..j + 1], key) == whole
    ensures (out + [d[left]]) + Merge(d[left + 1..mid + 1], d[right..j + 1], key) == whole
  {
    var a, b := d[left..mid + 1], d[right..j + 1];
    MergeTakesLeft(a, b, key);
    assert a[1..] == d[left + 1..mid + 1];
    DList.Assoc(out, [a[0]], Merge(a[1..], b, key));
  }

  /**
   * __sort_merge(data, i, j): a range of at most one element is left as it
   * is; otherwise the range i..j ends up holding Sort of its contents and
   * everything outside it is untouched.
   */
  method SortRange<T>(d: seq<T>, i: nat, j: int, key: T -> int) returns (r: seq<T>)
    requires j < |d|
    ensures j <= i ==> r == d
    ensures i <= j ==> (|r| == |d| && r[..i] == d[..i] && r[j + 1..] == d[j + 1..]
      && r[i..j + 1] == Sort(d[i..j + 1], key))
    decreases j - i
  {
    if j <= i {
      if j == i {
        assert Sort(d[i..j + 1], key) == d[i..j + 1];
      }
      return d;
    }
    var mid := (i + j) / 2;
    var d1 := SortRange(d, i, mid, key);
    var d2 := SortRange(d1, mid + 1, j, key);
    var out := MergeRange(d2, i, mid, j, key);
    Reassemble(d, d1, d2, out, i, mid, j, key);
    r := d2[..i] + out + d2[j + 1..];
    Spliced(d2, out, r, i, j);
  }

  /** The two recursive calls leave the outside alone, and merging their halves sorts the range. */
  lemma Reassemble<T>(d: seq<T>, d1: seq<T>, d2: seq<T>, out: seq<T>, i: nat, mid: nat, j: nat, key: T -> int)
    requires i <= mid < j < |d| && mid == (i + j) / 2
    requires |d1| == |d| && d1[..i] == d[..i] && d1[mid + 1..] == d[mid + 1..]
    requires d1[i..mid + 1] == Sort(d[i..mid + 1], key)
    requires |d2| == |d| && d2[..mid + 1] == d1[..mid + 1] && d2[j + 1..] == d1[j + 1..]
    requires d2[mid + 1..j + 1] == Sort(d1[mid + 1..j + 1], key)
    requires out == Merge(d2[i..mid + 1], d2[mid + 1..j + 1], key)
    ensures d2[..i] == d[..i] && d2[j + 1..] == d[j + 1..]
    ensures out == Sort(d[i..j + 1], key)
  {
    KeptOutside(d, d1, d2, i, mid, j);
    SortedHalves(d, d1, d2, i, mid, j, key);
    MergedHalves(d, i, mid, j, d2[i..mid + 1], d2[mid + 1..j + 1], out, key);
  }

  /** Neither recursive call touches what lies outside the range. */
  lemma KeptOutside<T>(d: seq<T>, d1: seq<T>, d2: seq<T>, i: nat, mid: nat, j: nat)
    requires i <= mid < j < |d|
    requires |d1| == |d| && d1[..i] == d[..i] && d1[mid + 1..] == d[mid + 1..]
    requires |d2| == |d| && d2[..mid + 1] == d1[..mid + 1] && d2[j + 1..] == d1[j + 1..]
    ensures d2[..i] == d[..i] && d2[j + 1..] == d[j + 1..]
  {
    SamePrefix(d2, d1, i, mid + 1);
    SameSuffix(d1, d, mid + 1, j + 1);
  }

  /** After both recursive calls each half of the range holds its own contents sorted. */
  lemma SortedHalves<T>(d: seq<T>, d1: seq<T>, d2: seq<T>, i: nat, mid: nat, j: nat, key: T -> int)
    requires i <= mid < j < |d|
    requires |d1| == |d| && d1[mid + 1..] == d[mid + 1..]
    requires d1[i..mid + 1] == Sort(d[i..mid + 1], key)
    requires |d2| == |d| && d2[..mid + 1] == d1[..mid + 1]
    requires d2[mid + 1..j + 1] == Sort(d1[mid + 1..j + 1], key)
    ensures d2[i..mid + 1] == Sort(d[i..mid + 1], key) && d2[mid + 1..j + 1] == Sort(d[mid + 1..j + 1], key)
  {
    SamePrefix(d2, d1, i, mid + 1);
    SameContents(d1[mid + 1..j + 1], d[mid + 1..j + 1], d2[mid + 1..j + 1], key) by {
      SameSuffix(d1, d, mid + 1, j + 1);
    }
  }

  /** A sorted copy of one sequence is a sorted copy of an equal one. */
  lemma SameContents<T>(a: seq<T>, b: seq<T>, c: seq<T>, key: T -> int)
    requires a == b && c == Sort(a, key)
    ensures c == Sort(b, key)
  {
  }

  /** Merging the sorted halves of the range sorts the range. */
  lemma MergedHalves<T>(d: seq<T>, i: nat, mid: nat, j: nat, lo: seq<T>, hi: seq<T>, out: seq<T>, key: T -> int)
    requires i <= mid < j < |d| && mid == (i + j) / 2
    requires lo == Sort(d[i..mid + 1], key) && hi == Sort(d[mid + 1..j + 1], key)
    requires out == Merge(lo, hi, key)
    ensures out == Sort(d[i..j + 1], key)
  {
    Halves(d, i, mid, j);
    SortSplit(d[i..j + 1], key);
  }

  /** Putting a block of the range's length between the parts outside the range. */
  lemma Spliced<T>(d: seq<T>, out: seq<T>, r: seq<T>, i: nat, j: nat)
    requires i <= j < |d| && |out| == j + 1 - i && r == d[..i] + out + d[j + 1..]
    ensures |r| == |d| && r[..i] == d[..i] && r[j + 1..] == d[j + 1..] && r[i..j + 1] == out
  {
  }

  /** Agreeing on a prefix, two sequences agree on every part of it. */
  lemma SamePrefix<T>(a: seq<T>, b: seq<T>, i: nat, n: nat)
    requires i <= n <= |a| && n <= |b| && a[..n] == b[..n]
    ensures a[..i] == b[..i] && a[i..n] == b[i..n]
  {
    assert a[..i] == a[..n][..i] && b[..i] == b[..n][..i];
    assert a[i..n] == a[..n][i..] && b[i..n] == b[..n][i..];
  }

  /** Agreeing on a suffix, two sequences agree on every part of it. */
  lemma SameSuffix<T>(a: seq<T>, b: seq<T>, n: nat, j: nat)
    requires n <= j <= |a| == |b| && a[n..] == b[n..]
    ensures a[n..j] == b[n..j] && a[j..] == b[j..]
  {
    assert a[n..j] == a[n..][..j - n] && b[n..j] == b[n..][..j - n];
    assert a[j..] == a[n..][j - n..] && b[j..] == b[n..][j - n..];
  }

  /** mid = (i + j) / 2 cuts the range where Sort cuts its contents. */
  lemma Halves<T>(d: seq<T>, i: nat, mid: nat, j: nat)
    requires i <= mid < j < |d| && mid == (i + j) / 2
    ensures var s := d[i..j + 1]; var m := (|s| - 1) / 2 + 1;
      m == mid - i + 1 && s[..m] == d[i..mid + 1] && s[m..] == d[mid + 1..j + 1]
  {
  }

  lemma SortSplit<T>(s: seq<T>, key: T -> int)
    requires |s| > 1
    ensures Sort(s, key) == Merge(Sort(s[..(|s| - 1) / 2 + 1], key), Sort(s[(|s| - 1) / 2 + 1..], key), key)
  {
  }

  /** sort_merge as written: no-op under the guard, otherwise the whole array is sorted. */
  method SortGeneric<T>(data: seq<T>, elementSize: nat, key: T -> int) returns (r: seq<T>)
    ensures multiset(r) == multiset(data)
    ensures Skipped(|data|, elementSize) ==> r == data
    ensures !Skipped(|data|, elementSize) ==> r == Sort(data, key) && DList.Sorted(r, key)
  {
    if Skipped(|data|, elementSize) {
      return data;
    }
    r := SortRange(data, 0, |data| - 1, key);
    assert data[0..|data|] == data && r[0..|data|] == r;
    SortSorted(data, key);
  }

  /** sort_merge with the guard on the element count: every array comes out sorted, whatever its element size. */
  method SortFixed<T>(data: seq<T>, elementSize: nat, key: T -> int) returns (r: seq<T>)
    ensures multiset(r) == multiset(data) && r == Sort(data, key) && DList.Sorted(r, key)
  {
    if |data| < 2 {
      return data;
    }
    r := SortRange(data, 0, |data| - 1, key);
    assert data[0..|data|] == data && r[0..|data|] == r;
    SortSorted(data, key);
  }
}

=== FILE: sort_quick.dfy ===
/**
 * Quick sort: sort_quick of sort.c and __quick_sort of sort/sort_quick.c.
 * Both take the middle element as pivot, scan i up past elements less
 * than the pivot and j down past elements greater than it, swap, and stop
 * when i >= j; then they sort the first i elements and the rest. sort.c
 * copies the pivot's value; sort/sort_quick.c keeps a pointer to the
 * middle slot, so once a swap moves another element into that slot, the
 * partition goes on against that element's key instead.
 *
 * The scans and the recursion are total functions: where the C code would
 * read outside the array (a scan running off either end) or recurse on an
 * array of the same size (forever), they return None.
 */
module SortQuick {
  import opened Wrappers
  import DList
  import opened SortCommon

  /** What the scans compare against: a value saved up front, or whatever is in a slot of the array. */
  datatype Pivot = Value(v: int) | Slot(k: nat)

  /** How the pivot is chosen from the middle element: its value copied, or its address kept. */
  datatype PivotRule = Copied | Aliased

  /** `while (compare(data[i], pivot) < 0) i++;`: the first position from i whose key is not below v. */
  function ScanUp<T>(a: seq<T>, i: nat, v: int, key: T -> int): (r: Option<nat>)
    ensures r.Some? ==> i <= r.value < |a| && key(a[r.value]) >= v
    decreases |a| - i
  {
    if i >= |a| then None
    else if key(a[i]) < v then ScanUp(a, i + 1, v, key)
    else Some(i)
  }

  /** The upward scan stops at the first key not below v, and runs off the end exactly when there is none. */
  lemma {:induction false} ScanUpStops<T>(a: seq<T>, i: nat, v: int, key: T -> int)
    ensures var r := ScanUp(a, i, v, key);
      (r.Some? ==> key(a[r.value]) >= v && forall k | i <= k < r.value :: key(a[k]) < v)
      && (r.None? ==> forall k | i <= k < |a| :: key(a[k]) < v)
    decreases |a| - i
  {
    if i < |a| && key(a[i]) < v {
      ScanUpStops(a, i + 1, v, key);
    }
  }

  /** `while (compare(data[j], pivot) > 0) j--;`: the last position up to j whose key is not above v. */
  function ScanDown<T>(a: seq<T>, j: int, v: int, key: T -> int): (r: Option<nat>)
    requires j < |a|
    ensures r.Some? ==> r.value <= j && key(a[r.value]) <= v
    decreases j + 1
  {
    if j < 0 then None
    else if key(a[j]) > v then ScanDown(a, j - 1, v, key)
    else Some(j)
  }

  /** The downward scan stops at the last key not above v, and runs off the front exactly when there is none. */
  lemma {:induction false} ScanDownStops<T>(a: seq<T>, j: int, v: int, key: T -> int)
    requires j < |a|
    ensures var r := ScanDown(a, j, v, key);
      (r.Some? ==> key(a[r.value]) <= v && forall k | r.value < k <= j :: key(a[k]) > v)
      && (r.None? ==> forall k | 0 <= k <= j :: key(a[k]) > v)
    decreases j + 1
  {
    if j >= 0 && key(a[j]) > v {
      ScanDownStops(a, j - 1, v, key);
    }
  }

  /** Where both scans of one round stopped, or None when either ran off the array. */
  function Round<T>(a: seq<T>, i: nat, j: nat, v: int, key: T -> int): (r: Option<(nat, nat)>)
    requires j < |a|
    ensures r.Some? ==> i <= r.value.0 < |a| && r.value.1 <= j
  {
    var up, down := ScanUp(a, i, v, key), ScanDown(a, j, v, key);
    if up.None? || down.None? then None else Some((up.value, down.value))
  }

  /** The key the scans compare against. */
  function PivotKey<T>(a: seq<T>, p: Pivot, key: T -> int): int
    requires p.Slot? ==> p.k < |a|
  {
    if p.Value? then p.v else key(a[p.k])
  }

  /**
   * The partition loop from (i, j): scan both ways; stop with i when the
   * scans meet or cross, otherwise swap and go on from (i + 1, j - 1). The
   * pivot's key is read afresh every round. The split point lies at or
   * after i.
   */
  function Partition<T>(a: seq<T>, i: nat, j: nat, p: Pivot, key: T -> int): (r: Option<(seq<T>, nat)>)
    requires i <= j + 1 && j < |a| && (p.Slot? ==> p.k < |a|)
    ensures r.Some? ==> |r.value.0| == |a| && i <= r.value.1 < |a|
    decreases j + 1 - i
  {
    match Round(a, i, j, PivotKey(a, p, key), key)
    case None => None
    case Some((x, y)) =>
      if x >= y then Some((a, x))
      else Partition(Swap(a, x, y), x + 1, y - 1, p, key)
  }

  /** A partition result, when there is one, is a permutation of a. */
  ghost predicate Permutes<T>(a: seq<T>, r: Option<(seq<T>, nat)>)
  {
    r.Some? ==> multiset(r.value.0) == multiset(a)
  }

  /** The partition only swaps: what it returns is a permutation of what it was given. */
  lemma {:induction false} PartitionMultiset<T>(a: seq<T>, i: nat, j: nat, p: Pivot, key: T -> int)
    requires i <= j + 1 && j < |a| && (p.Slot? ==> p.k < |a|)
    ensures Permutes(a, Partition(a, i, j, p, key))
    decreases j + 1 - i, 1
  {
    match Round(a, i, j, PivotKey(a, p, key), key)
    case None =>
    case Some((x, y)) =>
      if x < y {
        PartitionGo(a, i, j, p, key, x, y);
        SwapRoundMultiset(a, i, j, p, key, x, y);
      } else {
        PartitionMeet(a, i, j, p, key, x, y);
      }
  }

  /** The rest of the partition after a swap is a permutation of the array before the swap. */
  lemma {:induction false} SwapRoundMultiset<T>(a: seq<T>, i: nat, j: nat, p: Pivot, key: T -> int, x: nat, y: nat)
    requires j < |a| && (p.Slot? ==> p.k < |a|) && i <= x < y <= j
    ensures Permutes(a, Partition(Swap(a, x, y), x + 1, y - 1, p, key))
    decreases j + 1 - i, 0
  {
    var b := Swap(a, x, y);
    PartitionMultiset(b, x + 1, y - 1, p, key);
    SwapPermutes(a, x, y, Partition(b, x + 1, y - 1, p, key));
  }

  /** What permutes a swapped array permutes the array. */
  lemma SwapPermutes<T>(a: seq<T>, x: nat, y: nat, r: Option<(seq<T>, nat)>)
    requires x < |a| && y < |a| && Permutes(Swap(a, x, y), r)
    ensures Permutes(a, r)
  {
    SwapMultiset(a, x, y);
  }



  /** The pivot of an array of at least one element. */
  function Choose<T>(a: seq<T>, rule: PivotRule, key: T -> int): (p: Pivot)
    requires |a| > 0
    ensures p.Slot? ==> p.k < |a|
  {
    match rule
    case Copied => Value(key(a[|a| / 2]))
    case Aliased => Slot(|a| / 2)
  }

  /**
   * The recursion: arrays of fewer than 2 elements are left alone;
   * otherwise partition, then sort the first i elements and the rest.
   */
  function Quick<T>(a: seq<T>, rule: PivotRule, key: T -> int): (r: Option<seq<T>>)
    ensures r.Some? ==> multiset(r.value) == multiset(a)
    decreases |a|
  {
    if |a| < 2 then Some(a)
    else
      match Partition(a, 0, |a| - 1, Choose(a, rule, key), key)
      case None => None
      case Some((b, i)) =>
        if i == 0 || i >= |b| then None
        else
          PartitionMultiset(a, 0, |a| - 1, Choose(a, rule, key), key);
          assert multiset(b) == multiset(a);
          assert b == b[..i] + b[i..];
          match (Quick(b[..i], rule, key), Quick(b[i..], rule, key))
          case (Some(x), Some(y)) => Some(x + y)
          case _ => None
  }

  /** b is split at m, strictly inside it: nothing above v before m, nothing below v from m on. */
  predicate SplitAt<T>(b: seq<T>, m: nat, v: int, key: T -> int)
  {
    1 <= m < |b|
    && (forall k | 0 <= k < m :: key(b[k]) <= v)
    && (forall k | m <= k < |b| :: key(b[k]) >= v)
  }

  /** A partition that finished and split its array strictly inside it around v. */
  predicate Splits<T>(r: Option<(seq<T>, nat)>, v: int, key: T -> int)
  {
    r.Some? && SplitAt(r.value.0, r.value.1, v, key)
  }

  /** The partition invariant at (i, j): nothing above v before i, nothing below v after j. */
  predicate Bounded<T>(a: seq<T>, i: nat, j: nat, v: int, key: T -> int)
    requires j < |a|
  {
    (forall k | 0 <= k < i && k < |a| :: key(a[k]) <= v)
    && (forall k | j < k < |a| :: key(a[k]) >= v)
  }

  /** Quick sort of at least two elements, once its partition has split the array strictly inside it. */
  lemma QuickSplit<T>(a: seq<T>, rule: PivotRule, key: T -> int, b: seq<T>, m: nat, x: seq<T>, y: seq<T>)
    requires |a| >= 2 && Partition(a, 0, |a| - 1, Choose(a, rule, key), key) == Some((b, m)) && 0 < m < |b|
    requires Quick(b[..m], rule, key) == Some(x) && Quick(b[m..], rule, key) == Some(y)
    ensures Quick(a, rule, key) == Some(x + y)
  {
  }

  /**
   * With the pivot's value fixed at v, a partition started with an element
   * not below v at or after i (wu), one not above v at or before j (wd),
   * and the invariant holding, ends without leaving the array, split at a
   * position strictly inside it.
   */
  lemma {:induction false} PartitionSplits<T>(a: seq<T>, i: nat, j: nat, v: int, wu: nat, wd: nat, key: T -> int)
    requires i <= j + 1 && j < |a|
    requires i <= wu < |a| && key(a[wu]) >= v && wd <= j && key(a[wd]) <= v
    requires 1 <= i || 1 <= wd
    requires Bounded(a, i, j, v, key)
    ensures Splits(Partition(a, i, j, Value(v), key), v, key)
    decreases j + 1 - i
  {
    var x, y := RoundSplits(a, i, j, v, wu, wd, key);
    if x < y {
      PartitionGo(a, i, j, Value(v), key, x, y);
      PartitionSplits(Swap(a, x, y), x + 1, y - 1, v, y, x, key);
    } else {
      PartitionMeet(a, i, j, Value(v), key, x, y);
    }
  }

  /**
   * One round under the hypotheses of PartitionSplits: both scans stop
   * inside the array; if they cross, the array is split where the upward
   * scan stopped, and otherwise the swap restores the hypotheses for the
   * next round.
   */
  lemma RoundSplits<T>(a: seq<T>, i: nat, j: nat, v: int, wu: nat, wd: nat, key: T -> int) returns (x: nat, y: nat)
    requires i <= j + 1 && j < |a|
    requires i <= wu < |a| && key(a[wu]) >= v && wd <= j && key(a[wd]) <= v
    requires 1 <= i || 1 <= wd
    requires Bounded(a, i, j, v, key)
    ensures Round(a, i, j, PivotKey(a, Value(v), key), key) == Some((x, y))
    ensures x >= y ==> SplitAt(a, x, v, key)
    ensures x < y ==> x + 1 <= y < |a| && y - 1 <= j && Bounded(Swap(a, x, y), x + 1, y - 1, v, key)
    ensures x < y ==> key(Swap(a, x, y)[y]) >= v && key(Swap(a, x, y)[x]) <= v
  {
    var up := ScanUp(a, i, v, key);
    var down := ScanDown(a, j, v, key);
    ScanUpStops(a, i, v, key);
    ScanDownStops(a, j, v, key);
    assert up.Some? && up.value <= wu;
    assert down.Some? && wd <= down.value;
    x, y := up.value, down.value;
    if x < y {
      PartitionStep(a, i, j, v, x, y, key);
    } else {
      PartitionStop(a, i, j, v, x, y, key);
    }
  }

  /** A round whose scans did not cross swaps and goes on. */
  lemma PartitionGo<T>(a: seq<T>, i: nat, j: nat, p: Pivot, key: T -> int, x: nat, y: nat)
    requires i <= j + 1 && j < |a| && (p.Slot? ==> p.k < |a|)
    requires Round(a, i, j, PivotKey(a, p, key), key) == Some((x, y)) && x < y
    ensures Partition(a, i, j, p, key) == Partition(Swap(a, x, y), x + 1, y - 1, p, key)
  {
  }

  /** A round whose scans met or crossed ends the partition where the upward scan stopped. */
  lemma PartitionMeet<T>(a: seq<T>, i: nat, j: nat, p: Pivot, key: T -> int, x: nat, y: nat)
    requires i <= j + 1 && j < |a| && (p.Slot? ==> p.k < |a|)
    requires Round(a, i, j, PivotKey(a, p, key), key) == Some((x, y)) && x >= y
    ensures Partition(a, i, j, p, key) == Some((a, x))
  {
  }

  /** When the scans meet or cross, the array is split where the upward scan stopped. */
  lemma PartitionStop<T>(a: seq<T>, i: nat, j: nat, v: int, i': nat, j': nat, key: T -> int)
    requires i <= i' < |a| && j' <= j < |a| && j' <= i' && 1 <= i'
    requires key(a[i']) >= v
    requires Bounded(a, i, j, v, key)
    requires forall k | i <= k < i' :: key(a[k]) < v
    requires forall k | j' < k <= j :: key(a[k]) > v
    ensures SplitAt(a, i', v, key)
  {
  }

  /** After a swap the partition invariant holds from (i' + 1, j' - 1). */
  lemma PartitionStep<T>(a: seq<T>, i: nat, j: nat, v: int, i': nat, j': nat, key: T -> int)
    requires i <= i' < j' <= j < |a|
    requires key(a[i']) >= v && key(a[j']) <= v
    requires Bounded(a, i, j, v, key)
    requires forall k | i <= k < i' :: key(a[k]) < v
    requires forall k | j' < k <= j :: key(a[k]) > v
    ensures Bounded(Swap(a, i', j'), i' + 1, j' - 1, v, key)
  {
  }

  /** What is below v in one order is below v in any other. */
  lemma BoundPerm<T>(s: seq<T>, x: seq<T>, lo: int, hi: int, key: T -> int)
    requires multiset(x) == multiset(s)
    requires forall k | 0 <= k < |s| :: lo <= key(s[k]) <= hi
    ensures forall k | 0 <= k < |x| :: lo <= key(x[k]) <= hi
  {
    forall k | 0 <= k < |x|
      ensures lo <= key(x[k]) <= hi
    {
      assert x[k] in multiset(s);
      var k' :| 0 <= k' < |s| && s[k'] == x[k];
    }
  }

  /** With the pivot's value copied, quick sort always finishes, and the result is an ascending permutation. */
  lemma {:induction false} CopiedSorts<T>(a: seq<T>, key: T -> int)
    ensures Quick(a, Copied, key).Some? && DList.Sorted(Quick(a, Copied, key).value, key)
    decreases |a|
  {
    if |a| >= 2 {
      var c := |a| / 2;
      var v := key(a[c]);
      PartitionSplits(a, 0, |a| - 1, v, c, c, key);
      assert Bounded(a, 0, |a| - 1, v, key);
      var r := Partition(a, 0, |a| - 1, Value(v), key).value;
      var b, m := r.0, r.1;
      CopiedSorts(b[..m], key);
      CopiedSorts(b[m..], key);
      var x, y := Quick(b[..m], Copied, key).value, Quick(b[m..], Copied, key).value;
      var lo, hi := Lowest(b, key), Highest(b, key);
      BoundPerm(b[..m], x, lo, v, key);
      BoundPerm(b[m..], y, v, hi, key);
      Concat(x, y, v, key);
    }
  }

  function Lowest<T>(s: seq<T>, key: T -> int): (lo: int)
    ensures forall k | 0 <= k < |s| :: lo <= key(s[k])
  {
    if s == [] then 0 else var l := Lowest(s[1..], key); if key(s[0]) < l then key(s[0]) else l
  }

  function Highest<T>(s: seq<T>, key: T -> int): (hi: int)
    ensures forall k | 0 <= k < |s| :: key(s[k]) <= hi
  {
    if s == [] then 0 else var h := Highest(s[1..], key); if key(s[0]) > h then key(s[0]) else h
  }

  /** Two ascending runs, the first not above v and the second not below, concatenate to an ascending run. */
  lemma Concat<T>(x: seq<T>, y: seq<T>, v: int, key: T -> int)
    requires DList.Sorted(x, key) && DList.Sorted(y, key)
    requires forall k | 0 <= k < |x| :: key(x[k]) <= v
    requires forall k | 0 <= k < |y| :: v <= key(y[k])
    ensures DList.Sorted(x + y, key)
  {
  }


  /**
   * With the pivot's slot aliased, sort/sort_quick.c leaves [3, 2, 0, 1]
   * as [0, 2, 1, 3]: the first swap moves 3 into the pivot slot, the
   * second round partitions against 3 and stops at 2, and the halves
   * [0, 2] and [3, 1] are sorted separately.
   */
  lemma AliasedUnsorted(a: seq<int>)
    requires a == [3, 2, 0, 1]
    ensures Quick(a, Aliased, DList.Id) == Some([0, 2] + [1, 3])
    ensures !DList.Sorted(Quick(a, Aliased, DList.Id).value, DList.Id)
  {
    var l: seq<int>, h: seq<int> := [0, 2], [3, 1];
    AliasedFirstRound();
    AliasedLeft();
    AliasedRight();
    var r: seq<int> := [0, 2] + [1, 3];
    QuickSplit(a, Aliased, DList.Id, l + h, 2, [0, 2], [1, 3]);
    assert r[1] == 2 && r[2] == 1;
  }


  /** [3, 2, 0, 1]: swap 3 and 0, then the scans meet at 2 against the new pivot 3. */
  lemma AliasedFirstRound()
    ensures Partition([3, 2, 0, 1], 0, 3, Slot(2), DList.Id) == Some(([0, 2] + [3, 1], 2))
  {
    var a: seq<int> := [3, 2, 0, 1];
    assert ScanUp(a, 0, 0, DList.Id) == Some(0);
    assert ScanDown(a, 3, 0, DList.Id) == Some(2);
    assert Round(a, 0, 3, PivotKey(a, Slot(2), DList.Id), DList.Id) == Some((0, 2));
    PartitionGo(a, 0, 3, Slot(2), DList.Id, 0, 2);
    var b := Swap(a, 0, 2);
    assert b == [0, 2] + [3, 1];
    assert ScanUp(b, 1, 3, DList.Id) == Some(2);
    assert ScanDown(b, 1, 3, DList.Id) == Some(1);
    assert Round(b, 1, 1, PivotKey(b, Slot(2), DList.Id), DList.Id) == Some((2, 1));
    PartitionMeet(b, 1, 1, Slot(2), DList.Id, 2, 1);
  }

  /** [0, 2] is split at 1 and stays as it is. */
  lemma AliasedLeft()
    ensures Quick([0, 2], Aliased, DList.Id) == Some([0, 2])
  {
    var l: seq<int> := [0, 2];
    assert ScanUp(l, 0, 2, DList.Id) == Some(1);
    assert ScanDown(l, 1, 2, DList.Id) == Some(1);
    assert Round(l, 0, 1, PivotKey(l, Slot(1), DList.Id), DList.Id) == Some((1, 1));
    PartitionMeet(l, 0, 1, Slot(1), DList.Id, 1, 1);
    assert l[..1] == [0] && l[1..] == [2];
    assert Choose(l, Aliased, DList.Id) == Slot(1);
    assert Quick(l[..1], Aliased, DList.Id) == Some([0]);
    assert Quick(l[1..], Aliased, DList.Id) == Some([2]);
    QuickSplit(l, Aliased, DList.Id, l, 1, [0], [2]);
    assert [0] + [2] == l;
  }

  /** [3, 1]: the two are swapped, then the scans cross against the new pivot 3. */
  lemma AliasedRightRound()
    ensures Partition([3, 1], 0, 1, Slot(1), DList.Id) == Some(([1, 3], 1))
  {
    var h: seq<int> := [3, 1];
    assert ScanUp(h, 0, 1, DList.Id) == Some(0);
    assert ScanDown(h, 1, 1, DList.Id) == Some(1);
    assert Round(h, 0, 1, PivotKey(h, Slot(1), DList.Id), DList.Id) == Some((0, 1));
    PartitionGo(h, 0, 1, Slot(1), DList.Id, 0, 1);
    var h' := Swap(h, 0, 1);
    assert h' == [1, 3];
    assert ScanUp(h', 1, 3, DList.Id) == Some(1);
    assert ScanDown(h', 0, 3, DList.Id) == Some(0);
    assert Round(h', 1, 0, PivotKey(h', Slot(1), DList.Id), DList.Id) == Some((1, 0));
    PartitionMeet(h', 1, 0, Slot(1), DList.Id, 1, 0);
  }

  /** [3, 1] comes out as [1, 3]. */
  lemma AliasedRight()
    ensures Quick([3, 1], Aliased, DList.Id) == Some([1, 3])
  {
    var h: seq<int> := [3, 1];
    var h': seq<int> := [1, 3];
    AliasedRightRound();
    assert Choose(h, Aliased, DList.Id) == Slot(1);
    assert h'[..1] == [1] && h'[1..] == [3];
    assert Quick(h'[..1], Aliased, DList.Id) == Some([1]);
    assert Quick(h'[1..], Aliased, DList.Id) == Some([3]);
    QuickSplit(h, Aliased, DList.Id, h', 1, [1], [3]);
    assert [1] + [3] == h';
  }

  /**
   * sort_quick of sort/sort_quick.c as written: a no-op under the shared
   * guard, otherwise the recursion with the pivot's slot aliased. When it
   * finishes, the result is a permutation, but it need not be ascending
   * (AliasedUnsorted).
   */
  function SortGeneric<T>(data: seq<T>, elementSize: nat, key: T -> int): (r: Option<seq<T>>)
    ensures Skipped(|data|, elementSize) ==> r == Some(data)
    ensures r.Some? ==> multiset(r.value) == multiset(data)
  {
    if Skipped(|data|, elementSize) then Some(data) else Quick(data, Aliased, key)
  }

  /**
   * sort_quick of sort/sort_quick.c corrected: the pivot's value is copied
   * before partitioning, as sort.c does, and only arrays of fewer than 2
   * elements are left alone. It always finishes with an ascending
   * permutation.
   */
  function SortFixed<T>(data: seq<T>, key: T -> int): (r: seq<T>)
    ensures multiset(r) == multiset(data) && DList.Sorted(r, key)
  {
    CopiedSorts(data, key);
    Quick(data, Copied, key).value
  }

  /** sort.c's sort_quick on ints: the pivot's value is copied, arrays of fewer than 2 elements are left alone. */
  function SortInts(data: seq<int>): (r: seq<int>)
    ensures multiset(r) == multiset(data) && DList.Sorted(r, DList.Id)
    ensures |data| < 2 ==> r == data
  {
    CopiedSorts(data, DList.Id);
    Quick(data, Copied, DList.Id).value
  }
}

=== FILE: stack.dfy ===
/**
 * The fixed-capacity stack of stack.c: an array of `capacity` slots and the
 * index `top` of the topmost element. `top` is a size_t that starts at -1,
 * that is SIZE_MAX, and both it and `capacity - 1` wrap modulo 2^64, which
 * is written out here. A slot holds a data pointer or NULL (None). A NULL
 * stack pointer is not modelled.
 */
module Stack {
  import opened Wrappers

  const SizeModulus: nat := 0x1_0000_0000_0000_0000
  /** (size_t)-1 */
  const SizeMax: nat := SizeModulus - 1

  datatype Stack<T> = Stack(slots: seq<Option<T>>, top: nat, capacity: nat)

  /** size_t subtraction and addition of one. */
  function Dec(n: nat): (r: nat)
    requires n < SizeModulus
    ensures r < SizeModulus && (r + 1) % SizeModulus == n
  {
    if n == 0 then SizeMax else n - 1
  }

  function Inc(n: nat): (r: nat)
    requires n < SizeModulus
    ensures r < SizeModulus && Dec(r) == n
  {
    if n == SizeMax then 0 else n + 1
  }

  /** top is SIZE_MAX (nothing stacked) or an index into the array. */
  predicate Valid<T>(s: Stack<T>)
  {
    s.capacity < SizeModulus && |s.slots| == s.capacity
    && (s.top == SizeMax || s.top < s.capacity)
  }

  /** The number of stacked elements. */
  function Depth<T>(s: Stack<T>): (n: nat)
    requires Valid(s)
    ensures n <= s.capacity
  {
    if s.top == SizeMax then 0 else s.top + 1
  }

  /** The stacked elements, bottom first. */
  function Contents<T>(s: Stack<T>): (r: seq<Option<T>>)
    requires Valid(s)
    ensures |r| == Depth(s)
  {
    s.slots[..Depth(s)]
  }

  /**
   * stack_create: NULL when either malloc fails (`ok` says whether both
   * succeed); otherwise every slot NULL and top at -1.
   */
  function Create<T>(capacity: nat, ok: bool): (r: Option<Stack<T>>)
    requires capacity < SizeModulus
    ensures r.None? <==> !ok
    ensures r.Some? ==> Valid(r.value) && Contents(r.value) == [] && r.value.capacity == capacity
    ensures r.Some? ==> forall i | 0 <= i < capacity :: r.value.slots[i].None?
  {
    if ok then Some(Stack(seq(capacity, _ => None), SizeMax, capacity)) else None
  }

  /** stack_is_empty: top == -1. */
  predicate IsEmpty<T>(s: Stack<T>)
  {
    s.top == SizeMax
  }

  /** stack_is_full: top == capacity - 1, both in size_t. */
  predicate IsFull<T>(s: Stack<T>)
    requires s.capacity < SizeModulus
  {
    s.top == Dec(s.capacity)
  }

  /** The two macros read the depth the way the array does; a zero-capacity stack is both full and empty. */
  lemma FullEmpty<T>(s: Stack<T>)
    requires Valid(s)
    ensures IsEmpty(s) <==> Depth(s) == 0
    ensures IsFull(s) <==> Depth(s) == s.capacity
  {
  }

  /** stack_push: when not full, ++top and store there; when full, nothing happens. */
  function Push<T>(s: Stack<T>, x: T): (r: Stack<T>)
    requires Valid(s)
    ensures Valid(r)
    ensures IsFull(s) ==> r == s
    ensures !IsFull(s) ==> Contents(r) == Contents(s) + [Some(x)]
  {
    if IsFull(s) then s
    else
      var top := Inc(s.top);
      var r := Stack(s.slots[top := Some(x)], top, s.capacity);
      assert Contents(r) == Contents(s) + [Some(x)];
      r
  }

  /** stack_pop: when not empty, the element at top and top--; when empty, NULL and nothing changes. */
  function Pop<T>(s: Stack<T>): (r: (Option<T>, Stack<T>))
    requires Valid(s)
    ensures Valid(r.1) && r.1.slots == s.slots
    ensures IsEmpty(s) ==> r == (None, s)
    ensures !IsEmpty(s) ==> Contents(r.1) + [r.0] == Contents(s)
  {
    if IsEmpty(s) then (None, s)
    else
      var r := (s.slots[s.top], Stack(s.slots, Dec(s.top), s.capacity));
      assert Contents(r.1) + [r.0] == Contents(s);
      r
  }

  /** stack_peek: what pop would return, without popping. */
  function Peek<T>(s: Stack<T>): (r: Option<T>)
    requires Valid(s)
    ensures r == Pop(s).0
    ensures !IsEmpty(s) ==> r == Contents(s)[|Contents(s)| - 1]
  {
    if IsEmpty(s) then None else s.slots[s.top]
  }

  /** Last in, first out: pop after push hands back the data and the stacked elements as before. */
  lemma PushPop<T>(s: Stack<T>, x: T)
    requires Valid(s) && !IsFull(s)
    ensures Pop(Push(s, x)).0 == Some(x)
    ensures Contents(Pop(Push(s, x)).1) == Contents(s) && Pop(Push(s, x)).1.top == s.top
  {
    var r := Push(s, x);
    assert Contents(r) == Contents(s) + [Some(x)];
  }

  /** push each of xs in turn. */
  function PushAll<T>(s: Stack<T>, xs: seq<T>): (r: Stack<T>)
    requires Valid(s)
    ensures Valid(r)
    decreases |xs|
  {
    if xs == [] then s else PushAll(Push(s, xs[0]), xs[1..])
  }

  /** pop n times, collecting what comes out. */
  function PopN<T>(s: Stack<T>, n: nat): (r: seq<Option<T>>)
    requires Valid(s)
    decreases n
  {
    if n == 0 then [] else var p := Pop(s); [p.0] + PopN(p.1, n - 1)
  }

  /** The data as the slots hold them. */
  function Somes<T>(xs: seq<T>): (r: seq<Option<T>>)
    ensures |r| == |xs| && forall i | 0 <= i < |xs| :: r[i] == Some(xs[i])
  {
    seq(|xs|, (i: int) requires 0 <= i < |xs| => Some(xs[i]))
  }

  function Reverse<T>(xs: seq<T>): (r: seq<T>)
    ensures |r| == |xs| && forall i | 0 <= i < |xs| :: r[i] == xs[|xs| - 1 - i]
  {
    seq(|xs|, (i: int) requires 0 <= i < |xs| => xs[|xs| - 1 - i])
  }

  lemma {:induction false} PushAllContents<T>(s: Stack<T>, xs: seq<T>)
    requires Valid(s) && Depth(s) + |xs| <= s.capacity
    ensures Contents(PushAll(s, xs)) == Contents(s) + Somes(xs)
    decreases |xs|
  {
    if xs != [] {
      PushStep(s, xs);
      PushAllContents(Push(s, xs[0]), xs[1..]);
    }
  }

  /** Pushing the first of xs moves it from the pending data onto the stack. */
  lemma PushStep<T>(s: Stack<T>, xs: seq<T>)
    requires Valid(s) && Depth(s) + |xs| <= s.capacity && xs != []
    ensures Depth(Push(s, xs[0])) + |xs[1..]| <= s.capacity
    ensures Contents(Push(s, xs[0])) + Somes(xs[1..]) == Contents(s) + Somes(xs)
  {
    FullEmpty(s);
    PushedOne(s, xs[0], Somes(xs[1..]));
    SomesCons(xs);
  }

  /** Pushing onto a stack that is not full puts x after the stacked elements. */
  lemma PushedOne<T>(s: Stack<T>, x: T, more: seq<Option<T>>)
    requires Valid(s) && Depth(s) < s.capacity
    ensures Depth(Push(s, x)) == Depth(s) + 1
    ensures Contents(Push(s, x)) + more == Contents(s) + ([Some(x)] + more)
  {
    FullEmpty(s);
  }

  lemma SomesCons<T>(xs: seq<T>)
    requires xs != []
    ensures Somes(xs) == [Some(xs[0])] + Somes(xs[1..])
  {
  }

  lemma {:induction false} PopNContents<T>(s: Stack<T>, n: nat)
    requires Valid(s) && n <= Depth(s)
    ensures PopN(s, n) == Reverse(Contents(s)[Depth(s) - n..])
    decreases n
  {
    if n > 0 {
      PopNContents(Pop(s).1, n - 1);
      PopStep(s, n);
    }
  }

  /** Popping takes the last of the stacked elements: reversing the rest follows it. */
  lemma PopStep<T>(s: Stack<T>, n: nat)
    requires Valid(s) && 0 < n <= Depth(s)
    ensures var p := Pop(s);
      n - 1 <= Depth(p.1)
      && [p.0] + Reverse(Contents(p.1)[Depth(p.1) - (n - 1)..]) == Reverse(Contents(s)[Depth(s) - n..])
  {
    var p := Pop(s);
    var c := Contents(s);
    assert Contents(p.1) == c[..|c| - 1];
  }

  /** Last in, first out: data pushed onto an empty stack with room for them come off in reverse order. */
  lemma Lifo<T>(capacity: nat, xs: seq<T>)
    requires |xs| <= capacity < SizeModulus
    ensures PopN(PushAll(Create<T>(capacity, true).value, xs), |xs|) == Reverse(Somes(xs))
  {
    var s := PushAll(Create<T>(capacity, true).value, xs);
    PushAllContents(Create<T>(capacity, true).value, xs);
    PopNContents(s, |xs|);
    assert Contents(s)[0..] == Somes(xs);
  }
}

=== FILE: trie.dfy ===
/**
 * The sibling-list trie of data_structures/trie.c. Nodes live in an arena
 * and a pointer is an index into it; a node's `children` and `next` chain is
 * the sequence of its children's indices in list order. Every node carries
 * a symbol, an id chosen by the caller and a link to its parent.
 */
module Trie {
  import opened Wrappers
  import opened Bytes

  datatype Node = Node(c: Byte, id: int, parent: Option<nat>, children: seq<nat>)

  /** The links of node k point inside the arena: a parent comes before it, its children after it and back at it. */
  predicate LinksOk(t: seq<Node>, k: int)
    requires 0 <= k < |t|
  {
    (t[k].parent.Some? ==> t[k].parent.value < k)
    && forall j | 0 <= j < |t[k].children| :: k < t[k].children[j] < |t| && t[t[k].children[j]].parent == Some(k)
  }

  predicate Valid(t: seq<Node>)
  {
    forall k | 0 <= k < |t| :: LinksOk(t, k)
  }

  /** The symbol of the a-th child of node k. */
  function ChildSym(t: seq<Node>, k: int, a: int): Byte
    requires Valid(t) && 0 <= k < |t| && 0 <= a < |t[k].children|
  {
    assert LinksOk(t, k);
    t[t[k].children[a]].c
  }

  /** At most one child per symbol under every node. */
  predicate Distinct(t: seq<Node>)
    requires Valid(t)
  {
    forall k, a, b | 0 <= k < |t| && 0 <= a < b < |t[k].children| :: ChildSym(t, k, a) != ChildSym(t, k, b)
  }

  /** A pointer that is NULL or names a node. */
  predicate Pointer(t: seq<Node>, p: Option<nat>)
  {
    p.Some? ==> p.value < |t|
  }

  /** The position of the first index in ch whose node has symbol c, or -1. */
  function FindPos(t: seq<Node>, ch: seq<nat>, c: Byte): (r: int)
    requires forall j | 0 <= j < |ch| :: ch[j] < |t|
    ensures -1 <= r < |ch|
    ensures r >= 0 ==> t[ch[r]].c == c
    ensures forall j | 0 <= j < (if r < 0 then |ch| else r) :: t[ch[j]].c != c
  {
    if ch == [] then -1
    else if t[ch[0]].c == c then 0
    else
      var r := FindPos(t, ch[1..], c);
      if r < 0 then -1 else r + 1
  }

  /**
   * trie_find: the first child of root with symbol c; NULL for a NULL root,
   * a root without children, or no such child.
   */
  function Find(t: seq<Node>, root: Option<nat>, c: Byte): (r: Option<nat>)
    requires Valid(t) && Pointer(t, root)
    ensures root.None? ==> r.None?
    ensures r.Some? ==> root.value < r.value < |t| && r.value in t[root.value].children
    ensures r.Some? ==> t[r.value].c == c && t[r.value].parent == root
  {
    if root.None? || t[root.value].children == [] then None
    else
      var ch := t[root.value].children;
      assert LinksOk(t, root.value);
      var p := FindPos(t, ch, c);
      assert forall j | 0 <= j < |ch| :: ChildSym(t, root.value, j) == t[ch[j]].c;
      if p < 0 then None else Some(ch[p])
  }

  /** trie_find misses exactly when no child of the root carries the symbol. */
  lemma FindMisses(t: seq<Node>, root: nat, c: Byte)
    requires Valid(t) && root < |t|
    ensures Find(t, Some(root), c).None? <==> forall j | 0 <= j < |t[root].children| :: ChildSym(t, root, j) != c
  {
    var ch := t[root].children;
    assert LinksOk(t, root);
    assert forall j | 0 <= j < |ch| :: ChildSym(t, root, j) == t[ch[j]].c;
  }

  /** With distinct siblings, the child Find returns is the only one with that symbol. */
  lemma FindUnique(t: seq<Node>, root: nat, c: Byte, j: int)
    requires Valid(t) && Distinct(t) && root < |t|
    requires 0 <= j < |t[root].children| && ChildSym(t, root, j) == c
    ensures Find(t, Some(root), c) == Some(t[root].children[j])
  {
    var ch := t[root].children;
    assert LinksOk(t, root);
    var p := FindPos(t, ch, c);
    assert t[ch[j]].c == c;
    assert p >= 0 && ChildSym(t, root, p) == t[ch[p]].c;
  }

  /**
   * trie_insert: a NULL root becomes a fresh node; a root that already has
   * a child with symbol c is returned unchanged; otherwise a new child is
   * appended at the end of root's children. A new node (trie_alloc) carries
   * the symbol, id and parent and has no children. Returns the new arena and the
   * root pointer.
   */
  function Insert(t: seq<Node>, root: Option<nat>, c: Byte, id: int): (r: (seq<Node>, Option<nat>))
    requires Valid(t) && Pointer(t, root)
    ensures Valid(r.0) && Pointer(r.0, r.1)
    ensures root.None? ==> r.0 == t + [Node(c, id, None, [])] && r.1 == Some(|t|)
    ensures root.Some? ==> r.1 == root
    ensures Find(t, root, c).Some? ==> r == (t, root)
    ensures root.Some? && Find(t, root, c).None? ==>
      r.0 == t[root.value := t[root.value].(children := t[root.value].children + [|t|])] + [Node(c, id, root, [])]
  {
    if root.None? then
      var t' := t + [Node(c, id, None, [])];
      assert forall k | 0 <= k < |t| :: LinksOk(t, k) ==> LinksOk(t', k);
      assert LinksOk(t', |t|);
      (t', Some(|t|))
    else if Find(t, root, c).Some? then (t, root)
    else
      var p := root.value;
      var t' := t[p := t[p].(children := t[p].children + [|t|])] + [Node(c, id, root, [])];
      assert LinksOk(t, p);
      assert LinksOk(t', p);
      assert LinksOk(t', |t|);
      forall k | 0 <= k < |t'|
        ensures LinksOk(t', k)
      {
        if k < |t| && k != p {
          assert LinksOk(t, k);
        }
      }
      (t', root)
  }

  /** The arena t' keeps every node of t with the same symbol, id and parent; only children lists may grow. */
  predicate Extends(t: seq<Node>, t': seq<Node>)
  {
    |t| <= |t'| && forall k | 0 <= k < |t| :: t'[k].c == t[k].c && t'[k].id == t[k].id && t'[k].parent == t[k].parent
  }

  lemma InsertExtends(t: seq<Node>, root: Option<nat>, c: Byte, id: int)
    requires Valid(t) && Pointer(t, root)
    ensures Extends(t, Insert(t, root, c, id).0)
  {
  }

  /** After inserting c under a node, finding c there succeeds: the existing child, or the new node. */
  lemma FindAfterInsert(t: seq<Node>, root: nat, c: Byte, id: int)
    requires Valid(t) && root < |t|
    ensures var t' := Insert(t, Some(root), c, id).0;
      Find(t', Some(root), c) == if Find(t, Some(root), c).Some? then Find(t, Some(root), c) else Some(|t|)
  {
    if Find(t, Some(root), c).None? {
      var t' := Insert(t, Some(root), c, id).0;
      var ch := t[root].children;
      assert LinksOk(t, root);
      assert LinksOk(t', root);
      FindPosSame(t, t', ch, c);
      FindPosAppend(t', ch, |t|, c);
      assert t'[root].children == ch + [|t|];
    }
  }

  lemma {:induction false} FindPosSame(t: seq<Node>, t': seq<Node>, ch: seq<nat>, c: Byte)
    requires forall j | 0 <= j < |ch| :: ch[j] < |t| && ch[j] < |t'| && t'[ch[j]].c == t[ch[j]].c
    ensures FindPos(t', ch, c) == FindPos(t, ch, c)
  {
    if ch != [] {
      FindPosSame(t, t', ch[1..], c);
    }
  }

  lemma {:induction false} FindPosAppend(t: seq<Node>, ch: seq<nat>, x: nat, c: Byte)
    requires forall j | 0 <= j < |ch| :: ch[j] < |t|
    requires x < |t| && FindPos(t, ch, c) < 0 && t[x].c == c
    ensures FindPos(t, ch + [x], c) == |ch|
  {
    if ch != [] {
      assert (ch + [x])[1..] == ch[1..] + [x];
      FindPosAppend(t, ch[1..], x, c);
    } else {
      assert ch + [x] == [x];
    }
  }

  /** Inserting keeps siblings' symbols distinct. */
  lemma InsertKeepsDistinct(t: seq<Node>, root: Option<nat>, c: Byte, id: int)
    requires Valid(t) && Distinct(t) && Pointer(t, root)
    ensures Distinct(Insert(t, root, c, id).0)
  {
    var t' := Insert(t, root, c, id).0;
    if root.Some? && Find(t, root, c).None? {
      var p := root.value;
      forall k, a, b | 0 <= k < |t'| && 0 <= a < b < |t'[k].children|
        ensures ChildSym(t', k, a) != ChildSym(t', k, b)
      {
        if k == p && b == |t[p].children| {
          assert LinksOk(t, p);
          assert t'[k].children[a] == t[p].children[a];
          assert ChildSym(t', k, a) == ChildSym(t, p, a);
          assert ChildSym(t', k, b) == c;
        } else if k < |t| {
          assert LinksOk(t, k);
          assert t'[k].children[a] == t[k].children[a] && t'[k].children[b] == t[k].children[b];
          assert ChildSym(t', k, a) == ChildSym(t, k, a) && ChildSym(t', k, b) == ChildSym(t, k, b);
        }
      }
    } else if root.None? {
      forall k, a, b | 0 <= k < |t'| && 0 <= a < b < |t'[k].children|
        ensures ChildSym(t', k, a) != ChildSym(t', k, b)
      {
        assert LinksOk(t, k);
        assert ChildSym(t', k, a) == ChildSym(t, k, a) && ChildSym(t', k, b) == ChildSym(t, k, b);
      }
    }
  }

  /** Inserting the same symbol under the same node twice changes nothing the second time. */
  lemma InsertIdempotent(t: seq<Node>, root: nat, c: Byte, id: int, id': int)
    requires Valid(t) && root < |t|
    ensures var r := Insert(t, Some(root), c, id);
      Insert(r.0, r.1, c, id') == r
  {
    FindAfterInsert(t, root, c, id);
  }
}

=== FILE: trie_draft.dfy ===
/**
 * The earlier trie (trie.c): the same sibling-list trie without parent
 * links, whose allocation can fail. `ok` says whether malloc succeeded:
 * a failed allocation of a root yields NULL, and a failed allocation of a
 * child stores NULL into a link that was already NULL, so nothing changes.
 */
module TrieDraft {
  import opened Wrappers
  import opened Bytes
  import Trie

  datatype Node = Node(c: Byte, id: int, children: seq<nat>)

  // The shape predicates and the sibling search below repeat those of
  // module Trie for this node type, which has no parent field; Forget,
  // FindPosForget and FindForget show the two agree.

  predicate LinksOk(t: seq<Node>, k: int)
    requires 0 <= k < |t|
  {
    forall j | 0 <= j < |t[k].children| :: k < t[k].children[j] < |t|
  }

  predicate Valid(t: seq<Node>)
  {
    forall k | 0 <= k < |t| :: LinksOk(t, k)
  }

  function ChildSym(t: seq<Node>, k: int, a: int): Byte
    requires Valid(t) && 0 <= k < |t| && 0 <= a < |t[k].children|
  {
    assert LinksOk(t, k);
    t[t[k].children[a]].c
  }

  /** Siblings carry distinct symbols. */
  predicate Distinct(t: seq<Node>)
    requires Valid(t)
  {
    forall k, a, b | 0 <= k < |t| && 0 <= a < b < |t[k].children| :: ChildSym(t, k, a) != ChildSym(t, k, b)
  }

  /** The position of the first child whose symbol is c, or -1. */
  function FindPos(t: seq<Node>, ch: seq<nat>, c: Byte): (r: int)
    requires forall j | 0 <= j < |ch| :: ch[j] < |t|
    ensures -1 <= r < |ch|
    ensures r >= 0 ==> t[ch[r]].c == c
    ensures forall j | 0 <= j < (if r < 0 then |ch| else r) :: t[ch[j]].c != c
  {
    if ch == [] then -1
    else if t[ch[0]].c == c then 0
    else
      var r := FindPos(t, ch[1..], c);
      if r < 0 then -1 else r + 1
  }

  /** trie_find: the first child of root with symbol c, or NULL. */
  function Find(t: seq<Node>, root: Option<nat>, c: Byte): (r: Option<nat>)
    requires Valid(t) && (root.Some? ==> root.value < |t|)
    ensures r.None? <==> root.None? || forall j | 0 <= j < |t[root.value].children| :: ChildSym(t, root.value, j) != c
    ensures r.Some? ==> root.value < r.value < |t| && r.value in t[root.value].children && t[r.value].c == c
  {
    if root.None? || t[root.value].children == [] then None
    else
      var ch := t[root.value].children;
      assert LinksOk(t, root.value);
      var p := FindPos(t, ch, c);
      assert forall j | 0 <= j < |ch| :: ChildSym(t, root.value, j) == t[ch[j]].c;
      if p < 0 then None else Some(ch[p])
  }

  /**
   * trie_insert: a NULL root becomes a fresh node (or stays NULL when the
   * allocation fails); an existing child symbol changes nothing; otherwise
   * a new child goes at the tail of the children list.
   */
  function Insert(t: seq<Node>, root: Option<nat>, c: Byte, id: int, ok: bool): (r: (seq<Node>, Option<nat>))
    requires Valid(t) && (root.Some? ==> root.value < |t|)
    ensures Valid(r.0) && (r.1.Some? ==> r.1.value < |r.0|)
    ensures root.None? ==> r == if ok then (t + [Node(c, id, [])], Some(|t|)) else (t, None)
    ensures root.Some? ==> r.1 == root
    ensures Find(t, root, c).Some? || !ok ==> r.0 == t
    ensures root.Some? && Find(t, root, c).None? && ok ==>
      r.0 == t[root.value := t[root.value].(children := t[root.value].children + [|t|])] + [Node(c, id, [])]
  {
    if root.None? then
      if ok then
        var t' := t + [Node(c, id, [])];
        assert forall k | 0 <= k < |t| :: LinksOk(t, k) ==> LinksOk(t', k);
        (t', Some(|t|))
      else (t, None)
    else if Find(t, root, c).Some? || !ok then (t, root)
    else
      var p := root.value;
      var t' := t[p := t[p].(children := t[p].children + [|t|])] + [Node(c, id, [])];
      assert LinksOk(t, p);
      forall k | 0 <= k < |t'|
        ensures LinksOk(t', k)
      {
        if k < |t| && k != p {
          assert LinksOk(t, k);
        }
      }
      (t', root)
  }

  /** Inserting keeps siblings' symbols distinct, whatever the allocation does. */
  lemma InsertKeepsDistinct(t: seq<Node>, root: Option<nat>, c: Byte, id: int, ok: bool)
    requires Valid(t) && Distinct(t) && (root.Some? ==> root.value < |t|)
    ensures Distinct(Insert(t, root, c, id, ok).0)
  {
    var t' := Insert(t, root, c, id, ok).0;
    if t' != t {
      forall k, a, b | 0 <= k < |t'| && 0 <= a < b < |t'[k].children|
        ensures ChildSym(t', k, a) != ChildSym(t', k, b)
      {
        if k < |t| {
          assert LinksOk(t, k);
          if root.Some? && k == root.value && b == |t[k].children| {
            assert t'[k].children[a] == t[k].children[a];
            assert ChildSym(t', k, a) == ChildSym(t, k, a);
          } else {
            assert t'[k].children[a] == t[k].children[a] && t'[k].children[b] == t[k].children[b];
            assert ChildSym(t', k, a) == ChildSym(t, k, a) && ChildSym(t', k, b) == ChildSym(t, k, b);
          }
        }
      }
    }
  }

  // ---------------------------------------------------------------------
  // Relation to the trie with parent links
  // ---------------------------------------------------------------------

  /** A trie with parent links seen as the draft's trie: the parent links dropped. */
  function Forget(t: seq<Trie.Node>): (d: seq<Node>)
    ensures |d| == |t|
    ensures forall k | 0 <= k < |t| :: d[k] == Node(t[k].c, t[k].id, t[k].children)
  {
    seq(|t|, (k: int) requires 0 <= k < |t| => Node(t[k].c, t[k].id, t[k].children))
  }

  lemma ForgetValid(t: seq<Trie.Node>)
    requires Trie.Valid(t)
    ensures Valid(Forget(t))
  {
    forall k | 0 <= k < |t|
      ensures LinksOk(Forget(t), k)
    {
      assert Trie.LinksOk(t, k);
    }
  }

  lemma {:induction false} FindPosForget(t: seq<Trie.Node>, ch: seq<nat>, c: Byte)
    requires forall j | 0 <= j < |ch| :: ch[j] < |t|
    ensures FindPos(Forget(t), ch, c) == Trie.FindPos(t, ch, c)
  {
    if ch != [] {
      FindPosForget(t, ch[1..], c);
    }
  }

  /** The draft's find answers as the trie with parent links does. */
  lemma FindForget(t: seq<Trie.Node>, root: Option<nat>, c: Byte)
    requires Trie.Valid(t) && Trie.Pointer(t, root)
    ensures Valid(Forget(t))
    ensures Find(Forget(t), root, c) == Trie.Find(t, root, c)
  {
    ForgetValid(t);
    if root.Some? {
      assert Trie.LinksOk(t, root.value);
      FindPosForget(t, t[root.value].children, c);
    }
  }

  /** With a successful allocation the draft's insert builds the same trie, parent links aside. */
  lemma InsertForget(t: seq<Trie.Node>, root: Option<nat>, c: Byte, id: int)
    requires Trie.Valid(t) && Trie.Pointer(t, root)
    ensures Valid(Forget(t))
    ensures var r := Trie.Insert(t, root, c, id);
      Insert(Forget(t), root, c, id, true) == (Forget(r.0), r.1)
  {
    FindForget(t, root, c);
    var r := Trie.Insert(t, root, c, id);
    var d := Insert(Forget(t), root, c, id, true);
    assert d.0 == Forget(r.0);
  }
}

=== FILE: wrappers.dfy ===
/** Failure-carrying results shared by every model in this project. */
module Wrappers {

  /** A value that may be absent; `None` stands for the C NULL pointer. */
  datatype Option<+T> = None | Some(value: T)

  /** The outcome of an operation that can fail with an error of type E. */
  datatype Result<+T, +E> = Success(value: T) | Failure(error: E) {
    predicate IsFailure() {
      Failure?
    }

    function PropagateFailure<U>(): Result<U, E>
      requires Failure?
    {
      Failure(this.error)
    }

    function Extract(): T
      requires Success?
    {
      value
    }
  }
}
